=== FILE: README.md ===
# pic-notes in Dafny

pic-notes is a command-line tool for a folder of screenshots. It renames each
screenshot after its timestamp and keeps a metadata store of tags and
descriptions, keyed by a short id derived from that timestamp. A small tag
language searches and modifies the store, and a `combine` command lays PNG
images side by side or one above another. This project models the core of the
tool as pure Dafny functions and proves what the code promises about them.

The project models:

- The **tag language**:
  - its lexical pieces (`tagParser.ts`);
  - the search grammar, shared by `parser.ts` and `searchParser.ts`;
  - the modification grammar (`modificationParser.ts`).
  Each grammar is a PEG over a string position: ordered choice, greedy
  anchored regular expressions, and `tryParse` requiring the end of input.
  Each is paired with a printer, and the main theorems are round trips: the
  parse of a printed tree is that tree. The test files' cases are proved as
  instances.
- The **stores**: both metadata managers keep a map from id to document, and
  select-all reads the ids the documents carry. The two agree when every
  document is filed under its own id.
- The **search nodes**: select-all, has-any-tag-value, intersection, union,
  difference and the description filter. They compute sets of document ids
  from a store of multi-valued documents.
- The **modification nodes**: the nine operations' `apply` on one document.
  Running a list of them in order is a composition of the model's own.
- The **older single-valued store** and `search` command (`metadataManager.ts`,
  `search.ts`):
  - the `name` / `name:value` serialization of tags;
  - building the store from the pictures (`init`);
  - the JSON form of one tag;
  - `addTags` and `removeTags`;
  - the query evaluation of `runQuery`, with its final lookup of each computed id, and the plain tag search.
- **Pictures and timestamps** (`picture.ts`, `timestamp.ts`):
  - the two accepted file-name forms;
  - the formatted name;
  - the id hash.
- The **argument parsers**: the current `categorizeArgs` and
  `parseCategorizedArgs`, and the older `parseArgs.ts`.
- The **PNG codec** of `combine.ts`:
  - 32-bit big-endian fields;
  - chunks with their CRC;
  - the image header;
  - the Paeth predictor and filter reconstruction;
  - the scanline layout;
  - encoding and decoding a whole image;
  - the horizontal and vertical layouts.

The CRC, zlib's inflate and deflate, `getIds` and `Number.parseInt` are
function-valued parameters. Only the properties the model relies on are
stated about them, as preconditions where a theorem needs them.

## Model

| member | source | states |
|---|---|---|
| TagLexer.Kebab | src/tag-language/parser.ts:20 | A match of `KEBAB` at a position consumes at least one character and stays within the text; `KebabSound` and `KebabComplete` state which span it is |
| TagLexer.KebabAcceptsExactly | src/tag-language/tagParser.ts:27-29 | `tagName` accepts a whole input exactly when it is a kebab word: word-character runs joined by single hyphens |
| TagLexer.WordAcceptsExactly | src/tag-language/tagParser.ts:109-111 | `tagName.tryParse(w)` gives `w` exactly when `w` is a kebab word, and fails otherwise |
| TagLexer.KebabSound | src/tag-language/tagParser.ts:27-29 | What the kebab regex consumes is a kebab span that cannot be extended |
| TagLexer.KebabComplete | src/tag-language/tagParser.ts:27-29 | A kebab span that cannot be extended is matched in full |
| TagLexer.ListPrimeJoin | src/tag-language/tagParser.ts:95-108 | `tagValueListExpressionPrime` reads the values after the first back in order, each behind a non-empty whitespace gap |
| TagLexer.ListExpressionJoin | src/tag-language/tagParser.ts:53-94 | `tagValueListExpression` reads whitespace-joined kebab values back in order |
| TagLexer.UnitTextRoundTrip | src/tag-language/tagParser.ts:30-52 | A printed value unit is read back by `tagValueUnit` as its values: a bare word gives a one-element list, and a bracketed list gives its values |
| TagLexer.BareUnitParses | src/tag-language/tagParser.ts:30-38 | `tagValueUnit.tryParse` of a bare kebab word gives the one-element list |
| TagLexer.ListUnitParses | src/tag-language/tagParser.ts:39-52 | `tagValueUnit.tryParse` of `[` values `]` gives the values in order; whitespace inside the brackets is optional at the ends and required between values |
| TagLexer.SecondaryIndexKeyRoundTrip | src/tag-language/tagParser.ts:17-26 | `secondaryIndexKey` reads `name:value` back as that text, as a whole input |
| TagLexer.TagNameCase | src/tag-language/tagParser.test.ts:5-13 | `tagName.tryParse("a")` is `"a"` |
| TagLexer.SingleValueCase | src/tag-language/tagParser.test.ts:15-23 | `tagValueUnit.tryParse("a")` is `["a"]` |
| TagLexer.EmptyListCase | src/tag-language/tagParser.test.ts:25-33 | `tagValueUnit.tryParse("[]")` is the empty list |
| TagLexer.ValueListCase | src/tag-language/tagParser.test.ts:35-43 | `tagValueUnit.tryParse("[a b c]")` is `a`, `b`, `c` in order |
| TagLexer.SecondaryIndexKeyCase | src/tag-language/tagParser.test.ts:45-53 | `secondaryIndexKey.tryParse("a:b")` is `"a:b"` |
| Text.SplitJoin | src/commands/metadataManager.ts:28-33 | Joining the pieces of `split(c)` with `c` gives back the string |
| Text.SplitPieces | src/commands/metadataManager.ts:28-33 | The pieces of `split(c)` hold no `c` |
| Text.SkipWsRun | src/tag-language/tagParser.ts:100 | Everything optional whitespace passes over is whitespace |
| SearchGrammar.Sub1Prime | src/tag-language/searchParser.ts:151-184 | `subexpression1Prime` never fails and never moves backwards; when it builds no chain it consumes nothing |
| SearchGrammar.Sub2Prime | src/tag-language/searchParser.ts:205-234 | `subexpression2Prime` never fails and never moves backwards; when it builds no chain it consumes nothing |
| SearchGrammar.Unit | src/tag-language/searchParser.ts:260-315 | A unit that matches consumes at least one character and stays within the text |
| SearchPrinting.CombineFold | src/tag-language/searchParser.ts:76-97 | `associateLeft` folds the chain the primed rules build into the left-nested tree |
| SearchPrinting.SumSpineTree | src/tag-language/searchParser.ts:76-97 | A `+`/`-` tree is the left fold of its spine head and its steps |
| SearchPrinting.MeetSpineTree | src/tag-language/searchParser.ts:76-97 | A `^` tree is the left fold of its spine head and its steps |
| SearchPrinting.Read1 | src/tag-language/searchParser.ts:131-150 | `subexpression1` reads back a tree printed at the lowest precedence, ending exactly after its text |
| SearchPrinting.Read2 | src/tag-language/searchParser.ts:185-204 | `subexpression2` reads back a tree printed at the `^` level |
| SearchPrinting.Read3 | src/tag-language/searchParser.ts:235-252 | `subexpression3` reads back a parenthesised tree or a unit |
| SearchPrinting.ReadParen | src/tag-language/searchParser.ts:235-252 | Parentheses with optional whitespace inside them are read back as the inner tree, with no node added |
| SearchPrinting.ReadLeaf | src/tag-language/searchParser.ts:260-309 | `unit` reads `*`, `name:value` and a bare name back as the matching leaf; `name:value` is never a tag followed by leftover text |
| SearchPrinting.ReadChain1 | src/tag-language/searchParser.ts:151-184 | `subexpression1Prime` reads the steps of a `+`/`-` chain back in order |
| SearchPrinting.ReadChain2 | src/tag-language/searchParser.ts:205-234 | `subexpression2Prime` reads the steps of a `^` chain back in order |
| SearchProperties.SearchRoundTrip | src/tag-language/searchParser.ts:117-130 | Both parsers read any printed tree back as itself, with whitespace chosen separately before and after each operator, inside each pair of parentheses and around the whole text; a `-` needs whitespace on at least one side when a word follows it. The source's debug depth guard is not modelled (see Left out) |
| SearchProperties.PrintedParses | src/tag-language/parser.ts:434-436 | `parse` and `parseSearch` agree and give back every printed tree, whatever whitespace each operator and parenthesis carries; the debug depth guard is not modelled (see Left out) |
| SearchProperties.ParensAddNoNode | src/tag-language/searchParser.ts:235-252 | Parentheses around a whole printed expression, with whitespace inside them, change nothing in the result; the debug depth guard is not modelled (see Left out) |
| SearchProperties.UnitForms | src/tag-language/searchParser.test.ts:9-37 | `*` is select-all; a word is a tag; `word:word` is a tag with a value, for every kebab word |
| SearchProperties.LeftAssociative | src/tag-language/searchParser.test.ts:62-134 | A chain of two steps of one operator associates to the left, for any words and with whitespace chosen separately on each side of each operator; a `-` needs whitespace on at least one side |
| SearchProperties.OneSidedDifference | src/tag-language/searchParser.ts:151-184 | `a -b - c` and `a- b -c` are both `(a - b) - c`: whitespace on one side of `-` is enough to keep it out of the word |
| SearchProperties.ParenthesisedTag | src/tag-language/searchParser.test.ts:39-47 | `(a)` is the tag `a` |
| SearchProperties.HyphenInsideWord | src/tag-language/searchParser.ts:310-312 | `a-b` is one tag name; `a - b` is a difference |
| SearchProperties.IntersectionChain | src/tag-language/searchParser.test.ts:49-76 | `a ^ b ^ c` is `(a ^ b) ^ c` |
| SearchProperties.UnionChain | src/tag-language/searchParser.test.ts:78-105 | `a + b + c` is `(a + b) + c` |
| SearchProperties.DifferenceChain | src/tag-language/searchParser.test.ts:107-134 | `a - b - c` is `(a - b) - c` |
| SearchProperties.IntersectionBeforeSum | src/tag-language/searchParser.test.ts:136-172 | In `a ^ b + c - d` and `a ^ b - c + d`, `a ^ b` is formed first |
| SearchProperties.IntersectionInsideSum | src/tag-language/searchParser.test.ts:174-211 | In `a + b ^ c - d` and `a - b ^ c + d`, `b ^ c` is formed first |
| SearchProperties.IntersectionAfterSum | src/tag-language/searchParser.test.ts:193-250 | In `a + b - c ^ d` and `a - b + c ^ d`, `c ^ d` is the right operand of the last step |
| SearchProperties.ParenthesesOverride | src/tag-language/searchParser.test.ts:252-270 | `(a - b) ^ (c + d)` is the intersection of the two parenthesised sums |
| SearchProperties.NestedParentheses | src/tag-language/searchParser.test.ts:272-289 | `(a + (b - c) + d)` is `(a + (b - c)) + d` |
| Stores.StoredIds | src/tag-language/nodes/search-nodes/lookup-operations/selectAllOperationNode.ts:10-16 | The ids the stored documents carry are exactly the store's keys when every document is filed under its own id; an empty store has none |
| SearchNodes.SelectAllKeys | src/tag-language/nodes/search-nodes/lookup-operations/selectAllOperationNode.ts:10-16 | Select-all never fails, and in a well-keyed store it yields exactly the stored keys |
| SearchNodes.MatchingIdsExact | src/tag-language/nodes/search-nodes/lookup-operations/hasAnyTagValueOperationNode.ts:18-32 | The ids kept are exactly those of the candidate documents whose tag holds a listed value |
| SearchNodes.HasAnyTagValueExact | src/tag-language/nodes/search-nodes/lookup-operations/hasAnyTagValueOperationNode.ts:18-32 | The lookup succeeds exactly when every candidate is stored and carries the tag; it then returns the ids of the candidates holding a listed value |
| SearchNodes.HasAnyTagValueSound | src/tag-language/nodes/search-nodes/lookup-operations/hasAnyTagValueOperationNode.ts:18-32 | Every returned document carries the tag with a listed value, and in a well-keyed store every returned id is a candidate |
| SearchNodes.NonCandidateNotReturned | src/tag-language/nodes/search-nodes/lookup-operations/hasAnyTagValueOperationNode.ts:18-32 | A document that holds a listed value but is not a candidate is not returned |
| SearchNodes.NoValuesNoMatch | src/tag-language/nodes/search-nodes/lookup-operations/hasAnyTagValueOperationNode.ts:18-32 | With no values listed nothing matches |
| SearchNodes.UntaggedCandidateFails | src/tag-language/nodes/search-nodes/lookup-operations/hasAnyTagValueOperationNode.ts:24-27 | A stored candidate without the tag makes the lookup fail rather than be skipped |
| SearchNodes.SelectAllIgnoresContent | src/tag-language/nodes/search-nodes/lookup-operations/selectAllOperationNode.ts:10-16 | Select-all depends only on which ids are stored |
| SearchNodes.IntersectionMembership | src/tag-language/nodes/search-nodes/set-operations/intersectionOperationNode.ts:14-19 | The intersection succeeds iff both sides do, and keeps an id iff it is on both sides |
| SearchNodes.UnionMembership | src/tag-language/nodes/search-nodes/set-operations/unionOperationNode.ts:17-22 | The union succeeds iff both sides do, and keeps an id iff it is on either side |
| SearchNodes.DifferenceMembership | src/tag-language/nodes/search-nodes/set-operations/differenceOperationNode.ts:21-35 | A difference with an operation on the right keeps the left ids that are not on the right |
| SearchNodes.DifferenceFilterMembership | src/tag-language/nodes/search-nodes/set-operations/differenceOperationNode.ts:21-35 | A difference with a filter on the right keeps the left ids whose document fails the filter |
| SearchNodes.DifferenceWithinLeft | src/tag-language/nodes/search-nodes/set-operations/differenceOperationNode.ts:21-35 | Either kind of difference is contained in its left side |
| SearchNodes.SetOperationsCommute | src/tag-language/nodes/search-nodes/set-operations/unionOperationNode.ts:17-22 | Intersection and union give the same set with their sides swapped |
| SearchNodes.SetOperationsOnItself | src/tag-language/nodes/search-nodes/set-operations/intersectionOperationNode.ts:14-19 | `X ^ X` and `X + X` are `X`, and `X - X` is empty |
| SearchNodes.FiltersComplementary | src/tag-language/nodes/search-nodes/filters/filterByDescriptionNode.ts:10-12 | The description filters with flag true and flag false hold on complementary documents |
| SearchNodes.FilterReadsOnlyDescription | src/tag-language/nodes/search-nodes/filters/filterByDescriptionNode.ts:10-12 | The filter depends only on whether a document has a description |
| ModificationGrammar.RenameRule | src/tag-language/modificationParser.ts:140-152 | A match is a rename and consumes at least one character |
| ModificationGrammar.SoftSetRule | src/tag-language/modificationParser.ts:153-164 | A match is a soft-set and consumes at least one character |
| ModificationGrammar.RemoveTagRule | src/tag-language/modificationParser.ts:130-139 | A match is a remove-tag and consumes at least one character |
| ModificationGrammar.AddTagRule | src/tag-language/modificationParser.ts:125-129 | A match is an add-tag and consumes at least one character |
| ModificationGrammar.OperationRule | src/tag-language/modificationParser.ts:113-124 | An operation is never a description, and it ends after what it consumed |
| ModificationGrammar.ExpressionRule | src/tag-language/modificationParser.ts:96-112 | An expression consumes something and reads one or more operations, none of them a description |
| ModificationGrammar.DescriptionRule | src/tag-language/modificationParser.ts:204-229 | `#` takes the rest of the input verbatim as the description, and `-#` ignores it; either ends the input |
| ModificationGrammar.ParseModification | src/tag-language/modificationParser.ts:54-95 | Only the last operation of a parsed modification can be a description |
| ModificationProperties.ModificationRoundTrip | src/tag-language/modificationParser.ts:54-95 | Printed operations with an optional description at the end parse back as those operations, in order; each operation has its own whitespace before and after `>>` and its own non-empty gap to the next, the description may follow with no gap, and trailing whitespace is allowed |
| ModificationProperties.ReadOperation | src/tag-language/modificationParser.ts:113-203 | Each printed operation is read by its own rule, and no earlier alternative applies |
| ModificationProperties.AddDescriptionVerbatim | src/tag-language/modificationParser.ts:211-220 | `#` followed by any text is an add-description holding exactly that text |
| ModificationProperties.RemoveDescriptionIgnoresRest | src/tag-language/modificationParser.ts:221-229 | `-#` followed by any text is a remove-description |
| ModificationProperties.LeadingWhitespaceRejected | src/tag-language/modificationParser.ts:54-95 | Whitespace and then an operation is a parse error |
| ModificationProperties.AdjacentTextRejected | src/tag-language/modificationParser.ts:96-112 | A word character right after an operation, with no whitespace between, is a parse error |
| ModificationProperties.BracketedSoftSet | src/tag-language/modificationParser.ts:153-164 | `a:[b]` is read as a soft-set, whatever follows it |
| ModificationProperties.AdjacentOperationsCase | src/tag-language/modificationParser.ts:96-112 | `a:[b]c` is rejected; `a:[b] c` is a soft-set then an add-tag |
| ModificationProperties.EmptyCase | src/tag-language/modificationParser.test.ts:13-21 | Whitespace alone is the empty modification |
| ModificationProperties.AddTagCase | src/tag-language/modificationParser.test.ts:23-31 | `a` is an add-tag |
| ModificationProperties.RemoveTagCase | src/tag-language/modificationParser.test.ts:33-41 | `-a` is a remove-tag |
| ModificationProperties.SoftSetCase | src/tag-language/modificationParser.test.ts:43-51 | `a:b` is a soft-set |
| ModificationProperties.HardSetCase | src/tag-language/modificationParser.test.ts:53-61 | `a:=b` is a hard-set |
| ModificationProperties.AddValueCase | src/tag-language/modificationParser.test.ts:63-71 | `a:+b` is an add-value |
| ModificationProperties.RemoveValueCase | src/tag-language/modificationParser.test.ts:73-81 | `a:-b` is a remove-value |
| ModificationProperties.SpacedRenameCase | src/tag-language/modificationParser.ts:140-152 | `a >> b` is a rename |
| ModificationProperties.TightRenameCase | src/tag-language/modificationParser.ts:140-152 | `a>>b` is a rename |
| ModificationProperties.AddDescriptionCase | src/tag-language/modificationParser.test.ts:83-91 | `#abc` is an add-description holding `abc` |
| ModificationProperties.RemoveDescriptionCase | src/tag-language/modificationParser.test.ts:93-101 | `-#` is a remove-description |
| ModificationProperties.MultipleOperationsCase | src/tag-language/modificationParser.test.ts:103-118 | Several operations keep their order, and the description comes last |
| ModificationProperties.UnevenSpacingCase | src/tag-language/modificationParser.ts:54-95 | `a >>b  c:d#x` is a rename, a soft-set and an add-description: uneven whitespace around `>>`, a two-space gap and a description with no gap |
| ModificationProperties.DescriptionLast | src/tag-language/modificationParser.ts:83-91 | The description is appended after the operations of the expression |
| ModificationNodes.ApplyAddTag | src/tag-language/nodes/modification-nodes/addTagOperationNode.ts:10-17 | After add-tag the tag exists; an existing tag leaves the document unchanged, a new tag has no values, and nothing else changes |
| ModificationNodes.ApplyRemoveTag | src/tag-language/nodes/modification-nodes/removeTagOperationNode.ts:10-12 | After remove-tag the tag is absent, and nothing else changes |
| ModificationNodes.ApplyRenameTag | src/tag-language/nodes/modification-nodes/renameTagOperationNode.ts:13-20 | Rename moves the old tag's values to the new name and removes the old name; a missing old tag changes nothing |
| ModificationNodes.ApplySoftSet | src/tag-language/nodes/modification-nodes/softSetValueOperationNode.ts:13-31 | Soft-set fails exactly when the tag holds two or more values other than the new ones, with the source's message; otherwise the tag holds exactly the new values and nothing else changes |
| ModificationNodes.ApplyHardSet | src/tag-language/nodes/modification-nodes/hardSetValueOperationNode.ts:12-15 | Hard-set leaves the tag holding exactly the new values, and nothing else changes |
| ModificationNodes.ApplyAddValue | src/tag-language/nodes/modification-nodes/addValueOperationNode.ts:18-28 | The tag then holds its old values and the new ones, and nothing else changes |
| ModificationNodes.ApplyRemoveValue | src/tag-language/nodes/modification-nodes/removeValueOperationNode.ts:13-22 | The tag then holds its old values without the listed ones, and a missing tag stays missing |
| ModificationNodes.ApplyAddDescription | src/tag-language/nodes/modification-nodes/addDescriptionOperationNode.ts:10-12 | The description becomes the text, and the tags do not change |
| ModificationNodes.ApplyRemoveDescription | src/tag-language/nodes/modification-nodes/removeDescriptionOperationNode.ts:10-12 | The description is gone, and the tags do not change |
| ModificationNodes.Apply | src/tag-language/nodes/modification-nodes/modificationOperationNode.ts:8 | Only a soft-set can fail, and every operation keeps the document's id |
| ModificationNodes.AddTagIdempotent | src/tag-language/nodes/modification-nodes/addTagOperationNode.ts:10-17 | Adding a tag twice is adding it once |
| ModificationNodes.RemoveTagIdempotent | src/tag-language/nodes/modification-nodes/removeTagOperationNode.ts:10-12 | Removing a tag twice is removing it once |
| ModificationNodes.SoftSetIdempotent | src/tag-language/nodes/modification-nodes/softSetValueOperationNode.ts:13-31 | A successful soft-set repeated changes nothing more |
| ModificationNodes.HardSetIdempotent | src/tag-language/nodes/modification-nodes/hardSetValueOperationNode.ts:12-15 | Hard-setting twice is hard-setting once |
| ModificationNodes.HardSetWhereSoftSetFails | src/tag-language/nodes/modification-nodes/softSetValueOperationNode.ts:23-27 | Where soft-set refuses, the tag held two or more other values, and hard-set overwrites them |
| ModificationNodes.SoftSetAgreesWithHardSet | src/tag-language/nodes/modification-nodes/softSetValueOperationNode.ts:19-30 | A successful soft-set gives the same document as hard-set |
| ModificationNodes.AddValueIdempotent | src/tag-language/nodes/modification-nodes/addValueOperationNode.ts:18-28 | Adding the same values twice is adding them once |
| ModificationNodes.AddNoValues | src/tag-language/nodes/modification-nodes/addValueOperationNode.ts:18-28 | Adding no values to an existing tag changes nothing |
| ModificationNodes.RemoveValueIdempotent | src/tag-language/nodes/modification-nodes/removeValueOperationNode.ts:13-22 | Removing the same values twice is removing them once |
| ModificationNodes.RemoveAbsentValues | src/tag-language/nodes/modification-nodes/removeValueOperationNode.ts:13-22 | Removing values the tag does not hold changes nothing |
| ModificationNodes.RemoveEveryValue | src/tag-language/nodes/modification-nodes/removeValueOperationNode.ts:13-22 | Removing every value keeps the tag, now with no values |
| ModificationNodes.AddDescriptionIdempotent | src/tag-language/nodes/modification-nodes/addDescriptionOperationNode.ts:10-12 | Adding a description twice is adding it once |
| ModificationNodes.LastDescriptionWins | src/tag-language/nodes/modification-nodes/addDescriptionOperationNode.ts:10-12 | Of two descriptions added in turn, the second remains |
| ModificationNodes.RemoveDescriptionIdempotent | src/tag-language/nodes/modification-nodes/removeDescriptionOperationNode.ts:10-12 | Removing the description twice is removing it once |
| ModificationNodes.AddThenRemoveDescription | src/tag-language/nodes/modification-nodes/removeDescriptionOperationNode.ts:10-12 | Adding and then removing a description leaves none |
| ModificationNodes.RenameToSelf | src/tag-language/nodes/modification-nodes/renameTagOperationNode.ts:13-20 | Renaming a tag to its own name changes nothing |
| ModificationNodes.RenameThereAndBack | src/tag-language/nodes/modification-nodes/renameTagOperationNode.ts:13-20 | Renaming there and back restores a document in which the new name was free |
| LegacyMetadata.FromSerializedFails | src/commands/metadataManager.ts:28-33 | `fromSerialized` fails exactly when the text holds two or more `:` |
| LegacyMetadata.FromSerializedForms | src/commands/metadataManager.ts:28-33 | `name` reads as a tag without a value, and `name:value` as a tag with one |
| LegacyMetadata.SerializedRoundTrip | src/commands/metadataManager.ts:28-44 | A tag whose name and value hold no `:` survives serializing and reading back |
| LegacyMetadata.ReadThenSerialize | src/commands/metadataManager.ts:28-44 | Whatever `fromSerialized` accepts serializes back to the same text |
| LegacyMetadata.HasTagCases | src/commands/metadataManager.ts:63-70 | A query without a value matches any tag of that name; one with a value needs the same value |
| LegacyMetadata.InitMetaById | src/commands/metadataManager.ts:123-132 | The documents are keyed by exactly the pictures' ids |
| LegacyMetadata.InitIdByFileName | src/commands/metadataManager.ts:134-143 | Exactly the pictures' file names get an id, and an id already stored for a file name is kept |
| LegacyMetadata.InitKeepsTags | src/commands/metadataManager.ts:123-132 | After `init`, each picture's document has its id and the tags stored for it before, or none |
| LegacyMetadata.InitIndexExact | src/commands/metadataManager.ts:145-162 | The index the loop builds when it completes files an id under a name exactly when a picture has that id and its document carries the name |
| LegacyMetadata.BuildIndex | src/commands/metadataManager.ts:145-162 | Filling the index object throws exactly when a pictured document carries a tag name the object inherits from `Object.prototype`; otherwise it gives the index of InitIndexExact |
| LegacyMetadata.InitFails | src/commands/metadataManager.ts:119-172 | `init` fails exactly when a picture's file name, absent from the stored map, or one of its stored tag names is an inherited `Object.prototype` property name such as `constructor`, `toString` or `__proto__`, with the error of `assertIsString` or of `guaranteedIdSet.add` |
| LegacyMetadata.InitIndexIff | src/commands/metadataManager.ts:119-172 | When `init` succeeds, an id is filed under a tag name iff a picture has that id and its stored tags carry the name |
| LegacyMetadata.InitInheritedTagName | src/commands/metadataManager.ts:158-160 | A picture whose stored tags carry `constructor` makes `init` fail with the TypeError of `guaranteedIdSet.add` |
| LegacyMetadata.TagJsonRoundTrip | src/commands/metadataManager.ts:204-245 | Encoding a tag as JSON and decoding it gives the tag back |
| LegacyMetadata.TagJsonNormalises | src/commands/metadataManager.ts:204-245 | Decoding then encoding gives the JSON back, except that a one-element array becomes a bare name |
| LegacyMetadata.TagSetRoundTrip | src/commands/metadataManager.ts:195-245 | A written tag list reads back as the map of those tags by name, a later tag replacing an earlier one |
| LegacyMetadata.MetaById | src/commands/metadataManager.ts:288-294 | The lookup fails exactly when the id is unknown, and otherwise gives the stored document |
| LegacyMetadata.AddTagsEffect | src/commands/metadataManager.ts:268-276 | `addTags` changes one document only: each name holds its last listed tag or what it held; the index is unchanged |
| LegacyMetadata.RemoveTagsEffect | src/commands/metadataManager.ts:278-286 | `removeTags` deletes exactly the listed names from one document, ignoring absent ones; the index is unchanged |
| LegacyMetadata.SetTagsEffect | src/commands/metadataManager.ts:268-276 | After setting tags, a name holds the last listed tag of that name, or what it held before |
| LegacyMetadata.DeleteTagsEffect | src/commands/metadataManager.ts:278-286 | After deleting names, exactly the other names remain, holding what they held |
| LegacySearch.Compute | src/commands/subcommands/search.ts:27-75 | A query fails only with the missing-document message |
| LegacySearch.SelectAllExact | src/commands/subcommands/search.ts:28-36 | `*` yields the ids of all stored documents |
| LegacySearch.TagQueryExact | src/commands/subcommands/search.ts:38-51 | A tag query fails exactly when a candidate has no document; otherwise it yields the candidates' ids whose documents carry the tag |
| LegacySearch.TagQueryWithinCandidates | src/commands/subcommands/search.ts:38-51 | When documents are filed under their own ids, a tag query's result lies within the candidates |
| LegacySearch.SetOperationsMembership | src/commands/subcommands/search.ts:57-70 | Intersection, union and difference succeed iff both operands do, with the usual set membership |
| LegacySearch.ParseTagsExact | src/commands/subcommands/search.ts:111-117 | The tag lists parse iff every entry does, and then give each entry's tag in order |
| LegacySearch.RunRejectsBadTag | src/commands/subcommands/search.ts:111-117 | A search or ignore entry with two or more `:` makes the command fail |
| LegacySearch.RunExact | src/commands/subcommands/search.ts:87-145 | After a successful run every entry parsed, and a document is returned iff it is stored under a candidate id of some search tag, carries every search tag and carries no ignored tag |
| LegacySearch.ComputeStored | src/commands/subcommands/search.ts:27-75 | When documents are filed under their own ids, every id a query computes is a stored key |
| LegacySearch.RunQueryExact | src/commands/subcommands/search.ts:77-82 | When documents are filed under their own ids, the final lookup never throws: the query fails iff `compute` does, and yields exactly the stored documents whose ids it computed |
| LegacySearch.RunWithoutSearchTags | src/commands/subcommands/search.ts:119-124 | With no search tags nothing is returned |
| Timestamps.FromMonthKeepsFields | src/commands/timestamp.ts:9-25 | `fromMonth` keeps the given fields and prints the clock's year; with two-digit fields and a four-digit year the result is well formed |
| Timestamps.HashLayout | src/commands/timestamp.ts:90-102 | Where each field of a well-formed timestamp sits in its 16-character hash |
| Timestamps.HashInjective | src/commands/timestamp.ts:90-102 | Two well-formed timestamps share a hash exactly when they differ at most in the century of the year |
| Timestamps.HashIgnoresCentury | src/commands/timestamp.ts:90-102 | A longer year with the same last two characters gives the same hash |
| Timestamps.FormattedLayout | src/commands/timestamp.ts:86-88 | Where each field of a well-formed timestamp sits in its 19-character formatted stem |
| Timestamps.FormattedInjective | src/commands/timestamp.ts:86-88 | Well-formed timestamps with the same formatted stem are equal |
| Pictures.MatchInput | src/commands/picture.ts:15-16 | A match of the input pattern is a well-formed timestamp |
| Pictures.MatchTransformed | src/commands/picture.ts:17-18 | A match of the transformed pattern is a well-formed timestamp |
| Pictures.NewPicture | src/commands/picture.ts:20-45 | A constructed picture keeps its file name and path |
| Pictures.InputRoundTrip | src/commands/picture.ts:15-16 | A screenshot name reads back as its timestamp, and only such names match the input form |
| Pictures.TransformedRoundTrip | src/commands/picture.ts:17-18 | A transformed name reads back as its timestamp, and only such names match the transformed form |
| Pictures.AcceptedNames | src/commands/picture.ts:20-45 | A name is accepted exactly when it is the screenshot or transformed name of a well-formed timestamp; otherwise the error carries the name |
| Pictures.BothFormsShareId | src/commands/picture.ts:20-45 | Both names of one moment give its timestamp and the same id, its hash |
| Pictures.TransformedNameMatches | src/commands/picture.ts:47-50 | A picture's transformed name matches the transformed form and reads back as its timestamp |
| Pictures.IsTransformedByForm | src/commands/picture.ts:52-54 | A picture from a transformed name is transformed, and one from a screenshot name is not |
| ArgCategories.StripHyphens | src/parse-args/categorizeArgs.ts:36 | One leading hyphen is removed, or two when there are two |
| ArgCategories.NextOption | src/parse-args/categorizeArgs.ts:31 | The next option token at or after a position, or the end; nothing between is an option token |
| ArgCategories.IndicesExact | src/parse-args/categorizeArgs.ts:24-28 | The indices are exactly the positions of the option tokens, in strictly increasing order |
| ArgCategories.CategorizeExact | src/parse-args/categorizeArgs.ts:19-43 | The positionals come before the first option token; each option is named by its token without hyphens and holds the arguments up to the next token |
| ArgCategories.CategorizeCovers | src/parse-args/categorizeArgs.ts:19-43 | Every argument is a positional, an option token or a variable of exactly one option |
| ArgCategories.ConfigMap | src/parse-args/categorizeArgs.ts:16 | The configuration map holds exactly the configured names |
| ArgCategories.ConfigMapLastWins | src/parse-args/categorizeArgs.ts:16 | A name maps to the type of its last configuration |
| ArgCategories.BooleanVariablesAppended | src/parse-args/categorizeArgs.ts:45-55 | The positionals are the leading ones, then exactly the variables of the `Boolean` options |
| ArgParsing.ParsePositionals | src/parse-args/parseCategorizedArgs.ts:30-50 | A successful parse gives one value per configured positional |
| ArgParsing.PositionalsExact | src/parse-args/parseCategorizedArgs.ts:30-50 | The positionals parse iff every required one is present and every present number parses; each is then missing, its text or its number |
| ArgParsing.MissingRequiredPositional | src/parse-args/parseCategorizedArgs.ts:34-36 | A required positional past the end makes the parse fail |
| ArgParsing.LastVariables | src/parse-args/parseCategorizedArgs.ts:56-63 | The map lookup gives the variables of the last option with that name, and nothing when none has it |
| ArgParsing.ParseOptionsOk | src/parse-args/parseCategorizedArgs.ts:65-119 | The options parse exactly when every configured option does |
| ArgParsing.ExtraPositionals | src/parse-args/parseCategorizedArgs.ts:52-54 | Positionals beyond the configured ones are passed through as text, after them |
| ArgParsing.OptionsExact | src/parse-args/parseCategorizedArgs.ts:65-134 | `Boolean` is whether the option appeared; `StringList` is its variables or empty; absent `String`/`Number` options have no entry, present ones their single variable; unconfigured names have no entry |
| ArgParsing.ParseOptionsKeepsBase | src/parse-args/parseCategorizedArgs.ts:121-134 | A name for which no configured option yields an entry keeps its default after a successful parse |
| ArgParsing.AbsentListIsEmpty | src/parse-args/parseCategorizedArgs.ts:121-125 | A `StringList` option that was not given is the empty list after a successful parse, for any configuration in which no option of another type shares its name |
| ArgParsing.OptionNeedsOneVariable | src/parse-args/parseCategorizedArgs.ts:93-97 | A `String` or `Number` option with other than one variable makes the parse fail |
| LegacyArgs.FirstTooMany | src/parseArgs.ts:55-57 | Finds an option with more than one variable exactly when there is one |
| LegacyArgs.LegacyCategorize | src/parseArgs.ts:34-69 | The older categorisation fails exactly when an option has two or more variables, naming the first such option; otherwise it is the current categorisation without scattered positionals |
| LegacyArgs.ConfiguredPositionalsOnly | src/parseArgs.ts:175-195 | With positionals configured as `String` or `Number`: exactly the configured positionals are returned, each missing, its text or its number |
| LegacyArgs.LegacyOptionsExact | src/parseArgs.ts:206-256 | With options configured as `Boolean`, `String` or `Number` only: every configured non-`Boolean` option was given with one variable; `Boolean` is whether it appeared; only configured names have entries |
| LegacyArgs.MissingOption | src/parseArgs.ts:217-219 | An absent non-`Boolean` option makes the older parser fail |
| PngBytes.ToUInt32 | src/commands/subcommands/combine.ts:34-39 | Writing succeeds exactly for values in 0 to 2^32 - 1, and gives four bytes |
| PngBytes.ReadWritten | src/commands/subcommands/combine.ts:34-39 | A 32-bit value written anywhere in a buffer reads back as itself |
| PngBytes.WriteRead | src/commands/subcommands/combine.ts:34-39 | Any four bytes read as a value are written back as the same bytes |
| PngBytes.CriticalIsBitFive | src/commands/subcommands/combine.ts:151 | For a letter, an upper-case first letter (critical) is bit 5 of its byte being clear, as section 5.4 of the PNG specification says |
| PngBytes.DecodeChunk | src/commands/subcommands/combine.ts:128-170 | A decoded chunk lies within the buffer, and the next chunk starts 12 bytes after its data |
| PngBytes.EncodeChunk | src/commands/subcommands/combine.ts:394-418 | Writing a chunk succeeds exactly when its data fits a 32-bit length, and adds 12 bytes to the data |
| PngBytes.ChunkRoundTrip | src/commands/subcommands/combine.ts:128-170 | A written chunk, anywhere in a buffer, decodes as its type and data with a matching CRC, and the next chunk starts right after it |
| PngBytes.DecodeImageHeader | src/commands/subcommands/combine.ts:172-205 | The header decodes exactly when it has at least 13 bytes |
| PngBytes.EncodeHeaderData | src/commands/subcommands/combine.ts:387-392 | The header data is 13 bytes for any 32-bit width and height |
| PngBytes.HeaderRoundTrip | src/commands/subcommands/combine.ts:172-205 | The written header decodes to its width and height, 8-bit RGBA, and zero methods |
| PngFilter.PaethPredictor | src/commands/subcommands/combine.ts:46-75 | The predictor is one of its three inputs |
| PngFilter.PaethAgrees | src/commands/subcommands/combine.ts:46-75 | The source's predictor agrees with the one in section 9.4 of the PNG specification on every input |
| PngFilter.ReconstructByte | src/commands/subcommands/combine.ts:77-126 | Reconstruction fails exactly for a filter type above 4, with the source's message |
| PngFilter.ReconstructInvertsFilter | src/commands/subcommands/combine.ts:77-126 | With the same neighbours, reconstruction undoes filtering of types 0 to 4, modulo 256 |
| PngFilter.ReconstructRow | src/commands/subcommands/combine.ts:326-371 | A row is rebuilt pixel by pixel and keeps its width; it fails iff it has a pixel and a bad filter type |
| PngFilter.ReconstructAll | src/commands/subcommands/combine.ts:326-371 | Every scanline is rebuilt in order, and the count is kept |
| PngFilter.ReconstructFails | src/commands/subcommands/combine.ts:326-371 | Reconstruction fails exactly when a non-empty scanline has a filter type above 4 |
| PngFilter.FilterImage | src/commands/subcommands/combine.ts:77-126 | Filtering keeps the image's shape and records each scanline's type |
| PngFilter.PixelRoundTrip | src/commands/subcommands/combine.ts:326-371 | A filtered pixel, rebuilt after the pixels before it, is the original pixel |
| PngFilter.FilterRoundTrip | src/commands/subcommands/combine.ts:326-371 | Reconstruction inverts filtering, whatever filter type each scanline uses |
| PngFilter.NoneFilterIsIdentity | src/commands/subcommands/combine.ts:401-405 | Filter type 0, the one the encoder writes, leaves the bytes unchanged |
| PngImage.SplitScanlines | src/commands/subcommands/combine.ts:279-324 | The split succeeds exactly when the data has `height` strides of `1 + 4 * width` bytes, and gives `height` scanlines |
| PngImage.ScanlineBytesRoundTrip | src/commands/subcommands/combine.ts:295-324 | A written scanline reads back as filter type 0 over the same pixels |
| PngImage.DataLength | src/commands/subcommands/combine.ts:401-405 | The written data is `height` strides long |
| PngImage.DataRowAt | src/commands/subcommands/combine.ts:401-405 | Row `i` of the written data sits at `i` strides |
| PngImage.SplitRoundTrip | src/commands/subcommands/combine.ts:279-324 | The written data splits back into the image's scanlines, each with filter type 0 |
| PngImage.CollectWritten | src/commands/subcommands/combine.ts:238-254 | The chunk walk over what the encoder writes keeps the header, the one data chunk and the end |
| PngImage.ImageRoundTrip | src/commands/subcommands/combine.ts:207-428 | Decoding an encoded image gives it back, provided inflate inverts deflate on its data |
| PngCombine.MaxWidth | src/commands/subcommands/combine.ts:506-529 | The greatest width, reached by some image |
| PngCombine.MaxHeight | src/commands/subcommands/combine.ts:482-505 | The greatest height, reached by some image |
| PngCombine.HorizontalRowLayout | src/commands/subcommands/combine.ts:482-505 | Row `i` holds each image's segment, starting after the widths of the images left of it |
| PngCombine.HorizontalSound | src/commands/subcommands/combine.ts:482-505 | Side by side, the widths add up, the height is the tallest image's, and the result is a sound image |
| PngCombine.HorizontalLayout | src/commands/subcommands/combine.ts:479-505 | Each image keeps its pixels at its horizontal offset, with default pixels below a shorter image |
| PngCombine.VerticalRowsLayout | src/commands/subcommands/combine.ts:506-529 | Each image's padded rows start after the heights of the images above it |
| PngCombine.VerticalSound | src/commands/subcommands/combine.ts:506-529 | One above the other, the heights add up, the width is the widest image's, and the result is a sound image |
| PngCombine.VerticalLayout | src/commands/subcommands/combine.ts:479-529 | Each image keeps its pixels at its vertical offset, with default pixels right of a narrower image |
| PngCombine.Combine | src/commands/subcommands/combine.ts:438-536 | Combining succeeds exactly with two or more images and one direction, and gives that direction's layout |

## Left out

- Parsimmon's error positions and messages: a failed parse is `None`.
- The debugging output of `withIndentDebug` and `tap` in the search parsers. The depth guard that comes with it is not modelled either, and it does change results. Each search rule except `kebab` and `ε` is wrapped in `withIndentDebug`, which counts the wrapped rules currently active and throws `Possibly infinite recursion detected` once more than 30 are (src/tag-language/parserUtils.ts:15-53; parser.ts keeps its own copy at lines 33-75). Counting the rule nesting, a unit inside eight nested pairs of parentheses reaches 31 (`((((((((a))))))))` throws), and so does about the 24th operand of one `+`/`-` or `^` chain. The counter is module-global and is not reset after a throw, so later parses in the same process throw as well. The model parses all of these.
- SearchProperties.SearchRoundTrip: does not model the depth guard above; for printed trees deep enough to activate 31 wrapped rules the source throws instead of returning the tree.
- SearchProperties.PrintedParses: does not model the depth guard above; both `parse` and `parseSearch` throw on printed trees that deep.
- SearchProperties.ParensAddNoNode: does not model the depth guard above; each added pair of parentheses activates three more wrapped rules, so enough of them make the source throw.
- Empty search input is a parse error, because `subexpression1` needs an operand (src/tag-language/searchParser.ts:117-150).
- Whitespace before the first modification operation is a parse error, because `expression` is tried at position 0 (src/tag-language/modificationParser.ts:54-95).
- Helpers that the source imports but does not define: src/tag-language/tagParser.ts:2 and modificationParser.ts:7 import `createLanguage`, `parserDebugger` and `ul` from parserUtils.ts, which exports only `tap`, `indentDebug` and `withIndentDebug`; searchParser.ts:18 imports `KEBAB` from tagParser.ts, which does not export it. The model takes `KEBAB` (and `ul.kebab`) to be the pattern of parser.ts:20 and treats `parserDebugger` as leaving each rule unchanged. If `parserDebugger` applied the same depth guard as `withIndentDebug`, long modifications would throw too.
- The has-all-values, has-exact-values and has-tag-name lookup nodes, because no parser builds them. Has-all-values and has-exact-values only throw "not implemented"; has-tag-name returns `getIds(tagName, [])`.
- The throw for an unrecognised node class in `runQuery`: an algebraic datatype cannot hold a node of another class.
- The `Tag` and `Meta` classes of the multi-valued store are not part of this model. A document is an id, a map from tag names to value sets, and an optional description.
- `getIds`, the CRC, inflate, deflate and `Number.parseInt` are uninterpreted parameters.
- Reading and writing files, `JSON.parse`, `console` output and `process.exit` are not modelled.
- The order of printed results, since a set has no order.
- The clock: `fromDay`, `fromToday` and `fromNow` read the current date. `fromMonth` takes the year as a parameter.
- `getTimestampedFileName` and the pictures manager's directory listing.
- The picture regexes are modelled by fixed character positions. This is equivalent to the anchored patterns with their fixed-width digit groups.
- The module-level sample call at the end of src/parseArgs.ts (lines 289-308).
- The "Missing option named" throw of the current `parseCategorizedArgs`: its filter has already removed absent non-`Boolean` options, so the throw cannot fire.
- parseableType.ts is not part of this model. The option types are `Boolean`, `String`, `Number` and `StringList`, as the code uses them.
- ArgParsing.OptionsExact: stated only for distinct configured names. With repeated names the last entry wins, which the model computes but does not state.
- LegacyArgs.LegacyOptionsExact: stated only for distinct configured names, for the same reason.
- The `combine` command's argument checks, file reading and writing, and its messages, apart from the direction and count checks in `Combine`.
- Rebuilding the tag index after `addTags` and `removeTags`: the code does not do it, and the model leaves the index unchanged as the code does.
- LegacyMetadata.InitIdByFileName: it builds the map as if no file name were inherited; the `assertIsString` throw for a file name found on `Object.prototype` is stated by InitFails.
- LegacyMetadata.MetaById: an id that is an inherited `Object.prototype` property name and is not stored is found by the source's lookup of `metaById[id]`. So `getMetaById` returns the inherited value instead of exiting, `hasMeta` says true, and `addTags` and `removeTags` then throw a TypeError. The model fails at the lookup with the missing-document message.
- LegacySearch.TagQueryExact: a candidate id from `getIds` that is an inherited `Object.prototype` property name and is not stored passes the source's `assertIsNotUndefined`, and `hasTag` then throws a TypeError. The model fails with the missing-document message.
- LegacySearch.RunExact: the same holds for a candidate id of `run` (src/commands/subcommands/search.ts:127-132): the source throws a TypeError in `hasTag` where the model fails with the missing-document message.
- The messages of the TypeErrors that `init` throws are the ones V8 gives: `guaranteedIdSet.add is not a function`.
- `RangeError` messages of Node's buffer writes: an out-of-range write is an error result with a message of the model's own.
- TagLexer.Kebab: its contract bounds only the match; which span is matched is stated by KebabSound and KebabComplete.
- SearchGrammar.Sub1Prime: its contract bounds only the position; what it reads is stated by SearchPrinting.ReadChain1.
- SearchGrammar.Sub2Prime: its contract bounds only the position; what it reads is stated by SearchPrinting.ReadChain2.
- SearchGrammar.Unit: its contract bounds only the position; what it reads is stated by SearchPrinting.ReadLeaf.
- ModificationGrammar.RenameRule: its contract gives only the kind of operation; what it reads is stated by ModificationProperties.ReadOperation.
- ModificationGrammar.SoftSetRule: its contract gives only the kind of operation; what it reads is stated by ModificationProperties.ReadOperation.
- ModificationGrammar.RemoveTagRule: its contract gives only the kind of operation; what it reads is stated by ModificationProperties.ReadOperation.
- ModificationGrammar.AddTagRule: its contract gives only the kind of operation; what it reads is stated by ModificationProperties.ReadOperation.
- Running a whole modification on a document: no code in the source applies a list of operations; modificationParser.ts:54-95 only builds the list. ModificationNodes.ApplyAll, ApplyAllWithoutSoftSet and ApplyAllAppend are the model's own composition of `apply` in order, stopping at the first failing soft-set and returning the document as the earlier operations left it, together with the error. In the source each `apply` changes its `Meta` in place, and a soft-set throws before changing anything (softSetValueOperationNode.ts:13-31), so a caller would see the earlier operations' changes kept.
- LegacySearch.RunQueryExact: stated only for stores whose documents are filed under their own ids, as `init` files them. In another store a select-all id may have no document, and the source's `assertIsNotUndefined` then throws; `RunQuery` computes that failure but no lemma states it.
- LegacySearch.Compute: its contract gives only the error message; the results are stated by SelectAllExact, TagQueryExact and SetOperationsMembership.

=== FILE: arg_categories.dfy ===
/**
 * Command-line argument categorisation of src/parse-args/categorizeArgs.ts
 * (and its older copy in src/parseArgs.ts): the positionals before the first
 * `-`-prefixed argument, then one option per `-`-prefixed argument with the
 * arguments up to the next option as its variables.
 */
module ArgCategories {

  /** `ParseableType`. */
  datatype ArgType = Boolean | String | Number | StringList

  datatype OptionConfig = OptionConfig(name: string, argType: ArgType)

  /** `CategorizedArgOption`. */
  datatype ArgOption = ArgOption(name: string, variables: seq<string>)

  datatype Categorized = Categorized(positionals: seq<string>, options: seq<ArgOption>)

  /** `arg.startsWith('-')`. */
  predicate IsOptionToken(arg: string) {
    |arg| > 0 && arg[0] == '-'
  }

  /** `arg.replace(/^--?/, '')`: one leading hyphen, or two when there are two. */
  function StripHyphens(arg: string): (r: string)
    ensures IsOptionToken(arg) ==> arg == "-" + r || arg == "--" + r
    ensures |arg| >= 2 && arg[..2] == "--" ==> arg == "--" + r
    ensures !IsOptionToken(arg) ==> r == arg
  {
    if |arg| >= 2 && arg[0] == '-' && arg[1] == '-' then arg[2..]
    else if IsOptionToken(arg) then arg[1..]
    else arg
  }

  /** The first option token at or after `from`, or the end of the list. */
  function NextOption(args: seq<string>, from: nat): (r: nat)
    requires from <= |args|
    ensures from <= r <= |args|
    ensures forall k :: from <= k < r ==> !IsOptionToken(args[k])
    ensures r < |args| ==> IsOptionToken(args[r])
    decreases |args| - from
  {
    if from == |args| || IsOptionToken(args[from]) then from else NextOption(args, from + 1)
  }

  /** The options from position `i` on: each option token with the arguments up to the next one. */
  function OptionsFrom(args: seq<string>, i: nat): seq<ArgOption>
    requires i <= |args|
    decreases |args| - i
  {
    if i == |args| then []
    else
      var j := NextOption(args, i + 1);
      [ArgOption(StripHyphens(args[i]), args[i + 1..j])] + OptionsFrom(args, j)
  }

  /** The split shared by both versions of `categorizeArgs`. */
  function Categorize(args: seq<string>): Categorized {
    var first := NextOption(args, 0);
    Categorized(args[..first], OptionsFrom(args, first))
  }

  // ---------------------------------------------------------------------
  // The index-based formulation of the source

  /** `indicies`: the positions of the option tokens from `from` on, in order. */
  function OptionIndices(args: seq<string>, from: nat): (r: seq<nat>)
    requires from <= |args|
    ensures forall m :: 0 <= m < |r| ==> from <= r[m] < |args|
    decreases |args| - from
  {
    if from == |args| then []
    else (if IsOptionToken(args[from]) then [from] else []) + OptionIndices(args, from + 1)
  }

  /** Every index lies before the end of its variables, which lie within the list. */
  predicate IndexShape(idx: seq<nat>, n: nat) {
    (forall m :: 0 <= m < |idx| ==> idx[m] < n)
    && forall m {:trigger VariablesEnd(idx, m, n)} :: 0 <= m < |idx| ==> idx[m] + 1 <= VariablesEnd(idx, m, n) <= n
  }

  /**
   * The indices are exactly the positions of the option tokens, in strictly
   * increasing order, so each option's variables end before the next token.
   */
  lemma {:induction false} IndicesExact(args: seq<string>, from: nat)
    requires from <= |args|
    ensures forall k :: k in OptionIndices(args, from) <==> from <= k < |args| && IsOptionToken(args[k])
    ensures forall m, n :: 0 <= m < n < |OptionIndices(args, from)| ==> OptionIndices(args, from)[m] < OptionIndices(args, from)[n]
    ensures IndexShape(OptionIndices(args, from), |args|)
  {
    IndicesMembers(args, from);
    IndicesSorted(args, from);
    var r := OptionIndices(args, from);
    forall m | 0 <= m < |r| ensures r[m] + 1 <= VariablesEnd(r, m, |args|) <= |args| {
      if m + 1 < |r| {
        assert r[m] < r[m + 1];
      }
    }
  }

  /** The indices are exactly the positions of the option tokens. */
  lemma {:induction false} IndicesMembers(args: seq<string>, from: nat)
    requires from <= |args|
    ensures forall k :: k in OptionIndices(args, from) <==> from <= k < |args| && IsOptionToken(args[k])
    decreases |args| - from
  {
    if from < |args| {
      IndicesMembers(args, from + 1);
      if IsOptionToken(args[from]) {
        assert OptionIndices(args, from) == [from] + OptionIndices(args, from + 1);
      } else {
        assert OptionIndices(args, from) == OptionIndices(args, from + 1);
      }
    }
  }

  /** The indices are strictly increasing. */
  lemma {:induction false} IndicesSorted(args: seq<string>, from: nat)
    requires from <= |args|
    ensures forall m, n :: 0 <= m < n < |OptionIndices(args, from)| ==> OptionIndices(args, from)[m] < OptionIndices(args, from)[n]
    decreases |args| - from
  {
    if from < |args| {
      IndicesSorted(args, from + 1);
      var rest := OptionIndices(args, from + 1);
      if IsOptionToken(args[from]) {
        assert OptionIndices(args, from) == [from] + rest;
        IncreasingCons(from, rest);
      } else {
        assert OptionIndices(args, from) == rest;
      }
    }
  }

  /** A value below every element, put in front of a strictly increasing sequence, keeps it strictly increasing. */
  lemma {:induction false} IncreasingCons(x: nat, s: seq<nat>)
    requires forall m :: 0 <= m < |s| ==> x < s[m]
    requires forall m, n :: 0 <= m < n < |s| ==> s[m] < s[n]
    ensures forall m, n :: 0 <= m < n < |[x] + s| ==> ([x] + s)[m] < ([x] + s)[n]
  {
    var r := [x] + s;
    forall m, n | 0 <= m < n < |r| ensures r[m] < r[n] {
      assert r[n] == s[n - 1];
      if m > 0 {
        assert r[m] == s[m - 1];
      }
    }
  }

  /** `indicies[listIndex + 1] ?? args.length`. */
  function VariablesEnd(idx: seq<nat>, m: nat, n: nat): nat {
    if m + 1 < |idx| then idx[m + 1] else n
  }

  /** Positions holding no option token contribute no index. */
  lemma {:induction false} SkipIndices(args: seq<string>, from: nat, to: nat)
    requires from <= to <= |args|
    requires forall k :: from <= k < to ==> !IsOptionToken(args[k])
    ensures OptionIndices(args, from) == OptionIndices(args, to)
    decreases |args| - from
  {
    if from < to {
      SkipIndices(args, from + 1, to);
    }
  }

  /** Option `m` is the one the source builds from the `m`-th index: name from the token, variables up to the next index. */
  predicate BuiltFromIndices(opts: seq<ArgOption>, args: seq<string>, idx: seq<nat>)
    requires IndexShape(idx, |args|)
  {
    |opts| == |idx|
    && forall m {:trigger opts[m]} :: 0 <= m < |idx| ==>
         opts[m] == ArgOption(StripHyphens(args[idx[m]]), args[idx[m] + 1..VariablesEnd(idx, m, |args|)])
  }

  /** From an option token on, the first index is that token; at the end there is none. */
  lemma {:induction false} IndicesHead(args: seq<string>, j: nat)
    requires j <= |args| && (j < |args| ==> IsOptionToken(args[j]))
    ensures |OptionIndices(args, j)| > 0 <==> j < |args|
    ensures j < |args| ==> OptionIndices(args, j)[0] == j
  {}

  /** The recursive split yields, for every index, the option the source builds from it. */
  lemma {:induction false} OptionsFromIndices(args: seq<string>, i: nat)
    requires i <= |args| && (i < |args| ==> IsOptionToken(args[i]))
    ensures IndexShape(OptionIndices(args, i), |args|) && BuiltFromIndices(OptionsFrom(args, i), args, OptionIndices(args, i))
    decreases |args| - i
  {
    IndicesExact(args, i);
    if i < |args| {
      var j := NextOption(args, i + 1);
      SkipIndices(args, i + 1, j);
      OptionsFromIndices(args, j);
      IndicesHead(args, j);
      IndicesExact(args, j);
      assert OptionIndices(args, i) == [i] + OptionIndices(args, j);
      BuiltStep(args, i, j, OptionIndices(args, j), OptionsFrom(args, j));
    }
  }

  /** Prepending the option of token `i` to those built from the later indices. */
  lemma {:induction false} BuiltStep(args: seq<string>, i: nat, j: nat, rest: seq<nat>, tail: seq<ArgOption>)
    requires i < j <= |args| && IndexShape(rest, |args|) && IndexShape([i] + rest, |args|)
    requires |rest| > 0 ==> rest[0] == j
    requires |rest| == 0 ==> j == |args|
    requires BuiltFromIndices(tail, args, rest)
    ensures BuiltFromIndices([ArgOption(StripHyphens(args[i]), args[i + 1..j])] + tail, args, [i] + rest)
  {
    var idx := [i] + rest;
    var opts := [ArgOption(StripHyphens(args[i]), args[i + 1..j])] + tail;
    forall m | 0 <= m < |idx|
      ensures opts[m] == ArgOption(StripHyphens(args[idx[m]]), args[idx[m] + 1..VariablesEnd(idx, m, |args|)])
    {
      if m == 0 {
        assert VariablesEnd(idx, 0, |args|) == j;
      } else {
        assert idx[m] == rest[m - 1] && opts[m] == tail[m - 1];
        assert VariablesEnd(idx, m, |args|) == VariablesEnd(rest, m - 1, |args|);
      }
    }
  }

  /**
   * `categorizeArgs`: the positionals are the arguments before the first
   * option token (all of them if there is none); option `m` is named by the
   * `m`-th option token without its leading hyphens and holds the arguments
   * strictly between that token and the next one, or the end.
   */
  lemma {:induction false} CategorizeExact(args: seq<string>)
    ensures var idx := OptionIndices(args, 0);
      && IndexShape(idx, |args|)
      && Categorize(args).positionals == args[..if |idx| > 0 then idx[0] else |args|]
      && BuiltFromIndices(Categorize(args).options, args, idx)
  {
    var first := NextOption(args, 0);
    SkipIndices(args, 0, first);
    IndicesExact(args, first);
    OptionsFromIndices(args, first);
    IndicesHead(args, first);
  }

  /** The number of arguments the options account for: one token each, plus its variables. */
  function Width(options: seq<ArgOption>): nat {
    if |options| == 0 then 0 else 1 + |options[0].variables| + Width(options[1..])
  }

  lemma {:induction false} OptionsFromWidth(args: seq<string>, i: nat)
    requires i <= |args|
    ensures Width(OptionsFrom(args, i)) == |args| - i
    decreases |args| - i
  {
    if i < |args| {
      var j := NextOption(args, i + 1);
      OptionsFromWidth(args, j);
      assert OptionsFrom(args, i)[1..] == OptionsFrom(args, j);
    }
  }

  /** Every argument is a positional, an option token or a variable of exactly one option. */
  lemma {:induction false} CategorizeCovers(args: seq<string>)
    ensures |Categorize(args).positionals| + Width(Categorize(args).options) == |args|
  {
    OptionsFromWidth(args, NextOption(args, 0));
  }

  // ---------------------------------------------------------------------
  // `categorizeArgs` of src/parse-args/categorizeArgs.ts

  /** `new Map(optionConfigs.map(...))`: each name to the type of its last configuration. */
  function ConfigMap(configs: seq<OptionConfig>): (r: map<string, ArgType>)
    ensures forall x :: x in r <==> exists k :: 0 <= k < |configs| && configs[k].name == x
    decreases |configs|
  {
    if |configs| == 0 then map[]
    else
      var front := configs[..|configs| - 1];
      var last := configs[|configs| - 1];
      assert forall k :: 0 <= k < |front| ==> front[k] == configs[k];
      ConfigMap(front)[last.name := last.argType]
  }

  /** A name maps to the type of its last configuration. */
  lemma {:induction false} ConfigMapLastWins(configs: seq<OptionConfig>, k: nat)
    requires k < |configs| && forall j :: k < j < |configs| ==> configs[j].name != configs[k].name
    ensures configs[k].name in ConfigMap(configs) && ConfigMap(configs)[configs[k].name] == configs[k].argType
    decreases |configs|
  {
    if k < |configs| - 1 {
      var front := configs[..|configs| - 1];
      assert front[k] == configs[k];
      ConfigMapLastWins(front, k);
    }
  }

  predicate IsBooleanOption(o: ArgOption, cfg: map<string, ArgType>) {
    o.name in cfg && cfg[o.name] == Boolean
  }

  /** `scatteredPositionals`: the variables of the Boolean options, in order. */
  function Scattered(options: seq<ArgOption>, cfg: map<string, ArgType>): seq<string> {
    if |options| == 0 then []
    else (if IsBooleanOption(options[0], cfg) then options[0].variables else []) + Scattered(options[1..], cfg)
  }

  /** `categorizeArgs`: the Boolean options' variables join the positionals. */
  function CategorizeArgs(cfg: map<string, ArgType>, args: seq<string>): Categorized {
    var c := Categorize(args);
    Categorized(c.positionals + Scattered(c.options, cfg), c.options)
  }

  /** Scattering distributes over concatenation: option order is kept. */
  lemma {:induction false} ScatteredAppend(a: seq<ArgOption>, b: seq<ArgOption>, cfg: map<string, ArgType>)
    ensures Scattered(a + b, cfg) == Scattered(a, cfg) + Scattered(b, cfg)
    decreases |a|
  {
    if |a| > 0 {
      assert (a + b)[0] == a[0];
      assert (a + b)[1..] == a[1..] + b;
      ScatteredAppend(a[1..], b, cfg);
    } else {
      assert a + b == b;
    }
  }

  /** The scattered positionals are exactly the variables of the Boolean options. */
  lemma {:induction false} ScatteredMember(options: seq<ArgOption>, cfg: map<string, ArgType>, x: string)
    ensures x in Scattered(options, cfg) <==>
      exists m :: 0 <= m < |options| && IsBooleanOption(options[m], cfg) && x in options[m].variables
    decreases |options|
  {
    if |options| > 0 {
      ScatteredMember(options[1..], cfg, x);
      if x in Scattered(options[1..], cfg) {
        var m :| 0 <= m < |options[1..]| && IsBooleanOption(options[1..][m], cfg) && x in options[1..][m].variables;
        assert options[m + 1] == options[1..][m];
      }
      if exists m :: 0 <= m < |options| && IsBooleanOption(options[m], cfg) && x in options[m].variables {
        var m :| 0 <= m < |options| && IsBooleanOption(options[m], cfg) && x in options[m].variables;
        if m > 0 { assert options[1..][m - 1] == options[m]; }
      }
    }
  }

  /**
   * The positionals are the leading positionals followed by the Boolean
   * options' variables; without a Boolean option they are just the leading ones.
   */
  lemma {:induction false} BooleanVariablesAppended(cfg: map<string, ArgType>, args: seq<string>, x: string)
    ensures var c := Categorize(args);
      var r := CategorizeArgs(cfg, args);
      && r.options == c.options
      && r.positionals[..|c.positionals|] == c.positionals
      && (x in r.positionals[|c.positionals|..] <==>
            exists m :: 0 <= m < |c.options| && IsBooleanOption(c.options[m], cfg) && x in c.options[m].variables)
  {
    var c := Categorize(args);
    ScatteredMember(c.options, cfg, x);
    assert CategorizeArgs(cfg, args).positionals[|c.positionals|..] == Scattered(c.options, cfg);
  }
}

=== FILE: arg_parsing.dfy ===
/**
 * `parseCategorizedArgs` of src/parse-args/parseCategorizedArgs.ts and
 * `parseArgs` of src/parse-args/parseArgs.ts: typed positionals, then the
 * configured options looked up among the categorised ones.
 *
 * `Number.parseInt(value, 10)` is not part of this model: it is a parameter
 * returning `None` for `NaN`. A thrown `ParseArgsError` is an error result.
 */
module ArgParsing {
  import opened Wrappers
  import opened Text
  import opened ArgCategories

  /** `Number.parseInt(value, 10)`, `None` standing for `NaN`. */
  type ParseInt = string -> Option<int>

  /** A parsed value; `Missing` is `undefined`. */
  datatype Value = Missing | Str(text: string) | Num(number: int) | Flag(flag: bool) | List(items: seq<string>)

  /** `PositionalConfig`: a `String` or `Number` type, and whether it is required. */
  datatype PositionalConfig = PositionalConfig(argType: ArgType, isRequired: bool)

  datatype Parsed = Parsed(positionals: seq<Value>, options: map<string, Value>)

  // ---------------------------------------------------------------------
  // Positionals

  /** Positional `k`: missing past the end, text for `String`, a number otherwise (`parseNumber`). */
  function PositionalValue(c: PositionalConfig, k: nat, positionals: seq<string>, parseInt: ParseInt, missingMessage: string)
    : (r: Result<Value, string>)
  {
    if c.isRequired && k >= |positionals| then Err(missingMessage + NatToString(k))
    else if k >= |positionals| then Ok(Missing)
    else if c.argType == String then Ok(Str(positionals[k]))
    else
      var n := parseInt(positionals[k]);
      if n.None? then Err("Invalid number for position: " + NatToString(k)) else Ok(Num(n.value))
  }

  /** The configured positionals in order; the first failure ends the parse. */
  function ParsePositionals(configs: seq<PositionalConfig>, positionals: seq<string>, parseInt: ParseInt, missingMessage: string)
    : (r: Result<seq<Value>, string>)
    ensures r.Ok? ==> |r.value| == |configs|
    decreases |configs|
  {
    if |configs| == 0 then Ok([])
    else
      var n := |configs| - 1;
      var front := ParsePositionals(configs[..n], positionals, parseInt, missingMessage);
      if front.Err? then front
      else
        var v := PositionalValue(configs[n], n, positionals, parseInt, missingMessage);
        if v.Err? then Err(v.error) else Ok(front.value + [v.value])
  }

  /**
   * The positionals parse exactly when every required one is present and
   * every present `Number` one is a number; then each is missing, its text
   * or its number.
   */
  lemma {:induction false} PositionalsExact(configs: seq<PositionalConfig>, positionals: seq<string>, parseInt: ParseInt, missingMessage: string)
    ensures ParsePositionals(configs, positionals, parseInt, missingMessage).Ok? <==>
      forall k :: 0 <= k < |configs| ==>
        (configs[k].isRequired ==> k < |positionals|)
        && (configs[k].argType != String && k < |positionals| ==> parseInt(positionals[k]).Some?)
    ensures ParsePositionals(configs, positionals, parseInt, missingMessage).Ok? ==>
      forall k :: 0 <= k < |configs| ==>
        ParsePositionals(configs, positionals, parseInt, missingMessage).value[k]
          == if k >= |positionals| then Missing
             else if configs[k].argType == String then Str(positionals[k])
             else Num(parseInt(positionals[k]).value)
    decreases |configs|
  {
    if |configs| > 0 {
      var n := |configs| - 1;
      var front := configs[..n];
      PositionalsExact(front, positionals, parseInt, missingMessage);
      assert forall k :: 0 <= k < n ==> front[k] == configs[k];
    }
  }

  /** A required positional past the end of the positionals makes the parse fail. */
  lemma {:induction false} MissingRequiredPositional(configs: seq<PositionalConfig>, positionals: seq<string>, parseInt: ParseInt, missingMessage: string, k: nat)
    requires k < |configs| && configs[k].isRequired && k >= |positionals|
    ensures ParsePositionals(configs, positionals, parseInt, missingMessage).Err?
  {
    PositionalsExact(configs, positionals, parseInt, missingMessage);
  }

  // ---------------------------------------------------------------------
  // Options

  /** `categorizedArgOptionMap.get(name)`: the variables of the last option with that name. */
  function LastVariables(options: seq<ArgOption>, name: string): (r: Option<seq<string>>)
    ensures r.Some? <==> exists m :: 0 <= m < |options| && options[m].name == name
    ensures r.Some? ==> exists m :: (0 <= m < |options| && options[m].name == name && options[m].variables == r.value
      && forall m2 :: m < m2 < |options| ==> options[m2].name != name)
    decreases |options|
  {
    if |options| == 0 then None
    else
      var n := |options| - 1;
      if options[n].name == name then Some(options[n].variables)
      else
        var r := LastVariables(options[..n], name);
        assert forall m :: 0 <= m < n ==> options[..n][m] == options[m];
        r
  }

  /**
   * One configured option: `None` when it is filtered out (absent and not
   * `Boolean`), else its value; a `String` or `Number` option needs exactly
   * one variable.
   */
  function OptionValue(c: OptionConfig, found: Option<seq<string>>, parseInt: ParseInt): (r: Result<Option<Value>, string>)
  {
    if c.argType == Boolean then Ok(Some(Flag(found.Some?)))
    else if found.None? then Ok(None)
    else if c.argType == StringList then Ok(Some(List(found.value)))
    else if |found.value| != 1 then Err("Option \"" + c.name + "\" must have exactly one variable.")
    else if c.argType == String then Ok(Some(Str(found.value[0])))
    else
      var n := parseInt(found.value[0]);
      if n.None? then Err("Invalid number for option: " + c.name) else Ok(Some(Num(n.value)))
  }

  /** `defaultListOptions`: every `StringList` option starts as the empty list. */
  function DefaultLists(configs: seq<OptionConfig>): (r: map<string, Value>)
    ensures forall x :: x in r <==> exists k :: 0 <= k < |configs| && configs[k].argType == StringList && configs[k].name == x
    ensures forall x :: x in r ==> r[x] == List([])
  {
    var names := set k | 0 <= k < |configs| && configs[k].argType == StringList :: configs[k].name;
    map x | x in names :: List([])
  }

  /** How one configured option is read from the variables found for it; `None` leaves no entry. */
  type EntryFn = (OptionConfig, Option<seq<string>>) -> Result<Option<Value>, string>

  /** The option reading of `parseCategorizedArgs`. */
  function Entries(parseInt: ParseInt): EntryFn {
    (c: OptionConfig, found: Option<seq<string>>) => OptionValue(c, found, parseInt)
  }

  /** The configured options in order over `base`, each value replacing an earlier entry of the same name. */
  function ParseOptions(configs: seq<OptionConfig>, options: seq<ArgOption>, entry: EntryFn, base: map<string, Value>)
    : (r: Result<map<string, Value>, string>)
    decreases |configs|
  {
    if |configs| == 0 then Ok(base)
    else
      var n := |configs| - 1;
      var front := ParseOptions(configs[..n], options, entry, base);
      if front.Err? then front
      else
        var v := entry(configs[n], LastVariables(options, configs[n].name));
        if v.Err? then Err(v.error)
        else if v.value.None? then front
        else Ok(front.value[configs[n].name := v.value.value])
  }

  predicate DistinctNames(configs: seq<OptionConfig>) {
    forall j, k :: 0 <= j < k < |configs| ==> configs[j].name != configs[k].name
  }

  /** The options parse exactly when every configured option parses. */
  lemma {:induction false} ParseOptionsOk(configs: seq<OptionConfig>, options: seq<ArgOption>, entry: EntryFn, base: map<string, Value>)
    ensures ParseOptions(configs, options, entry, base).Ok? <==>
      forall k :: 0 <= k < |configs| ==> entry(configs[k], LastVariables(options, configs[k].name)).Ok?
    decreases |configs|
  {
    if |configs| > 0 {
      var n := |configs| - 1;
      var front := configs[..n];
      assert forall k :: 0 <= k < n ==> front[k] == configs[k];
      ParseOptionsOk(front, options, entry, base);
    }
  }

  /** The entry a successful parse leaves for a name. */
  predicate EntryFor(m: map<string, Value>, base: map<string, Value>, x: string, v: Option<Value>) {
    (v.Some? ==> x in m && m[x] == v.value)
    && (v.None? ==> (x in m <==> x in base) && (x in base ==> m[x] == base[x]))
  }

  /**
   * With distinct option names, each configured option of a successful
   * parse has its own value (or the base's entry when it is filtered out),
   * and every other name keeps the base's entry.
   */
  lemma {:induction false} ParseOptionsValues(configs: seq<OptionConfig>, options: seq<ArgOption>, entry: EntryFn,
                                              base: map<string, Value>, x: string)
    requires DistinctNames(configs) && ParseOptions(configs, options, entry, base).Ok?
    ensures var m := ParseOptions(configs, options, entry, base).value;
      && (forall k :: 0 <= k < |configs| && configs[k].name == x ==>
            entry(configs[k], LastVariables(options, x)).Ok?
            && EntryFor(m, base, x, entry(configs[k], LastVariables(options, x)).value))
      && ((forall k :: 0 <= k < |configs| ==> configs[k].name != x) ==> EntryFor(m, base, x, None))
    decreases |configs|
  {
    ParseOptionsOk(configs, options, entry, base);
    if |configs| > 0 {
      var n := |configs| - 1;
      var front := configs[..n];
      assert forall k :: 0 <= k < n ==> front[k] == configs[k];
      assert DistinctNames(front);
      ParseOptionsValues(front, options, entry, base, x);
      var fm := ParseOptions(front, options, entry, base).value;
      var m := ParseOptions(configs, options, entry, base).value;
      var v := entry(configs[n], LastVariables(options, configs[n].name)).value;
      assert m == if v.None? then fm else fm[configs[n].name := v.value];
      if configs[n].name != x {
        assert x in m <==> x in fm;
        assert x in fm ==> m[x] == fm[x];
      }
    }
  }

  /** A name for which every configured option yields no entry keeps the base's entry. */
  lemma {:induction false} ParseOptionsKeepsBase(configs: seq<OptionConfig>, options: seq<ArgOption>, entry: EntryFn,
                                                 base: map<string, Value>, x: string)
    requires forall k :: 0 <= k < |configs| && configs[k].name == x ==> entry(configs[k], LastVariables(options, x)) == Ok(None)
    ensures ParseOptions(configs, options, entry, base).Ok? && x in base ==>
      x in ParseOptions(configs, options, entry, base).value && ParseOptions(configs, options, entry, base).value[x] == base[x]
    decreases |configs|
  {
    if |configs| > 0 {
      var n := |configs| - 1;
      var front := configs[..n];
      assert forall k :: 0 <= k < n ==> front[k] == configs[k];
      ParseOptionsKeepsBase(front, options, entry, base, x);
    }
  }

  // ---------------------------------------------------------------------
  // `parseCategorizedArgs` and `parseArgs`

  /**
   * `parseCategorizedArgs`: the configured positionals followed by the
   * unconfigured ones as text; the `StringList` defaults overridden by the
   * parsed options. Positionals are checked before options.
   */
  function ParseCategorizedArgs(c: Categorized, positionalConfigs: seq<PositionalConfig>, optionConfigs: seq<OptionConfig>,
                                parseInt: ParseInt): (r: Result<Parsed, string>)
  {
    var configured := ParsePositionals(positionalConfigs, c.positionals, parseInt, "Missing arg at position: ");
    if configured.Err? then Err(configured.error)
    else
      var options := ParseOptions(optionConfigs, c.options, Entries(parseInt), DefaultLists(optionConfigs));
      if options.Err? then Err(options.error)
      else
        var others := if |positionalConfigs| <= |c.positionals| then c.positionals[|positionalConfigs|..] else [];
        Ok(Parsed(configured.value + seq(|others|, k requires 0 <= k < |others| => Str(others[k])), options.value))
  }

  /** `parseArgs`: categorise with the option types, then parse. */
  function ParseArgs(args: seq<string>, positionalConfigs: seq<PositionalConfig>, optionConfigs: seq<OptionConfig>,
                     parseInt: ParseInt): (r: Result<Parsed, string>)
  {
    ParseCategorizedArgs(CategorizeArgs(ConfigMap(optionConfigs), args), positionalConfigs, optionConfigs, parseInt)
  }

  /** Positionals beyond the configured ones are passed through as text, after them. */
  lemma {:induction false} ExtraPositionals(c: Categorized, positionalConfigs: seq<PositionalConfig>, optionConfigs: seq<OptionConfig>, parseInt: ParseInt)
    requires ParseCategorizedArgs(c, positionalConfigs, optionConfigs, parseInt).Ok?
    ensures var r := ParseCategorizedArgs(c, positionalConfigs, optionConfigs, parseInt).value;
      && |r.positionals| == |positionalConfigs| + (if |positionalConfigs| <= |c.positionals| then |c.positionals| - |positionalConfigs| else 0)
      && forall k :: |positionalConfigs| <= k < |r.positionals| ==> r.positionals[k] == Str(c.positionals[k])
  {}

  /**
   * The options of a successful parse, for distinct option names: a
   * `Boolean` option is whether it appeared; a `StringList` option is its
   * variables, or empty when absent; an absent `String` or `Number` option
   * has no entry; a present one is its single variable, as text or number;
   * names that are not configured have no entry.
   */
  lemma {:induction false} OptionsExact(c: Categorized, positionalConfigs: seq<PositionalConfig>, optionConfigs: seq<OptionConfig>,
                     parseInt: ParseInt, k: nat, x: string)
    requires DistinctNames(optionConfigs) && k < |optionConfigs|
    requires ParseCategorizedArgs(c, positionalConfigs, optionConfigs, parseInt).Ok?
    ensures var m := ParseCategorizedArgs(c, positionalConfigs, optionConfigs, parseInt).value.options;
      var cfg := optionConfigs[k];
      var found := LastVariables(c.options, cfg.name);
      && (cfg.argType == Boolean ==> cfg.name in m && m[cfg.name] == Flag(found.Some?))
      && (cfg.argType == StringList ==> cfg.name in m && m[cfg.name] == List(if found.Some? then found.value else []))
      && ((cfg.argType == String || cfg.argType == Number) && found.None? ==> cfg.name !in m)
      && (cfg.argType == String && found.Some? ==> |found.value| == 1 && cfg.name in m && m[cfg.name] == Str(found.value[0]))
      && (cfg.argType == Number && found.Some? ==>
            |found.value| == 1 && parseInt(found.value[0]).Some? && cfg.name in m && m[cfg.name] == Num(parseInt(found.value[0]).value))
      && ((forall j :: 0 <= j < |optionConfigs| ==> optionConfigs[j].name != x) ==> x !in m)
  {
    var defaults := DefaultLists(optionConfigs);
    var cfg := optionConfigs[k];
    ParseOptionsOk(optionConfigs, c.options, Entries(parseInt), defaults);
    ParseOptionsValues(optionConfigs, c.options, Entries(parseInt), defaults, cfg.name);
    ParseOptionsValues(optionConfigs, c.options, Entries(parseInt), defaults, x);
    if cfg.name in defaults {
      var j :| 0 <= j < |optionConfigs| && optionConfigs[j].argType == StringList && optionConfigs[j].name == cfg.name;
      assert j == k;
    }
  }

  /**
   * A `StringList` option that was not given is the empty list after a
   * successful parse, for any option configuration: no option of another
   * type may share its name.
   */
  lemma {:induction false} AbsentListIsEmpty(c: Categorized, positionalConfigs: seq<PositionalConfig>, optionConfigs: seq<OptionConfig>,
                                             parseInt: ParseInt, k: nat)
    requires k < |optionConfigs| && optionConfigs[k].argType == StringList
    requires forall j :: 0 <= j < |optionConfigs| && optionConfigs[j].name == optionConfigs[k].name ==> optionConfigs[j].argType == StringList
    requires LastVariables(c.options, optionConfigs[k].name).None?
    ensures ParseCategorizedArgs(c, positionalConfigs, optionConfigs, parseInt).Ok? ==>
      var m := ParseCategorizedArgs(c, positionalConfigs, optionConfigs, parseInt).value.options;
      optionConfigs[k].name in m && m[optionConfigs[k].name] == List([])
  {
    var x := optionConfigs[k].name;
    var defaults := DefaultLists(optionConfigs);
    ParseOptionsKeepsBase(optionConfigs, c.options, Entries(parseInt), defaults, x);
  }

  /** A `String` or `Number` option given with other than one variable makes the parse fail. */
  lemma {:induction false} OptionNeedsOneVariable(c: Categorized, positionalConfigs: seq<PositionalConfig>, optionConfigs: seq<OptionConfig>,
                               parseInt: ParseInt, k: nat)
    requires DistinctNames(optionConfigs) && k < |optionConfigs|
    requires optionConfigs[k].argType == String || optionConfigs[k].argType == Number
    requires LastVariables(c.options, optionConfigs[k].name).Some?
    requires |LastVariables(c.options, optionConfigs[k].name).value| != 1
    ensures ParseCategorizedArgs(c, positionalConfigs, optionConfigs, parseInt).Err?
  {
    ParseOptionsOk(optionConfigs, c.options, Entries(parseInt), DefaultLists(optionConfigs));
  }
}

=== FILE: document_meta.dfy ===
/**
 * The multi-valued document record that the tag-language nodes read and
 * mutate: an id, a map from tag name to the tag's value set, and an
 * optional description. The class that implements this record (`Meta` and
 * `Tag` with `hasTag`, `getTag`, `setTag`, `removeTag`, `hasValue`,
 * `isEqual`, `valueCount`, `addToValueSet`, `removeFromValueSet`, `rename`
 * and `setDescription`) is not part of this model; each of those methods
 * is given here the plain map-and-set reading its name describes.
 */
module DocumentMeta {
  import opened Wrappers

  datatype Meta = Meta(id: string, tags: map<string, set<string>>, description: Option<string>)

  predicate HasTag(m: Meta, name: string) {
    name in m.tags
  }

  /** `meta.hasDescription`. */
  predicate HasDescription(m: Meta) {
    m.description.Some?
  }

  /** `new Tag(name, values)`: a value list is held as the set of its members. */
  function ValueSet(values: seq<string>): (r: set<string>)
    ensures forall v :: v in r <==> v in values
  {
    set v | v in values
  }

  /** `meta.setTag(tag)`: the tag replaces any tag of the same name. */
  function WithTag(m: Meta, name: string, values: set<string>): Meta {
    m.(tags := m.tags[name := values])
  }

  /** `meta.removeTag(name)`. */
  function WithoutTag(m: Meta, name: string): Meta {
    m.(tags := m.tags - {name})
  }

  /** `meta.setDescription(text)`; `undefined` clears it. */
  function WithDescription(m: Meta, text: Option<string>): Meta {
    m.(description := text)
  }

  /** Every tag other than `name` has the same value set in `a` and `b`, and `a` and `b` agree on id and description. */
  predicate SameExcept(a: Meta, b: Meta, name: string) {
    && a.id == b.id
    && a.description == b.description
    && a.tags.Keys - {name} == b.tags.Keys - {name}
    && (forall n :: n in a.tags && n in b.tags && n != name ==> a.tags[n] == b.tags[n])
  }

  /** `a` and `b` carry the same tags with the same values. */
  predicate SameTags(a: Meta, b: Meta) {
    a.id == b.id && a.tags == b.tags
  }
}

=== FILE: legacy_args.dfy ===
/**
 * The older argument parser of src/parseArgs.ts: the same categorisation,
 * but an option may hold at most one variable, every configured
 * non-`Boolean` option must be given, and only the configured positionals
 * are returned.
 */
module LegacyArgs {
  import opened Wrappers
  import opened ArgCategories
  import opened ArgParsing

  /** The first option, in input order, with more than one variable. */
  function FirstTooMany(options: seq<ArgOption>): (r: Option<ArgOption>)
    ensures r.None? <==> forall m :: 0 <= m < |options| ==> |options[m].variables| <= 1
    ensures r.Some? ==> exists m :: && 0 <= m < |options| && options[m] == r.value && |r.value.variables| > 1
                                    && forall j :: 0 <= j < m ==> |options[j].variables| <= 1
    decreases |options|
  {
    if |options| == 0 then None
    else if |options[0].variables| > 1 then Some(options[0])
    else
      var r := FirstTooMany(options[1..]);
      assert forall m :: 1 <= m < |options| ==> options[1..][m - 1] == options[m];
      if r.Some? then FirstTooManyShift(options, r.value); r else r
  }

  /** A first offender of the tail, found after a first option that is not one, is a first offender of the whole. */
  lemma {:induction false} FirstTooManyShift(options: seq<ArgOption>, o: ArgOption)
    requires |options| > 0 && |options[0].variables| <= 1
    requires exists m :: && 0 <= m < |options[1..]| && options[1..][m] == o
                         && forall j :: 0 <= j < m ==> |options[1..][j].variables| <= 1
    ensures exists m :: && 0 <= m < |options| && options[m] == o
                        && forall j :: 0 <= j < m ==> |options[j].variables| <= 1
  {
    var m :| && 0 <= m < |options[1..]| && options[1..][m] == o
              && forall j :: 0 <= j < m ==> |options[1..][j].variables| <= 1;
    forall j | 0 <= j < m + 1 ensures |options[j].variables| <= 1 {
      if j > 0 { assert options[j] == options[1..][j - 1]; }
    }
    assert options[m + 1] == o;
  }

  /**
   * `categorizeArgs` of the older parser: an option with two or more
   * variables fails, and the message names the first such option.
   */
  function LegacyCategorize(args: seq<string>): (r: Result<Categorized, string>)
    ensures r.Err? <==> exists m :: 0 <= m < |Categorize(args).options| && |Categorize(args).options[m].variables| > 1
    ensures r.Ok? ==> r.value == Categorize(args)
    ensures r.Err? ==> exists m :: (0 <= m < |Categorize(args).options| && |Categorize(args).options[m].variables| > 1
      && (forall j :: 0 <= j < m ==> |Categorize(args).options[j].variables| <= 1)
      && r.error == "Option \"" + Categorize(args).options[m].name + "\" has too many variables")
  {
    var c := Categorize(args);
    var bad := FirstTooMany(c.options);
    if bad.Some? then Err("Option \"" + bad.value.name + "\" has too many variables") else Ok(c)
  }

  /** The older parser's positionals are `String` or `Number`. */
  type LegacyPositionalConfig = c: PositionalConfig | c.argType == String || c.argType == Number
    witness PositionalConfig(String, false)

  /** The older parser's options are `Boolean`, `String` or `Number`: it has no string lists. */
  type LegacyOptionConfig = c: OptionConfig | c.argType != StringList
    witness OptionConfig("", Boolean)

  /** One configured option of the older parser: absent non-`Boolean` options fail. */
  function LegacyOptionValue(c: LegacyOptionConfig, found: Option<seq<string>>, parseInt: ParseInt): (r: Result<Value, string>)
  {
    if c.argType == Boolean then Ok(Flag(found.Some?))
    else if found.None? then Err("Missing option named: " + c.name)
    else if |found.value| != 1 then Err("Option \"" + c.name + "\" must have exactly one variable.")
    else if c.argType == String then Ok(Str(found.value[0]))
    else
      assert c.argType == Number;
      var n := parseInt(found.value[0]);
      if n.None? then Err("Invalid number for option: " + c.name) else Ok(Num(n.value))
  }

  /**
   * The option reading of the older `parseCategorizedArgs`: every configured
   * option has an entry. The shared option reader passes configurations of
   * the wider type; those of the older parser are never string lists, so
   * that case only gives no entry.
   */
  function LegacyEntries(parseInt: ParseInt): EntryFn {
    (c: OptionConfig, found: Option<seq<string>>) =>
      if c.argType == StringList then Ok(None)
      else
        var v := LegacyOptionValue(c, found, parseInt);
        if v.Err? then Err(v.error) else Ok(Some(v.value))
  }

  /** The older `parseCategorizedArgs`: only the configured positionals, then every configured option. */
  function LegacyParseCategorized(c: Categorized, positionalConfigs: seq<LegacyPositionalConfig>, optionConfigs: seq<LegacyOptionConfig>,
                                  parseInt: ParseInt): (r: Result<Parsed, string>)
  {
    var positionals := ParsePositionals(positionalConfigs, c.positionals, parseInt, "Missing value at position: ");
    if positionals.Err? then Err(positionals.error)
    else
      var options := ParseOptions(optionConfigs, c.options, LegacyEntries(parseInt), map[]);
      if options.Err? then Err(options.error)
      else Ok(Parsed(positionals.value, options.value))
  }

  /** The older `parseArgs`. */
  function LegacyParseArgs(args: seq<string>, positionalConfigs: seq<LegacyPositionalConfig>, optionConfigs: seq<LegacyOptionConfig>,
                           parseInt: ParseInt): (r: Result<Parsed, string>)
  {
    var c := LegacyCategorize(args);
    if c.Err? then Err(c.error) else LegacyParseCategorized(c.value, positionalConfigs, optionConfigs, parseInt)
  }

  /**
   * A successful parse returns exactly the configured positionals, the
   * extra ones being dropped, each missing, its text or its number.
   */
  lemma {:induction false} ConfiguredPositionalsOnly(args: seq<string>, positionalConfigs: seq<LegacyPositionalConfig>, optionConfigs: seq<LegacyOptionConfig>,
                                  parseInt: ParseInt)
    requires LegacyParseArgs(args, positionalConfigs, optionConfigs, parseInt).Ok?
    ensures var r := LegacyParseArgs(args, positionalConfigs, optionConfigs, parseInt).value;
      var given := Categorize(args).positionals;
      && |r.positionals| == |positionalConfigs|
      && forall k :: 0 <= k < |positionalConfigs| ==>
           (k < |given| && positionalConfigs[k].argType != String ==> parseInt(given[k]).Some?)
           && r.positionals[k] == if k >= |given| then Missing
                               else if positionalConfigs[k].argType == String then Str(given[k])
                               else Num(parseInt(given[k]).value)
  {
    PositionalsExact(positionalConfigs, Categorize(args).positionals, parseInt, "Missing value at position: ");
  }

  /**
   * With distinct option names, the options of a successful parse: every
   * configured option was given unless it is `Boolean`, a `Boolean` option is
   * whether it appeared, a `String` or `Number` option is its one variable,
   * and no other name has an entry.
   */
  lemma {:induction false} LegacyOptionsExact(args: seq<string>, positionalConfigs: seq<LegacyPositionalConfig>, optionConfigs: seq<LegacyOptionConfig>,
                           parseInt: ParseInt, k: nat, x: string)
    requires DistinctNames(optionConfigs) && k < |optionConfigs|
    requires LegacyParseArgs(args, positionalConfigs, optionConfigs, parseInt).Ok?
    ensures var m := LegacyParseArgs(args, positionalConfigs, optionConfigs, parseInt).value.options;
      var cfg := optionConfigs[k];
      var found := LastVariables(Categorize(args).options, cfg.name);
      && cfg.name in m
      && (cfg.argType == Boolean ==> m[cfg.name] == Flag(found.Some?))
      && (cfg.argType != Boolean ==> found.Some? && |found.value| == 1)
      && (cfg.argType == String ==> m[cfg.name] == Str(found.value[0]))
      && (cfg.argType == Number ==>
            parseInt(found.value[0]).Some? && m[cfg.name] == Num(parseInt(found.value[0]).value))
      && (x in m <==> exists j :: 0 <= j < |optionConfigs| && optionConfigs[j].name == x)
  {
    var options := Categorize(args).options;
    var none: map<string, Value> := map[];
    ParseOptionsOk(optionConfigs, options, LegacyEntries(parseInt), none);
    ParseOptionsValues(optionConfigs, options, LegacyEntries(parseInt), none, optionConfigs[k].name);
    ParseOptionsValues(optionConfigs, options, LegacyEntries(parseInt), none, x);
  }

  /** A configured non-`Boolean` option that is absent makes the older parser fail. */
  lemma {:induction false} MissingOption(args: seq<string>, positionalConfigs: seq<LegacyPositionalConfig>, optionConfigs: seq<LegacyOptionConfig>,
                      parseInt: ParseInt, k: nat)
    requires k < |optionConfigs| && optionConfigs[k].argType != Boolean
    requires LastVariables(Categorize(args).options, optionConfigs[k].name).None?
    ensures LegacyParseArgs(args, positionalConfigs, optionConfigs, parseInt).Err?
  {
    var none: map<string, Value> := map[];
    ParseOptionsOk(optionConfigs, Categorize(args).options, LegacyEntries(parseInt), none);
  }
}

=== FILE: legacy_metadata.dfy ===
/**
 * The single-valued metadata store of src/commands/metadataManager.ts: a
 * tag is a name with an optional value, a document maps tag names to tags,
 * and the store keeps documents by id, ids by file name, and an index from
 * tag name to the ids of the documents carrying it.
 *
 * Reading and writing the `.metadata` file and `JSON.parse` are not part of
 * this model; what remains is the encoding of one tag in the JSON document
 * and its decoding, as a small JSON value type.
 */
module LegacyMetadata {
  import opened Wrappers
  import opened Text

  datatype Tag = Tag(name: string, value: Option<string>)

  datatype Meta = Meta(id: string, filePath: string, tagMap: map<string, Tag>)

  datatype Metadata = Metadata(
    metaById: map<string, Meta>,
    idByFileName: map<string, string>,
    idSetByTagName: map<string, set<string>>)

  /** The part of a picture that `init` reads. */
  datatype Picture = Picture(id: string, filePath: string, fileName: string)

  // ---------------------------------------------------------------------
  // Serialized tags: `name` or `name:value`

  /** `Tag.fromSerialized`: split at `:`; three or more pieces are an error. */
  function FromSerialized(s: string): (r: Result<Tag, string>)
  {
    var parts := Split(s, ':');
    if |parts| > 2 then Err("Unexpected non-empty list")
    else Ok(Tag(parts[0], if |parts| == 2 then Some(parts[1]) else None))
  }

  /** `tag.serialized`. */
  function Serialized(t: Tag): string {
    t.name + (if t.value.None? then "" else ":" + t.value.value)
  }

  /** Neither the name nor the value holds a `:`. */
  predicate ColonFree(t: Tag) {
    ':' !in t.name && (t.value.Some? ==> ':' !in t.value.value)
  }

  /** Splitting yields one more piece than there are separators. */
  lemma {:induction false} SplitCount(s: string, c: char)
    ensures |Split(s, c)| == multiset(s)[c] + 1
    decreases |s|
  {
    if |s| > 0 {
      SplitCount(s[1..], c);
      assert s == [s[0]] + s[1..];
      assert multiset(s) == multiset([s[0]]) + multiset(s[1..]);
    }
  }

  /** `fromSerialized` fails exactly when the text holds two or more `:`. */
  lemma {:induction false} FromSerializedFails(s: string)
    ensures FromSerialized(s).Err? <==> multiset(s)[':'] >= 2
  {
    SplitCount(s, ':');
  }

  /** `name` is a tag without value and `name:value` a tag with one. */
  lemma {:induction false} FromSerializedForms(name: string, value: string)
    requires ':' !in name && ':' !in value
    ensures FromSerialized(name) == Ok(Tag(name, None))
    ensures FromSerialized(name + ":" + value) == Ok(Tag(name, Some(value)))
  {
    SplitNoSeparator(name, ':');
    SplitNoSeparator(value, ':');
    SplitAfterPrefix(name, value, ':');
    assert name + ":" + value == name + [':'] + value;
  }

  /** A tag whose name and value hold no `:` survives serializing and reading back. */
  lemma {:induction false} SerializedRoundTrip(t: Tag)
    requires ColonFree(t)
    ensures FromSerialized(Serialized(t)) == Ok(t)
  {
    if t.value.Some? {
      FromSerializedForms(t.name, t.value.value);
      assert Serialized(t) == t.name + ":" + t.value.value;
    } else {
      FromSerializedForms(t.name, "");
      assert Serialized(t) == t.name;
    }
  }

  /** Whatever `fromSerialized` accepts, serializing the tag gives back the text. */
  lemma {:induction false} ReadThenSerialize(s: string)
    requires FromSerialized(s).Ok?
    ensures Serialized(FromSerialized(s).value) == s
    ensures ColonFree(FromSerialized(s).value)
  {
    SplitJoin(s, ':');
    var parts := Split(s, ':');
    assert parts[0] == Split(s, ':')[0];
    if |parts| == 2 {
      assert parts[1..] == [parts[1]];
      assert Join(parts, [':']) == parts[0] + [':'] + parts[1];
    }
  }

  // ---------------------------------------------------------------------
  // `hasTag`

  /** `hasTag`: the document carries the tag's name, and its value too when the query names one. */
  predicate HasTag(m: Meta, t: Tag) {
    t.name in m.tagMap && (t.value.None? || m.tagMap[t.name].value == t.value)
  }

  /** A query without a value matches any saved tag of that name; one with a value needs the same value. */
  lemma {:induction false} HasTagCases(m: Meta, name: string, value: string)
    ensures HasTag(m, Tag(name, None)) <==> name in m.tagMap
    ensures HasTag(m, Tag(name, Some(value))) <==> name in m.tagMap && m.tagMap[name].value == Some(value)
    ensures HasTag(m, Tag(name, Some(value))) ==> HasTag(m, Tag(name, None))
  {}

  // ---------------------------------------------------------------------
  // `init`

  /** The tags stored for an id before `init`, or none. */
  function PriorTags(data: Metadata, id: string): map<string, Tag> {
    if id in data.metaById then data.metaById[id].tagMap else map[]
  }

  /** `guaranteedMetaById`: one document per picture id, keeping the stored tags; a later picture with the same id wins. */
  function InitMetaById(pictures: seq<Picture>, data: Metadata): (r: map<string, Meta>)
    ensures r.Keys == set k | 0 <= k < |pictures| :: pictures[k].id
    decreases |pictures|
  {
    if |pictures| == 0 then map[]
    else
      var p := pictures[|pictures| - 1];
      var before := InitMetaById(pictures[..|pictures| - 1], data);
      assert forall k :: 0 <= k < |pictures| - 1 ==> pictures[..|pictures| - 1][k] == pictures[k];
      before[p.id := Meta(p.id, p.filePath, PriorTags(data, p.id))]
  }

  /** `guaranteedIdByFileName`: a stored id for the file name is kept, otherwise the picture's id. */
  function InitIdByFileName(pictures: seq<Picture>, data: Metadata): (r: map<string, string>)
    ensures r.Keys == set k | 0 <= k < |pictures| :: pictures[k].fileName
    ensures forall f :: f in r && f in data.idByFileName ==> r[f] == data.idByFileName[f]
    decreases |pictures|
  {
    if |pictures| == 0 then map[]
    else
      var p := pictures[|pictures| - 1];
      var before := InitIdByFileName(pictures[..|pictures| - 1], data);
      assert forall k :: 0 <= k < |pictures| - 1 ==> pictures[..|pictures| - 1][k] == pictures[k];
      before[p.fileName := if p.fileName in data.idByFileName then data.idByFileName[p.fileName] else p.id]
  }

  /** Files `id` under each of `names` in the index. */
  function AddToIndex(index: map<string, set<string>>, id: string, names: set<string>): (r: map<string, set<string>>)
  {
    map n | n in index.Keys + names :: (if n in index then index[n] else {}) + (if n in names then {id} else {})
  }

  /** `guaranteedIdSetByTagName`: each picture's id filed under each of its document's tag names. */
  function InitIndex(pictures: seq<Picture>, metaById: map<string, Meta>): map<string, set<string>>
    decreases |pictures|
  {
    if |pictures| == 0 then map[]
    else
      var p := pictures[|pictures| - 1];
      var before := InitIndex(pictures[..|pictures| - 1], metaById);
      AddToIndex(before, p.id, if p.id in metaById then metaById[p.id].tagMap.Keys else {})
  }

  /**
   * The property names every plain object inherits from `Object.prototype`.
   * Reading one that the object does not hold itself gives the inherited
   * function, or for `__proto__` the prototype, where any other missing
   * key gives `undefined`.
   */
  const InheritedKeys: set<string> :=
    {"constructor", "hasOwnProperty", "isPrototypeOf", "propertyIsEnumerable", "toLocaleString", "toString",
     "valueOf", "__defineGetter__", "__defineSetter__", "__lookupGetter__", "__lookupSetter__", "__proto__"}

  /** The TypeError of `guaranteedIdSet.add(pic.id)` when the lookup found an inherited property instead of a set. */
  const InheritedSetError: string := "guaranteedIdSet.add is not a function"

  /** The error of `assertIsString` when a file name's lookup found an inherited property instead of an id. */
  const NonStringError: string := "Unexpected non-string value"

  /** A file name that `in` finds on the prototype of the stored map rather than in it. */
  predicate InheritedFileName(data: Metadata, fileName: string) {
    fileName in InheritedKeys && fileName !in data.idByFileName
  }

  /**
   * The `forEach` that fills `guaranteedIdSetByTagName`, starting from an
   * empty object: a tag name the object inherits makes `add` throw.
   */
  function BuildIndex(pictures: seq<Picture>, metaById: map<string, Meta>): (r: Result<map<string, set<string>>, string>)
    ensures r.Ok? <==> forall k :: 0 <= k < |pictures| && pictures[k].id in metaById ==> metaById[pictures[k].id].tagMap.Keys !! InheritedKeys
    ensures r.Ok? ==> r.value == InitIndex(pictures, metaById)
    ensures r.Err? ==> r.error == InheritedSetError
    decreases |pictures|
  {
    if |pictures| == 0 then Ok(map[])
    else
      var p := pictures[|pictures| - 1];
      var front := pictures[..|pictures| - 1];
      var before := BuildIndex(front, metaById);
      var names := if p.id in metaById then metaById[p.id].tagMap.Keys else {};
      assert forall k :: 0 <= k < |front| ==> front[k] == pictures[k];
      if before.Err? then before
      else if !(names !! InheritedKeys) then Err(InheritedSetError)
      else Ok(AddToIndex(before.value, p.id, names))
  }

  /** `init`: the documents, then the file names, then the index, each of which can throw. */
  function Init(pictures: seq<Picture>, data: Metadata): Result<Metadata, string> {
    var metaById := InitMetaById(pictures, data);
    if exists k :: 0 <= k < |pictures| && InheritedFileName(data, pictures[k].fileName) then Err(NonStringError)
    else
      match BuildIndex(pictures, metaById)
      case Err(e) => Err(e)
      case Ok(index) => Ok(Metadata(metaById, InitIdByFileName(pictures, data), index))
  }

  /** After `init`, each picture's document carries the id and the tags stored for it before, or none. */
  lemma {:induction false} InitKeepsTags(pictures: seq<Picture>, data: Metadata, id: string)
    requires id in InitMetaById(pictures, data)
    ensures InitMetaById(pictures, data)[id].id == id
    ensures InitMetaById(pictures, data)[id].tagMap == PriorTags(data, id)
    decreases |pictures|
  {
    var p := pictures[|pictures| - 1];
    if p.id != id {
      InitKeepsTags(pictures[..|pictures| - 1], data, id);
    }
  }

  /** Some picture has the id. */
  predicate Pictured(pictures: seq<Picture>, id: string) {
    exists k :: 0 <= k < |pictures| && pictures[k].id == id
  }

  /** The index built over `metaById` files an id under a name exactly when a picture has the id and its document the name. */
  lemma {:induction false} InitIndexExact(pictures: seq<Picture>, metaById: map<string, Meta>, name: string, id: string)
    ensures (name in InitIndex(pictures, metaById) && id in InitIndex(pictures, metaById)[name])
        <==> Pictured(pictures, id) && id in metaById && name in metaById[id].tagMap
    decreases |pictures|
  {
    if |pictures| > 0 {
      var front := pictures[..|pictures| - 1];
      var p := pictures[|pictures| - 1];
      InitIndexExact(front, metaById, name, id);
      if Pictured(pictures, id) && p.id != id {
        var k :| 0 <= k < |pictures| && pictures[k].id == id;
        assert front[k] == pictures[k];
      }
      if Pictured(front, id) {
        var k :| 0 <= k < |front| && front[k].id == id;
        assert pictures[k] == front[k];
      }
    }
  }

  /**
   * `init` fails exactly when a picture's file name is inherited by the
   * stored map, or a picture's stored tags carry an inherited name, with
   * the error of `assertIsString` or of `add`.
   */
  lemma {:induction false} InitFails(pictures: seq<Picture>, data: Metadata)
    ensures Init(pictures, data).Err?
        <==> ((exists k :: 0 <= k < |pictures| && InheritedFileName(data, pictures[k].fileName))
              || (exists k :: 0 <= k < |pictures| && !(PriorTags(data, pictures[k].id).Keys !! InheritedKeys)))
    ensures Init(pictures, data).Err? ==> Init(pictures, data).error in {NonStringError, InheritedSetError}
  {
    InitKeepsEveryPicture(pictures, data);
  }

  /** When `init` succeeds, an id is filed under a tag name iff a picture has that id and its stored tags carry the name. */
  lemma {:induction false} InitIndexIff(pictures: seq<Picture>, data: Metadata, m: Metadata, name: string, id: string)
    ensures Init(pictures, data) == Ok(m) ==>
      ((name in m.idSetByTagName && id in m.idSetByTagName[name]) <==> Pictured(pictures, id) && name in PriorTags(data, id))
  {
    var metaById := InitMetaById(pictures, data);
    InitIndexExact(pictures, metaById, name, id);
    if id in metaById {
      InitKeepsTags(pictures, data, id);
    }
    if Pictured(pictures, id) {
      var k :| 0 <= k < |pictures| && pictures[k].id == id;
      assert id in metaById;
    }
  }

  /** Every picture has its document, carrying the tags stored for its id. */
  lemma {:induction false} InitKeepsEveryPicture(pictures: seq<Picture>, data: Metadata)
    ensures forall k :: 0 <= k < |pictures| ==> && pictures[k].id in InitMetaById(pictures, data)
                                                && InitMetaById(pictures, data)[pictures[k].id].tagMap == PriorTags(data, pictures[k].id)
  {
    forall k | 0 <= k < |pictures|
      ensures pictures[k].id in InitMetaById(pictures, data)
      ensures InitMetaById(pictures, data)[pictures[k].id].tagMap == PriorTags(data, pictures[k].id)
    {
      InitKeepsTags(pictures, data, pictures[k].id);
    }
  }

  /** A picture whose stored tags carry `constructor` makes `init` throw instead of building the index. */
  lemma {:induction false} InitInheritedTagName()
    ensures Init([Picture("a", "a.png", "a.png")],
                 Metadata(map["a" := Meta("a", "a.png", map["constructor" := Tag("constructor", None)])], map[], map[]))
         == Err(InheritedSetError)
  {
    var pictures := [Picture("a", "a.png", "a.png")];
    var data := Metadata(map["a" := Meta("a", "a.png", map["constructor" := Tag("constructor", None)])], map[], map[]);
    assert !InheritedFileName(data, pictures[0].fileName);
    InitFails(pictures, data);
    assert "constructor" in PriorTags(data, pictures[0].id).Keys * InheritedKeys;
  }

  // ---------------------------------------------------------------------
  // A tag in the JSON document

  /** The JSON values a tag entry can be: a string, an array, or anything else. */
  datatype Json = JString(text: string) | JArray(items: seq<Json>) | JOther

  /** `write`: a tag without value is its bare name, otherwise `[name, value]`. */
  function EncodeTag(t: Tag): Json {
    if t.value.None? then JString(t.name) else JArray([JString(t.name), JString(t.value.value)])
  }

  /** `assertIsTagSetJson` on one entry: a string, or an array of one or two strings. */
  predicate ValidTagJson(j: Json) {
    || j.JString?
    || (j.JArray? && (|j.items| == 1 || |j.items| == 2) && j.items[0].JString?
        && (|j.items| == 1 || j.items[1].JString?))
  }

  /** `read` on one valid entry: a bare name or a one-element array has no value. */
  function DecodeTag(j: Json): (r: Tag)
    requires ValidTagJson(j)
  {
    if j.JString? then Tag(j.text, None)
    else if |j.items| == 1 then Tag(j.items[0].text, None)
    else Tag(j.items[0].text, Some(j.items[1].text))
  }

  /** The tag map built from a list of tags: each tag filed under its name, a later one replacing an earlier. */
  function TagMapOf(tags: seq<Tag>): (r: map<string, Tag>)
    ensures forall n :: n in r ==> r[n].name == n
    decreases |tags|
  {
    if |tags| == 0 then map[]
    else
      var t := tags[|tags| - 1];
      TagMapOf(tags[..|tags| - 1])[t.name := t]
  }

  /** `read` on a tag list: every entry must be valid, else the whole read fails. */
  function DecodeTagSet(js: seq<Json>): (r: Result<map<string, Tag>, string>)
  {
    if forall k :: 0 <= k < |js| ==> ValidTagJson(js[k]) then
      Ok(TagMapOf(seq(|js|, k requires 0 <= k < |js| && ValidTagJson(js[k]) => DecodeTag(js[k]))))
    else Err("Unexpected non tagSet")
  }

  /** Encoding a tag and decoding it gives the tag back. */
  lemma {:induction false} TagJsonRoundTrip(t: Tag)
    ensures ValidTagJson(EncodeTag(t)) && DecodeTag(EncodeTag(t)) == t
  {}

  /** Decoding then encoding gives the entry back, except that a one-element array becomes a bare name. */
  lemma {:induction false} TagJsonNormalises(j: Json)
    requires ValidTagJson(j)
    ensures EncodeTag(DecodeTag(j)) == (if j.JArray? && |j.items| == 1 then j.items[0] else j)
  {
    if j.JArray? && |j.items| == 2 {
      assert j.items == [j.items[0], j.items[1]];
    }
  }

  /** A written tag list reads back as the tag map of those tags. */
  lemma {:induction false} TagSetRoundTrip(tags: seq<Tag>)
    ensures DecodeTagSet(seq(|tags|, k requires 0 <= k < |tags| => EncodeTag(tags[k]))) == Ok(TagMapOf(tags))
  {
    var js := seq(|tags|, k requires 0 <= k < |tags| => EncodeTag(tags[k]));
    forall k | 0 <= k < |js| ensures ValidTagJson(js[k]) && DecodeTag(js[k]) == tags[k] {
      TagJsonRoundTrip(tags[k]);
    }
    assert seq(|js|, k requires 0 <= k < |js| && ValidTagJson(js[k]) => DecodeTag(js[k])) == tags;
  }

  // ---------------------------------------------------------------------
  // `addTags` and `removeTags`

  /** `getMetaById`: an unknown id stops the program with a message. */
  function MetaById(data: Metadata, id: string): (r: Result<Meta, string>)
    ensures r.Ok? <==> id in data.metaById
    ensures r.Ok? ==> r.value == data.metaById[id]
  {
    if id in data.metaById then Ok(data.metaById[id])
    else Err("Meta with id \"" + id + "\" does not exist")
  }

  /** Sets each tag in turn, by name. */
  function SetTags(tagMap: map<string, Tag>, tags: seq<Tag>): map<string, Tag>
    decreases |tags|
  {
    if |tags| == 0 then tagMap
    else SetTags(tagMap[tags[0].name := tags[0]], tags[1..])
  }

  /** Deletes each name in turn. */
  function DeleteTags(tagMap: map<string, Tag>, names: seq<string>): map<string, Tag>
    decreases |names|
  {
    if |names| == 0 then tagMap
    else DeleteTags(tagMap - {names[0]}, names[1..])
  }

  /** `addTags`; the index is not updated. */
  function AddTags(data: Metadata, id: string, tags: seq<Tag>): (r: Result<Metadata, string>)
    ensures r.Ok? <==> id in data.metaById
  {
    match MetaById(data, id)
    case Err(e) => Err(e)
    case Ok(m) => Ok(data.(metaById := data.metaById[id := m.(tagMap := SetTags(m.tagMap, tags))]))
  }

  /** `removeTags`; the index is not updated. */
  function RemoveTags(data: Metadata, id: string, names: seq<string>): (r: Result<Metadata, string>)
    ensures r.Ok? <==> id in data.metaById
  {
    match MetaById(data, id)
    case Err(e) => Err(e)
    case Ok(m) => Ok(data.(metaById := data.metaById[id := m.(tagMap := DeleteTags(m.tagMap, names))]))
  }

  /** The last tag in the list with the given name, if any. */
  function LastNamed(tags: seq<Tag>, name: string): (r: Option<Tag>)
    ensures r.Some? ==> r.value in tags && r.value.name == name
    ensures r.None? ==> forall k :: 0 <= k < |tags| ==> tags[k].name != name
    decreases |tags|
  {
    if |tags| == 0 then None
    else if tags[|tags| - 1].name == name then Some(tags[|tags| - 1])
    else LastNamed(tags[..|tags| - 1], name)
  }

  /** After setting tags, a name holds the last listed tag of that name, or what it held before. */
  lemma {:induction false} SetTagsEffect(tagMap: map<string, Tag>, tags: seq<Tag>, name: string)
    ensures name in SetTags(tagMap, tags) <==> name in tagMap || LastNamed(tags, name).Some?
    ensures LastNamed(tags, name).Some? ==> SetTags(tagMap, tags)[name] == LastNamed(tags, name).value
    ensures LastNamed(tags, name).None? && name in tagMap ==> SetTags(tagMap, tags)[name] == tagMap[name]
    decreases |tags|
  {
    if |tags| > 0 {
      var rest := tags[1..];
      SetTagsEffect(tagMap[tags[0].name := tags[0]], rest, name);
      LastNamedCons(tags, name);
    }
  }

  /** `LastNamed` looked at from the front: the rest of the list decides, unless it has no such tag. */
  lemma {:induction false} LastNamedCons(tags: seq<Tag>, name: string)
    requires |tags| > 0
    ensures LastNamed(tags, name) == if LastNamed(tags[1..], name).Some? then LastNamed(tags[1..], name)
                                     else if tags[0].name == name then Some(tags[0]) else None
    decreases |tags|
  {
    if |tags| > 1 {
      var front := tags[..|tags| - 1];
      assert front[1..] == tags[1..][..|tags[1..]| - 1];
      assert tags[1..][|tags[1..]| - 1] == tags[|tags| - 1];
      assert front[0] == tags[0];
      LastNamedCons(front, name);
    }
  }

  /** After deleting names, exactly the other names remain, holding what they held. */
  lemma {:induction false} DeleteTagsEffect(tagMap: map<string, Tag>, names: seq<string>)
    ensures DeleteTags(tagMap, names).Keys == tagMap.Keys - set k | 0 <= k < |names| :: names[k]
    ensures forall n :: n in DeleteTags(tagMap, names) ==> DeleteTags(tagMap, names)[n] == tagMap[n]
    decreases |names|
  {
    if |names| > 0 {
      DeleteTagsEffect(tagMap - {names[0]}, names[1..]);
      var all := set k | 0 <= k < |names| :: names[k];
      var rest := set k | 0 <= k < |names[1..]| :: names[1..][k];
      assert all == {names[0]} + rest by {
        forall n | n in all ensures n in {names[0]} + rest {
          var k :| 0 <= k < |names| && names[k] == n;
          if k > 0 { assert names[1..][k - 1] == n; }
        }
        forall n | n in rest ensures n in all {
          var k :| 0 <= k < |names[1..]| && names[1..][k] == n;
          assert names[k + 1] == n;
        }
      }
    }
  }

  /** `addTags` touches one document only, and only through the listed tags. */
  lemma {:induction false} AddTagsEffect(data: Metadata, id: string, tags: seq<Tag>, name: string)
    requires id in data.metaById
    ensures AddTags(data, id, tags).value.idSetByTagName == data.idSetByTagName
    ensures forall other :: other in data.metaById && other != id ==>
      AddTags(data, id, tags).value.metaById[other] == data.metaById[other]
    ensures var after := AddTags(data, id, tags).value.metaById[id].tagMap;
      && (name in after <==> name in data.metaById[id].tagMap || LastNamed(tags, name).Some?)
      && (LastNamed(tags, name).Some? ==> after[name] == LastNamed(tags, name).value)
      && (LastNamed(tags, name).None? && name in after ==> after[name] == data.metaById[id].tagMap[name])
  {
    SetTagsEffect(data.metaById[id].tagMap, tags, name);
  }

  /** `removeTags` deletes the listed names from one document, ignoring absent ones. */
  lemma {:induction false} RemoveTagsEffect(data: Metadata, id: string, names: seq<string>)
    requires id in data.metaById
    ensures RemoveTags(data, id, names).value.idSetByTagName == data.idSetByTagName
    ensures forall other :: other in data.metaById && other != id ==>
      RemoveTags(data, id, names).value.metaById[other] == data.metaById[other]
    ensures RemoveTags(data, id, names).value.metaById[id].tagMap.Keys
         == data.metaById[id].tagMap.Keys - set k | 0 <= k < |names| :: names[k]
    ensures forall n :: n in RemoveTags(data, id, names).value.metaById[id].tagMap ==>
      RemoveTags(data, id, names).value.metaById[id].tagMap[n] == data.metaById[id].tagMap[n]
  {
    DeleteTagsEffect(data.metaById[id].tagMap, names);
  }
}

=== FILE: legacy_search.dfy ===
/**
 * The `search` command of src/commands/subcommands/search.ts over the
 * single-valued store: `runQuery` evaluates a parsed query tree to a set of
 * ids, and the plain form keeps the documents that carry every search tag
 * and none of the ignored ones.
 *
 * The candidate lookup `getIds` is not part of this model and is a
 * parameter; a missing document (`assertIsNotUndefined`) is an error result.
 */
module LegacySearch {
  import opened Wrappers
  import opened LegacyMetadata
  import SearchGrammar
  import opened Stores

  /** The store's candidate lookup for a tag. */
  type GetIds = Tag -> set<string>

  const UndefinedMessage := "Unexpected undefined value"

  /** The id a document carries. */
  function MetaId(m: Meta): string {
    m.id
  }

  /** The ids the stored documents carry. */
  function AllIds(data: Metadata): set<string> {
    StoredIds(data.metaById, MetaId)
  }

  /** Some candidate has no stored document. */
  predicate SomeMissing(data: Metadata, ids: set<string>) {
    exists c :: c in ids && c !in data.metaById
  }

  /** The `TagNode` case: the candidates' documents that carry the tag. */
  function TagIds(data: Metadata, getIds: GetIds, t: Tag): (r: Result<set<string>, string>)
  {
    var candidates := getIds(t);
    if SomeMissing(data, candidates) then Err(UndefinedMessage)
    else Ok(set c | c in candidates && c in data.metaById && HasTag(data.metaById[c], t) :: data.metaById[c].id)
  }

  /** `compute` in `runQuery`: the left operand first, then the right. */
  function Compute(data: Metadata, getIds: GetIds, e: SearchGrammar.Expr): (r: Result<set<string>, string>)
    ensures r.Err? ==> r.error == UndefinedMessage
  {
    match e
    case SelectAll => Ok(AllIds(data))
    case Tag(name, value) => TagIds(data, getIds, Tag(name, value))
    case Intersection(a, b) =>
      var l := Compute(data, getIds, a);
      if l.Err? then l else
      var rr := Compute(data, getIds, b);
      if rr.Err? then rr else Ok(l.value * rr.value)
    case Union(a, b) =>
      var l := Compute(data, getIds, a);
      if l.Err? then l else
      var rr := Compute(data, getIds, b);
      if rr.Err? then rr else Ok(l.value + rr.value)
    case Difference(a, b) =>
      var l := Compute(data, getIds, a);
      if l.Err? then l else
      var rr := Compute(data, getIds, b);
      if rr.Err? then rr else Ok(l.value - rr.value)
  }

  /** `*` yields the ids of all stored documents, whatever they hold. */
  lemma {:induction false} SelectAllExact(data: Metadata, getIds: GetIds, x: string)
    ensures Compute(data, getIds, SearchGrammar.SelectAll).Ok?
    ensures x in Compute(data, getIds, SearchGrammar.SelectAll).value
        <==> exists k :: k in data.metaById && data.metaById[k].id == x
  {}

  /**
   * A tag query fails exactly when a candidate has no document; otherwise it
   * yields the ids of the candidates' documents that carry the tag, and no other.
   */
  lemma {:induction false} TagQueryExact(data: Metadata, getIds: GetIds, name: string, value: Option<string>, x: string)
    ensures Compute(data, getIds, SearchGrammar.Tag(name, value)).Err?
        <==> exists c :: c in getIds(Tag(name, value)) && c !in data.metaById
    ensures Compute(data, getIds, SearchGrammar.Tag(name, value)).Ok? ==>
      (x in Compute(data, getIds, SearchGrammar.Tag(name, value)).value <==>
         exists c :: c in getIds(Tag(name, value)) && c in data.metaById
                && data.metaById[c].id == x && HasTag(data.metaById[c], Tag(name, value)))
  {}

  /** When documents are filed under their own ids, a tag query's result lies within the candidates. */
  lemma {:induction false} TagQueryWithinCandidates(data: Metadata, getIds: GetIds, name: string, value: Option<string>)
    requires FiledUnderOwnIds(data.metaById, MetaId)
    requires Compute(data, getIds, SearchGrammar.Tag(name, value)).Ok?
    ensures Compute(data, getIds, SearchGrammar.Tag(name, value)).value <= getIds(Tag(name, value))
  {}

  /** The set operations succeed when both operands do, with the usual membership. */
  lemma {:induction false} SetOperationsMembership(data: Metadata, getIds: GetIds, a: SearchGrammar.Expr, b: SearchGrammar.Expr, x: string)
    ensures Compute(data, getIds, SearchGrammar.Intersection(a, b)).Ok?
        <==> Compute(data, getIds, a).Ok? && Compute(data, getIds, b).Ok?
    ensures Compute(data, getIds, SearchGrammar.Union(a, b)).Ok?
        <==> Compute(data, getIds, a).Ok? && Compute(data, getIds, b).Ok?
    ensures Compute(data, getIds, SearchGrammar.Difference(a, b)).Ok?
        <==> Compute(data, getIds, a).Ok? && Compute(data, getIds, b).Ok?
    ensures Compute(data, getIds, a).Ok? && Compute(data, getIds, b).Ok? ==>
      && (x in Compute(data, getIds, SearchGrammar.Intersection(a, b)).value <==>
              x in Compute(data, getIds, a).value && x in Compute(data, getIds, b).value)
      && (x in Compute(data, getIds, SearchGrammar.Union(a, b)).value <==>
              x in Compute(data, getIds, a).value || x in Compute(data, getIds, b).value)
      && (x in Compute(data, getIds, SearchGrammar.Difference(a, b)).value <==>
              x in Compute(data, getIds, a).value && x !in Compute(data, getIds, b).value)
  {}

  /** `runQuery` after `compute`: the stored document of each computed id, or the missing-document error. */
  function RunQuery(data: Metadata, getIds: GetIds, e: SearchGrammar.Expr): Result<set<Meta>, string> {
    var ids := Compute(data, getIds, e);
    if ids.Err? then Err(ids.error)
    else if SomeMissing(data, ids.value) then Err(UndefinedMessage)
    else Ok(set id | id in ids.value && id in data.metaById :: data.metaById[id])
  }

  /** When documents are filed under their own ids, every id a query computes is a stored key. */
  lemma {:induction false} ComputeStored(data: Metadata, getIds: GetIds, e: SearchGrammar.Expr)
    ensures FiledUnderOwnIds(data.metaById, MetaId) && Compute(data, getIds, e).Ok? ==>
      Compute(data, getIds, e).value <= data.metaById.Keys
  {
    match e
    case SelectAll =>
    case Tag(name, value) =>
    case Intersection(a, b) =>
      ComputeStored(data, getIds, a);
    case Union(a, b) =>
      ComputeStored(data, getIds, a);
      ComputeStored(data, getIds, b);
    case Difference(a, b) =>
      ComputeStored(data, getIds, a);
  }

  /**
   * When documents are filed under their own ids, the final lookup of
   * `runQuery` never fails: the query fails only when `compute` does, and
   * otherwise yields exactly the stored documents whose ids it computed.
   */
  lemma {:induction false} RunQueryExact(data: Metadata, getIds: GetIds, e: SearchGrammar.Expr, m: Meta)
    requires FiledUnderOwnIds(data.metaById, MetaId)
    ensures RunQuery(data, getIds, e).Ok? <==> Compute(data, getIds, e).Ok?
    ensures RunQuery(data, getIds, e).Ok? ==>
      (m in RunQuery(data, getIds, e).value <==> m in data.metaById.Values && m.id in Compute(data, getIds, e).value)
  {
    ComputeStored(data, getIds, e);
    if Compute(data, getIds, e).Ok? {
      var ids := Compute(data, getIds, e).value;
      if m in data.metaById.Values {
        var k :| k in data.metaById && data.metaById[k] == m;
        assert MetaId(data.metaById[k]) == k;
      }
    }
  }

  // ---------------------------------------------------------------------
  // The plain search: every search tag, none of the ignored tags

  /** `Tag.fromSerialized` over a list; the first failure ends the command. */
  function ParseTags(args: seq<string>): (r: Result<seq<Tag>, string>)
    decreases |args|
  {
    if |args| == 0 then Ok([])
    else
      var head := FromSerialized(args[0]);
      if head.Err? then Err(head.error)
      else
        var rest := ParseTags(args[1..]);
        if rest.Err? then rest else Ok([head.value] + rest.value)
  }

  /** Parsing a list succeeds iff every entry parses, and then yields each entry's tag in order. */
  lemma {:induction false} ParseTagsExact(args: seq<string>)
    ensures ParseTags(args).Ok? <==> forall k :: 0 <= k < |args| ==> FromSerialized(args[k]).Ok?
    ensures ParseTags(args).Ok? ==>
      |ParseTags(args).value| == |args|
      && forall k :: 0 <= k < |args| ==> ParseTags(args).value[k] == FromSerialized(args[k]).value
    decreases |args|
  {
    if |args| > 0 {
      ParseTagsExact(args[1..]);
      assert forall k :: 1 <= k < |args| ==> args[1..][k - 1] == args[k];
    }
  }

  /** The ids `getIds` offers for any of the tags. */
  function AnyMatching(getIds: GetIds, tags: seq<Tag>): set<string> {
    set k, id | 0 <= k < |tags| && id in getIds(tags[k]) :: id
  }

  /** The document carries every search tag and none of the ignored tags. */
  predicate Selected(m: Meta, search: seq<Tag>, ignore: seq<Tag>) {
    (forall k :: 0 <= k < |search| ==> HasTag(m, search[k]))
    && !(exists k :: 0 <= k < |ignore| && HasTag(m, ignore[k]))
  }

  /** `run` without `--query`: the selected documents among the candidates of the search tags. */
  function Run(data: Metadata, getIds: GetIds, searchArgs: seq<string>, ignoreArgs: seq<string>): (r: Result<set<Meta>, string>)
  {
    var search := ParseTags(searchArgs);
    if search.Err? then Err(search.error)
    else
      var ignore := ParseTags(ignoreArgs);
      if ignore.Err? then Err(ignore.error)
      else
        var any := AnyMatching(getIds, search.value);
        if SomeMissing(data, any) then Err(UndefinedMessage)
        else Ok(set id | id in any && id in data.metaById && Selected(data.metaById[id], search.value, ignore.value)
                  :: data.metaById[id])
  }

  /** A search or ignore entry with two or more `:` makes the command fail. */
  lemma {:induction false} RunRejectsBadTag(data: Metadata, getIds: GetIds, searchArgs: seq<string>, ignoreArgs: seq<string>, k: nat)
    requires (k < |searchArgs| && multiset(searchArgs[k])[':'] >= 2)
          || (k < |ignoreArgs| && multiset(ignoreArgs[k])[':'] >= 2)
    ensures Run(data, getIds, searchArgs, ignoreArgs).Err?
  {
    ParseTagsExact(searchArgs);
    ParseTagsExact(ignoreArgs);
    if k < |searchArgs| && multiset(searchArgs[k])[':'] >= 2 {
      FromSerializedFails(searchArgs[k]);
    } else {
      FromSerializedFails(ignoreArgs[k]);
    }
  }

  /**
   * Every returned document carries each search tag and none of the ignored
   * tags, and every stored candidate document that does so is returned.
   */
  lemma {:induction false} RunExact(data: Metadata, getIds: GetIds, searchArgs: seq<string>, ignoreArgs: seq<string>, m: Meta)
    requires Run(data, getIds, searchArgs, ignoreArgs).Ok?
    ensures forall k :: 0 <= k < |searchArgs| ==> FromSerialized(searchArgs[k]).Ok?
    ensures forall k :: 0 <= k < |ignoreArgs| ==> FromSerialized(ignoreArgs[k]).Ok?
    ensures m in Run(data, getIds, searchArgs, ignoreArgs).value <==>
      && (exists id :: id in data.metaById && data.metaById[id] == m
            && exists k :: 0 <= k < |searchArgs| && id in getIds(FromSerialized(searchArgs[k]).value))
      && (forall k :: 0 <= k < |searchArgs| ==> HasTag(m, FromSerialized(searchArgs[k]).value))
      && (forall k :: 0 <= k < |ignoreArgs| ==> !HasTag(m, FromSerialized(ignoreArgs[k]).value))
  {
    ParseTagsExact(searchArgs);
    ParseTagsExact(ignoreArgs);
    var search := ParseTags(searchArgs).value;
    var ignore := ParseTags(ignoreArgs).value;
    var any := AnyMatching(getIds, search);
    if m in Run(data, getIds, searchArgs, ignoreArgs).value {
      var id :| id in any && id in data.metaById && Selected(data.metaById[id], search, ignore) && data.metaById[id] == m;
      var k :| 0 <= k < |search| && id in getIds(search[k]);
    }
  }

  /** With no search tags nothing is returned, whatever is ignored. */
  lemma {:induction false} RunWithoutSearchTags(data: Metadata, getIds: GetIds, ignoreArgs: seq<string>)
    ensures Run(data, getIds, [], ignoreArgs).Ok? <==> forall k :: 0 <= k < |ignoreArgs| ==> FromSerialized(ignoreArgs[k]).Ok?
    ensures Run(data, getIds, [], ignoreArgs).Ok? ==> Run(data, getIds, [], ignoreArgs).value == {}
  {
    ParseTagsExact(ignoreArgs);
    assert AnyMatching(getIds, []) == {};
  }
}

=== FILE: modification_grammar.dfy ===
/**
 * The modification language (src/tag-language/modificationParser.ts):
 *
 *   modification := (expression | ε) ws? (descriptionUnit | ε) ws?   (whole input)
 *   expression   := operation ws+ expression  |  operation
 *   operation    := rename | removeValue | addValue | hardSet | softSet
 *                 | removeTag | addTag                  (tried in this order)
 *   rename       := tagName ws? '>>' ws? tagName
 *   removeValue  := tagName ':' '-' valueUnit
 *   addValue     := tagName ':' '+' valueUnit
 *   hardSet      := tagName ':' '=' valueUnit
 *   softSet      := tagName ':' valueUnit
 *   removeTag    := '-' tagName
 *   addTag       := tagName
 *   descriptionUnit := '#' <rest of input>  |  '-#' <rest of input>
 *
 * The operations come out in input order, with the description operation,
 * if any, last.
 */
module ModificationGrammar {
  import opened Wrappers
  import opened Text
  import opened TagLexer
  import opened ModificationNodes

  // ---------------------------------------------------------------------
  // The rules

  /** `renameTagOperation`. */
  function RenameRule(s: string, i: nat): (r: Option<(Operation, nat)>)
    requires i <= |s|
    ensures r.Some? ==> i < r.value.1 <= |s| && r.value.0.RenameTag?
  {
    match Word(s, i)
    case None => None
    case Some((oldName, j)) =>
      var a := SkipWs(s, j);
      if a + 1 < |s| && s[a] == '>' && s[a + 1] == '>' then
        match Word(s, SkipWs(s, a + 2))
        case None => None
        case Some((newName, k)) => Some((RenameTag(oldName, newName), k))
      else None
  }

  /** `tagName ':' marker tagValueUnit`: the shape of the remove-, add- and hard-set rules. */
  function MarkedValueRule(s: string, i: nat, marker: char): (r: Option<(string, seq<string>, nat)>)
    requires i <= |s|
    ensures r.Some? ==> i < r.value.2 <= |s|
  {
    match Word(s, i)
    case None => None
    case Some((name, j)) => MarkedAfter(s, name, j, marker)
  }

  /** The part of a marked rule after the tag name, which ends at `j`. */
  function MarkedAfter(s: string, name: string, j: nat, marker: char): (r: Option<(string, seq<string>, nat)>)
    requires j <= |s|
    ensures r.Some? ==> j < r.value.2 <= |s|
  {
    if j + 1 < |s| && s[j] == ':' && s[j + 1] == marker then
      match TagValueUnit(s, j + 2)
      case None => None
      case Some((values, k)) => Some((name, values, k))
    else None
  }

  /** `softSetValueOperation`: `tagName ':' tagValueUnit`. */
  function SoftSetRule(s: string, i: nat): (r: Option<(Operation, nat)>)
    requires i <= |s|
    ensures r.Some? ==> i < r.value.1 <= |s| && r.value.0.SoftSetValue?
  {
    match Word(s, i)
    case None => None
    case Some((name, j)) =>
      if j < |s| && s[j] == ':' then
        match TagValueUnit(s, j + 1)
        case None => None
        case Some((values, k)) => Some((SoftSetValue(name, values), k))
      else None
  }

  /** `removeTagOperation`: `'-' tagName`. */
  function RemoveTagRule(s: string, i: nat): (r: Option<(Operation, nat)>)
    requires i <= |s|
    ensures r.Some? ==> i < r.value.1 <= |s| && r.value.0.RemoveTag?
  {
    if i < |s| && s[i] == '-' then
      match Word(s, i + 1)
      case None => None
      case Some((name, j)) => Some((RemoveTag(name), j))
    else None
  }

  /** `addTagOperation`: a bare tag name. */
  function AddTagRule(s: string, i: nat): (r: Option<(Operation, nat)>)
    requires i <= |s|
    ensures r.Some? ==> i < r.value.1 <= |s| && r.value.0.AddTag?
  {
    match Word(s, i)
    case None => None
    case Some((name, j)) => Some((AddTag(name), j))
  }

  /** `operation`: the first alternative that succeeds, in the order of the source. */
  function OperationRule(s: string, i: nat): (r: Option<(Operation, nat)>)
    requires i <= |s|
    ensures r.Some? ==> i < r.value.1 <= |s| && !IsDescription(r.value.0)
  {
    var removeValue := MarkedValueRule(s, i, '-');
    var addValue := MarkedValueRule(s, i, '+');
    var hardSet := MarkedValueRule(s, i, '=');
    if RenameRule(s, i).Some? then RenameRule(s, i)
    else if removeValue.Some? then Some((RemoveValue(removeValue.value.0, removeValue.value.1), removeValue.value.2))
    else if addValue.Some? then Some((AddValue(addValue.value.0, addValue.value.1), addValue.value.2))
    else if hardSet.Some? then Some((HardSetValue(hardSet.value.0, hardSet.value.1), hardSet.value.2))
    else if SoftSetRule(s, i).Some? then SoftSetRule(s, i)
    else if RemoveTagRule(s, i).Some? then RemoveTagRule(s, i)
    else AddTagRule(s, i)
  }

  /**
   * `expression`: an operation, then further operations each after at
   * least one whitespace character; when what follows the whitespace is not
   * an expression, the operation stands alone.
   */
  function ExpressionRule(s: string, i: nat): (r: Option<(seq<Operation>, nat)>)
    requires i <= |s|
    ensures r.Some? ==> i < r.value.1 <= |s| && |r.value.0| >= 1
    ensures r.Some? ==> NoDescription(r.value.0)
    decreases |s| - i
  {
    match OperationRule(s, i)
    case None => None
    case Some((op, j)) =>
      var more := if Ws1(s, j).Some? then ExpressionRule(s, Ws1(s, j).value) else None;
      match more
      case Some((rest, e)) => Some(([op] + rest, e))
      case None => Some(([op], j))
  }

  /** `descriptionUnit`: `#` keeps the rest of the input verbatim; `-#` ignores it. */
  function DescriptionRule(s: string, i: nat): (r: Option<(Operation, nat)>)
    requires i <= |s|
    ensures r.Some? ==> r.value.1 == |s| && (r.value.0.AddDescription? || r.value.0.RemoveDescription?)
    ensures r.Some? && r.value.0.AddDescription? ==> i < |s| && r.value.0.description == s[i + 1..]
  {
    if i < |s| && s[i] == '#' then Some((AddDescription(s[i + 1..]), |s|))
    else if i + 1 < |s| && s[i] == '-' && s[i + 1] == '#' then Some((RemoveDescription, |s|))
    else None
  }

  /** `parseModification`: the operations of a whole input in order, or `None` on a parse error. */
  function ParseModification(s: string): (r: Option<seq<Operation>>)
    ensures r.Some? ==> forall k :: 0 <= k < |r.value| - 1 ==> !IsDescription(r.value[k])
  {
    var (ops, a) := if ExpressionRule(s, 0).Some? then ExpressionRule(s, 0).value else ([], 0);
    var b := SkipWs(s, a);
    var (desc, c) := if DescriptionRule(s, b).Some? then ([DescriptionRule(s, b).value.0], |s|) else ([], b);
    if SkipWs(s, c) == |s| then Some(ops + desc) else None
  }

  // ---------------------------------------------------------------------
  // Printing

  /**
   * One operation as a user writes it: the operation, the whitespace before
   * and after `>>` (a rename's only), and the whitespace that follows it.
   */
  datatype Written = Written(op: Operation, before: string, after: string, gap: string)

  /** A non-description operation whose names and values are kebab words. */
  predicate Printable(op: Operation) {
    match op
    case AddTag(name) => IsKebab(name)
    case RemoveTag(name) => IsKebab(name)
    case RenameTag(oldName, newName) => IsKebab(oldName) && IsKebab(newName)
    case SoftSetValue(name, values) => IsKebab(name) && AllKebab(values)
    case HardSetValue(name, values) => IsKebab(name) && AllKebab(values)
    case AddValue(name, values) => IsKebab(name) && AllKebab(values)
    case RemoveValue(name, values) => IsKebab(name) && AllKebab(values)
    case AddDescription(_) => false
    case RemoveDescription => false
  }

  predicate IsDescription(op: Operation) {
    op.AddDescription? || op.RemoveDescription?
  }

  predicate NoDescription(ops: seq<Operation>) {
    forall k :: 0 <= k < |ops| ==> !IsDescription(ops[k])
  }

  /** An operation as a user writes it, with `before` and `after` around a rename's `>>`. */
  function OperationText(op: Operation, before: string, after: string): string {
    match op
    case AddTag(name) => name
    case RemoveTag(name) => "-" + name
    case RenameTag(oldName, newName) => oldName + before + ">>" + after + newName
    case SoftSetValue(name, values) => name + ":" + UnitText(values)
    case HardSetValue(name, values) => name + ":=" + UnitText(values)
    case AddValue(name, values) => name + ":+" + UnitText(values)
    case RemoveValue(name, values) => name + ":-" + UnitText(values)
    case AddDescription(text) => "#" + text
    case RemoveDescription => "-#"
  }

  function WrittenText(w: Written): string {
    OperationText(w.op, w.before, w.after)
  }

  /**
   * Written operations that the parser can read back: kebab words, whitespace
   * only around `>>` and after each operation, and whitespace between any two
   * of them. The last one may be followed by nothing.
   */
  predicate WrittenOk(items: seq<Written>) {
    forall k :: 0 <= k < |items| ==>
      && Printable(items[k].op)
      && AllWhitespace(items[k].before) && AllWhitespace(items[k].after) && AllWhitespace(items[k].gap)
      && (k < |items| - 1 ==> |items[k].gap| > 0)
  }

  /** The operations of a written run, in order. */
  function Ops(items: seq<Written>): (r: seq<Operation>)
    ensures |r| == |items| && forall k :: 0 <= k < |items| ==> r[k] == items[k].op
  {
    seq(|items|, k requires 0 <= k < |items| => items[k].op)
  }

  /** Written operations, each followed by its gap except the last. */
  function RunText(items: seq<Written>): string
    requires |items| >= 1
  {
    if |items| == 1 then WrittenText(items[0])
    else WrittenText(items[0]) + items[0].gap + RunText(items[1..])
  }

  /** Written operations, each followed by its gap. */
  function ItemsText(items: seq<Written>): string {
    if |items| == 0 then "" else WrittenText(items[0]) + items[0].gap + ItemsText(items[1..])
  }

  /**
   * A whole modification: the written operations, then either a description
   * operation or trailing whitespace. The description needs no whitespace
   * before it.
   */
  function ModificationText(items: seq<Written>, desc: Option<Operation>, trail: string): string {
    ItemsText(items) + (if desc.Some? then OperationText(desc.value, "", "") else trail)
  }

  function Listed(desc: Option<Operation>): seq<Operation> {
    if desc.Some? then [desc.value] else []
  }
}

=== FILE: modification_nodes.dfy ===
/**
 * The nine modification operations of the tag language
 * (the `*OperationNode.ts` files of src/tag-language/nodes/modification-nodes) and their
 * `apply` on one document. Every operation but soft-set always succeeds;
 * soft-set refuses to overwrite a tag that already holds two or more
 * values, and then leaves the document as it was.
 */
module ModificationNodes {
  import opened Wrappers
  import opened Text
  import opened DocumentMeta

  datatype Operation =
    | AddTag(tagName: string)
    | RemoveTag(tagName: string)
    | RenameTag(oldTagName: string, newTagName: string)
    | SoftSetValue(tagName: string, values: seq<string>)
    | HardSetValue(tagName: string, values: seq<string>)
    | AddValue(tagName: string, values: seq<string>)
    | RemoveValue(tagName: string, values: seq<string>)
    | AddDescription(description: string)
    | RemoveDescription

  /** The error soft-set raises on a tag with two or more other values. */
  function SoftSetError(tagName: string, values: seq<string>): string {
    "Unable to soft set tag \"" + tagName + "\" with two or more existing values: " + Join(values, ", ")
  }

  // ---------------------------------------------------------------------
  // One operation on one document

  /** `AddTagOperationNode.apply`. */
  function ApplyAddTag(m: Meta, name: string): (r: Meta)
    ensures HasTag(r, name)
    ensures HasTag(m, name) ==> r == m
    ensures !HasTag(m, name) ==> r.tags[name] == {}
    ensures SameExcept(m, r, name)
  {
    if HasTag(m, name) then m else WithTag(m, name, {})
  }

  /** `RemoveTagOperationNode.apply`. */
  function ApplyRemoveTag(m: Meta, name: string): (r: Meta)
    ensures !HasTag(r, name)
    ensures !HasTag(m, name) ==> r == m
    ensures SameExcept(m, r, name)
  {
    WithoutTag(m, name)
  }

  /** `RenameTagOperationNode.apply`: the tag is re-keyed to the new name with its values. */
  function ApplyRenameTag(m: Meta, oldName: string, newName: string): (r: Meta)
    ensures !HasTag(m, oldName) ==> r == m
    ensures HasTag(m, oldName) ==> HasTag(r, newName) && r.tags[newName] == m.tags[oldName]
    ensures HasTag(m, oldName) && oldName != newName ==> !HasTag(r, oldName)
    ensures r.id == m.id && r.description == m.description
    ensures r.tags.Keys - {oldName, newName} == m.tags.Keys - {oldName, newName}
    ensures forall n :: n in m.tags && n in r.tags && n != oldName && n != newName ==> r.tags[n] == m.tags[n]
  {
    if !HasTag(m, oldName) then m
    else WithTag(WithoutTag(m, oldName), newName, m.tags[oldName])
  }

  /**
   * `SoftSetValueOperationNode.apply`: create or overwrite the tag, unless
   * it already holds two or more values that differ from the new ones.
   */
  function ApplySoftSet(m: Meta, name: string, values: seq<string>): (r: Result<Meta, string>)
    ensures r.Ok? <==> !HasTag(m, name) || m.tags[name] == ValueSet(values) || |m.tags[name]| < 2
    ensures r.Ok? ==> HasTag(r.value, name) && r.value.tags[name] == ValueSet(values)
    ensures r.Ok? ==> SameExcept(m, r.value, name)
    ensures r.Ok? && HasTag(m, name) && m.tags[name] == ValueSet(values) ==> r.value == m
    ensures r.Err? ==> r.error == SoftSetError(name, values)
  {
    var newValues := ValueSet(values);
    if HasTag(m, name) && m.tags[name] == newValues then Ok(m)
    else if HasTag(m, name) && |m.tags[name]| >= 2 then Err(SoftSetError(name, values))
    else Ok(WithTag(m, name, newValues))
  }

  /** `HardSetValueOperationNode.apply`. */
  function ApplyHardSet(m: Meta, name: string, values: seq<string>): (r: Meta)
    ensures HasTag(r, name) && r.tags[name] == ValueSet(values)
    ensures SameExcept(m, r, name)
  {
    WithTag(m, name, ValueSet(values))
  }

  /** `AddValueOperationNode.apply`. */
  function ApplyAddValue(m: Meta, name: string, values: seq<string>): (r: Meta)
    ensures HasTag(r, name)
    ensures HasTag(m, name) ==> r.tags[name] == m.tags[name] + ValueSet(values)
    ensures !HasTag(m, name) ==> r.tags[name] == ValueSet(values)
    ensures SameExcept(m, r, name)
  {
    if HasTag(m, name) then WithTag(m, name, AddAll(m.tags[name], values))
    else WithTag(m, name, ValueSet(values))
  }

  /** `values.forEach(v => tag.addToValueSet(v))`. */
  function AddAll(current: set<string>, values: seq<string>): (r: set<string>)
    ensures r == current + ValueSet(values)
    decreases |values|
  {
    if |values| == 0 then current else AddAll(current + {values[0]}, values[1..])
  }

  /** `RemoveValueOperationNode.apply`. */
  function ApplyRemoveValue(m: Meta, name: string, values: seq<string>): (r: Meta)
    ensures HasTag(r, name) <==> HasTag(m, name)
    ensures HasTag(m, name) ==> r.tags[name] == m.tags[name] - ValueSet(values)
    ensures SameExcept(m, r, name)
  {
    if !HasTag(m, name) then m
    else WithTag(m, name, RemoveAll(m.tags[name], values))
  }

  /** `values.forEach(v => tag.removeFromValueSet(v))`. */
  function RemoveAll(current: set<string>, values: seq<string>): (r: set<string>)
    ensures r == current - ValueSet(values)
    decreases |values|
  {
    if |values| == 0 then current else RemoveAll(current - {values[0]}, values[1..])
  }

  /** `AddDescriptionOperationNode.apply`. */
  function ApplyAddDescription(m: Meta, text: string): (r: Meta)
    ensures r.description == Some(text)
    ensures SameTags(m, r)
  {
    WithDescription(m, Some(text))
  }

  /** `RemoveDescriptionOperationNode.apply`. */
  function ApplyRemoveDescription(m: Meta): (r: Meta)
    ensures !HasDescription(r)
    ensures SameTags(m, r)
  {
    WithDescription(m, None)
  }

  /** `node.apply(meta)` for any operation node; only soft-set can fail. */
  function Apply(op: Operation, m: Meta): (r: Result<Meta, string>)
    ensures !op.SoftSetValue? ==> r.Ok?
    ensures r.Ok? ==> r.value.id == m.id
  {
    match op
    case AddTag(name) => Ok(ApplyAddTag(m, name))
    case RemoveTag(name) => Ok(ApplyRemoveTag(m, name))
    case RenameTag(oldName, newName) => Ok(ApplyRenameTag(m, oldName, newName))
    case SoftSetValue(name, values) => ApplySoftSet(m, name, values)
    case HardSetValue(name, values) => Ok(ApplyHardSet(m, name, values))
    case AddValue(name, values) => Ok(ApplyAddValue(m, name, values))
    case RemoveValue(name, values) => Ok(ApplyRemoveValue(m, name, values))
    case AddDescription(text) => Ok(ApplyAddDescription(m, text))
    case RemoveDescription => Ok(ApplyRemoveDescription(m))
  }

  /** Where a run of operations leaves a document, and the message of the failure that stopped it, if any. */
  datatype Run = Run(meta: Meta, failure: Option<string>)

  /**
   * The operations of one modification applied to one document in order,
   * each changing it in place. A failing soft-set throws before it changes
   * anything, so the run stops there and the changes made before it remain.
   */
  function ApplyAll(ops: seq<Operation>, m: Meta): (r: Run)
    ensures r.meta.id == m.id
    ensures r.failure.Some? ==> exists k :: 0 <= k < |ops| && ops[k].SoftSetValue?
    decreases |ops|
  {
    if |ops| == 0 then Run(m, None)
    else
      match Apply(ops[0], m)
      case Err(e) => Run(m, Some(e))
      case Ok(m1) =>
        var r := ApplyAll(ops[1..], m1);
        assert r.failure.Some? ==> exists k :: 1 <= k < |ops| && ops[k].SoftSetValue? by {
          if r.failure.Some? {
            var k :| 0 <= k < |ops[1..]| && ops[1..][k].SoftSetValue?;
            assert ops[k + 1] == ops[1..][k];
          }
        }
        r
  }

  predicate NoSoftSet(ops: seq<Operation>) {
    forall k :: 0 <= k < |ops| ==> !ops[k].SoftSetValue?
  }

  // ---------------------------------------------------------------------
  // Idempotence and composition

  lemma {:induction false} AddTagIdempotent(m: Meta, name: string)
    ensures ApplyAddTag(ApplyAddTag(m, name), name) == ApplyAddTag(m, name)
  {}

  lemma {:induction false} RemoveTagIdempotent(m: Meta, name: string)
    ensures ApplyRemoveTag(ApplyRemoveTag(m, name), name) == ApplyRemoveTag(m, name)
  {}

  /** A successful soft-set leaves the tag equal to the new values, so a second one changes nothing. */
  lemma {:induction false} SoftSetIdempotent(m: Meta, name: string, values: seq<string>)
    requires ApplySoftSet(m, name, values).Ok?
    ensures ApplySoftSet(ApplySoftSet(m, name, values).value, name, values) == ApplySoftSet(m, name, values)
  {}

  lemma {:induction false} HardSetIdempotent(m: Meta, name: string, values: seq<string>)
    ensures ApplyHardSet(ApplyHardSet(m, name, values), name, values) == ApplyHardSet(m, name, values)
  {}

  /** Hard-set succeeds and overwrites exactly where soft-set refuses. */
  lemma {:induction false} HardSetWhereSoftSetFails(m: Meta, name: string, values: seq<string>)
    requires ApplySoftSet(m, name, values).Err?
    ensures |m.tags[name]| >= 2 && m.tags[name] != ValueSet(values)
    ensures ApplyHardSet(m, name, values).tags[name] == ValueSet(values)
  {}

  /** When soft-set succeeds it agrees with hard-set. */
  lemma {:induction false} SoftSetAgreesWithHardSet(m: Meta, name: string, values: seq<string>)
    requires ApplySoftSet(m, name, values).Ok?
    ensures ApplySoftSet(m, name, values).value == ApplyHardSet(m, name, values)
  {
    var r := ApplySoftSet(m, name, values).value;
    var h := ApplyHardSet(m, name, values);
    assert r.tags == h.tags by {
      assert r.tags.Keys == h.tags.Keys;
    }
  }

  lemma {:induction false} AddValueIdempotent(m: Meta, name: string, values: seq<string>)
    ensures ApplyAddValue(ApplyAddValue(m, name, values), name, values) == ApplyAddValue(m, name, values)
  {
    var once := ApplyAddValue(m, name, values);
    var twice := ApplyAddValue(once, name, values);
    assert twice.tags[name] == once.tags[name];
    assert twice.tags == once.tags;
  }

  /** Adding no values to an existing tag changes nothing. */
  lemma {:induction false} AddNoValues(m: Meta, name: string)
    requires HasTag(m, name)
    ensures ApplyAddValue(m, name, []) == m
  {
    assert ApplyAddValue(m, name, []).tags == m.tags;
  }

  lemma {:induction false} RemoveValueIdempotent(m: Meta, name: string, values: seq<string>)
    ensures ApplyRemoveValue(ApplyRemoveValue(m, name, values), name, values) == ApplyRemoveValue(m, name, values)
  {
    var once := ApplyRemoveValue(m, name, values);
    var twice := ApplyRemoveValue(once, name, values);
    if HasTag(m, name) {
      assert twice.tags[name] == once.tags[name];
      assert twice.tags == once.tags;
    }
  }

  /** Removing values the tag does not hold changes nothing. */
  lemma {:induction false} RemoveAbsentValues(m: Meta, name: string, values: seq<string>)
    requires HasTag(m, name) ==> m.tags[name] !! ValueSet(values)
    ensures ApplyRemoveValue(m, name, values) == m
  {
    if HasTag(m, name) {
      var r := ApplyRemoveValue(m, name, values);
      assert r.tags[name] == m.tags[name];
      assert r.tags == m.tags;
    }
  }

  /** Removing every value of a tag keeps the tag, now empty. */
  lemma {:induction false} RemoveEveryValue(m: Meta, name: string, values: seq<string>)
    requires HasTag(m, name) && m.tags[name] <= ValueSet(values)
    ensures HasTag(ApplyRemoveValue(m, name, values), name)
    ensures ApplyRemoveValue(m, name, values).tags[name] == {}
  {}

  lemma {:induction false} AddDescriptionIdempotent(m: Meta, text: string)
    ensures ApplyAddDescription(ApplyAddDescription(m, text), text) == ApplyAddDescription(m, text)
  {}

  /** Of two descriptions added in turn, the second wins. */
  lemma {:induction false} LastDescriptionWins(m: Meta, first: string, second: string)
    ensures ApplyAddDescription(ApplyAddDescription(m, first), second) == ApplyAddDescription(m, second)
  {}

  lemma {:induction false} RemoveDescriptionIdempotent(m: Meta)
    ensures ApplyRemoveDescription(ApplyRemoveDescription(m)) == ApplyRemoveDescription(m)
  {}

  /** Adding a description and then removing it leaves none, whatever was there before. */
  lemma {:induction false} AddThenRemoveDescription(m: Meta, text: string)
    ensures !HasDescription(ApplyRemoveDescription(ApplyAddDescription(m, text)))
    ensures ApplyRemoveDescription(ApplyAddDescription(m, text)) == ApplyRemoveDescription(m)
  {}

  /** Renaming a tag to its own name changes nothing. */
  lemma {:induction false} RenameToSelf(m: Meta, name: string)
    ensures ApplyRenameTag(m, name, name) == m
  {
    if HasTag(m, name) {
      assert ApplyRenameTag(m, name, name).tags == m.tags;
    }
  }

  /** Renaming there and back restores a document in which the new name was free. */
  lemma {:induction false} RenameThereAndBack(m: Meta, oldName: string, newName: string)
    requires HasTag(m, oldName) && !HasTag(m, newName)
    ensures ApplyRenameTag(ApplyRenameTag(m, oldName, newName), newName, oldName) == m
  {
    var back := ApplyRenameTag(ApplyRenameTag(m, oldName, newName), newName, oldName);
    assert back.tags == m.tags;
  }

  /** A run of operations without soft-set never fails. */
  lemma {:induction false} ApplyAllWithoutSoftSet(ops: seq<Operation>, m: Meta)
    requires NoSoftSet(ops)
    ensures ApplyAll(ops, m).failure.None?
    decreases |ops|
  {
    if |ops| > 0 {
      var m1 := Apply(ops[0], m).value;
      assert NoSoftSet(ops[1..]) by {
        forall k | 0 <= k < |ops[1..]| ensures !ops[1..][k].SoftSetValue? {
          assert ops[1..][k] == ops[k + 1];
        }
      }
      ApplyAllWithoutSoftSet(ops[1..], m1);
    }
  }

  /** Applying `a` and then, unless it failed, `b` is applying `a + b`. */
  lemma {:induction false} ApplyAllAppend(a: seq<Operation>, b: seq<Operation>, m: Meta)
    ensures ApplyAll(a + b, m) == (var r := ApplyAll(a, m); if r.failure.Some? then r else ApplyAll(b, r.meta))
    decreases |a|
  {
    if |a| == 0 {
      assert a + b == b;
    } else {
      assert (a + b)[0] == a[0];
      assert (a + b)[1..] == a[1..] + b;
      match Apply(a[0], m)
      case Err(e) =>
      case Ok(m1) => ApplyAllAppend(a[1..], b, m1);
    }
  }
}

=== FILE: modification_properties.dfy ===
/**
 * What the modification grammar promises: every printed modification is
 * read back as its operations in order with the description last; the
 * alternatives are tried in the order that makes `a:b` a soft-set;
 * operations need whitespace between them; and the cases of
 * src/tag-language/modificationParser.test.ts.
 */
module ModificationProperties {
  import opened Wrappers
  import opened Text
  import opened TagLexer
  import opened ModificationNodes
  import opened ModificationGrammar

  /** A description operation starts at `e`: `#`, or `-` and `#`. */
  predicate DescriptionAt(s: string, e: nat) {
    e < |s| && (s[e] == '#' || (s[e] == '-' && e + 1 < |s| && s[e + 1] == '#'))
  }

  /**
   * What may follow a printed operation: the end, whitespace, or a
   * description operation; and no `>>` after the whitespace.
   */
  predicate OpFollow(s: string, e: nat) {
    && e <= |s|
    && (e == |s| || IsWhitespace(s[e]) || DescriptionAt(s, e))
    && (SkipWs(s, e) == |s| || s[SkipWs(s, e)] != '>')
  }

  lemma {:induction false} FollowStops(s: string, e: nat)
    requires OpFollow(s, e)
    ensures KebabStop(s, e)
  {
    if e < |s| && IsWhitespace(s[e]) {
      StopAtWhitespace(s, e);
    }
  }

  /** A printed value unit starts with `[` or with a word character. */
  lemma {:induction false} UnitTextStart(values: seq<string>)
    requires AllKebab(values)
    ensures |UnitText(values)| > 0
    ensures UnitText(values)[0] == '[' || IsKebabChar(UnitText(values)[0])
  {
    if |values| == 1 {
      assert IsKebab(values[0]);
    }
  }

  /** A printed operation starts with a word character, or with `-` and a word character. */
  lemma {:induction false} OperationTextStart(op: Operation, before: string, after: string)
    requires Printable(op)
    ensures var t := OperationText(op, before, after);
      && (|t| > 1 || (|t| == 1 && IsKebabChar(t[0])))
      && (IsKebabChar(t[0]) || t[0] == '-')
      && (t[0] == '-' ==> IsKebabChar(t[1]))
  {
    match op
    case AddTag(name) => assert IsKebab(name);
    case RemoveTag(name) => assert IsKebab(name);
    case RenameTag(a, _) => assert IsKebab(a);
    case SoftSetValue(name, _) => assert IsKebab(name);
    case HardSetValue(name, _) => assert IsKebab(name);
    case AddValue(name, _) => assert IsKebab(name);
    case RemoveValue(name, _) => assert IsKebab(name);
  }

  // ---------------------------------------------------------------------
  // One step of each rule

  lemma {:induction false} WordRead(s: string, i: nat, w: string, e: nat)
    requires IsKebab(w) && At(s, i, w) && e == i + |w| && KebabStop(s, e)
    ensures Word(s, i) == Some((w, e))
  {
    WordAt(s, i, w);
  }

  lemma {:induction false} RenameStep(s: string, i: nat, a: string, j: nat, p: nat, q: nat, b: string, e: nat)
    requires i <= |s| && Word(s, i) == Some((a, j)) && SkipWs(s, j) == p
    requires p + 1 < |s| && s[p] == '>' && s[p + 1] == '>'
    requires SkipWs(s, p + 2) == q && Word(s, q) == Some((b, e))
    ensures RenameRule(s, i) == Some((RenameTag(a, b), e))
  {}

  lemma {:induction false} NoRenameStep(s: string, i: nat, a: string, j: nat)
    requires i <= |s| && Word(s, i) == Some((a, j))
    requires SkipWs(s, j) == |s| || s[SkipWs(s, j)] != '>'
    ensures RenameRule(s, i).None?
  {}

  lemma {:induction false} MarkedStep(s: string, i: nat, name: string, j: nat, marker: char, values: seq<string>, e: nat)
    requires i <= |s| && Word(s, i) == Some((name, j))
    requires j + 1 < |s| && s[j] == ':' && s[j + 1] == marker
    requires TagValueUnit(s, j + 2) == Some((values, e))
    ensures MarkedValueRule(s, i, marker) == Some((name, values, e))
  {
    assert MarkedAfter(s, name, j, marker) == Some((name, values, e));
  }

  lemma {:induction false} NoMarkedStep(s: string, i: nat, name: string, j: nat, marker: char)
    requires i <= |s| && Word(s, i) == Some((name, j))
    requires j + 1 < |s| ==> s[j] != ':' || s[j + 1] != marker
    ensures MarkedValueRule(s, i, marker).None?
  {}

  lemma {:induction false} SoftSetStep(s: string, i: nat, name: string, j: nat, values: seq<string>, e: nat)
    requires i <= |s| && Word(s, i) == Some((name, j))
    requires j < |s| && s[j] == ':' && TagValueUnit(s, j + 1) == Some((values, e))
    ensures SoftSetRule(s, i) == Some((SoftSetValue(name, values), e))
  {}

  /** Every alternative before remove-tag starts with a word. */
  lemma {:induction false} NoWordNoEarlierRule(s: string, i: nat)
    requires i <= |s| && Word(s, i).None?
    ensures RenameRule(s, i).None? && SoftSetRule(s, i).None?
    ensures MarkedValueRule(s, i, '-').None? && MarkedValueRule(s, i, '+').None? && MarkedValueRule(s, i, '=').None?
  {}

  lemma {:induction false} OperationIsRename(s: string, i: nat)
    requires i <= |s| && RenameRule(s, i).Some?
    ensures OperationRule(s, i) == RenameRule(s, i)
  {}

  lemma {:induction false} OperationIsMarked(s: string, i: nat, marker: char, name: string, values: seq<string>, e: nat)
    requires i <= |s| && RenameRule(s, i).None? && marker in {'-', '+', '='}
    requires MarkedValueRule(s, i, marker) == Some((name, values, e))
    requires forall m :: m != marker ==> MarkedValueRule(s, i, m).None?
    ensures OperationRule(s, i) == Some((if marker == '-' then RemoveValue(name, values)
                                         else if marker == '+' then AddValue(name, values)
                                         else HardSetValue(name, values), e))
  {
    assert MarkedValueRule(s, i, '-').None? || marker == '-';
  }

  lemma {:induction false} OperationIsSoftSet(s: string, i: nat)
    requires i <= |s| && RenameRule(s, i).None? && SoftSetRule(s, i).Some?
    requires MarkedValueRule(s, i, '-').None? && MarkedValueRule(s, i, '+').None? && MarkedValueRule(s, i, '=').None?
    ensures OperationRule(s, i) == SoftSetRule(s, i)
  {}

  lemma {:induction false} OperationIsRemoveTag(s: string, i: nat, name: string, e: nat)
    requires i <= |s| && Word(s, i).None? && i < |s| && s[i] == '-' && Word(s, i + 1) == Some((name, e))
    ensures OperationRule(s, i) == Some((RemoveTag(name), e))
  {
    NoWordNoEarlierRule(s, i);
  }

  lemma {:induction false} OperationIsAddTag(s: string, i: nat, name: string, e: nat)
    requires i <= |s| && Word(s, i) == Some((name, e)) && s[i] != '-'
    requires RenameRule(s, i).None? && SoftSetRule(s, i).None?
    requires MarkedValueRule(s, i, '-').None? && MarkedValueRule(s, i, '+').None? && MarkedValueRule(s, i, '=').None?
    ensures OperationRule(s, i) == Some((AddTag(name), e))
  {}

  // ---------------------------------------------------------------------
  // Reading one operation

  /** A bare tag name is an add-tag: no other alternative applies before it. */
  lemma {:induction false} ReadAddTag(s: string, i: nat, name: string, e: nat)
    requires IsKebab(name) && At(s, i, name) && e == i + |name| && OpFollow(s, e)
    ensures OperationRule(s, i) == Some((AddTag(name), e))
  {
    FollowStops(s, e);
    WordRead(s, i, name, e);
    AtChar(s, i, name, 0);
    NoRenameStep(s, i, name, e);
    NoMarkedStep(s, i, name, e, '-');
    NoMarkedStep(s, i, name, e, '+');
    NoMarkedStep(s, i, name, e, '=');
    assert SoftSetRule(s, i).None?;
    OperationIsAddTag(s, i, name, e);
  }

  /** `-name` is a remove-tag: every earlier alternative starts with a word. */
  lemma {:induction false} ReadRemoveTag(s: string, i: nat, name: string, e: nat)
    requires IsKebab(name) && At(s, i, "-" + name) && e == i + 1 + |name| && OpFollow(s, e)
    ensures OperationRule(s, i) == Some((RemoveTag(name), e))
  {
    AtSplit(s, i, "-", name);
    AtChar(s, i, "-", 0);
    FollowStops(s, e);
    WordRead(s, i + 1, name, e);
    assert Word(s, i).None?;
    OperationIsRemoveTag(s, i, name, e);
  }

  /** Where the pieces of `old >> new` sit in the text. */
  lemma {:induction false} RenamePieces(s: string, i: nat, a: string, b: string, before: string, after: string, p: nat)
    requires At(s, i, a + before + ">>" + after + b) && p == i + |a| + |before|
    ensures At(s, i, a) && At(s, i + |a|, before) && At(s, p + 2, after) && At(s, p + 2 + |after|, b)
    ensures p + 1 < |s| && s[p] == '>' && s[p + 1] == '>'
  {
    AtSplit(s, i, a + before + ">>" + after, b);
    AtSplit(s, i, a + before + ">>", after);
    AtSplit(s, i, a + before, ">>");
    AtSplit(s, i, a, before);
    AtChar(s, p, ">>", 0);
    AtChar(s, p, ">>", 1);
  }

  /** `old >> new`, with or without whitespace on either side of `>>`, is a rename. */
  lemma {:induction false} ReadRename(s: string, i: nat, a: string, b: string, before: string, after: string, e: nat)
    requires IsKebab(a) && IsKebab(b) && AllWhitespace(before) && AllWhitespace(after)
    requires At(s, i, a + before + ">>" + after + b)
    requires e == i + |a| + |before| + 2 + |after| + |b| && OpFollow(s, e)
    ensures OperationRule(s, i) == Some((RenameTag(a, b), e))
  {
    var p := i + |a| + |before|;
    var q := p + 2 + |after|;
    RenameFront(s, i, a, b, before, after, p);
    RenameBack(s, i, a, b, before, after, p, q, e);
    RenameStep(s, i, a, i + |a|, p, q, b, e);
    OperationIsRename(s, i);
  }

  /** The old name, the whitespace and `>>` of a rename. */
  lemma {:induction false} RenameFront(s: string, i: nat, a: string, b: string, before: string, after: string, p: nat)
    requires IsKebab(a) && AllWhitespace(before)
    requires At(s, i, a + before + ">>" + after + b) && p == i + |a| + |before|
    ensures Word(s, i) == Some((a, i + |a|)) && SkipWs(s, i + |a|) == p
    ensures p + 1 < |s| && s[p] == '>' && s[p + 1] == '>'
  {
    RenamePieces(s, i, a, b, before, after, p);
    assert KebabStop(s, i + |a|) by {
      if |before| > 0 { AtChar(s, i + |a|, before, 0); }
    }
    WordRead(s, i, a, i + |a|);
    WsAt(s, i + |a|, before);
  }

  /** The whitespace after `>>` and the new name of a rename. */
  lemma {:induction false} RenameBack(s: string, i: nat, a: string, b: string, before: string, after: string, p: nat, q: nat, e: nat)
    requires IsKebab(b) && AllWhitespace(after)
    requires At(s, i, a + before + ">>" + after + b) && p == i + |a| + |before| && q == p + 2 + |after|
    requires e == q + |b| && OpFollow(s, e)
    ensures SkipWs(s, p + 2) == q && Word(s, q) == Some((b, e))
  {
    RenamePieces(s, i, a, b, before, after, p);
    AtChar(s, q, b, 0);
    WsAt(s, p + 2, after);
    FollowStops(s, e);
    WordRead(s, q, b, e);
  }

  /** Where the pieces of `name:` marker unit sit in the text. */
  lemma {:induction false} MarkedPieces(s: string, i: nat, name: string, marker: char, u: string)
    requires At(s, i, name + [':', marker] + u)
    ensures At(s, i, name) && At(s, i + |name| + 2, u)
    ensures i + |name| + 1 < |s| && s[i + |name|] == ':' && s[i + |name| + 1] == marker
  {
    AtSplit(s, i, name + [':', marker], u);
    AtSplit(s, i, name, [':', marker]);
    AtChar(s, i + |name|, [':', marker], 0);
    AtChar(s, i + |name|, [':', marker], 1);
  }

  /** `name:` then a marker and a value unit: the rule for that marker, and no earlier one, applies. */
  lemma {:induction false} ReadMarked(s: string, i: nat, name: string, marker: char, values: seq<string>, e: nat)
    requires IsKebab(name) && AllKebab(values) && marker in {'-', '+', '='}
    requires At(s, i, name + [':', marker] + UnitText(values))
    requires e == i + |name| + 2 + |UnitText(values)| && OpFollow(s, e)
    ensures MarkedValueRule(s, i, marker) == Some((name, values, e))
    ensures forall m :: m != marker ==> MarkedValueRule(s, i, m).None?
    ensures RenameRule(s, i).None?
  {
    var j := i + |name|;
    MarkedPieces(s, i, name, marker, UnitText(values));
    WordRead(s, i, name, j);
    NoRenameStep(s, i, name, j);
    MarkedUnit(s, j + 2, values, e);
    MarkedStep(s, i, name, j, marker, values, e);
    OtherMarkers(s, i, name, j, marker);
  }

  lemma {:induction false} MarkedUnit(s: string, k: nat, values: seq<string>, e: nat)
    requires AllKebab(values) && At(s, k, UnitText(values)) && e == k + |UnitText(values)| && OpFollow(s, e)
    ensures TagValueUnit(s, k) == Some((values, e))
  {
    FollowStops(s, e);
    UnitTextRoundTrip(s, k, values);
  }

  lemma {:induction false} OtherMarkers(s: string, i: nat, name: string, j: nat, marker: char)
    requires i <= |s| && Word(s, i) == Some((name, j)) && j + 1 < |s| && s[j + 1] == marker
    ensures forall m :: m != marker ==> MarkedValueRule(s, i, m).None?
  {
    forall m | m != marker ensures MarkedValueRule(s, i, m).None? {
      NoMarkedStep(s, i, name, j, m);
    }
  }

  /** `name:` then a value unit is a soft-set: the unit cannot start with a marker. */
  lemma {:induction false} ReadSoftSet(s: string, i: nat, name: string, values: seq<string>, e: nat)
    requires IsKebab(name) && AllKebab(values)
    requires At(s, i, name + ":" + UnitText(values))
    requires e == i + |name| + 1 + |UnitText(values)| && OpFollow(s, e)
    ensures OperationRule(s, i) == Some((SoftSetValue(name, values), e))
  {
    var j := i + |name|;
    assert Word(s, i) == Some((name, j)) && j < |s| && s[j] == ':'
        && TagValueUnit(s, j + 1) == Some((values, e))
        && (j + 1 < |s| ==> s[j + 1] != '-' && s[j + 1] != '+' && s[j + 1] != '=') by {
      SoftSetPieces(s, i, name, values, j, e);
    }
    NoRenameStep(s, i, name, j);
    NoMarkedStep(s, i, name, j, '-');
    NoMarkedStep(s, i, name, j, '+');
    NoMarkedStep(s, i, name, j, '=');
    SoftSetStep(s, i, name, j, values, e);
    OperationIsSoftSet(s, i);
  }

  /** The word, the colon, and the value unit of a printed soft-set, and the unit's first character. */
  lemma {:induction false} SoftSetPieces(s: string, i: nat, name: string, values: seq<string>, j: nat, e: nat)
    requires IsKebab(name) && AllKebab(values)
    requires At(s, i, name + ":" + UnitText(values))
    requires j == i + |name| && e == j + 1 + |UnitText(values)| && OpFollow(s, e)
    ensures Word(s, i) == Some((name, j)) && j < |s| && s[j] == ':'
    ensures TagValueUnit(s, j + 1) == Some((values, e))
    ensures j + 1 < |s| && (s[j + 1] == '[' || IsKebabChar(s[j + 1]))
  {
    AtSplit(s, i, name + ":", UnitText(values));
    AtSplit(s, i, name, ":");
    AtChar(s, j, ":", 0);
    UnitTextStart(values);
    AtChar(s, j + 1, UnitText(values), 0);
    WordRead(s, i, name, j);
    MarkedUnit(s, j + 1, values, e);
  }

  /** The three marked operations, each read by its own rule. */
  lemma {:induction false} ReadValueOperation(s: string, i: nat, op: Operation, before: string, after: string, e: nat)
    requires (op.RemoveValue? || op.AddValue? || op.HardSetValue?) && Printable(op)
    requires At(s, i, OperationText(op, before, after)) && e == i + |OperationText(op, before, after)| && OpFollow(s, e)
    ensures OperationRule(s, i) == Some((op, e))
  {
    var marker := if op.RemoveValue? then '-' else if op.AddValue? then '+' else '=';
    assert OperationText(op, before, after) == op.tagName + [':', marker] + UnitText(op.values);
    ReadMarked(s, i, op.tagName, marker, op.values, e);
    OperationIsMarked(s, i, marker, op.tagName, op.values, e);
  }

  /** Any printed operation is read back by `operation` as itself. */
  lemma {:induction false} ReadOperation(s: string, i: nat, op: Operation, before: string, after: string, e: nat)
    requires Printable(op) && AllWhitespace(before) && AllWhitespace(after)
    requires At(s, i, OperationText(op, before, after)) && e == i + |OperationText(op, before, after)| && OpFollow(s, e)
    ensures OperationRule(s, i) == Some((op, e))
  {
    match op
    case AddTag(name) => ReadAddTag(s, i, name, e);
    case RemoveTag(name) => ReadRemoveTag(s, i, name, e);
    case RenameTag(a, b) => ReadRename(s, i, a, b, before, after, e);
    case SoftSetValue(name, values) => ReadSoftSet(s, i, name, values, e);
    case HardSetValue(_, _) => ReadValueOperation(s, i, op, before, after, e);
    case AddValue(_, _) => ReadValueOperation(s, i, op, before, after, e);
    case RemoveValue(_, _) => ReadValueOperation(s, i, op, before, after, e);
  }

  // ---------------------------------------------------------------------
  // Reading a run of operations

  /** What may follow a printed run of operations: nothing that `expression` could continue with. */
  predicate ExpressionStop(s: string, e: nat)
    requires e <= |s|
  {
    SkipWs(s, e) == e || OperationRule(s, SkipWs(s, e)).None?
  }

  lemma {:induction false} ExpressionOne(s: string, i: nat, op: Operation, e: nat)
    requires i <= e <= |s| && OperationRule(s, i) == Some((op, e)) && ExpressionStop(s, e)
    ensures ExpressionRule(s, i) == Some(([op], e))
  {
    if Ws1(s, e).Some? {
      assert ExpressionRule(s, Ws1(s, e).value).None?;
    }
  }

  lemma {:induction false} ExpressionMore(s: string, i: nat, op: Operation, j: nat, k: nat, rest: seq<Operation>, e: nat)
    requires i <= j <= |s| && OperationRule(s, i) == Some((op, j))
    requires Ws1(s, j) == Some(k) && ExpressionRule(s, k) == Some((rest, e))
    ensures ExpressionRule(s, i) == Some(([op] + rest, e))
  {}

  /** The text of the first operation, the gap, and the text of the rest. */
  lemma {:induction false} JoinPieces(s: string, i: nat, items: seq<Written>, j: nat, k: nat)
    requires |items| >= 2 && At(s, i, RunText(items))
    requires j == i + |WrittenText(items[0])| && k == j + |items[0].gap|
    ensures At(s, i, WrittenText(items[0]))
    ensures At(s, j, items[0].gap)
    ensures At(s, k, RunText(items[1..]))
    ensures i + |RunText(items)| == k + |RunText(items[1..])|
  {
    var t := WrittenText(items[0]);
    AtSplit(s, i, t + items[0].gap, RunText(items[1..]));
    AtSplit(s, i, t, items[0].gap);
  }

  lemma {:induction false} FirstText(s: string, i: nat, items: seq<Written>)
    requires |items| >= 1 && At(s, i, RunText(items))
    ensures At(s, i, WrittenText(items[0]))
  {
    if |items| >= 2 {
      var j := i + |WrittenText(items[0])|;
      JoinPieces(s, i, items, j, j + |items[0].gap|);
    }
  }

  /** Between two printed operations, the gap is one whitespace run leading to the next operation. */
  lemma {:induction false} GapBetween(s: string, j: nat, gap: string, k: nat, next: Written)
    requires |gap| > 0 && AllWhitespace(gap) && Printable(next.op) && k == j + |gap|
    requires At(s, j, gap) && At(s, k, WrittenText(next))
    ensures OpFollow(s, j) && Ws1(s, j) == Some(k)
  {
    OperationTextStart(next.op, next.before, next.after);
    AtChar(s, k, WrittenText(next), 0);
    AtChar(s, j, gap, 0);
    WsAt(s, j, gap);
  }

  lemma {:induction false} WrittenOkTail(items: seq<Written>)
    requires |items| >= 1 && WrittenOk(items)
    ensures WrittenOk(items[1..])
  {
    forall k | 0 <= k < |items[1..]| ensures items[1..][k] == items[k + 1] {}
  }

  /** `expression` reads printed operations separated by whitespace back in order. */
  lemma {:induction false} ReadExpression(s: string, i: nat, items: seq<Written>, e: nat)
    requires |items| >= 1 && WrittenOk(items)
    requires At(s, i, RunText(items))
    requires e == i + |RunText(items)| && OpFollow(s, e) && ExpressionStop(s, e)
    ensures ExpressionRule(s, i) == Some((Ops(items), e))
    decreases |items|, 1
  {
    if |items| == 1 {
      ReadLastOperation(s, i, items, e);
    } else {
      ReadSeveral(s, i, items, e);
    }
  }

  /** Several operations: the first one, the gap, and the rest read by induction. */
  lemma {:induction false} ReadSeveral(s: string, i: nat, items: seq<Written>, e: nat)
    requires |items| >= 2 && WrittenOk(items)
    requires At(s, i, RunText(items))
    requires e == i + |RunText(items)| && OpFollow(s, e) && ExpressionStop(s, e)
    ensures ExpressionRule(s, i) == Some((Ops(items), e))
    decreases |items|, 0
  {
    var j := i + |WrittenText(items[0])|;
    var k := j + |items[0].gap|;
    var rest := items[1..];
    assert OperationRule(s, i) == Some((items[0].op, j)) && Ws1(s, j) == Some(k)
        && At(s, k, RunText(rest))
        && e == k + |RunText(rest)|
        && WrittenOk(rest) && |rest| >= 1 by {
      ReadFirstOperation(s, i, items, j, k);
      WrittenOkTail(items);
    }
    ReadExpression(s, k, rest, e);
    ExpressionCons(s, i, items, j, k, e);
  }

  lemma {:induction false} ExpressionCons(s: string, i: nat, items: seq<Written>, j: nat, k: nat, e: nat)
    requires |items| >= 1 && i <= j <= |s| && OperationRule(s, i) == Some((items[0].op, j))
    requires Ws1(s, j) == Some(k) && ExpressionRule(s, k) == Some((Ops(items[1..]), e))
    ensures ExpressionRule(s, i) == Some((Ops(items), e))
  {
    ExpressionMore(s, i, items[0].op, j, k, Ops(items[1..]), e);
    OpsCons(items);
  }

  lemma {:induction false} OpsCons(items: seq<Written>)
    requires |items| >= 1
    ensures Ops(items) == [items[0].op] + Ops(items[1..])
  {
    assert forall k :: 1 <= k < |items| ==> items[1..][k - 1] == items[k];
  }

  lemma {:induction false} ReadLastOperation(s: string, i: nat, items: seq<Written>, e: nat)
    requires |items| == 1 && WrittenOk(items)
    requires At(s, i, RunText(items))
    requires e == i + |RunText(items)| && OpFollow(s, e) && ExpressionStop(s, e)
    ensures ExpressionRule(s, i) == Some((Ops(items), e))
  {
    ReadOperation(s, i, items[0].op, items[0].before, items[0].after, e);
    ExpressionOne(s, i, items[0].op, e);
    assert [items[0].op] == Ops(items);
  }

  /** The first of several operations is read, and the gap after it is one whitespace run. */
  lemma {:induction false} ReadFirstOperation(s: string, i: nat, items: seq<Written>, j: nat, k: nat)
    requires |items| >= 2 && WrittenOk(items)
    requires At(s, i, RunText(items))
    requires j == i + |WrittenText(items[0])| && k == j + |items[0].gap|
    ensures OperationRule(s, i) == Some((items[0].op, j)) && Ws1(s, j) == Some(k)
    ensures At(s, k, RunText(items[1..]))
    ensures i + |RunText(items)| == k + |RunText(items[1..])|
  {
    JoinPieces(s, i, items, j, k);
    assert At(s, k, WrittenText(items[1])) by {
      FirstText(s, k, items[1..]);
      assert items[1..][0] == items[1];
    }
    assert OpFollow(s, j) && Ws1(s, j) == Some(k) by {
      GapBetween(s, j, items[0].gap, k, items[1]);
    }
    ReadOperation(s, i, items[0].op, items[0].before, items[0].after, j);
  }

  // ---------------------------------------------------------------------
  // Reading a whole modification

  /** No operation, and so no expression, starts at the end, at whitespace, or at a description marker. */
  lemma {:induction false} NoOperationAt(s: string, i: nat)
    requires i <= |s|
    requires i == |s| || IsWhitespace(s[i]) || DescriptionAt(s, i)
    ensures OperationRule(s, i).None? && ExpressionRule(s, i).None?
  {
    assert Word(s, i).None?;
    NoWordNoEarlierRule(s, i);
    if i < |s| && s[i] == '-' {
      assert Word(s, i + 1).None?;
    }
  }

  /** The four steps of `parseModification`: expression, whitespace, description, whitespace. */
  lemma {:induction false} ParseSteps(s: string, ops: seq<Operation>, a: nat, b: nat, desc: seq<Operation>, c: nat)
    requires a <= |s|
    requires if ExpressionRule(s, 0).Some? then ExpressionRule(s, 0) == Some((ops, a)) else ops == [] && a == 0
    requires SkipWs(s, a) == b
    requires if DescriptionRule(s, b).Some? then desc == [DescriptionRule(s, b).value.0] && c == |s| else desc == [] && c == b
    requires c <= |s| && SkipWs(s, c) == |s|
    ensures ParseModification(s) == Some(ops + desc)
  {}

  /** A printed description operation at the end of the input is read back by `descriptionUnit`. */
  lemma {:induction false} ReadDescription(s: string, b: nat, d: Operation)
    requires IsDescription(d) && At(s, b, OperationText(d, "", "")) && b + |OperationText(d, "", "")| == |s|
    ensures DescriptionAt(s, b)
    ensures DescriptionRule(s, b) == Some((d, |s|))
  {
    match d
    case AddDescription(text) =>
      AtSplit(s, b, "#", text);
      AtChar(s, b, "#", 0);
      AtSlice(s, b + 1, text);
      assert s[b + 1..] == s[b + 1..b + 1 + |text|];
    case RemoveDescription =>
      AtChar(s, b, "-#", 0);
      AtChar(s, b, "-#", 1);
  }

  /** Whitespace up to the end of the input: nothing more is read after it. */
  lemma {:induction false} TrailFollows(s: string, e: nat, trail: string)
    requires AllWhitespace(trail) && At(s, e, trail) && e + |trail| == |s|
    ensures SkipWs(s, e) == |s| && OpFollow(s, e) && ExpressionStop(s, e)
  {
    WsAt(s, e, trail);
    if e < |s| {
      AtChar(s, e, trail, 0);
    }
    NoOperationAt(s, |s|);
  }

  /** A gap, possibly empty, then a description operation to the end of the input: the run of operations stops before it. */
  lemma {:induction false} DescriptionFollows(s: string, e: nat, gap: string, b: nat, d: Operation)
    requires AllWhitespace(gap) && At(s, e, gap) && b == e + |gap|
    requires IsDescription(d) && At(s, b, OperationText(d, "", "")) && b + |OperationText(d, "", "")| == |s|
    ensures SkipWs(s, e) == b && OpFollow(s, e) && ExpressionStop(s, e)
    ensures DescriptionRule(s, b) == Some((d, |s|))
  {
    ReadDescription(s, b, d);
    WsAt(s, e, gap);
    if |gap| > 0 {
      AtChar(s, e, gap, 0);
    }
    NoOperationAt(s, b);
  }

  /** `a + b` holds `a` at the start and `b` right after it. */
  lemma {:induction false} AtConcat(a: string, b: string)
    ensures At(a + b, 0, a) && At(a + b, |a|, b)
  {
    assert At(a + b, 0, a + b);
    AtSplit(a + b, 0, a, b);
  }

  /** The written operations are the run that `expression` reads, then the last gap. */
  lemma {:induction false} ItemsSplit(items: seq<Written>)
    requires |items| >= 1
    ensures ItemsText(items) == RunText(items) + items[|items| - 1].gap
    decreases |items|
  {
    if |items| > 1 {
      ItemsSplit(items[1..]);
      assert items[1..][|items[1..]| - 1] == items[|items| - 1];
    }
  }

  /** Whitespace alone is the empty modification. */
  lemma {:induction false} ReadTrailOnly(trail: string)
    requires AllWhitespace(trail)
    ensures ParseModification(ModificationText([], None, trail)) == Some([])
  {
    var s := ModificationText([], None, trail);
    assert s == trail;
    assert At(s, 0, s);
    TrailFollows(s, 0, trail);
    NoOperationAt(s, |s|);
    if |s| > 0 {
      NoOperationAt(s, 0);
    }
    assert DescriptionRule(s, |s|).None?;
    ParseSteps(s, [], 0, |s|, [], |s|);
    var none: seq<Operation> := [];
    assert none + none == none;
  }

  /** A description operation alone is read back alone. */
  lemma {:induction false} ReadDescriptionOnly(d: Operation)
    requires IsDescription(d)
    ensures ParseModification(ModificationText([], Some(d), "")) == Some([d])
  {
    var s := OperationText(d, "", "");
    assert ItemsText([]) == "";
    assert ModificationText([], Some(d), "") == "" + s == s;
    DescriptionAlone(s, d);
  }

  lemma {:induction false} DescriptionAlone(s: string, d: Operation)
    requires IsDescription(d) && s == OperationText(d, "", "")
    ensures ParseModification(s) == Some([d])
  {
    assert At(s, 0, s);
    ReadDescription(s, 0, d);
    NoOperationAt(s, 0);
    SkipWsAtNonSpace(s, 0);
    assert SkipWs(s, |s|) == |s|;
    ParseSteps(s, [], 0, 0, [d], |s|);
    assert [] + [d] == [d];
  }

  /** Written operations, then trailing whitespace. */
  lemma {:induction false} ReadOperationsOnly(items: seq<Written>, trail: string)
    requires |items| >= 1 && WrittenOk(items) && AllWhitespace(trail)
    ensures ParseModification(ModificationText(items, None, trail)) == Some(Ops(items))
  {
    var body := RunText(items);
    var tail := items[|items| - 1].gap + trail;
    var s := body + tail;
    ItemsSplit(items);
    assert ModificationText(items, None, trail) == s;
    AllWhitespaceConcat(items[|items| - 1].gap, trail);
    AtConcat(body, tail);
    TrailFollows(s, |body|, tail);
    ReadExpression(s, 0, items, |body|);
    assert DescriptionRule(s, |s|).None?;
    ParseSteps(s, Ops(items), |body|, |s|, [], |s|);
    assert Ops(items) + [] == Ops(items);
  }

  /** Written operations, then a description operation after the last gap, which may be empty. */
  lemma {:induction false} ReadOperationsAndDescription(items: seq<Written>, d: Operation)
    requires |items| >= 1 && WrittenOk(items) && IsDescription(d)
    ensures ParseModification(ModificationText(items, Some(d), "")) == Some(Ops(items) + [d])
  {
    var body := RunText(items);
    var gap := items[|items| - 1].gap;
    var dt := OperationText(d, "", "");
    var s := body + gap + dt;
    var e := |body|;
    var b := e + |gap|;
    ItemsSplit(items);
    assert ModificationText(items, Some(d), "") == s;
    AtConcat(body + gap, dt);
    AtSplit(s, 0, body, gap);
    DescriptionFollows(s, e, gap, b, d);
    ReadExpression(s, 0, items, e);
    assert SkipWs(s, |s|) == |s|;
    ParseSteps(s, Ops(items), e, b, [d], |s|);
  }

  /**
   * The round trip of the modification language: written operations, each
   * with its own whitespace around `>>` and after it, followed by trailing
   * whitespace or a description operation, are read back as those
   * operations in order with the description last.
   */
  lemma {:induction false} ModificationRoundTrip(items: seq<Written>, desc: Option<Operation>, trail: string)
    requires WrittenOk(items) && AllWhitespace(trail)
    requires desc.Some? ==> IsDescription(desc.value)
    ensures ParseModification(ModificationText(items, desc, trail)) == Some(Ops(items) + Listed(desc))
  {
    match desc
    case None =>
      if |items| == 0 {
        ReadTrailOnly(trail);
        assert Ops(items) == [];
      } else {
        ReadOperationsOnly(items, trail);
      }
      assert Ops(items) + [] == Ops(items);
    case Some(d) =>
      assert ModificationText(items, desc, trail) == ModificationText(items, desc, "");
      if |items| == 0 {
        ReadDescriptionOnly(d);
        assert Ops(items) + [d] == [d];
      } else {
        ReadOperationsAndDescription(items, d);
      }
  }

  lemma {:induction false} ModificationParsesAs(s: string, items: seq<Written>, desc: Option<Operation>, trail: string)
    requires WrittenOk(items) && AllWhitespace(trail) && (desc.Some? ==> IsDescription(desc.value))
    requires s == ModificationText(items, desc, trail)
    ensures ParseModification(s) == Some(Ops(items) + Listed(desc))
  {
    ModificationRoundTrip(items, desc, trail);
  }

  // ---------------------------------------------------------------------
  // Descriptions, and what the grammar rejects

  /** `#` takes everything after it verbatim as the description, whatever it holds. */
  lemma {:induction false} AddDescriptionVerbatim(text: string)
    ensures ParseModification("#" + text) == Some([AddDescription(text)])
  {
    DescriptionTextOf(text);
    assert ItemsText([]) == "";
    assert ModificationText([], Some(AddDescription(text)), "") == "" + ("#" + text) == "#" + text;
    ModificationParsesAs("#" + text, [], Some(AddDescription(text)), "");
    assert Ops([]) + [AddDescription(text)] == [AddDescription(text)];
  }

  /** `-#` removes the description and ignores whatever follows it. */
  lemma {:induction false} RemoveDescriptionIgnoresRest(rest: string)
    ensures ParseModification("-#" + rest) == Some([RemoveDescription])
  {
    var s := "-#" + rest;
    assert s[0] == '-' && s[1] == '#';
    NoOperationAt(s, 0);
    assert SkipWs(s, 0) == 0;
    assert DescriptionRule(s, 0) == Some((RemoveDescription, |s|));
    assert SkipWs(s, |s|) == |s|;
    ParseSteps(s, [], 0, 0, [RemoveDescription], |s|);
    assert [] + [RemoveDescription] == [RemoveDescription];
  }

  /** Whitespace before the first operation is a parse error: only the end of the input may follow it. */
  lemma {:induction false} LeadingWhitespaceRejected(s: string)
    requires |s| > 0 && IsWhitespace(s[0])
    requires SkipWs(s, 0) < |s| && IsKebabChar(s[SkipWs(s, 0)])
    ensures ParseModification(s).None?
  {
    NoOperationAt(s, 0);
  }

  /** Text right after an operation, with no whitespace between, is a parse error. */
  lemma {:induction false} AdjacentTextRejected(s: string, ops: seq<Operation>, e: nat)
    requires ExpressionRule(s, 0) == Some((ops, e)) && e < |s| && IsKebabChar(s[e])
    ensures ParseModification(s).None?
  {
    WordCharStops(s, e);
    ParseStops(s, ops, e);
  }

  lemma {:induction false} WordCharStops(s: string, e: nat)
    requires e < |s| && IsKebabChar(s[e])
    ensures SkipWs(s, e) == e && DescriptionRule(s, e).None?
  {}

  lemma {:induction false} ParseStops(s: string, ops: seq<Operation>, e: nat)
    requires ExpressionRule(s, 0) == Some((ops, e)) && SkipWs(s, e) == e && e < |s| && DescriptionRule(s, e).None?
    ensures ParseModification(s).None?
  {}

  /** `a:[b]` at the start of the input is read as a soft-set, whatever follows the `]`. */
  lemma {:induction false} BracketedSoftSet(s: string)
    requires |s| >= 5 && s[0] == 'a' && s[1] == ':' && s[2] == '[' && s[3] == 'b' && s[4] == ']'
    ensures OperationRule(s, 0) == Some((SoftSetValue("a", ["b"]), 5))
  {
    assert Kebab(s, 0) == Some(1);
    assert s[0..1] == "a";
    assert Word(s, 0) == Some(("a", 1));
    assert RenameRule(s, 0).None?;
    NoMarkedStep(s, 0, "a", 1, '-');
    NoMarkedStep(s, 0, "a", 1, '+');
    NoMarkedStep(s, 0, "a", 1, '=');
    assert Kebab(s, 3) == Some(4);
    assert ListPrime(s, 4) == ([], 4);
    assert s[3..4] == "b";
    assert [s[3..4]] + [] == ["b"];
    assert ListExpression(s, 3) == (["b"], 4);
    assert TagValueList(s, 2) == Some((["b"], 5));
    SoftSetStep(s, 0, "a", 1, ["b"], 5);
    OperationIsSoftSet(s, 0);
  }

  /** `a:[b]c`: the soft-set ends at `]` and `c` is left over, so the input is rejected; `a:[b] c` is two operations. */
  lemma {:induction false} AdjacentOperationsCase()
    ensures ParseModification("a:[b]c").None?
    ensures ParseModification("a:[b] c") == Some([SoftSetValue("a", ["b"]), AddTag("c")])
  {
    var s := "a:[b]c";
    BracketedSoftSet(s);
    assert Ws1(s, 5).None?;
    ExpressionOne(s, 0, SoftSetValue("a", ["b"]), 5);
    AdjacentTextRejected(s, [SoftSetValue("a", ["b"])], 5);
    SpacedOperationsCase();
  }

  lemma {:induction false} SpacedOperationsCase()
    ensures ParseModification("a:[b] c") == Some([SoftSetValue("a", ["b"]), AddTag("c")])
  {
    var t := "a:[b] c";
    BracketedSoftSet(t);
    assert Ws1(t, 5) == Some(6);
    assert IsKebab("c") && At(t, 6, "c");
    ReadAddTag(t, 6, "c", 7);
    NoOperationAt(t, 7);
    ExpressionOne(t, 6, AddTag("c"), 7);
    ExpressionMore(t, 0, SoftSetValue("a", ["b"]), 5, 6, [AddTag("c")], 7);
    assert [SoftSetValue("a", ["b"])] + [AddTag("c")] == [SoftSetValue("a", ["b"]), AddTag("c")];
    assert DescriptionRule(t, 7).None?;
    ParseSteps(t, [SoftSetValue("a", ["b"]), AddTag("c")], 7, 7, [], 7);
    assert [SoftSetValue("a", ["b"]), AddTag("c")] + [] == [SoftSetValue("a", ["b"]), AddTag("c")];
  }

  // ---------------------------------------------------------------------
  // The cases of modificationParser.test.ts

  /** Whitespace only is the empty modification. */
  lemma {:induction false} EmptyCase()
    ensures ParseModification("  ") == Some([])
  {
    assert ModificationText([], None, "  ") == "  ";
    ModificationParsesAs("  ", [], None, "  ");
    assert Ops([]) + Listed(None) == [];
  }

  /** a: a add-tag. */
  lemma {:induction false} AddTagCase()
    ensures ParseModification("a") == Some([AddTag("a")])
  {
    AddTagCaseText();
    ModificationParsesAs("a", [Tight(AddTag("a"))], None, "");
    assert Ops([Tight(AddTag("a"))]) + [] == [AddTag("a")];
  }

  lemma {:induction false} AddTagCaseText()
    ensures WrittenOk([Tight(AddTag("a"))])
    ensures ModificationText([Tight(AddTag("a"))], None, "") == "a"
  {
    assert IsKebab("a") && IsKebab("b");
  }

  /** -a: a remove-tag. */
  lemma {:induction false} RemoveTagCase()
    ensures ParseModification("-a") == Some([RemoveTag("a")])
  {
    RemoveTagCaseText();
    ModificationParsesAs("-a", [Tight(RemoveTag("a"))], None, "");
    assert Ops([Tight(RemoveTag("a"))]) + [] == [RemoveTag("a")];
  }

  lemma {:induction false} RemoveTagCaseText()
    ensures WrittenOk([Tight(RemoveTag("a"))])
    ensures ModificationText([Tight(RemoveTag("a"))], None, "") == "-a"
  {
    assert IsKebab("a") && IsKebab("b");
  }

  /** a:b: a soft-set, not an add-tag followed by leftover text. */
  lemma {:induction false} SoftSetCase()
    ensures ParseModification("a:b") == Some([SoftSetValue("a", ["b"])])
  {
    SoftSetCaseText();
    ModificationParsesAs("a:b", [Tight(SoftSetValue("a", ["b"]))], None, "");
    assert Ops([Tight(SoftSetValue("a", ["b"]))]) + [] == [SoftSetValue("a", ["b"])];
  }

  lemma {:induction false} SoftSetCaseText()
    ensures WrittenOk([Tight(SoftSetValue("a", ["b"]))])
    ensures ModificationText([Tight(SoftSetValue("a", ["b"]))], None, "") == "a:b"
  {
    assert IsKebab("a") && IsKebab("b");
  }

  /** a:=b: a hard-set. */
  lemma {:induction false} HardSetCase()
    ensures ParseModification("a:=b") == Some([HardSetValue("a", ["b"])])
  {
    HardSetCaseText();
    ModificationParsesAs("a:=b", [Tight(HardSetValue("a", ["b"]))], None, "");
    assert Ops([Tight(HardSetValue("a", ["b"]))]) + [] == [HardSetValue("a", ["b"])];
  }

  lemma {:induction false} HardSetCaseText()
    ensures WrittenOk([Tight(HardSetValue("a", ["b"]))])
    ensures ModificationText([Tight(HardSetValue("a", ["b"]))], None, "") == "a:=b"
  {
    assert IsKebab("a") && IsKebab("b");
  }

  /** a:+b: a add-value. */
  lemma {:induction false} AddValueCase()
    ensures ParseModification("a:+b") == Some([AddValue("a", ["b"])])
  {
    AddValueCaseText();
    ModificationParsesAs("a:+b", [Tight(AddValue("a", ["b"]))], None, "");
    assert Ops([Tight(AddValue("a", ["b"]))]) + [] == [AddValue("a", ["b"])];
  }

  lemma {:induction false} AddValueCaseText()
    ensures WrittenOk([Tight(AddValue("a", ["b"]))])
    ensures ModificationText([Tight(AddValue("a", ["b"]))], None, "") == "a:+b"
  {
    assert IsKebab("a") && IsKebab("b");
  }

  /** a:-b: a remove-value. */
  lemma {:induction false} RemoveValueCase()
    ensures ParseModification("a:-b") == Some([RemoveValue("a", ["b"])])
  {
    RemoveValueCaseText();
    ModificationParsesAs("a:-b", [Tight(RemoveValue("a", ["b"]))], None, "");
    assert Ops([Tight(RemoveValue("a", ["b"]))]) + [] == [RemoveValue("a", ["b"])];
  }

  lemma {:induction false} RemoveValueCaseText()
    ensures WrittenOk([Tight(RemoveValue("a", ["b"]))])
    ensures ModificationText([Tight(RemoveValue("a", ["b"]))], None, "") == "a:-b"
  {
    assert IsKebab("a") && IsKebab("b");
  }

  /** a >> b: a rename with spaces around `>>`. */
  lemma {:induction false} SpacedRenameCase()
    ensures ParseModification("a >> b") == Some([RenameTag("a", "b")])
  {
    SpacedRenameCaseText();
    ModificationParsesAs("a >> b", [Written(RenameTag("a", "b"), " ", " ", "")], None, "");
    assert Ops([Written(RenameTag("a", "b"), " ", " ", "")]) + [] == [RenameTag("a", "b")];
  }

  lemma {:induction false} SpacedRenameCaseText()
    ensures WrittenOk([Written(RenameTag("a", "b"), " ", " ", "")])
    ensures ModificationText([Written(RenameTag("a", "b"), " ", " ", "")], None, "") == "a >> b"
  {
    assert IsKebab("a") && IsKebab("b");
  }

  /** a>>b: a rename without spaces. */
  lemma {:induction false} TightRenameCase()
    ensures ParseModification("a>>b") == Some([RenameTag("a", "b")])
  {
    TightRenameCaseText();
    ModificationParsesAs("a>>b", [Tight(RenameTag("a", "b"))], None, "");
    assert Ops([Tight(RenameTag("a", "b"))]) + [] == [RenameTag("a", "b")];
  }

  lemma {:induction false} TightRenameCaseText()
    ensures WrittenOk([Tight(RenameTag("a", "b"))])
    ensures ModificationText([Tight(RenameTag("a", "b"))], None, "") == "a>>b"
  {
    assert IsKebab("a") && IsKebab("b");
  }

  /** `#abc`: an add-description holding `abc`. */
  lemma {:induction false} AddDescriptionCase()
    ensures ParseModification("#abc") == Some([AddDescription("abc")])
  {
    AddDescriptionVerbatim("abc");
    assert "#" + "abc" == "#abc";
  }

  /** `-#`: a remove-description. */
  lemma {:induction false} RemoveDescriptionCase()
    ensures ParseModification("-#") == Some([RemoveDescription])
  {
    RemoveDescriptionIgnoresRest("");
    assert "-#" + "" == "-#";
  }

  /** An operation with no whitespace around `>>` or after it. */
  function Tight(op: Operation): Written {
    Written(op, "", "", "")
  }

  /** An operation followed by one space. */
  function Spaced(op: Operation): Written {
    Written(op, "", "", " ")
  }

  /** Several operations keep their order, and the description comes last. */
  lemma {:induction false} MultipleOperationsCase()
    ensures ParseModification("a b:c d:=e -f g:-h i:+j #the description")
         == Some([AddTag("a"), SoftSetValue("b", ["c"]), HardSetValue("d", ["e"]), RemoveTag("f"),
                  RemoveValue("g", ["h"]), AddValue("i", ["j"]), AddDescription("the description")])
  {
    var items := MultipleOperationsItems();
    MultipleOperationsText();
    MultipleOperationsPrintable();
    DescriptionLast("a b:c d:=e -f g:-h i:+j #the description", items, AddDescription("the description"));
    MultipleOperationsOps();
  }

  lemma {:induction false} DescriptionLast(s: string, items: seq<Written>, d: Operation)
    requires WrittenOk(items) && IsDescription(d)
    requires s == ModificationText(items, Some(d), "")
    ensures ParseModification(s) == Some(Ops(items) + [d])
  {
    ModificationRoundTrip(items, Some(d), "");
  }

  function MultipleOperationsItems(): seq<Written> {
    [Spaced(AddTag("a")), Spaced(SoftSetValue("b", ["c"])), Spaced(HardSetValue("d", ["e"])), Spaced(RemoveTag("f")),
     Spaced(RemoveValue("g", ["h"])), Spaced(AddValue("i", ["j"]))]
  }

  lemma {:induction false} MultipleOperationsOps()
    ensures Ops(MultipleOperationsItems()) + [AddDescription("the description")]
         == [AddTag("a"), SoftSetValue("b", ["c"]), HardSetValue("d", ["e"]), RemoveTag("f"),
             RemoveValue("g", ["h"]), AddValue("i", ["j"]), AddDescription("the description")]
  {
    var r := Ops(MultipleOperationsItems());
    assert r[0] == AddTag("a") && r[1] == SoftSetValue("b", ["c"]) && r[2] == HardSetValue("d", ["e"]);
    assert r[3] == RemoveTag("f") && r[4] == RemoveValue("g", ["h"]) && r[5] == AddValue("i", ["j"]);
  }

  /** One written operation in front of others, in text. */
  lemma {:induction false} ItemsCons(x: Written, rest: seq<Written>)
    ensures ItemsText([x] + rest) == WrittenText(x) + x.gap + ItemsText(rest)
  {
    assert ([x] + rest)[1..] == rest;
  }

  lemma {:induction false} MultipleOperationsText()
    ensures ModificationText(MultipleOperationsItems(), Some(AddDescription("the description")), "")
         == "a b:c d:=e -f g:-h i:+j #the description"
  {
    MultipleOperationsItemsText();
    DescriptionTextOf("the description");
    MultipleOperationsDescription();
  }

  lemma {:induction false} MultipleOperationsItemsText()
    ensures ItemsText(MultipleOperationsItems()) == "a b:c d:=e -f g:-h i:+j "
  {
    var x5 := [Spaced(AddValue("i", ["j"]))];
    var x4 := [Spaced(RemoveValue("g", ["h"]))] + x5;
    var x3 := [Spaced(RemoveTag("f"))] + x4;
    var x2 := [Spaced(HardSetValue("d", ["e"]))] + x3;
    var x1 := [Spaced(SoftSetValue("b", ["c"]))] + x2;
    var x0 := [Spaced(AddTag("a"))] + x1;
    assert x0 == MultipleOperationsItems();
    ItemsCons(x5[0], []);
    ItemsCons(x4[0], x5);
    ItemsCons(x3[0], x4);
    ItemsCons(x2[0], x3);
    ItemsCons(x1[0], x2);
    ItemsCons(x0[0], x1);
    MultipleOperationsUnits();
    MultipleOperationsJoin();
  }

  lemma {:induction false} MultipleOperationsUnits()
    ensures WrittenText(Spaced(AddValue("i", ["j"]))) == "i:+j"
    ensures WrittenText(Spaced(RemoveValue("g", ["h"]))) == "g:-h"
    ensures WrittenText(Spaced(RemoveTag("f"))) == "-f"
    ensures WrittenText(Spaced(HardSetValue("d", ["e"]))) == "d:=e"
    ensures WrittenText(Spaced(SoftSetValue("b", ["c"]))) == "b:c"
    ensures WrittenText(Spaced(AddTag("a"))) == "a"
  {}

  lemma {:induction false} MultipleOperationsJoin()
    ensures "i:+j" + " " + "" == "i:+j "
    ensures "g:-h" + " " + "i:+j " == "g:-h i:+j "
    ensures "-f" + " " + "g:-h i:+j " == "-f g:-h i:+j "
    ensures "d:=e" + " " + "-f g:-h i:+j " == "d:=e -f g:-h i:+j "
    ensures "b:c" + " " + "d:=e -f g:-h i:+j " == "b:c d:=e -f g:-h i:+j "
    ensures "a" + " " + "b:c d:=e -f g:-h i:+j " == "a b:c d:=e -f g:-h i:+j "
  {
    MultipleOperationsJoinFront();
  }

  lemma {:induction false} MultipleOperationsJoinFront()
    ensures "b:c" + " " + "d:=e -f g:-h i:+j " == "b:c d:=e -f g:-h i:+j "
    ensures "a" + " " + "b:c d:=e -f g:-h i:+j " == "a b:c d:=e -f g:-h i:+j "
  {}

  lemma {:induction false} MultipleOperationsDescription()
    ensures "a b:c d:=e -f g:-h i:+j " + "#the description" == "a b:c d:=e -f g:-h i:+j #the description"
  {}

  lemma {:induction false} DescriptionTextOf(text: string)
    ensures OperationText(AddDescription(text), "", "") == "#" + text
  {}

  lemma {:induction false} MultipleOperationsPrintable()
    ensures WrittenOk(MultipleOperationsItems())
  {
    assert IsKebab("a") && IsKebab("b") && IsKebab("c") && IsKebab("d") && IsKebab("e");
    assert IsKebab("f") && IsKebab("g") && IsKebab("h") && IsKebab("i") && IsKebab("j");
    assert AllWhitespace(" ");
  }

  /**
   * Each operation has its own spacing: whitespace on one side of `>>`
   * only, two spaces between operations, and none before the description.
   */
  lemma {:induction false} UnevenSpacingCase()
    ensures ParseModification("a >>b  c:d#x") == Some([RenameTag("a", "b"), SoftSetValue("c", ["d"]), AddDescription("x")])
  {
    UnevenSpacingText();
    UnevenSpacingPrintable();
    DescriptionLast("a >>b  c:d#x", UnevenSpacingItems(), AddDescription("x"));
    UnevenSpacingOps();
  }

  lemma {:induction false} UnevenSpacingOps()
    ensures Ops(UnevenSpacingItems()) + [AddDescription("x")] == [RenameTag("a", "b"), SoftSetValue("c", ["d"]), AddDescription("x")]
  {
    var r := Ops(UnevenSpacingItems());
    assert r[0] == RenameTag("a", "b") && r[1] == SoftSetValue("c", ["d"]);
  }

  function UnevenSpacingItems(): seq<Written> {
    [Written(RenameTag("a", "b"), " ", "", "  "), Tight(SoftSetValue("c", ["d"]))]
  }

  lemma {:induction false} UnevenSpacingPrintable()
    ensures WrittenOk(UnevenSpacingItems())
  {
    assert IsKebab("a") && IsKebab("b") && IsKebab("c") && IsKebab("d");
    assert AllWhitespace(" ") && AllWhitespace("  ") && AllWhitespace("");
  }

  lemma {:induction false} UnevenSpacingText()
    ensures ModificationText(UnevenSpacingItems(), Some(AddDescription("x")), "") == "a >>b  c:d#x"
  {
    var x1 := [Tight(SoftSetValue("c", ["d"]))];
    var x0 := [Written(RenameTag("a", "b"), " ", "", "  ")] + x1;
    assert x0 == UnevenSpacingItems();
    ItemsCons(x1[0], []);
    ItemsCons(x0[0], x1);
    assert WrittenText(x1[0]) == "c:d";
    assert WrittenText(x0[0]) == "a >>b";
    assert ItemsText(x1) == "c:d" + "" + "";
    assert ItemsText(x0) == "a >>b" + "  " + "c:d";
    DescriptionTextOf("x");
  }
}

=== FILE: picture.dfy ===
/**
 * The `Picture` of src/commands/picture.ts: a screenshot file name in one
 * of two accepted forms, the timestamp read from it, its id (the
 * timestamp's hash), and the name it is renamed to.
 */
module Pictures {
  import opened Wrappers
  import opened Text
  import opened Timestamps

  datatype Picture = Picture(fileName: string, filePath: string, timestamp: Timestamp, id: string)

  /** `INPUT_FILE_NAME_REGEX`: `Screenshot YYYY-MM-DD HHMMSS.png`, anchored at both ends. */
  function MatchInput(s: string): (r: Option<Timestamp>)
    ensures r.Some? ==> WellFormed(r.value)
  {
    if |s| == 32 && s[0..11] == "Screenshot "
      && Digits(s[11..15]) && s[15] == '-' && Digits(s[16..18]) && s[18] == '-' && Digits(s[19..21])
      && s[21] == ' ' && Digits(s[22..24]) && Digits(s[24..26]) && Digits(s[26..28]) && s[28..32] == ".png"
    then Some(Timestamp(s[11..15], s[16..18], s[19..21], s[22..24], s[24..26], s[26..28]))
    else None
  }

  /** `TRANSFORMED_FILE_NAME_REGEX`: `YYYY-MM-DD_HH-MM-SS.png`, anchored at both ends. */
  function MatchTransformed(s: string): (r: Option<Timestamp>)
    ensures r.Some? ==> WellFormed(r.value)
  {
    if |s| == 23
      && Digits(s[0..4]) && s[4] == '-' && Digits(s[5..7]) && s[7] == '-' && Digits(s[8..10])
      && s[10] == '_' && Digits(s[11..13]) && s[13] == '-' && Digits(s[14..16]) && s[16] == '-' && Digits(s[17..19])
      && s[19..23] == ".png"
    then Some(Timestamp(s[0..4], s[5..7], s[8..10], s[11..13], s[14..16], s[17..19]))
    else None
  }

  /** The screenshot tool's name for a moment. */
  function ScreenshotName(t: Timestamp): string {
    "Screenshot " + t.year + "-" + t.month + "-" + t.day + " " + t.hour + t.minute + t.second + ".png"
  }

  /** The constructor: the input form is tried first, then the transformed form; any other name fails. */
  function NewPicture(fileName: string, filePath: string): (r: Result<Picture, string>)
    ensures r.Ok? ==> r.value.fileName == fileName && r.value.filePath == filePath
  {
    var m := if MatchInput(fileName).Some? then MatchInput(fileName) else MatchTransformed(fileName);
    if m.None? then Err("Unknown file name format: " + fileName)
    else Ok(Picture(fileName, filePath, m.value, Hash(m.value)))
  }

  /** `transformedFileName`: the formatted timestamp with the `.png` extension. */
  function TransformedFileName(p: Picture): (r: string)
    ensures WellFormed(p.timestamp) ==> |r| == 23
  {
    Formatted(p.timestamp) + ".png"
  }

  /** `isTransformed`: the file already carries its transformed name. */
  predicate IsTransformed(p: Picture) {
    p.fileName == TransformedFileName(p)
  }

  /** A screenshot name reads back as its timestamp, and only such names match the input form. */
  lemma {:induction false} InputRoundTrip(s: string, t: Timestamp)
    ensures WellFormed(t) ==> MatchInput(ScreenshotName(t)) == Some(t)
    ensures MatchInput(s) == Some(t) ==> s == ScreenshotName(t)
  {
    if WellFormed(t) {
      var n := ScreenshotName(t);
      assert n == "Screenshot " + t.year + "-" + t.month + "-" + t.day + " " + t.hour + t.minute + t.second + ".png";
      assert n[0..11] == "Screenshot " && n[11..15] == t.year && n[16..18] == t.month && n[19..21] == t.day;
      assert n[22..24] == t.hour && n[24..26] == t.minute && n[26..28] == t.second && n[28..32] == ".png";
    }
    if MatchInput(s) == Some(t) {
      assert s == s[0..11] + s[11..15] + [s[15]] + s[16..18] + [s[18]] + s[19..21] + [s[21]]
        + s[22..24] + s[24..26] + s[26..28] + s[28..32];
    }
  }

  /** A transformed name reads back as its timestamp, and only such names match the transformed form. */
  lemma {:induction false} TransformedRoundTrip(s: string, t: Timestamp)
    ensures WellFormed(t) ==> MatchTransformed(Formatted(t) + ".png") == Some(t)
    ensures MatchTransformed(s) == Some(t) ==> s == Formatted(t) + ".png"
  {
    if WellFormed(t) {
      var n := Formatted(t) + ".png";
      var f := Formatted(t);
      FormattedLayout(t);
      assert n[0..19] == f && n[19..23] == ".png";
      assert n[0..4] == f[0..4] && n[5..7] == f[5..7] && n[8..10] == f[8..10];
      assert n[11..13] == f[11..13] && n[14..16] == f[14..16] && n[17..19] == f[17..19];
      assert n[4] == f[4] && n[7] == f[7] && n[10] == f[10] && n[13] == f[13] && n[16] == f[16];
    }
    if MatchTransformed(s) == Some(t) {
      assert s == s[0..4] + [s[4]] + s[5..7] + [s[7]] + s[8..10] + [s[10]] + s[11..13] + [s[13]]
        + s[14..16] + [s[16]] + s[17..19] + s[19..23];
    }
  }

  /**
   * A file name is accepted exactly when it is the screenshot name or the
   * transformed name of a well-formed timestamp; otherwise the constructor
   * fails with the name in its message.
   */
  lemma {:induction false} AcceptedNames(fileName: string, filePath: string)
    ensures NewPicture(fileName, filePath).Ok? <==>
      exists t :: WellFormed(t) && (fileName == ScreenshotName(t) || fileName == Formatted(t) + ".png")
    ensures NewPicture(fileName, filePath).Err? ==>
      NewPicture(fileName, filePath).error == "Unknown file name format: " + fileName
  {
    if NewPicture(fileName, filePath).Ok? {
      var t := NewPicture(fileName, filePath).value.timestamp;
      InputRoundTrip(fileName, t);
      TransformedRoundTrip(fileName, t);
    }
    if exists t :: WellFormed(t) && (fileName == ScreenshotName(t) || fileName == Formatted(t) + ".png") {
      var t :| WellFormed(t) && (fileName == ScreenshotName(t) || fileName == Formatted(t) + ".png");
      InputRoundTrip(fileName, t);
      TransformedRoundTrip(fileName, t);
    }
  }

  /**
   * Both names of one moment give pictures with that moment's timestamp and
   * the same id, its hash; the transformed name of either is the transformed form.
   */
  lemma {:induction false} BothFormsShareId(t: Timestamp, path1: string, path2: string)
    requires WellFormed(t)
    ensures NewPicture(ScreenshotName(t), path1).Ok? && NewPicture(Formatted(t) + ".png", path2).Ok?
    ensures NewPicture(ScreenshotName(t), path1).value.timestamp == t
    ensures NewPicture(Formatted(t) + ".png", path2).value.timestamp == t
    ensures NewPicture(ScreenshotName(t), path1).value.id == Hash(t)
    ensures NewPicture(Formatted(t) + ".png", path2).value.id == Hash(t)
  {
    InputRoundTrip(ScreenshotName(t), t);
    TransformedRoundTrip(Formatted(t) + ".png", t);
    FormattedLayout(t);
    assert |Formatted(t) + ".png"| == 23;
  }

  /** A picture's transformed name matches the transformed form and reads back as its timestamp. */
  lemma {:induction false} TransformedNameMatches(fileName: string, filePath: string)
    requires NewPicture(fileName, filePath).Ok?
    ensures MatchTransformed(TransformedFileName(NewPicture(fileName, filePath).value))
         == Some(NewPicture(fileName, filePath).value.timestamp)
  {
    var p := NewPicture(fileName, filePath).value;
    TransformedRoundTrip(TransformedFileName(p), p.timestamp);
  }

  /** A picture from a transformed name is transformed; one from a screenshot name is not. */
  lemma {:induction false} IsTransformedByForm(t: Timestamp, path: string)
    requires WellFormed(t)
    ensures NewPicture(Formatted(t) + ".png", path).Ok? && NewPicture(ScreenshotName(t), path).Ok?
    ensures IsTransformed(NewPicture(Formatted(t) + ".png", path).value)
    ensures !IsTransformed(NewPicture(ScreenshotName(t), path).value)
  {
    BothFormsShareId(t, path, path);
    var p := NewPicture(ScreenshotName(t), path).value;
    assert |p.fileName| == 32 by {
      assert p.fileName == ScreenshotName(t);
    }
    assert |TransformedFileName(p)| == 23;
  }
}

=== FILE: png_bytes.dfy ===
/**
 * Byte-level PNG handling of src/commands/subcommands/combine.ts:
 * big-endian 32-bit integers (`toUInt32` and `Buffer.readUInt32BE`), the
 * chunk layout of section 5.3 of the PNG specification (length, type, data,
 * CRC) read by `decodeChunk`, the critical-chunk test, and the IHDR data of
 * section 11.2.2 read by `decodeImageHeader` and written by `encodeImage`.
 *
 * The CRC (`zlib.crc32`) is not part of this model: it is a function
 * parameter. Node's out-of-range buffer accesses throw; they are the
 * `OutOfRange` error here.
 */
module PngBytes {
  import opened Wrappers
  import opened Text

  type Byte = x: int | 0 <= x < 256
  type Uint32 = x: int | 0 <= x < 0x1_0000_0000

  /** `encodeCrc(type, data)`. */
  type CrcFn = (string, seq<Byte>) -> Uint32

  const OutOfRange := "RangeError"

  // ---------------------------------------------------------------------
  // 32-bit big-endian integers

  /** `toUInt32` (`writeUInt32BE`): four bytes, most significant first; out-of-range values throw. */
  function ToUInt32(v: int): (r: Result<seq<Byte>, string>)
    ensures r.Ok? <==> 0 <= v < 0x1_0000_0000
    ensures r.Ok? ==> |r.value| == 4
  {
    if 0 <= v < 0x1_0000_0000 then
      var q1 := v / 256;
      var q2 := q1 / 256;
      Ok([q2 / 256, q2 % 256, q1 % 256, v % 256])
    else Err(OutOfRange)
  }

  /** `readUInt32BE(offset)`. */
  function ReadUInt32(buf: seq<Byte>, off: nat): (r: Result<Uint32, string>)
    ensures r.Ok? <==> off + 4 <= |buf|
  {
    if off + 4 <= |buf| then
      Ok((buf[off] as int) * 0x100_0000 + (buf[off + 1] as int) * 0x1_0000 + (buf[off + 2] as int) * 0x100 + buf[off + 3] as int)
    else Err(OutOfRange)
  }

  /** Writing a 32-bit value and reading it back, anywhere in a buffer, gives the value. */
  lemma {:induction false} ReadWritten(buf: seq<Byte>, off: nat, v: Uint32)
    requires off + 4 <= |buf| && buf[off..off + 4] == ToUInt32(v).value
    ensures ReadUInt32(buf, off) == Ok(v)
  {
    var q1 := v / 256;
    var q2 := q1 / 256;
    assert buf[off] == q2 / 256 && buf[off + 1] == q2 % 256;
    assert buf[off + 2] == q1 % 256 && buf[off + 3] == v % 256;
  }

  /** Any four bytes read as a value are written back as the same bytes. */
  lemma {:induction false} WriteRead(buf: seq<Byte>, off: nat)
    requires off + 4 <= |buf|
    ensures ToUInt32(ReadUInt32(buf, off).value) == Ok(buf[off..off + 4])
  {
    var v := ReadUInt32(buf, off).value;
    var q1 := v / 256;
    var q2 := q1 / 256;
    var b0, b1, b2, b3 := buf[off] as int, buf[off + 1] as int, buf[off + 2] as int, buf[off + 3] as int;
    assert v == ((b0 * 256 + b1) * 256 + b2) * 256 + b3;
    assert q1 == (b0 * 256 + b1) * 256 + b2 && v % 256 == b3;
    assert q2 == b0 * 256 + b1 && q1 % 256 == b2;
    assert q2 / 256 == b0 && q2 % 256 == b1;
    assert ToUInt32(v).value == [b0, b1, b2, b3];
    assert buf[off..off + 4] == [b0, b1, b2, b3];
  }

  // ---------------------------------------------------------------------
  // Chunks

  datatype Chunk = Chunk(isCritical: bool, length: Uint32, chunkType: string, data: seq<Byte>)

  /** `toUpperCase` of a character with code below 256 (Latin-1), which may lengthen it. */
  function UpperCase(c: char): string {
    if 'a' <= c <= 'z' || (0xE0 as char <= c <= 0xFE as char && c != 0xF7 as char) then [(c as int - 32) as char]
    else if c == 0xB5 as char then [0x39C as char]
    else if c == 0xDF as char then "SS"
    else if c == 0xFF as char then [0x178 as char]
    else [c]
  }

  /** `isCritical`: the first type character is unchanged by upper-casing. */
  predicate IsCritical(c: char) {
    UpperCase(c) == [c]
  }

  /** For a letter, critical means bit 5 of its byte is clear, as section 5.4 of the PNG specification says. */
  lemma {:induction false} CriticalIsBitFive(c: char)
    requires 'a' <= c <= 'z' || 'A' <= c <= 'Z'
    ensures IsCritical(c) <==> (c as int / 32) % 2 == 0
  {}

  /** The chunk type read from four bytes, one character per byte. */
  function TypeOf(b0: Byte, b1: Byte, b2: Byte, b3: Byte): (r: string)
    ensures |r| == 4
  {
    [b0 as char, b1 as char, b2 as char, b3 as char]
  }

  /** `decodeChunk`: length, type, data and CRC; the CRC must match the one computed over type and data. */
  function DecodeChunk(buf: seq<Byte>, off: nat, crc: CrcFn): (r: Result<(Chunk, nat), string>)
    ensures r.Ok? ==> r.value.1 == off + 12 + r.value.0.length <= |buf|
  {
    var length := ReadUInt32(buf, off);
    if length.Err? then Err(length.error)
    else if off + 8 > |buf| then Err(OutOfRange)
    else
      var t := TypeOf(buf[off + 4], buf[off + 5], buf[off + 6], buf[off + 7]);
      var dataEnd := off + 8 + length.value;
      var data := if dataEnd <= |buf| then buf[off + 8..dataEnd] else buf[off + 8..];
      var stored := ReadUInt32(buf, dataEnd);
      if stored.Err? then Err(stored.error)
      else if stored.value != crc(t, data) then
        Err("Corrupted " + t + " chunk. Expected: " + NatToString(crc(t, data)) + ". Received: " + NatToString(stored.value))
      else Ok((Chunk(IsCritical(t[0]), length.value, t, data), dataEnd + 4))
  }

  /** A chunk type as the encoder writes it: four ASCII characters. */
  predicate IsChunkType(t: string) {
    |t| == 4 && forall k :: 0 <= k < 4 ==> t[k] < 128 as char
  }

  /** `Buffer.from(type)` for an ASCII type. */
  function TypeBytes(t: string): (r: seq<Byte>)
    requires IsChunkType(t)
    ensures |r| == 4
  {
    [t[0] as int, t[1] as int, t[2] as int, t[3] as int]
  }

  /** A chunk as `encodeImage` writes it: length, type, data, CRC over type and data. */
  function EncodeChunk(t: string, data: seq<Byte>, crc: CrcFn): (r: Result<seq<Byte>, string>)
    requires IsChunkType(t)
    ensures r.Ok? <==> |data| < 0x1_0000_0000
    ensures r.Ok? ==> |r.value| == 12 + |data|
  {
    var length := ToUInt32(|data|);
    if length.Err? then Err(length.error)
    else Ok(length.value + TypeBytes(t) + data + ToUInt32(crc(t, data)).value)
  }

  /**
   * A written chunk, wherever it sits in a buffer, reads back as its type and
   * data, and the next chunk starts 12 bytes after the end of the data.
   */
  lemma {:induction false} ChunkRoundTrip(pre: seq<Byte>, t: string, data: seq<Byte>, post: seq<Byte>, crc: CrcFn)
    requires IsChunkType(t) && |data| < 0x1_0000_0000
    ensures DecodeChunk(pre + EncodeChunk(t, data, crc).value + post, |pre|, crc)
         == Ok((Chunk(IsCritical(t[0]), |data|, t, data), |pre| + 12 + |data|))
  {
    ChunkFields(pre, t, data, post, crc);
    DecodeChunkWhen(pre + EncodeChunk(t, data, crc).value + post, |pre|, crc, |data|, t, data);
  }

  /** The fields `decodeChunk` reads from a written chunk, wherever it sits in a buffer. */
  lemma {:induction false} ChunkFields(pre: seq<Byte>, t: string, data: seq<Byte>, post: seq<Byte>, crc: CrcFn)
    requires IsChunkType(t) && |data| < 0x1_0000_0000
    ensures var buf := pre + EncodeChunk(t, data, crc).value + post;
      var off := |pre|;
      && off + 12 + |data| <= |buf|
      && ReadUInt32(buf, off) == Ok(|data|)
      && TypeOf(buf[off + 4], buf[off + 5], buf[off + 6], buf[off + 7]) == t
      && buf[off + 8..off + 8 + |data|] == data
      && ReadUInt32(buf, off + 8 + |data|) == Ok(crc(t, data))
  {
    var buf := pre + EncodeChunk(t, data, crc).value + post;
    var off := |pre|;
    ChunkPieces(pre, t, data, post, crc);
    ReadWritten(buf, off, |data|);
    ReadWritten(buf, off + 8 + |data|, crc(t, data));
    assert buf[off + 4] == t[0] as int && buf[off + 5] == t[1] as int;
    assert buf[off + 6] == t[2] as int && buf[off + 7] == t[3] as int;
  }

  /** `decodeChunk` on well-placed fields: the chunk, and the offset after its CRC. */
  lemma {:induction false} DecodeChunkWhen(buf: seq<Byte>, off: nat, crc: CrcFn, length: Uint32, t: string, data: seq<Byte>)
    requires off + 12 + length <= |buf| && ReadUInt32(buf, off) == Ok(length)
    requires TypeOf(buf[off + 4], buf[off + 5], buf[off + 6], buf[off + 7]) == t
    requires buf[off + 8..off + 8 + length] == data
    requires ReadUInt32(buf, off + 8 + length) == Ok(crc(t, data))
    ensures DecodeChunk(buf, off, crc) == Ok((Chunk(IsCritical(t[0]), length, t, data), off + 12 + length))
  {}

  /** Where the length, type, data and CRC of a written chunk sit in a buffer. */
  lemma {:induction false} ChunkPieces(pre: seq<Byte>, t: string, data: seq<Byte>, post: seq<Byte>, crc: CrcFn)
    requires IsChunkType(t) && |data| < 0x1_0000_0000
    ensures var buf := pre + EncodeChunk(t, data, crc).value + post;
      var off := |pre|;
      && |buf| == off + 12 + |data| + |post|
      && buf[off..off + 4] == ToUInt32(|data|).value
      && buf[off + 4..off + 8] == TypeBytes(t)
      && buf[off + 8..off + 8 + |data|] == data
      && buf[off + 8 + |data|..off + 12 + |data|] == ToUInt32(crc(t, data)).value
  {
    var L := ToUInt32(|data|).value;
    var T := TypeBytes(t);
    var C := ToUInt32(crc(t, data)).value;
    var buf := pre + EncodeChunk(t, data, crc).value + post;
    var off := |pre|;
    var tail := L + (T + (data + (C + post)));
    assert buf == pre + tail;
    assert buf[off..] == tail;
    assert tail[..4] == L;
    assert tail[4..] == T + (data + (C + post));
    assert tail[4..8] == T;
    assert tail[8..] == data + (C + post);
    assert tail[8..8 + |data|] == data;
    assert tail[8 + |data|..12 + |data|] == C;
  }

  // ---------------------------------------------------------------------
  // The image header

  datatype Header = Header(
    width: Uint32, height: Uint32, bitDepth: Byte, colorType: Byte,
    compressionMethod: Byte, filterMethod: Byte, interlaceMethod: Byte)

  /** `decodeImageHeader`: two 32-bit values and five single bytes. */
  function DecodeImageHeader(data: seq<Byte>): (r: Result<Header, string>)
    ensures r.Ok? <==> |data| >= 13
  {
    if |data| < 13 then Err(OutOfRange)
    else Ok(Header(ReadUInt32(data, 0).value, ReadUInt32(data, 4).value, data[8], data[9], data[10], data[11], data[12]))
  }

  /** The IHDR data `encodeImage` writes: width, height, bit depth 8, colour type 6, then zeros. */
  function EncodeHeaderData(width: int, height: int): (r: Result<seq<Byte>, string>)
    ensures r.Ok? <==> 0 <= width < 0x1_0000_0000 && 0 <= height < 0x1_0000_0000
    ensures r.Ok? ==> |r.value| == 13
  {
    var w := ToUInt32(width);
    if w.Err? then Err(w.error)
    else
      var h := ToUInt32(height);
      if h.Err? then Err(h.error)
      else Ok(w.value + h.value + [8, 6, 0, 0, 0])
  }

  /** The header the encoder writes decodes to its width and height, 8-bit RGBA, and zeros for the methods. */
  lemma {:induction false} HeaderRoundTrip(width: Uint32, height: Uint32)
    ensures DecodeImageHeader(EncodeHeaderData(width, height).value) == Ok(Header(width, height, 8, 6, 0, 0, 0))
  {
    var data := EncodeHeaderData(width, height).value;
    assert data[0..4] == ToUInt32(width).value;
    assert data[4..8] == ToUInt32(height).value;
    ReadWritten(data, 0, width);
    ReadWritten(data, 4, height);
  }
}

=== FILE: png_combine.dfy ===
/**
 * Image composition in `Combine.run` of src/commands/subcommands/combine.ts:
 * the argument checks, then either images side by side (horizontal) or one
 * above the other (vertical), with transparent black `[0, 0, 0, 0]` where
 * an image is shorter or narrower than the result.
 */
module PngCombine {
  import opened Wrappers
  import opened PngBytes
  import opened PngFilter
  import opened PngImage

  /** `DEFAULT_PIXEL`. */
  const DefaultPixel: Pixel := [0, 0, 0, 0]

  function SumWidths(images: seq<Image>): nat
    decreases |images|
  {
    if |images| == 0 then 0 else SumWidths(images[..|images| - 1]) + images[|images| - 1].width
  }

  function SumHeights(images: seq<Image>): nat
    decreases |images|
  {
    if |images| == 0 then 0 else SumHeights(images[..|images| - 1]) + images[|images| - 1].height
  }

  /** `Math.max` of the widths. */
  function MaxWidth(images: seq<Image>): (r: nat)
    requires |images| >= 1
    ensures forall k :: 0 <= k < |images| ==> images[k].width <= r
    ensures exists k :: 0 <= k < |images| && images[k].width == r
    decreases |images|
  {
    if |images| == 1 then images[0].width
    else
      var front := images[..|images| - 1];
      var m := MaxWidth(front);
      assert forall k :: 0 <= k < |front| ==> front[k] == images[k];
      if images[|images| - 1].width > m then images[|images| - 1].width else m
  }

  /** `Math.max` of the heights. */
  function MaxHeight(images: seq<Image>): (r: nat)
    requires |images| >= 1
    ensures forall k :: 0 <= k < |images| ==> images[k].height <= r
    ensures exists k :: 0 <= k < |images| && images[k].height == r
    decreases |images|
  {
    if |images| == 1 then images[0].height
    else
      var front := images[..|images| - 1];
      var m := MaxHeight(front);
      assert forall k :: 0 <= k < |front| ==> front[k] == images[k];
      if images[|images| - 1].height > m then images[|images| - 1].height else m
  }

  /** An image whose scanlines match its width and height. */
  predicate Sound(img: Image) {
    WellFormed(img.scanlines, img.width, img.height)
  }

  predicate AllSound(images: seq<Image>) {
    forall k :: 0 <= k < |images| ==> Sound(images[k])
  }

  // ---------------------------------------------------------------------
  // Horizontal

  /** An image's part of result row `i`: its own row, or a row of default pixels below its bottom. */
  function Segment(img: Image, i: nat): Scanline {
    if i < |img.scanlines| then img.scanlines[i] else seq(img.width, _ => DefaultPixel)
  }

  /** Result row `i` of the horizontal layout: every image's segment, left to right. */
  function HorizontalRow(images: seq<Image>, i: nat): Scanline
    decreases |images|
  {
    if |images| == 0 then [] else HorizontalRow(images[..|images| - 1], i) + Segment(images[|images| - 1], i)
  }

  function Horizontal(images: seq<Image>): Image
    requires |images| >= 1
  {
    var height := MaxHeight(images);
    Image(seq(height, i requires 0 <= i < height => HorizontalRow(images, i)), SumWidths(images), height)
  }

  /** Image `k` ends within the summed widths. */
  lemma {:induction false} SumWidthsPrefix(images: seq<Image>, k: nat)
    requires k < |images|
    ensures SumWidths(images[..k]) + images[k].width <= SumWidths(images)
    decreases |images|
  {
    var front := images[..|images| - 1];
    if k < |images| - 1 {
      assert front[..k] == images[..k] && front[k] == images[k];
      SumWidthsPrefix(front, k);
    } else {
      assert images[..k] == front;
    }
  }

  /** Every row of the horizontal layout is as wide as the summed widths. */
  lemma {:induction false} HorizontalRowLength(images: seq<Image>, i: nat)
    requires AllSound(images)
    ensures |HorizontalRow(images, i)| == SumWidths(images)
    decreases |images|
  {
    if |images| > 0 {
      var front := images[..|images| - 1];
      assert AllSound(front) by {
        assert forall q :: 0 <= q < |front| ==> front[q] == images[q];
      }
      HorizontalRowLength(front, i);
      assert Sound(images[|images| - 1]);
    }
  }

  /** Row `i` holds each image's segment, image `k` starting after the widths of the images before it. */
  lemma {:induction false} HorizontalRowLayout(images: seq<Image>, i: nat, k: nat)
    requires AllSound(images) && k < |images|
    ensures SumWidths(images[..k]) + images[k].width <= |HorizontalRow(images, i)|
    ensures HorizontalRow(images, i)[SumWidths(images[..k])..SumWidths(images[..k]) + images[k].width] == Segment(images[k], i)
    decreases |images|
  {
    var n := |images|;
    var front := images[..n - 1];
    var a := HorizontalRow(front, i);
    var b := Segment(images[n - 1], i);
    assert HorizontalRow(images, i) == a + b;
    assert AllSound(front) by {
      assert forall q :: 0 <= q < |front| ==> front[q] == images[q];
    }
    HorizontalRowLength(front, i);
    HorizontalRowLength(images, i);
    SumWidthsPrefix(images, k);
    if k < n - 1 {
      assert front[..k] == images[..k] && front[k] == images[k];
      HorizontalRowLayout(front, i, k);
      var off := SumWidths(images[..k]);
      SliceOfLeft(a, b, off, off + images[k].width);
    } else {
      assert images[..k] == front;
      SliceOfRight(a, b);
    }
  }

  /** Every row of the horizontal layout has the summed width, in pixels of four bytes. */
  lemma {:induction false} HorizontalRowShaped(images: seq<Image>, i: nat)
    requires AllSound(images)
    ensures |HorizontalRow(images, i)| == SumWidths(images) && PixelsShaped(HorizontalRow(images, i))
  {
    HorizontalRowLength(images, i);
    forall q | 0 <= q < |HorizontalRow(images, i)| ensures |HorizontalRow(images, i)[q]| == 4 {
      SegmentPixelShaped(images, i, q);
    }
  }

  /** Side by side: the widths add up, the height is the tallest image's, and the result is a sound image. */
  lemma {:induction false} HorizontalSound(images: seq<Image>)
    requires |images| >= 1 && AllSound(images)
    ensures Horizontal(images).width == SumWidths(images)
    ensures Horizontal(images).height == MaxHeight(images)
    ensures Sound(Horizontal(images))
  {
    var h := Horizontal(images);
    forall r | 0 <= r < |h.scanlines| ensures |h.scanlines[r]| == h.width && PixelsShaped(h.scanlines[r]) {
      HorizontalRowShaped(images, r);
    }
  }

  /**
   * Each image keeps its pixels at its horizontal offset (the widths of the
   * images left of it), with default pixels below a shorter image.
   */
  lemma {:induction false} HorizontalLayout(images: seq<Image>, k: nat, i: nat, x: nat)
    requires |images| >= 1 && AllSound(images) && k < |images|
    requires i < MaxHeight(images) && x < images[k].width
    ensures |Horizontal(images).scanlines| == MaxHeight(images)
    ensures |Horizontal(images).scanlines[i]| == SumWidths(images)
    ensures SumWidths(images[..k]) + x < SumWidths(images)
    ensures Horizontal(images).scanlines[i][SumWidths(images[..k]) + x]
         == if i < images[k].height then images[k].scanlines[i][x] else DefaultPixel
  {
    var row := HorizontalRow(images, i);
    HorizontalRowLength(images, i);
    HorizontalRowLayout(images, i, k);
    var off := SumWidths(images[..k]);
    assert Horizontal(images).scanlines[i] == row;
    IndexInSlice(row, off, off + images[k].width, x);
    var img := images[k];
    assert Sound(img);
    assert row[off + x] == Segment(img, i)[x];
    assert Segment(img, i)[x] == if i < img.height then img.scanlines[i][x] else DefaultPixel;
  }

  /** A slice within the left operand of a concatenation. */
  lemma {:induction false} SliceOfLeft<T>(a: seq<T>, b: seq<T>, lo: nat, hi: nat)
    requires lo <= hi <= |a|
    ensures (a + b)[lo..hi] == a[lo..hi]
  {}

  /** The right operand of a concatenation, sliced back out. */
  lemma {:induction false} SliceOfRight<T>(a: seq<T>, b: seq<T>)
    ensures (a + b)[|a|..|a| + |b|] == b
  {}

  /** An element of a slice is the element at the shifted index. */
  lemma {:induction false} IndexInSlice<T>(s: seq<T>, lo: nat, hi: nat, x: nat)
    requires lo + x < hi <= |s|
    ensures s[lo + x] == s[lo..hi][x]
  {}

  /** Every pixel of a horizontal row has four bytes. */
  lemma {:induction false} SegmentPixelShaped(images: seq<Image>, i: nat, q: nat)
    requires AllSound(images) && q < |HorizontalRow(images, i)|
    ensures |HorizontalRow(images, i)[q]| == 4
    decreases |images|
  {
    var n := |images|;
    var front := images[..n - 1];
    var a := HorizontalRow(front, i);
    if q < |a| {
      assert forall k :: 0 <= k < |front| ==> front[k] == images[k];
      SegmentPixelShaped(front, i, q);
    } else {
      assert HorizontalRow(images, i)[q] == Segment(images[n - 1], i)[q - |a|];
    }
  }

  // ---------------------------------------------------------------------
  // Vertical

  /** An image's rows widened to `width`, default pixels to the right of its edge. */
  function Padded(img: Image, width: nat): seq<Scanline> {
    seq(|img.scanlines|, r requires 0 <= r < |img.scanlines| =>
      seq(width, x requires 0 <= x < width => if x < |img.scanlines[r]| then img.scanlines[r][x] else DefaultPixel))
  }

  /** The vertical layout's rows: every image's padded rows, top to bottom. */
  function VerticalRows(images: seq<Image>, width: nat): seq<Scanline>
    decreases |images|
  {
    if |images| == 0 then [] else VerticalRows(images[..|images| - 1], width) + Padded(images[|images| - 1], width)
  }

  function Vertical(images: seq<Image>): Image
    requires |images| >= 1
  {
    var width := MaxWidth(images);
    Image(VerticalRows(images, width), width, SumHeights(images))
  }

  /** Image `k`'s padded rows start after the heights of the images above it. */
  lemma {:induction false} VerticalRowsLayout(images: seq<Image>, width: nat, k: nat)
    requires AllSound(images) && k < |images|
    ensures |VerticalRows(images, width)| == SumHeights(images)
    ensures SumHeights(images[..k]) + images[k].height <= SumHeights(images)
    ensures VerticalRows(images, width)[SumHeights(images[..k])..SumHeights(images[..k]) + images[k].height]
         == Padded(images[k], width)
    decreases |images|
  {
    var n := |images|;
    var front := images[..n - 1];
    var last := images[n - 1];
    var a := VerticalRows(front, width);
    var b := Padded(last, width);
    assert VerticalRows(images, width) == a + b;
    assert SumHeights(images) == SumHeights(front) + last.height;
    assert |b| == last.height;
    if n > 1 {
      assert forall q :: 0 <= q < |front| ==> front[q] == images[q];
      VerticalRowsLayout(front, width, 0);
    }
    assert |a| == SumHeights(front);
    if k < n - 1 {
      assert front[..k] == images[..k];
      assert front[k] == images[k];
      VerticalRowsLayout(front, width, k);
      var off := SumHeights(images[..k]);
      SliceOfLeft(a, b, off, off + images[k].height);
    } else {
      assert images[..k] == front;
      SliceOfRight(a, b);
    }
  }

  /** Every row of the vertical layout has `width` pixels of four bytes. */
  lemma {:induction false} VerticalRowsShaped(images: seq<Image>, width: nat, r: nat)
    requires AllSound(images) && r < |VerticalRows(images, width)|
    ensures |VerticalRows(images, width)[r]| == width && PixelsShaped(VerticalRows(images, width)[r])
    decreases |images|
  {
    var n := |images|;
    var front := images[..n - 1];
    var a := VerticalRows(front, width);
    if r < |a| {
      assert forall k :: 0 <= k < |front| ==> front[k] == images[k];
      VerticalRowsShaped(front, width, r);
    } else {
      assert VerticalRows(images, width)[r] == Padded(images[n - 1], width)[r - |a|];
    }
  }

  /** One above the other: the heights add up, the width is the widest image's, and the result is a sound image. */
  lemma {:induction false} VerticalSound(images: seq<Image>)
    requires |images| >= 1 && AllSound(images)
    ensures Vertical(images).width == MaxWidth(images)
    ensures Vertical(images).height == SumHeights(images)
    ensures Sound(Vertical(images))
  {
    var v := Vertical(images);
    VerticalRowsLayout(images, v.width, 0);
    forall q | 0 <= q < |v.scanlines| ensures |v.scanlines[q]| == v.width && PixelsShaped(v.scanlines[q]) {
      VerticalRowsShaped(images, v.width, q);
    }
  }

  /**
   * Each image keeps its pixels at its vertical offset (the heights of the
   * images above it), with default pixels right of a narrower image.
   */
  lemma {:induction false} VerticalLayout(images: seq<Image>, k: nat, r: nat, x: nat)
    requires |images| >= 1 && AllSound(images) && k < |images|
    requires r < images[k].height && x < MaxWidth(images)
    ensures SumHeights(images[..k]) + r < SumHeights(images)
    ensures |Vertical(images).scanlines| == SumHeights(images)
    ensures |Vertical(images).scanlines[SumHeights(images[..k]) + r]| == MaxWidth(images)
    ensures Vertical(images).scanlines[SumHeights(images[..k]) + r][x]
         == if x < images[k].width then images[k].scanlines[r][x] else DefaultPixel
  {
    var width := MaxWidth(images);
    var rows := VerticalRows(images, width);
    var off := SumHeights(images[..k]);
    var img := images[k];
    VerticalRowsLayout(images, width, k);
    assert Vertical(images).scanlines == rows;
    assert rows[off + r] == Padded(img, width)[r] by {
      IndexInSlice(rows, off, off + img.height, r);
    }
    assert Padded(img, width)[r][x] == if x < img.width then img.scanlines[r][x] else DefaultPixel by {
      assert Sound(img);
      assert |img.scanlines[r]| == img.width;
    }
  }

  // ---------------------------------------------------------------------
  // `run`

  /** The checks of `run`, then the chosen layout. */
  function Combine(images: seq<Image>, isHorizontal: bool, isVertical: bool): (r: Result<Image, string>)
    ensures r.Ok? <==> |images| >= 2 && isHorizontal != isVertical
    ensures r.Ok? ==> r.value == if isHorizontal then Horizontal(images) else Vertical(images)
  {
    if |images| < 2 then Err("Must provide two or more image ids")
    else if isHorizontal == isVertical then Err("Must provide exactly one of \"horizontal\" or \"vertical\"")
    else if isHorizontal then Ok(Horizontal(images))
    else Ok(Vertical(images))
  }
}

=== FILE: png_filter.dfy ===
/**
 * Scanline reconstruction of src/commands/subcommands/combine.ts
 * (`paethPredictor`, `reconstructByte` and the reconstruction loop of
 * `decodeImage`), for filter method 0 of section 9 of the PNG specification.
 *
 * The filtering side of section 9.2 (`Filt(x) = Orig(x) - Predictor`) is
 * written out as the reference the reconstruction inverts.
 */
module PngFilter {
  import opened Wrappers
  import opened Text
  import opened PngBytes

  /** Four bytes: red, green, blue, alpha. */
  type Pixel = seq<Byte>
  type Scanline = seq<Pixel>

  datatype FilteredScanline = FilteredScanline(filterType: Byte, pixels: seq<Pixel>)

  function Abs(x: int): nat {
    if x < 0 then -x else x
  }

  function Min3(a: int, b: int, c: int): (r: int)
    ensures r <= a && r <= b && r <= c && (r == a || r == b || r == c)
  {
    if a <= b && a <= c then a else if b <= c then b else c
  }

  /** `paethPredictor`: the input closest to `a + b - c`, found by comparing with the minimum distance. */
  function PaethPredictor(a: int, b: int, c: int): (r: int)
    ensures r == a || r == b || r == c
  {
    var p := a + b - c;
    var pa := Abs(p - a);
    var pb := Abs(p - b);
    var pc := Abs(p - c);
    var m := Min3(pa, pb, pc);
    if m == pa then a else if m == pb then b else c
  }

  /** The Paeth predictor as section 9.4 of the PNG specification writes it, ties broken left, up, upper-left. */
  function PaethReference(a: int, b: int, c: int): int {
    var p := a + b - c;
    if Abs(p - a) <= Abs(p - b) && Abs(p - a) <= Abs(p - c) then a
    else if Abs(p - b) <= Abs(p - c) then b
    else c
  }

  /** The source's predictor agrees with the specification's on every input. */
  lemma {:induction false} PaethAgrees(a: int, b: int, c: int)
    ensures PaethPredictor(a, b, c) == PaethReference(a, b, c)
  {}

  /** The predictor of section 9.2 of the PNG specification for filter types 0 to 4. */
  function Predictor(t: Byte, a: Byte, b: Byte, c: Byte): int
    requires t <= 4
  {
    if t == 0 then 0
    else if t == 1 then a
    else if t == 2 then b
    else if t == 3 then (a + b) / 2
    else PaethReference(a, b, c)
  }

  /** Filtering a byte: the original minus the predictor, modulo 256. */
  function FilterByte(t: Byte, x: Byte, a: Byte, b: Byte, c: Byte): Byte
    requires t <= 4
  {
    (x - Predictor(t, a, b, c)) % 256
  }

  /** A byte of an already reconstructed pixel, or 0 outside the image (`?.` and `?? 0`). */
  function NeighbourByte(lines: seq<Scanline>, row: int, col: int, byteIndex: int): Byte {
    if 0 <= row < |lines| && 0 <= col < |lines[row]| && 0 <= byteIndex < |lines[row][col]|
    then lines[row][col][byteIndex] else 0
  }

  function InvalidFilterType(t: Byte): string {
    "Invalid filter type " + NatToString(t)
  }

  /** `reconstructByte`: undo filter type 0 to 4 using the byte to the left, above, and above-left. */
  function ReconstructByte(lines: seq<Scanline>, t: Byte, filtered: Byte, row: int, col: int, byteIndex: int): (r: Result<Byte, string>)
    ensures r.Ok? <==> t <= 4
    ensures r.Err? ==> r.error == InvalidFilterType(t)
  {
    var a := NeighbourByte(lines, row, col - 1, byteIndex);
    var b := NeighbourByte(lines, row - 1, col, byteIndex);
    var c := NeighbourByte(lines, row - 1, col - 1, byteIndex);
    if t == 0 then Ok(filtered % 256)
    else if t == 1 then Ok((filtered + a) % 256)
    else if t == 2 then Ok((filtered + b) % 256)
    else if t == 3 then Ok((filtered + (a + b) / 2) % 256)
    else if t == 4 then Ok((filtered + PaethPredictor(a, b, c)) % 256)
    else Err(InvalidFilterType(t))
  }

  lemma {:induction false} ModInverse(x: Byte, p: int)
    ensures ((x - p) % 256 + p) % 256 == x
  {
    var k := (x - p) / 256;
    assert x - p == k * 256 + (x - p) % 256;
    assert (x - p) % 256 + p == x - k * 256;
  }

  /** Reconstruction undoes filtering: with the same neighbours, the original byte comes back. */
  lemma {:induction false} ReconstructInvertsFilter(lines: seq<Scanline>, t: Byte, x: Byte, row: int, col: int, byteIndex: int)
    requires t <= 4
    ensures var a := NeighbourByte(lines, row, col - 1, byteIndex);
            var b := NeighbourByte(lines, row - 1, col, byteIndex);
            var c := NeighbourByte(lines, row - 1, col - 1, byteIndex);
            ReconstructByte(lines, t, FilterByte(t, x, a, b, c), row, col, byteIndex) == Ok(x)
  {
    var a := NeighbourByte(lines, row, col - 1, byteIndex);
    var b := NeighbourByte(lines, row - 1, col, byteIndex);
    var c := NeighbourByte(lines, row - 1, col - 1, byteIndex);
    PaethAgrees(a, b, c);
    ModInverse(x, Predictor(t, a, b, c));
  }

  // ---------------------------------------------------------------------
  // Whole scanlines

  predicate PixelsShaped(pixels: seq<Pixel>) {
    forall j :: 0 <= j < |pixels| ==> |pixels[j]| == 4
  }

  /** The four bytes of one pixel, each reconstructed in turn. */
  function ReconstructPixel(lines: seq<Scanline>, t: Byte, fp: Pixel, row: int, col: int): (r: Result<Pixel, string>)
    requires |fp| == 4
    ensures r.Ok? <==> t <= 4
    ensures r.Err? ==> r.error == InvalidFilterType(t)
    ensures r.Ok? ==> |r.value| == 4
  {
    if t > 4 then Err(InvalidFilterType(t))
    else Ok([ReconstructByte(lines, t, fp[0], row, col, 0).value, ReconstructByte(lines, t, fp[1], row, col, 1).value,
             ReconstructByte(lines, t, fp[2], row, col, 2).value, ReconstructByte(lines, t, fp[3], row, col, 3).value])
  }

  /** One scanline, pixel by pixel; the partly built line is the current row its neighbours come from. */
  function ReconstructRow(done: seq<Scanline>, line: FilteredScanline, acc: Scanline): (r: Result<Scanline, string>)
    requires PixelsShaped(line.pixels) && |acc| <= |line.pixels|
    ensures r.Ok? ==> |r.value| == |line.pixels|
    ensures r.Ok? <==> line.filterType <= 4 || |acc| == |line.pixels|
    decreases |line.pixels| - |acc|
  {
    if |acc| == |line.pixels| then Ok(acc)
    else
      var p := ReconstructPixel(done + [acc], line.filterType, line.pixels[|acc|], |done|, |acc|);
      if p.Err? then Err(p.error)
      else ReconstructRow(done, line, acc + [p.value])
  }

  predicate AllShaped(lines: seq<FilteredScanline>) {
    forall i :: 0 <= i < |lines| ==> PixelsShaped(lines[i].pixels)
  }

  /** The first `n` passes of the reconstruction loop of `decodeImage`, one scanline after another. */
  function ReconstructUpTo(lines: seq<FilteredScanline>, n: nat): (r: Result<seq<Scanline>, string>)
    requires AllShaped(lines) && n <= |lines|
    ensures r.Ok? ==> |r.value| == n
    decreases n
  {
    if n == 0 then Ok([])
    else
      var done := ReconstructUpTo(lines, n - 1);
      if done.Err? then done
      else
        var row := ReconstructRow(done.value, lines[n - 1], []);
        if row.Err? then Err(row.error) else Ok(done.value + [row.value])
  }

  /** The reconstruction loop of `decodeImage` over every scanline. */
  function ReconstructAll(lines: seq<FilteredScanline>): (r: Result<seq<Scanline>, string>)
    requires AllShaped(lines)
    ensures r.Ok? ==> |r.value| == |lines|
  {
    ReconstructUpTo(lines, |lines|)
  }

  /** The first `n` scanlines fail exactly when one of them with at least one pixel has a filter type above 4. */
  lemma {:induction false} ReconstructUpToFails(lines: seq<FilteredScanline>, n: nat)
    requires AllShaped(lines) && n <= |lines|
    ensures ReconstructUpTo(lines, n).Err? <==> exists i :: 0 <= i < n && lines[i].filterType > 4 && |lines[i].pixels| > 0
    decreases n
  {
    if n > 0 {
      ReconstructUpToFails(lines, n - 1);
    }
  }

  /** Reconstruction fails exactly when a scanline with at least one pixel has a filter type above 4. */
  lemma {:induction false} ReconstructFails(lines: seq<FilteredScanline>)
    requires AllShaped(lines)
    ensures ReconstructAll(lines).Err? <==> exists i :: 0 <= i < |lines| && lines[i].filterType > 4 && |lines[i].pixels| > 0
  {
    ReconstructUpToFails(lines, |lines|);
  }

  // ---------------------------------------------------------------------
  // Filtering, the inverse

  predicate ImageShaped(img: seq<Scanline>) {
    forall i :: 0 <= i < |img| ==> PixelsShaped(img[i])
  }

  /** Filters the four bytes of pixel `(i, j)` against its neighbours in the original image. */
  function FilterPixel(img: seq<Scanline>, t: Byte, i: nat, j: nat): (r: Pixel)
    requires t <= 4 && i < |img| && j < |img[i]| && |img[i][j]| == 4
    ensures |r| == 4
  {
    seq(4, k requires 0 <= k < 4 =>
      FilterByte(t, img[i][j][k], NeighbourByte(img, i, j - 1, k), NeighbourByte(img, i - 1, j, k), NeighbourByte(img, i - 1, j - 1, k)))
  }

  /** Filters every pixel of row `i` with type `t`. */
  function FilterLine(img: seq<Scanline>, t: Byte, i: nat): (r: seq<Pixel>)
    requires t <= 4 && i < |img| && PixelsShaped(img[i])
    ensures |r| == |img[i]| && PixelsShaped(r)
  {
    seq(|img[i]|, j requires 0 <= j < |img[i]| => FilterPixel(img, t, i, j))
  }

  /** Filters every byte of an image with its scanline's type, as section 9.2 of the PNG specification defines. */
  function FilterImage(img: seq<Scanline>, types: seq<Byte>): (r: seq<FilteredScanline>)
    requires ImageShaped(img) && |types| == |img| && forall i :: 0 <= i < |types| ==> types[i] <= 4
    ensures |r| == |img| && AllShaped(r)
    ensures forall i :: 0 <= i < |r| ==> |r[i].pixels| == |img[i]| && r[i].filterType == types[i]
  {
    seq(|img|, i requires 0 <= i < |img| => FilteredScanline(types[i], FilterLine(img, types[i], i)))
  }

  /** The neighbours seen while rebuilding pixel `(i, j)` are the original image's. */
  lemma {:induction false} NeighboursAgree(img: seq<Scanline>, i: nat, j: nat, k: int)
    requires i < |img| && j <= |img[i]|
    ensures NeighbourByte(img[..i] + [img[i][..j]], i, j - 1, k) == NeighbourByte(img, i, j - 1, k)
    ensures NeighbourByte(img[..i] + [img[i][..j]], i - 1, j, k) == NeighbourByte(img, i - 1, j, k)
    ensures NeighbourByte(img[..i] + [img[i][..j]], i - 1, j - 1, k) == NeighbourByte(img, i - 1, j - 1, k)
  {
    var lines := img[..i] + [img[i][..j]];
    assert lines[i] == img[i][..j];
    if i > 0 { assert lines[i - 1] == img[i - 1]; }
  }

  /** Byte `k` of pixel `(i, j)` of the filtered image is that byte filtered against its original neighbours. */
  lemma {:induction false} FilteredByteAt(img: seq<Scanline>, types: seq<Byte>, i: nat, j: nat, k: nat)
    requires ImageShaped(img) && |types| == |img| && forall r :: 0 <= r < |types| ==> types[r] <= 4
    requires i < |img| && j < |img[i]| && k < 4
    ensures |FilterImage(img, types)[i].pixels[j]| == 4
    ensures FilterImage(img, types)[i].pixels[j][k]
         == FilterByte(types[i], img[i][j][k], NeighbourByte(img, i, j - 1, k),
                       NeighbourByte(img, i - 1, j, k), NeighbourByte(img, i - 1, j - 1, k))
  {
    assert FilterImage(img, types)[i].pixels == FilterLine(img, types[i], i);
    assert FilterLine(img, types[i], i)[j] == FilterPixel(img, types[i], i, j);
  }

  /** A pixel whose four bytes each rebuild to the bytes of `p` rebuilds to `p`. */
  lemma {:induction false} PixelFromBytes(lines: seq<Scanline>, t: Byte, fp: Pixel, row: int, col: int, p: Pixel)
    requires |fp| == 4 && |p| == 4
    requires forall k :: 0 <= k < 4 ==> ReconstructByte(lines, t, fp[k], row, col, k) == Ok(p[k])
    ensures ReconstructPixel(lines, t, fp, row, col) == Ok(p)
  {
    assert ReconstructByte(lines, t, fp[0], row, col, 0).Ok?;
    assert p == [p[0], p[1], p[2], p[3]];
  }

  /** Rebuilding pixel `(i, j)` from its filtered form, with the rows and pixels before it rebuilt, gives the original pixel. */
  lemma {:induction false} PixelRoundTrip(img: seq<Scanline>, types: seq<Byte>, i: nat, j: nat)
    requires ImageShaped(img) && |types| == |img| && forall r :: 0 <= r < |types| ==> types[r] <= 4
    requires i < |img| && j < |img[i]|
    ensures ReconstructPixel(img[..i] + [img[i][..j]], types[i], FilterImage(img, types)[i].pixels[j], i, j) == Ok(img[i][j])
  {
    var lines := img[..i] + [img[i][..j]];
    var fp := FilterImage(img, types)[i].pixels[j];
    FilteredByteAt(img, types, i, j, 0);
    forall k | 0 <= k < 4
      ensures ReconstructByte(lines, types[i], fp[k], i, j, k) == Ok(img[i][j][k])
    {
      FilteredByteAt(img, types, i, j, k);
      NeighboursAgree(img, i, j, k);
      ReconstructInvertsFilter(lines, types[i], img[i][j][k], i, j, k);
    }
    PixelFromBytes(lines, types[i], fp, i, j, img[i][j]);
  }

  /** A filtered line whose every pixel rebuilds to the matching pixel of `row` rebuilds to `row`. */
  lemma {:induction false} RowFromPixels(done: seq<Scanline>, line: FilteredScanline, row: Scanline, j: nat)
    requires PixelsShaped(line.pixels) && |line.pixels| == |row| && j <= |row|
    requires forall q :: j <= q < |row| ==>
      ReconstructPixel(done + [row[..q]], line.filterType, line.pixels[q], |done|, q) == Ok(row[q])
    ensures ReconstructRow(done, line, row[..j]) == Ok(row)
    decreases |row| - j
  {
    if j == |row| {
      assert row[..j] == row;
    } else {
      assert |row[..j]| == j;
      assert row[..j] + [row[j]] == row[..j + 1];
      RowFromPixels(done, line, row, j + 1);
    }
  }

  /** Rebuilding one filtered scanline, with the earlier rows already rebuilt, gives the original row. */
  lemma {:induction false} RowRoundTrip(img: seq<Scanline>, types: seq<Byte>, i: nat)
    requires ImageShaped(img) && |types| == |img| && forall r :: 0 <= r < |types| ==> types[r] <= 4
    requires i < |img|
    ensures ReconstructRow(img[..i], FilterImage(img, types)[i], []) == Ok(img[i])
  {
    var line := FilterImage(img, types)[i];
    var done := img[..i];
    assert |done| == i;
    forall q | 0 <= q < |img[i]|
      ensures ReconstructPixel(done + [img[i][..q]], line.filterType, line.pixels[q], |done|, q) == Ok(img[i][q])
    {
      PixelRoundTrip(img, types, i, q);
    }
    RowFromPixels(done, line, img[i], 0);
    assert img[i][..0] == [];
  }

  /** Scanlines that each rebuild to their row, on top of the rows before them, rebuild to the first `n` rows. */
  lemma {:induction false} UpToFromRows(lines: seq<FilteredScanline>, img: seq<Scanline>, n: nat)
    requires AllShaped(lines) && |lines| == |img| && n <= |img|
    requires forall q :: 0 <= q < |lines| ==> ReconstructRow(img[..q], lines[q], []) == Ok(img[q])
    ensures ReconstructUpTo(lines, n) == Ok(img[..n])
    decreases n
  {
    if n > 0 {
      UpToFromRows(lines, img, n - 1);
      assert ReconstructRow(img[..n - 1], lines[n - 1], []) == Ok(img[n - 1]);
      assert img[..n - 1] + [img[n - 1]] == img[..n];
    }
  }

  /** Reconstruction inverts filtering, whatever filter type each scanline uses. */
  lemma {:induction false} FilterRoundTrip(img: seq<Scanline>, types: seq<Byte>)
    requires ImageShaped(img) && |types| == |img| && forall r :: 0 <= r < |types| ==> types[r] <= 4
    ensures ReconstructAll(FilterImage(img, types)) == Ok(img)
  {
    var lines := FilterImage(img, types);
    forall q | 0 <= q < |lines| ensures ReconstructRow(img[..q], lines[q], []) == Ok(img[q]) {
      RowRoundTrip(img, types, q);
    }
    UpToFromRows(lines, img, |img|);
    assert img[..|img|] == img;
  }

  /** Filter type 0 leaves the bytes as they are: the image written with type 0 is its own filtered form. */
  lemma {:induction false} NoneFilterIsIdentity(img: seq<Scanline>)
    requires ImageShaped(img)
    ensures FilterImage(img, seq(|img|, _ => 0)) == seq(|img|, i requires 0 <= i < |img| => FilteredScanline(0, img[i]))
  {
    var types: seq<Byte> := seq(|img|, _ => 0);
    var r := FilterImage(img, types);
    forall i | 0 <= i < |img| ensures r[i] == FilteredScanline(0, img[i]) {
      forall j | 0 <= j < |img[i]| ensures r[i].pixels[j] == img[i][j] {
        FilteredByteAt(img, types, i, j, 0);
        forall k | 0 <= k < 4 ensures r[i].pixels[j][k] == img[i][j][k] {
          FilteredByteAt(img, types, i, j, k);
        }
      }
    }
  }
}

=== FILE: png_image.dfy ===
/**
 * Whole images in src/commands/subcommands/combine.ts: `decodeImage`
 * (signature, chunk walk, header checks, the data-length check, scanline
 * layout, reconstruction) and `encodeImage` (signature, IHDR, one IDAT of
 * filter-type-0 scanlines, IEND).
 *
 * `zlib.inflateSync`, `zlib.deflateSync` and `zlib.crc32` are not part of
 * this model; they are function parameters.
 */
module PngImage {
  import opened Wrappers
  import opened Text
  import opened PngBytes
  import opened PngFilter

  datatype Image = Image(scanlines: seq<Scanline>, width: nat, height: nat)

  type InflateFn = seq<Byte> -> Result<seq<Byte>, string>
  type DeflateFn = seq<Byte> -> seq<Byte>

  /** `expectedPNGSignature`, as bytes. */
  const Signature: seq<Byte> := [0x89, 0x50, 0x4E, 0x47, 0x0D, 0x0A, 0x1A, 0x0A]

  const NullMessage := "Unexpected null value"
  const UnsupportedMessage := "Only truecolor with alpha color type (6) is supported with 8 bit depth, deflate compression, adaptive filtering, and no interlace. Received: [object Object]"

  // ---------------------------------------------------------------------
  // Scanline layout: a filter-type byte, then four bytes per pixel

  /** Bytes per filtered scanline. */
  function Stride(width: nat): nat {
    1 + 4 * width
  }

  lemma {:induction false} MulMono(a: nat, b: nat, s: nat)
    requires a <= b
    ensures a * s <= b * s
  {
    assert b * s == a * s + (b - a) * s;
  }

  /** One filtered scanline read from its bytes. */
  function RowOf(bytes: seq<Byte>, width: nat): (r: FilteredScanline)
    requires |bytes| == Stride(width)
    ensures |r.pixels| == width && PixelsShaped(r.pixels)
  {
    FilteredScanline(bytes[0], seq(width, j requires 0 <= j < width => bytes[1 + 4 * j..5 + 4 * j]))
  }

  /** The first `n` filtered scanlines of the data. */
  function Rows(data: seq<Byte>, width: nat, n: nat): (r: seq<FilteredScanline>)
    requires n * Stride(width) <= |data|
    ensures |r| == n && AllShaped(r)
    ensures forall i :: 0 <= i < n ==> |r[i].pixels| == width
    decreases n
  {
    if n == 0 then []
    else
      var s := Stride(width);
      assert (n - 1) * s + s == n * s;
      Rows(data, width, n - 1) + [RowOf(data[(n - 1) * s..n * s], width)]
  }

  /** The data-length check and the scanline split of `decodeImage`. */
  function SplitScanlines(data: seq<Byte>, width: nat, height: nat): (r: Result<seq<FilteredScanline>, string>)
    ensures r.Ok? <==> |data| == height * Stride(width)
    ensures r.Ok? ==> |r.value| == height && AllShaped(r.value)
  {
    var expected := height * Stride(width);
    if |data| != expected then
      Err("Invalid image data size. Expected " + NatToString(expected) + ", but recieved " + NatToString(|data|))
    else Ok(Rows(data, width, height))
  }

  /** `Array.prototype.flat` on byte parts: the parts, one after another. */
  function Flat(parts: seq<seq<Byte>>): (r: seq<Byte>)
    decreases |parts|
  {
    if |parts| == 0 then [] else Flat(parts[..|parts| - 1]) + parts[|parts| - 1]
  }

  /** A scanline as `encodeImage` writes it: filter type 0, then the pixel bytes (`scanline.flat()`). */
  function EncodeRow(line: Scanline): seq<Byte> {
    [0] + Flat(line)
  }

  /** The written scanlines of an image, in order. */
  function EncodedRows(img: seq<Scanline>): seq<seq<Byte>> {
    seq(|img|, k requires 0 <= k < |img| => EncodeRow(img[k]))
  }

  /** `filteredScanlines` of `encodeImage` (a `flatMap`): every written scanline, one after another. */
  function EncodeData(img: seq<Scanline>): seq<Byte> {
    Flat(EncodedRows(img))
  }

  /** Every scanline has `width` pixels of four bytes, and there are `height` of them. */
  predicate WellFormed(img: seq<Scanline>, width: nat, height: nat) {
    |img| == height && ImageShaped(img) && forall i :: 0 <= i < |img| ==> |img[i]| == width
  }

  /** Parts of `w` bytes each flatten to `w` bytes per part. */
  lemma {:induction false} FlatLength(parts: seq<seq<Byte>>, w: nat)
    requires forall k :: 0 <= k < |parts| ==> |parts[k]| == w
    ensures |Flat(parts)| == |parts| * w
    decreases |parts|
  {
    if |parts| > 0 {
      FlatLength(parts[..|parts| - 1], w);
      assert (|parts| - 1) * w + w == |parts| * w;
    }
  }

  /** Part `i` of parts of `w` bytes each sits at `i * w` of the flattened bytes. */
  lemma {:induction false} FlatAt(parts: seq<seq<Byte>>, w: nat, i: nat)
    requires forall k :: 0 <= k < |parts| ==> |parts[k]| == w
    requires i < |parts|
    ensures (i + 1) * w <= |Flat(parts)|
    ensures Flat(parts)[i * w..(i + 1) * w] == parts[i]
    decreases |parts|
  {
    var front := parts[..|parts| - 1];
    var a := Flat(front);
    var b := parts[|parts| - 1];
    var lo := i * w;
    var hi := (i + 1) * w;
    assert hi == lo + w;
    assert Flat(parts) == a + b;
    assert |a| == |front| * w by {
      FlatLength(front, w);
    }
    if i < |front| {
      assert hi <= |a| && a[lo..hi] == parts[i] by {
        FlatAt(front, w, i);
        assert front[i] == parts[i];
      }
      assert (a + b)[lo..hi] == a[lo..hi];
    } else {
      assert lo == |a|;
      assert (a + b)[|a|..|a| + |b|] == b;
    }
  }

  /** A written scanline reads back as filter type 0 over the same pixels. */
  lemma {:induction false} ScanlineBytesRoundTrip(line: Scanline, width: nat)
    requires PixelsShaped(line) && |line| == width
    ensures |EncodeRow(line)| == Stride(width)
    ensures RowOf(EncodeRow(line), width) == FilteredScanline(0, line)
  {
    FlatLength(line, 4);
    var bytes := EncodeRow(line);
    forall j | 0 <= j < width ensures bytes[1 + 4 * j..5 + 4 * j] == line[j] {
      FlatAt(line, 4, j);
      assert bytes[1 + 4 * j..5 + 4 * j] == Flat(line)[4 * j..4 * j + 4];
    }
  }

  /** Every written scanline of a well-formed image has `Stride(width)` bytes. */
  lemma {:induction false} RowLengths(img: seq<Scanline>, width: nat, height: nat)
    requires WellFormed(img, width, height)
    ensures forall k :: 0 <= k < |EncodedRows(img)| ==> |EncodedRows(img)[k]| == Stride(width)
  {
    forall k | 0 <= k < |img| ensures |EncodeRow(img[k])| == Stride(width) {
      ScanlineBytesRoundTrip(img[k], width);
    }
  }

  /** The written data is `height` rows of `Stride(width)` bytes. */
  lemma {:induction false} DataLength(img: seq<Scanline>, width: nat, height: nat)
    requires WellFormed(img, width, height)
    ensures |EncodeData(img)| == height * Stride(width)
  {
    RowLengths(img, width, height);
    FlatLength(EncodedRows(img), Stride(width));
  }

  /** Row `i` of the written data sits at `i * Stride(width)`. */
  lemma {:induction false} DataRowAt(img: seq<Scanline>, width: nat, height: nat, i: nat)
    requires WellFormed(img, width, height) && i < height
    ensures (i + 1) * Stride(width) <= |EncodeData(img)|
    ensures EncodeData(img)[i * Stride(width)..(i + 1) * Stride(width)] == EncodeRow(img[i])
  {
    RowLengths(img, width, height);
    FlatAt(EncodedRows(img), Stride(width), i);
  }

  /** The written data splits back into the image's scanlines, each with filter type 0. */
  lemma {:induction false} SplitRoundTrip(img: seq<Scanline>, width: nat, height: nat)
    requires WellFormed(img, width, height)
    ensures SplitScanlines(EncodeData(img), width, height)
         == Ok(seq(height, i requires 0 <= i < height => FilteredScanline(0, img[i])))
  {
    DataLength(img, width, height);
    var data := EncodeData(img);
    var rows := Rows(data, width, height);
    forall i | 0 <= i < height ensures rows[i] == FilteredScanline(0, img[i]) {
      RowsAt(data, width, height, i);
      DataRowAt(img, width, height, i);
      ScanlineBytesRoundTrip(img[i], width);
    }
    assert rows == seq(height, i requires 0 <= i < height => FilteredScanline(0, img[i]));
  }

  /** Row `i` of `Rows` is read from the `i`-th stride of the data. */
  lemma {:induction false} RowsAt(data: seq<Byte>, width: nat, n: nat, i: nat)
    requires n * Stride(width) <= |data| && i < n
    ensures (i + 1) * Stride(width) <= n * Stride(width)
    ensures Rows(data, width, n)[i] == RowOf(data[i * Stride(width)..(i + 1) * Stride(width)], width)
    decreases n
  {
    MulMono(i + 1, n, Stride(width));
    if i < n - 1 {
      MulMono(n - 1, n, Stride(width));
      RowsAt(data, width, n - 1, i);
    }
  }

  // ---------------------------------------------------------------------
  // The chunk walk of `decodeImage`

  /** The chunks `decodeImage` keeps: the last IHDR, the last IEND, and every IDAT in order. */
  datatype Collected = Collected(header: Option<Chunk>, end: Option<Chunk>, dataChunks: seq<Chunk>)

  /** The effect of one chunk: ancillary chunks are skipped, an unknown critical one throws. */
  function Keep(acc: Collected, chunk: Chunk): (r: Result<Collected, string>)
  {
    if !chunk.isCritical then Ok(acc)
    else if chunk.chunkType == "IHDR" then Ok(acc.(header := Some(chunk)))
    else if chunk.chunkType == "IEND" then Ok(acc.(end := Some(chunk)))
    else if chunk.chunkType == "IDAT" then Ok(acc.(dataChunks := acc.dataChunks + [chunk]))
    else Err("Unknown chunk type: " + chunk.chunkType)
  }

  /** The `while (offset < fileBuffer.length)` loop. */
  function CollectChunks(buf: seq<Byte>, off: nat, crc: CrcFn, acc: Collected): (r: Result<Collected, string>)
    decreases |buf| - off
  {
    if off >= |buf| then Ok(acc)
    else
      var decoded := DecodeChunk(buf, off, crc);
      if decoded.Err? then Err(decoded.error)
      else
        var kept := Keep(acc, decoded.value.0);
        if kept.Err? then kept
        else CollectChunks(buf, decoded.value.1, crc, kept.value)
  }

  /** `Buffer.concat` of the IDAT data. */
  function ConcatData(chunks: seq<Chunk>): seq<Byte>
    decreases |chunks|
  {
    if |chunks| == 0 then [] else ConcatData(chunks[..|chunks| - 1]) + chunks[|chunks| - 1].data
  }

  /** `decodeImage`. */
  function DecodeImage(file: seq<Byte>, crc: CrcFn, inflate: InflateFn): (r: Result<Image, string>)
  {
    if |file| < 8 then Err(OutOfRange)
    else if file[..8] != Signature then Err("Invalid PNG signature.")
    else
      var collected := CollectChunks(file, 8, crc, Collected(None, None, []));
      if collected.Err? then Err(collected.error)
      else if collected.value.header.None? || collected.value.end.None? then Err(NullMessage)
      else
        var header := DecodeImageHeader(collected.value.header.value.data);
        if header.Err? then Err(header.error)
        else
          var h := header.value;
          if h.bitDepth != 8 || h.colorType != 6 || h.compressionMethod != 0 || h.filterMethod != 0 || h.interlaceMethod != 0
          then Err(UnsupportedMessage)
          else
            var data := inflate(ConcatData(collected.value.dataChunks));
            if data.Err? then Err(data.error)
            else
              var lines := SplitScanlines(data.value, h.width, h.height);
              if lines.Err? then Err(lines.error)
              else
                var scanlines := ReconstructAll(lines.value);
                if scanlines.Err? then Err(scanlines.error)
                else Ok(Image(scanlines.value, h.width, h.height))
  }

  /** `encodeImage`: fails only when a size does not fit in 32 bits. */
  function EncodeImage(img: Image, crc: CrcFn, deflate: DeflateFn): (r: Result<seq<Byte>, string>)
  {
    var headerData := EncodeHeaderData(img.width, img.height);
    if headerData.Err? then Err(headerData.error)
    else
      var compressed := deflate(EncodeData(img.scanlines));
      var dataChunk := EncodeChunk("IDAT", compressed, crc);
      if dataChunk.Err? then Err(dataChunk.error)
      else Ok(Signature + EncodeChunk("IHDR", headerData.value, crc).value + dataChunk.value + EncodeChunk("IEND", [], crc).value)
  }

  /** The walk over the three chunks the encoder writes keeps the header, the end and the one data chunk. */
  lemma {:induction false} CollectWritten(hd: seq<Byte>, compressed: seq<Byte>, crc: CrcFn)
    requires |hd| == 13 && |compressed| < 0x1_0000_0000
    ensures var h := EncodeChunk("IHDR", hd, crc).value;
            var d := EncodeChunk("IDAT", compressed, crc).value;
            var e := EncodeChunk("IEND", [], crc).value;
            CollectChunks(Signature + h + d + e, 8, crc, Collected(None, None, []))
              == Ok(Collected(Some(Chunk(true, 13, "IHDR", hd)), Some(Chunk(true, 0, "IEND", [])),
                              [Chunk(true, |compressed|, "IDAT", compressed)]))
  {
    var h := EncodeChunk("IHDR", hd, crc).value;
    var d := EncodeChunk("IDAT", compressed, crc).value;
    var e := EncodeChunk("IEND", [], crc).value;
    var none: seq<Byte> := [];
    var a0 := Collected(None, None, []);
    var a1 := Collected(Some(Chunk(true, 13, "IHDR", hd)), None, []);
    var a2 := Collected(Some(Chunk(true, 13, "IHDR", hd)), None, [Chunk(true, |compressed|, "IDAT", compressed)]);
    var a3 := Collected(Some(Chunk(true, 13, "IHDR", hd)), Some(Chunk(true, 0, "IEND", [])), [Chunk(true, |compressed|, "IDAT", compressed)]);
    KeepWritten(hd, compressed);
    Regroup(Signature, h, d, e);
    CollectWrittenChunk(Signature, "IHDR", hd, d + e, crc, a0, a1);
    CollectWrittenChunk(Signature + h, "IDAT", compressed, e, crc, a1, a2);
    CollectWrittenChunk(Signature + h + d, "IEND", none, none, crc, a2, a3);
  }

  /** The three chunks the encoder writes are each kept in turn. */
  lemma {:induction false} KeepWritten(hd: seq<Byte>, compressed: seq<Byte>)
    requires |hd| < 0x1_0000_0000 && |compressed| < 0x1_0000_0000
    ensures Keep(Collected(None, None, []), Chunk(IsCritical("IHDR"[0]), |hd|, "IHDR", hd))
         == Ok(Collected(Some(Chunk(true, |hd|, "IHDR", hd)), None, []))
    ensures Keep(Collected(Some(Chunk(true, |hd|, "IHDR", hd)), None, []), Chunk(IsCritical("IDAT"[0]), |compressed|, "IDAT", compressed))
         == Ok(Collected(Some(Chunk(true, |hd|, "IHDR", hd)), None, [Chunk(true, |compressed|, "IDAT", compressed)]))
    ensures Keep(Collected(Some(Chunk(true, |hd|, "IHDR", hd)), None, [Chunk(true, |compressed|, "IDAT", compressed)]),
                 Chunk(IsCritical("IEND"[0]), 0, "IEND", []))
         == Ok(Collected(Some(Chunk(true, |hd|, "IHDR", hd)), Some(Chunk(true, 0, "IEND", [])),
                         [Chunk(true, |compressed|, "IDAT", compressed)]))
  {
    assert IsCritical('I');
    var noChunks: seq<Chunk> := [];
    assert noChunks + [Chunk(true, |compressed|, "IDAT", compressed)] == [Chunk(true, |compressed|, "IDAT", compressed)];
  }

  /** Regrouping four pieces of a buffer. */
  lemma {:induction false} Regroup(a: seq<Byte>, b: seq<Byte>, c: seq<Byte>, d: seq<Byte>)
    ensures a + b + c + d == a + b + (c + d)
    ensures a + b + c + d == (a + b + c) + d + []
  {
  }

  /** The walk reads a written chunk where it sits, keeps it, and goes on after it. */
  lemma {:induction false} CollectWrittenChunk(pre: seq<Byte>, t: string, data: seq<Byte>, post: seq<Byte>, crc: CrcFn,
                                               acc: Collected, kept: Collected)
    requires IsChunkType(t) && |data| < 0x1_0000_0000
    requires Keep(acc, Chunk(IsCritical(t[0]), |data|, t, data)) == Ok(kept)
    ensures var buf := pre + EncodeChunk(t, data, crc).value + post;
      CollectChunks(buf, |pre|, crc, acc) == CollectChunks(buf, |pre| + 12 + |data|, crc, kept)
  {
    ChunkRoundTrip(pre, t, data, post, crc);
    CollectStep(pre + EncodeChunk(t, data, crc).value + post, |pre|, crc, acc, Chunk(IsCritical(t[0]), |data|, t, data),
                |pre| + 12 + |data|, kept);
  }

  /** One pass of the chunk walk: a chunk decoded and kept, then the walk goes on after it. */
  lemma {:induction false} CollectStep(buf: seq<Byte>, off: nat, crc: CrcFn, acc: Collected, chunk: Chunk, next: nat, kept: Collected)
    requires off < |buf| && DecodeChunk(buf, off, crc) == Ok((chunk, next)) && Keep(acc, chunk) == Ok(kept)
    ensures CollectChunks(buf, off, crc, acc) == CollectChunks(buf, next, crc, kept)
  {}

  /**
   * Decoding an encoded image gives it back, provided the decompressor
   * inverts the compressor on its data: the header's width and height, the
   * scanlines, and filter type 0 undone.
   */
  lemma {:induction false} ImageRoundTrip(img: Image, crc: CrcFn, inflate: InflateFn, deflate: DeflateFn)
    requires img.width < 0x1_0000_0000 && img.height < 0x1_0000_0000
    requires WellFormed(img.scanlines, img.width, img.height)
    requires |deflate(EncodeData(img.scanlines))| < 0x1_0000_0000
    requires inflate(deflate(EncodeData(img.scanlines))) == Ok(EncodeData(img.scanlines))
    ensures EncodeImage(img, crc, deflate).Ok?
    ensures DecodeImage(EncodeImage(img, crc, deflate).value, crc, inflate) == Ok(img)
  {
    var hd := EncodeHeaderData(img.width, img.height).value;
    var compressed := deflate(EncodeData(img.scanlines));
    var file := EncodeImage(img, crc, deflate).value;
    assert file[..8] == Signature;
    CollectWritten(hd, compressed, crc);
    HeaderRoundTrip(img.width, img.height);
    assert ConcatData([Chunk(true, |compressed|, "IDAT", compressed)]) == compressed;
    SplitRoundTrip(img.scanlines, img.width, img.height);
    var zeros: seq<Byte> := seq(img.height, _ => 0);
    NoneFilterIsIdentity(img.scanlines);
    FilterRoundTrip(img.scanlines, zeros);
  }
}

=== FILE: search_grammar.dfy ===
/**
 * The search language (src/tag-language/searchParser.ts, and the older but
 * identical grammar of src/tag-language/parser.ts):
 *
 *   expression      := ws? sub1 ws?                      (whole input)
 *   sub1            := sub2 sub1'
 *   sub1'           := ws? ('+' | '-') ws? sub2 sub1'  |  ε
 *   sub2            := sub3 sub2'
 *   sub2'           := ws? '^' ws? sub3 sub2'  |  ε
 *   sub3            := '(' ws? sub1 ws? ')'  |  unit
 *   unit            := '*'  |  kebab ':' kebab  |  kebab
 *
 * The primed rules produce right-nested operation chains, which
 * `associateLeft` folds into left-nested binary nodes.
 */
module SearchGrammar {
  import opened Wrappers
  import opened Text
  import opened TagLexer

  datatype Operator = IntersectionOp | UnionOp | DifferenceOp

  /** The parsed search tree: `SelectAllNode`, `TagNode` and the three set operation nodes. */
  datatype Expr =
    | SelectAll
    | Tag(name: string, value: Option<string>)
    | Intersection(left: Expr, right: Expr)
    | Union(left: Expr, right: Expr)
    | Difference(left: Expr, right: Expr)

  /** `AccumulatedOperation`: a chain end `[op, e]` or a nested `[op, e, rest]`. */
  datatype Chain =
    | ChainEnd(op: Operator, operand: Expr)
    | Nested(op: Operator, operand: Expr, rest: Chain)

  /** `operationConstructorByOperator`. */
  function Apply(op: Operator, left: Expr, right: Expr): (r: Expr)
    ensures r.Intersection? || r.Union? || r.Difference?
    ensures r.left == left && r.right == right
    ensures r.Intersection? <==> op == IntersectionOp
    ensures r.Union? <==> op == UnionOp
  {
    match op
    case IntersectionOp => Intersection(left, right)
    case UnionOp => Union(left, right)
    case DifferenceOp => Difference(left, right)
  }

  /** `associateLeft`: fold the chain into the left operand, from left to right. */
  function AssociateLeft(left: Expr, chain: Chain): Expr
    decreases chain
  {
    match chain
    case ChainEnd(op, e) => Apply(op, left, e)
    case Nested(op, e, rest) => AssociateLeft(Apply(op, left, e), rest)
  }

  /** The result of a primed rule: an optional chain and where it ends. */
  function Combine(head: Expr, chain: Option<Chain>): Expr {
    if chain.None? then head else AssociateLeft(head, chain.value)
  }

  function Extend(op: Operator, e: Expr, rest: Option<Chain>): Chain {
    if rest.None? then ChainEnd(op, e) else Nested(op, e, rest.value)
  }

  function SumOp(c: char): Option<Operator> {
    if c == '+' then Some(UnionOp) else if c == '-' then Some(DifferenceOp) else None
  }

  // ---------------------------------------------------------------------
  // The rules, as functions of the input and a position

  /** `subexpression1`. */
  function Sub1(s: string, i: nat): (r: Option<(Expr, nat)>)
    requires i <= |s|
    ensures r.Some? ==> i < r.value.1 <= |s|
    decreases |s| - i, 4
  {
    match Sub2(s, i)
    case None => None
    case Some(head) =>
      var tail := Sub1Prime(s, head.1);
      Some((Combine(head.0, tail.0), tail.1))
  }

  /** `subexpression1Prime`: `+` and `-` operations at the lowest precedence, or nothing. */
  function Sub1Prime(s: string, i: nat): (r: (Option<Chain>, nat))
    requires i <= |s|
    ensures i <= r.1 <= |s|
    ensures r.0.None? ==> r.1 == i
    decreases |s| - i, 3
  {
    var a := SkipWs(s, i);
    if a < |s| && SumOp(s[a]).Some? then
      var b := SkipWs(s, a + 1);
      match Sub2(s, b)
      case None => (None, i)
      case Some(operand) =>
        var rest := Sub1Prime(s, operand.1);
        (Some(Extend(SumOp(s[a]).value, operand.0, rest.0)), rest.1)
    else (None, i)
  }

  /** `subexpression2`. */
  function Sub2(s: string, i: nat): (r: Option<(Expr, nat)>)
    requires i <= |s|
    ensures r.Some? ==> i < r.value.1 <= |s|
    decreases |s| - i, 2
  {
    match Sub3(s, i)
    case None => None
    case Some(head) =>
      var tail := Sub2Prime(s, head.1);
      Some((Combine(head.0, tail.0), tail.1))
  }

  /** `subexpression2Prime`: `^` operations, which bind tighter than `+` and `-`, or nothing. */
  function Sub2Prime(s: string, i: nat): (r: (Option<Chain>, nat))
    requires i <= |s|
    ensures i <= r.1 <= |s|
    ensures r.0.None? ==> r.1 == i
    decreases |s| - i, 1
  {
    var a := SkipWs(s, i);
    if a < |s| && s[a] == '^' then
      var b := SkipWs(s, a + 1);
      match Sub3(s, b)
      case None => (None, i)
      case Some(operand) =>
        var rest := Sub2Prime(s, operand.1);
        (Some(Extend(IntersectionOp, operand.0, rest.0)), rest.1)
    else (None, i)
  }

  /** `subexpression3`: a parenthesised `subexpression1`, or a unit. */
  function Sub3(s: string, i: nat): (r: Option<(Expr, nat)>)
    requires i <= |s|
    ensures r.Some? ==> i < r.value.1 <= |s|
    decreases |s| - i, 0
  {
    var paren :=
      if i < |s| && s[i] == '(' then
        match Sub1(s, SkipWs(s, i + 1))
        case None => None
        case Some(inner) =>
          var c := SkipWs(s, inner.1);
          if c < |s| && s[c] == ')' then Some((inner.0, c + 1)) else None
      else None;
    if paren.Some? then paren else Unit(s, i)
  }

  /** `unit`: `selectAll`, then `taggedValue`, then `tag`, in that order. */
  function Unit(s: string, i: nat): (r: Option<(Expr, nat)>)
    requires i <= |s|
    ensures r.Some? ==> i < r.value.1 <= |s|
  {
    if i < |s| && s[i] == '*' then Some((SelectAll, i + 1))
    else
      match Kebab(s, i)
      case None => None
      case Some(j) =>
        var tagged :=
          if j < |s| && s[j] == ':' then
            match Kebab(s, j + 1)
            case None => None
            case Some(k) => Some((Tag(s[i..j], Some(s[j + 1..k])), k))
          else None;
        if tagged.Some? then tagged else Some((Tag(s[i..j], None), j))
  }

  /** `expression.tryParse`: optional whitespace around one `subexpression1`, and nothing else. */
  function Expression(s: string): (r: Option<Expr>) {
    var a := SkipWs(s, 0);
    match Sub1(s, a)
    case None => None
    case Some(body) =>
      if SkipWs(s, body.1) == |s| then Some(body.0) else None
  }

  /** `parseSearch` (searchParser.ts). */
  function ParseSearch(s: string): Option<Expr>
  {
    Expression(s)
  }

  /** `parse` (parser.ts), the older copy of the same grammar. */
  function Parse(s: string): Option<Expr>
  {
    Expression(s)
  }
}

=== FILE: search_nodes.dfy ===
/**
 * The search nodes of src/tag-language/nodes/search-nodes: lookups, set
 * operations and the description filter, each computing a set of document
 * ids from a store of multi-valued documents.
 *
 * The store's `getIds(tagName, values)` index lookup is not part of this
 * model: it is a parameter, returning the candidate ids in the order in
 * which the index yields them. `getMetaById` stops the program when the id
 * is unknown; here that is the error `MissingMeta`.
 */
module SearchNodes {
  import opened Wrappers
  import opened DocumentMeta
  import opened Stores

  /** `FilterByDescriptionNode`: keeps documents whose having a description equals the flag. */
  datatype Filter = FilterByDescription(hasDescription: bool)

  /** The search operation nodes; the right side of a difference may be a filter. */
  datatype SearchOperation =
    | SelectAll
    | HasAnyTagValue(tagName: string, tagValueList: seq<string>)
    | Intersection(left: SearchOperation, right: SearchOperation)
    | Union(left: SearchOperation, right: SearchOperation)
    | Difference(minuend: SearchOperation, subtrahend: SearchNode)

  /** `GenericSearchNode`: a search operation or a filter. */
  datatype SearchNode =
    | OperationNode(operation: SearchOperation)
    | FilterNode(filter: Filter)

  datatype SearchError =
    | MissingMeta
    | MissingTag(tagName: string)

  datatype Store = Store(metaById: map<string, Meta>)

  /** The candidate ids the index yields for a tag name and value list. */
  type GetIds = (string, seq<string>) -> seq<string>

  /** Every stored document is filed under its own id. */
  predicate WellKeyed(store: Store) {
    FiledUnderOwnIds(store.metaById, MetaId)
  }

  // ---------------------------------------------------------------------
  // Filters

  /** `FilterByDescriptionNode.compute`. */
  predicate FilterHolds(f: Filter, m: Meta) {
    HasDescription(m) == f.hasDescription
  }

  // ---------------------------------------------------------------------
  // Lookups

  /** The id a document carries. */
  function MetaId(m: Meta): string {
    m.id
  }

  /** `SelectAllOperationNode.compute`: the id every stored document carries. */
  function SelectAllIds(store: Store): set<string> {
    StoredIds(store.metaById, MetaId)
  }

  /** Some listed value is among the document's values for the tag. */
  predicate HasAnyValue(m: Meta, tagName: string, values: seq<string>)
    requires tagName in m.tags
  {
    exists v :: v in values && v in m.tags[tagName]
  }

  /** Every candidate is stored. */
  predicate AllStored(store: Store, ids: seq<string>) {
    forall k :: 0 <= k < |ids| ==> ids[k] in store.metaById
  }

  /** Every candidate is stored and carries the tag. */
  predicate AllTagged(store: Store, ids: seq<string>, tagName: string)
    requires AllStored(store, ids)
  {
    forall k :: 0 <= k < |ids| ==> tagName in store.metaById[ids[k]].tags
  }

  /** The ids of the candidates whose documents hold one of the listed values. */
  function MatchingIds(store: Store, ids: seq<string>, tagName: string, values: seq<string>): (r: set<string>)
    requires AllStored(store, ids) && AllTagged(store, ids, tagName)
  {
    if |ids| == 0 then {}
    else
      var m := store.metaById[ids[0]];
      (if HasAnyValue(m, tagName, values) then {m.id} else {})
      + MatchingIds(store, ids[1..], tagName, values)
  }

  /**
   * `HasAnyTagValueOperationNode.compute`: every candidate is looked up
   * first, then each candidate's tag is read (a candidate without the tag is
   * an error) and kept when it holds one of the listed values.
   */
  function HasAnyTagValueIds(store: Store, getIds: GetIds, tagName: string, values: seq<string>): (r: Result<set<string>, SearchError>)
  {
    var ids := getIds(tagName, values);
    if !AllStored(store, ids) then Err(MissingMeta)
    else if !AllTagged(store, ids, tagName) then Err(MissingTag(tagName))
    else Ok(MatchingIds(store, ids, tagName, values))
  }

  // ---------------------------------------------------------------------
  // The whole tree

  /** `compute` on a search operation: the left side first, then the right. */
  function Compute(store: Store, getIds: GetIds, op: SearchOperation): (r: Result<set<string>, SearchError>)
    decreases op
  {
    match op
    case SelectAll => Ok(SelectAllIds(store))
    case HasAnyTagValue(tagName, values) => HasAnyTagValueIds(store, getIds, tagName, values)
    case Intersection(left, right) =>
      var l := Compute(store, getIds, left);
      if l.Err? then l
      else
        var rr := Compute(store, getIds, right);
        if rr.Err? then rr else Ok(set x | x in l.value && x in rr.value)
    case Union(left, right) =>
      var l := Compute(store, getIds, left);
      if l.Err? then l
      else
        var rr := Compute(store, getIds, right);
        if rr.Err? then rr else Ok(l.value + rr.value)
    case Difference(left, right) =>
      var l := Compute(store, getIds, left);
      if l.Err? then l
      else if right.FilterNode? then FilterOut(store, l.value, right.filter)
      else
        var rr := Compute(store, getIds, right.operation);
        if rr.Err? then rr else Ok(set x | x in l.value && x !in rr.value)
  }

  /** The filter side of a difference: every left id is looked up, and those whose document passes the filter are dropped. */
  function FilterOut(store: Store, ids: set<string>, f: Filter): (r: Result<set<string>, SearchError>)
  {
    if exists x :: x in ids && x !in store.metaById then Err(MissingMeta)
    else Ok(set x | x in ids && x in store.metaById && !FilterHolds(f, store.metaById[x]))
  }

  // ---------------------------------------------------------------------
  // Properties

  /** The candidate at position `k` is kept, and `x` is its document's id. */
  predicate KeptAt(store: Store, ids: seq<string>, tagName: string, values: seq<string>, k: int, x: string)
    requires AllStored(store, ids) && AllTagged(store, ids, tagName)
  {
    && 0 <= k < |ids|
    && HasAnyValue(store.metaById[ids[k]], tagName, values)
    && store.metaById[ids[k]].id == x
  }

  /** The matching ids are exactly the ids of the candidates holding a listed value. */
  lemma {:induction false} MatchingIdsExact(store: Store, ids: seq<string>, tagName: string, values: seq<string>)
    requires AllStored(store, ids) && AllTagged(store, ids, tagName)
    ensures forall x :: x in MatchingIds(store, ids, tagName, values) <==> exists k :: KeptAt(store, ids, tagName, values, k, x)
    decreases |ids|
  {
    if |ids| > 0 {
      var tail := ids[1..];
      assert AllStored(store, tail) && AllTagged(store, tail, tagName) by {
        forall k | 0 <= k < |tail| ensures tail[k] == ids[k + 1] {}
      }
      MatchingIdsExact(store, tail, tagName, values);
      var m := store.metaById[ids[0]];
      var head: set<string> := if HasAnyValue(m, tagName, values) then {m.id} else {};
      assert MatchingIds(store, ids, tagName, values) == head + MatchingIds(store, tail, tagName, values);
      forall x ensures x in MatchingIds(store, ids, tagName, values) <==> exists k :: KeptAt(store, ids, tagName, values, k, x) {
        if x in head {
          assert KeptAt(store, ids, tagName, values, 0, x);
        }
        if x in MatchingIds(store, tail, tagName, values) {
          var k :| KeptAt(store, tail, tagName, values, k, x);
          assert KeptAt(store, ids, tagName, values, k + 1, x);
        }
        if exists k :: KeptAt(store, ids, tagName, values, k, x) {
          var k :| KeptAt(store, ids, tagName, values, k, x);
          if k > 0 {
            assert KeptAt(store, tail, tagName, values, k - 1, x);
          }
        }
      }
    }
  }

  /**
   * A successful has-any-tag-value lookup returns exactly the ids of the
   * candidate documents whose tag holds one of the listed values.
   */
  lemma {:induction false} HasAnyTagValueExact(store: Store, getIds: GetIds, tagName: string, values: seq<string>)
    ensures HasAnyTagValueIds(store, getIds, tagName, values).Ok?
        <==> AllStored(store, getIds(tagName, values)) && AllTagged(store, getIds(tagName, values), tagName)
    ensures HasAnyTagValueIds(store, getIds, tagName, values).Ok? ==>
      forall x :: x in HasAnyTagValueIds(store, getIds, tagName, values).value
        <==> exists k :: KeptAt(store, getIds(tagName, values), tagName, values, k, x)
  {
    var ids := getIds(tagName, values);
    if AllStored(store, ids) && AllTagged(store, ids, tagName) {
      MatchingIdsExact(store, ids, tagName, values);
    }
  }

  /** Every returned document carries the tag with one of the listed values; with a well-keyed store, every returned id is a candidate. */
  lemma {:induction false} HasAnyTagValueSound(store: Store, getIds: GetIds, tagName: string, values: seq<string>, x: string)
    requires HasAnyTagValueIds(store, getIds, tagName, values).Ok?
    requires x in HasAnyTagValueIds(store, getIds, tagName, values).value
    ensures exists k :: 0 <= k < |getIds(tagName, values)| && getIds(tagName, values)[k] in store.metaById
                     && store.metaById[getIds(tagName, values)[k]].id == x
                     && tagName in store.metaById[getIds(tagName, values)[k]].tags
                     && HasAnyValue(store.metaById[getIds(tagName, values)[k]], tagName, values)
    ensures WellKeyed(store) ==> x in getIds(tagName, values)
  {
    HasAnyTagValueExact(store, getIds, tagName, values);
    var ids := getIds(tagName, values);
    var k :| KeptAt(store, ids, tagName, values, k, x);
    assert ids[k] in store.metaById;
  }

  /** A document that holds a listed value but is not a candidate is not returned (in a well-keyed store). */
  lemma {:induction false} NonCandidateNotReturned(store: Store, getIds: GetIds, tagName: string, values: seq<string>, x: string)
    requires WellKeyed(store) && x !in getIds(tagName, values)
    requires HasAnyTagValueIds(store, getIds, tagName, values).Ok?
    ensures x !in HasAnyTagValueIds(store, getIds, tagName, values).value
  {
    if x in HasAnyTagValueIds(store, getIds, tagName, values).value {
      HasAnyTagValueSound(store, getIds, tagName, values, x);
    }
  }

  /** With no values listed nothing matches, although a candidate without the tag is still an error. */
  lemma {:induction false} NoValuesNoMatch(store: Store, getIds: GetIds, tagName: string)
    ensures HasAnyTagValueIds(store, getIds, tagName, []).Ok? ==> HasAnyTagValueIds(store, getIds, tagName, []).value == {}
  {
    HasAnyTagValueExact(store, getIds, tagName, []);
  }

  /** A stored candidate that lacks the tag makes the lookup fail rather than be skipped. */
  lemma {:induction false} UntaggedCandidateFails(store: Store, getIds: GetIds, tagName: string, values: seq<string>, k: nat)
    requires AllStored(store, getIds(tagName, values))
    requires k < |getIds(tagName, values)| && tagName !in store.metaById[getIds(tagName, values)[k]].tags
    ensures HasAnyTagValueIds(store, getIds, tagName, values) == Err(MissingTag(tagName))
  {}

  /** Select-all depends only on which ids are stored, not on tags or descriptions. */
  lemma {:induction false} SelectAllIgnoresContent(a: Store, b: Store)
    requires a.metaById.Keys == b.metaById.Keys
    requires forall k :: k in a.metaById ==> a.metaById[k].id == b.metaById[k].id
    ensures SelectAllIds(a) == SelectAllIds(b)
  {}

  /** In a well-keyed store, select-all succeeds with exactly the stored keys. */
  lemma {:induction false} SelectAllKeys(store: Store, getIds: GetIds)
    ensures Compute(store, getIds, SelectAll).Ok?
    ensures WellKeyed(store) ==> Compute(store, getIds, SelectAll).value == store.metaById.Keys
  {}

  /** Intersection: both sides must succeed, and an id is kept iff it is on both sides. */
  lemma {:induction false} IntersectionMembership(store: Store, getIds: GetIds, a: SearchOperation, b: SearchOperation)
    ensures Compute(store, getIds, Intersection(a, b)).Ok?
        <==> Compute(store, getIds, a).Ok? && Compute(store, getIds, b).Ok?
    ensures Compute(store, getIds, Intersection(a, b)).Ok? ==>
      forall x :: x in Compute(store, getIds, Intersection(a, b)).value
        <==> x in Compute(store, getIds, a).value && x in Compute(store, getIds, b).value
  {}

  /** Union: both sides must succeed, and an id is kept iff it is on either side. */
  lemma {:induction false} UnionMembership(store: Store, getIds: GetIds, a: SearchOperation, b: SearchOperation)
    ensures Compute(store, getIds, Union(a, b)).Ok?
        <==> Compute(store, getIds, a).Ok? && Compute(store, getIds, b).Ok?
    ensures Compute(store, getIds, Union(a, b)).Ok? ==>
      forall x :: x in Compute(store, getIds, Union(a, b)).value
        <==> x in Compute(store, getIds, a).value || x in Compute(store, getIds, b).value
  {}

  /** Difference with an operation on the right: the left ids not on the right. */
  lemma {:induction false} DifferenceMembership(store: Store, getIds: GetIds, a: SearchOperation, b: SearchOperation)
    ensures Compute(store, getIds, Difference(a, OperationNode(b))).Ok?
        <==> Compute(store, getIds, a).Ok? && Compute(store, getIds, b).Ok?
    ensures Compute(store, getIds, Difference(a, OperationNode(b))).Ok? ==>
      forall x :: x in Compute(store, getIds, Difference(a, OperationNode(b))).value
        <==> x in Compute(store, getIds, a).value && x !in Compute(store, getIds, b).value
  {}

  /** Difference with a filter on the right: the left ids whose document fails the filter. */
  lemma {:induction false} DifferenceFilterMembership(store: Store, getIds: GetIds, a: SearchOperation, f: Filter)
    ensures Compute(store, getIds, Difference(a, FilterNode(f))).Ok?
        <==> Compute(store, getIds, a).Ok? && forall x :: x in Compute(store, getIds, a).value ==> x in store.metaById
    ensures Compute(store, getIds, Difference(a, FilterNode(f))).Ok? ==>
      forall x :: x in Compute(store, getIds, Difference(a, FilterNode(f))).value
        <==> x in Compute(store, getIds, a).value && !FilterHolds(f, store.metaById[x])
  {}

  /** A difference, of either kind, is contained in its left side. */
  lemma {:induction false} DifferenceWithinLeft(store: Store, getIds: GetIds, a: SearchOperation, b: SearchNode)
    requires Compute(store, getIds, Difference(a, b)).Ok?
    ensures Compute(store, getIds, a).Ok?
    ensures Compute(store, getIds, Difference(a, b)).value <= Compute(store, getIds, a).value
  {}

  /** Intersection and union are commutative as sets; which error is reported may differ. */
  lemma {:induction false} SetOperationsCommute(store: Store, getIds: GetIds, a: SearchOperation, b: SearchOperation)
    ensures Compute(store, getIds, Intersection(a, b)).Ok? == Compute(store, getIds, Intersection(b, a)).Ok?
    ensures Compute(store, getIds, Intersection(a, b)).Ok? ==>
      Compute(store, getIds, Intersection(a, b)).value == Compute(store, getIds, Intersection(b, a)).value
    ensures Compute(store, getIds, Union(a, b)).Ok? == Compute(store, getIds, Union(b, a)).Ok?
    ensures Compute(store, getIds, Union(a, b)).Ok? ==>
      Compute(store, getIds, Union(a, b)).value == Compute(store, getIds, Union(b, a)).value
  {}

  /** `X ∩ X = X`, `X ∪ X = X`, and `X - X` is empty. */
  lemma {:induction false} SetOperationsOnItself(store: Store, getIds: GetIds, a: SearchOperation)
    ensures Compute(store, getIds, Intersection(a, a)) == Compute(store, getIds, a)
    ensures Compute(store, getIds, Union(a, a)) == Compute(store, getIds, a)
    ensures Compute(store, getIds, a).Ok? ==> Compute(store, getIds, Difference(a, OperationNode(a))) == Ok({})
  {
    var r := Compute(store, getIds, a);
    if r.Ok? {
      assert (set x | x in r.value && x in r.value) == r.value;
      assert r.value + r.value == r.value;
      assert (set x | x in r.value && x !in r.value) == {};
    }
  }

  /** The description filters with flag true and flag false are complementary. */
  lemma {:induction false} FiltersComplementary(m: Meta)
    ensures FilterHolds(FilterByDescription(true), m) != FilterHolds(FilterByDescription(false), m)
  {}

  /** The filter reads only whether a description exists. */
  lemma {:induction false} FilterReadsOnlyDescription(a: Meta, b: Meta, f: Filter)
    requires HasDescription(a) == HasDescription(b)
    ensures FilterHolds(f, a) == FilterHolds(f, b)
  {}
}

=== FILE: search_printing.dfy ===
/**
 * Printing search trees as search-language text, and reading them back.
 *
 * `Print1`, `Print2` and `Print3` write an expression at the three
 * precedence levels of the grammar (`+`/`-`, `^`, operands), adding
 * parentheses only where a lower-precedence operation appears as an
 * operand. A spacing gives the whitespace around each operator and inside
 * each pair of parentheses. The main result, `SearchRoundTrip`, says that the parser
 * reads every such text back as the tree it was printed from: so `^` binds
 * tighter than `+` and `-`, every chain associates to the left, and
 * whitespace around operators and at the ends is optional.
 */
module SearchPrinting {
  import opened Wrappers
  import opened Text
  import opened TagLexer
  import opened SearchGrammar

  /**
   * The whitespace a printed operation carries: before and after its
   * operator, and after `(` and before `)` when it is printed in
   * parentheses; then the spacings of its two operands. `Uniform` puts the
   * same whitespace at every such place of every operation.
   */
  datatype Spacing =
    | Uniform(around: string, inside: string)
    | Spaced(before: string, after: string, open: string, close: string, left: Spacing, right: Spacing)

  function Before(g: Spacing): string {
    if g.Uniform? then g.around else g.before
  }

  function After(g: Spacing): string {
    if g.Uniform? then g.around else g.after
  }

  function Open(g: Spacing): string {
    if g.Uniform? then g.inside else g.open
  }

  function Close(g: Spacing): string {
    if g.Uniform? then g.inside else g.close
  }

  function LeftOf(g: Spacing): Spacing {
    if g.Uniform? then g else g.left
  }

  function RightOf(g: Spacing): Spacing {
    if g.Uniform? then g else g.right
  }

  /** One step of an operation chain: an operator and its right operand, the whitespace around the operator, and the operand's spacing. */
  datatype Link = Link(op: Operator, operand: Expr, pre: string, post: string, spacing: Spacing)

  function Size(e: Expr): nat {
    match e
    case SelectAll => 1
    case Tag(_, _) => 1
    case Intersection(a, b) => Size(a) + Size(b) + 1
    case Union(a, b) => Size(a) + Size(b) + 1
    case Difference(a, b) => Size(a) + Size(b) + 1
  }

  predicate IsLeaf(e: Expr) {
    e.SelectAll? || e.Tag?
  }

  /** An operation at the lowest precedence level, `+` or `-`. */
  predicate IsSum(e: Expr) {
    e.Union? || e.Difference?
  }

  /** Tag names and values are kebab words, so that the lexer can read them. */
  predicate WellFormed(e: Expr) {
    match e
    case SelectAll => true
    case Tag(name, value) => IsKebab(name) && (value.Some? ==> IsKebab(value.value))
    case Intersection(a, b) => WellFormed(a) && WellFormed(b)
    case Union(a, b) => WellFormed(a) && WellFormed(b)
    case Difference(a, b) => WellFormed(a) && WellFormed(b)
  }

  /** Every place of the spacing of one operation holds whitespace only. */
  predicate WhitespaceOnly(g: Spacing) {
    AllWhitespace(Before(g)) && AllWhitespace(After(g)) && AllWhitespace(Open(g)) && AllWhitespace(Close(g))
  }

  /**
   * A `-` written between `pre` and `post`, before the text of its operand,
   * is not read as the hyphen inside a word: there is whitespace on one of
   * its sides, or no word character right after it.
   */
  predicate Separated(pre: string, post: string, operand: string) {
    |pre| > 0 || |post| > 0 || |operand| == 0 || !IsKebabChar(operand[0])
  }

  /**
   * The spacing fits the tree: whitespace only at every place an operation
   * uses, and every `-` separated from the word after it.
   */
  predicate Spaceable(e: Expr, g: Spacing) {
    match e
    case SelectAll => true
    case Tag(_, _) => true
    case Intersection(a, b) => WhitespaceOnly(g) && Spaceable(a, LeftOf(g)) && Spaceable(b, RightOf(g))
    case Union(a, b) => WhitespaceOnly(g) && Spaceable(a, LeftOf(g)) && Spaceable(b, RightOf(g))
    case Difference(a, b) =>
      && WhitespaceOnly(g) && Separated(Before(g), After(g), Print2(b, RightOf(g)))
      && Spaceable(a, LeftOf(g)) && Spaceable(b, RightOf(g))
  }

  /** A tree can be written with a spacing when its words are kebab words and the spacing fits it. */
  predicate Printable(e: Expr, g: Spacing) {
    WellFormed(e) && Spaceable(e, g)
  }

  function OpText(op: Operator): string {
    match op
    case IntersectionOp => "^"
    case UnionOp => "+"
    case DifferenceOp => "-"
  }

  /** The operator of an operation node. */
  function OpOf(e: Expr): Operator
    requires !IsLeaf(e)
  {
    if e.Intersection? then IntersectionOp else if e.Union? then UnionOp else DifferenceOp
  }

  /**
   * The order in which the printers (level 1 to 3) and the parenthesis
   * case (level 4) may call one another on the same tree.
   */
  function Rank(level: nat, e: Expr): nat {
    if IsSum(e) then (if level == 1 then 1 else if level == 4 then 2 else if level == 3 then 3 else 4)
    else if e.Intersection? then (if level == 2 then 1 else if level == 1 then 2 else if level == 4 then 3 else 4)
    else (if level == 3 then 1 else if level == 2 then 2 else if level == 1 then 3 else 4)
  }

  /** A `subexpression1`: a `+`/`-` chain, or a `subexpression2`. */
  function Print1(e: Expr, g: Spacing): string
    decreases Size(e), Rank(1, e)
  {
    if IsSum(e) then Print1(e.left, LeftOf(g)) + Before(g) + OpText(OpOf(e)) + After(g) + Print2(e.right, RightOf(g))
    else Print2(e, g)
  }

  /** A `subexpression2`: a `^` chain, or a `subexpression3`. */
  function Print2(e: Expr, g: Spacing): string
    decreases Size(e), Rank(2, e)
  {
    if e.Intersection? then Print2(e.left, LeftOf(g)) + Before(g) + "^" + After(g) + Print3(e.right, RightOf(g))
    else Print3(e, g)
  }

  /** A `subexpression3`: a unit, or an operation in parentheses. */
  function Print3(e: Expr, g: Spacing): string
    decreases Size(e), Rank(3, e)
  {
    match e
    case SelectAll => "*"
    case Tag(name, value) => if value.Some? then name + ":" + value.value else name
    case _ => "(" + Open(g) + Print1(e, g) + Close(g) + ")"
  }

  /** The text of one chain step, operand at the level the parser expects after the operator. */
  function LinkText(x: Link): string {
    x.pre + OpText(x.op) + x.post + OperandText(x)
  }

  function OperandText(x: Link): string {
    if x.op == IntersectionOp then Print3(x.operand, x.spacing) else Print2(x.operand, x.spacing)
  }

  function ChainText(links: seq<Link>): string {
    if |links| == 0 then "" else LinkText(links[0]) + ChainText(links[1..])
  }

  /** The tree a chain denotes over its head, folding from the left. */
  function FoldLeft(head: Expr, links: seq<Link>): Expr
    decreases |links|
  {
    if |links| == 0 then head else FoldLeft(Apply(links[0].op, head, links[0].operand), links[1..])
  }

  /** The `AccumulatedOperation` the primed rules build for a chain, `null` when it is empty. */
  function ChainOpt(links: seq<Link>): Option<Chain> {
    if |links| == 0 then None else Some(Extend(links[0].op, links[0].operand, ChainOpt(links[1..])))
  }

  /** The step that prints the last operation of `e` under `g`. */
  function LastLink(e: Expr, g: Spacing): Link
    requires !IsLeaf(e)
  {
    Link(OpOf(e), e.right, Before(g), After(g), RightOf(g))
  }

  /** Left spine of a `+`/`-` chain: its first operand and that operand's spacing, and the steps after it. */
  function SumHead(e: Expr): Expr {
    if IsSum(e) then SumHead(e.left) else e
  }

  function SumHeadSpacing(e: Expr, g: Spacing): Spacing {
    if IsSum(e) then SumHeadSpacing(e.left, LeftOf(g)) else g
  }

  function SumLinks(e: Expr, g: Spacing): seq<Link> {
    if IsSum(e) then SumLinks(e.left, LeftOf(g)) + [LastLink(e, g)] else []
  }

  /** Left spine of a `^` chain. */
  function MeetHead(e: Expr): Expr {
    if e.Intersection? then MeetHead(e.left) else e
  }

  function MeetHeadSpacing(e: Expr, g: Spacing): Spacing {
    if e.Intersection? then MeetHeadSpacing(e.left, LeftOf(g)) else g
  }

  function MeetLinks(e: Expr, g: Spacing): seq<Link> {
    if e.Intersection? then MeetLinks(e.left, LeftOf(g)) + [LastLink(e, g)] else []
  }

  /** A chain step of the given level (1: `+`/`-`, 2: `^`) whose operand is smaller than `bound`. */
  predicate LinkOk(x: Link, bound: nat, level: nat) {
    && (if level == 1 then x.op != IntersectionOp else x.op == IntersectionOp)
    && Printable(x.operand, x.spacing)
    && Size(x.operand) < bound
    && AllWhitespace(x.pre) && AllWhitespace(x.post)
    && (x.op == DifferenceOp ==> Separated(x.pre, x.post, OperandText(x)))
  }

  predicate LinksOk(links: seq<Link>, bound: nat, level: nat) {
    forall j :: 0 <= j < |links| ==> LinkOk(links[j], bound, level)
  }

  // ---------------------------------------------------------------------
  // What may follow a parsed operand

  /** An operand ending at `k` is not extended: no more word, and no `:` value. */
  predicate OperandStop(s: string, k: nat)
    requires k <= |s|
  {
    KebabStop(s, k) && (k == |s| || s[k] != ':')
  }

  /** No `^` follows `k`, after optional whitespace. */
  predicate Follow2(s: string, k: nat)
    requires k <= |s|
  {
    var a := SkipWs(s, k);
    a == |s| || s[a] != '^'
  }

  /** No operator follows `k`, after optional whitespace. */
  predicate Follow1(s: string, k: nat)
    requires k <= |s|
  {
    var a := SkipWs(s, k);
    a == |s| || (s[a] != '^' && SumOp(s[a]).None?)
  }

  /** A printed operand starts with `(`, `*` or a word character, never whitespace. */
  predicate StartsOperand(w: string) {
    |w| > 0 && (w[0] == '(' || w[0] == '*' || IsKebabChar(w[0]))
  }

  // ---------------------------------------------------------------------
  // The grammar rules, one step at a time

  lemma {:induction false} Sub1Step(s: string, i: nat, h: Expr, m: nat, c: Option<Chain>, k: nat)
    requires i <= |s| && Sub2(s, i) == Some((h, m)) && Sub1Prime(s, m) == (c, k)
    ensures Sub1(s, i) == Some((Combine(h, c), k))
  {}

  lemma {:induction false} Sub2Step(s: string, i: nat, h: Expr, m: nat, c: Option<Chain>, k: nat)
    requires i <= |s| && Sub3(s, i) == Some((h, m)) && Sub2Prime(s, m) == (c, k)
    ensures Sub2(s, i) == Some((Combine(h, c), k))
  {}

  lemma {:induction false} Sub1PrimeStep(s: string, m: nat, a: nat, b: nat, op: Operator, r: Expr, n: nat, rest: Option<Chain>, k: nat)
    requires m <= |s| && SkipWs(s, m) == a && a < |s| && SumOp(s[a]) == Some(op)
    requires SkipWs(s, a + 1) == b && Sub2(s, b) == Some((r, n)) && Sub1Prime(s, n) == (rest, k)
    ensures Sub1Prime(s, m) == (Some(Extend(op, r, rest)), k)
  {}

  lemma {:induction false} Sub2PrimeStep(s: string, m: nat, a: nat, b: nat, r: Expr, n: nat, rest: Option<Chain>, k: nat)
    requires m <= |s| && SkipWs(s, m) == a && a < |s| && s[a] == '^'
    requires SkipWs(s, a + 1) == b && Sub3(s, b) == Some((r, n)) && Sub2Prime(s, n) == (rest, k)
    ensures Sub2Prime(s, m) == (Some(Extend(IntersectionOp, r, rest)), k)
  {}

  lemma {:induction false} Sub1PrimeEnd(s: string, k: nat)
    requires k <= |s| && Follow1(s, k)
    ensures Sub1Prime(s, k) == (None, k)
  {}

  lemma {:induction false} Sub2PrimeEnd(s: string, k: nat)
    requires k <= |s| && Follow2(s, k)
    ensures Sub2Prime(s, k) == (None, k)
  {}

  lemma {:induction false} ParenStep(s: string, i: nat, a: nat, e: Expr, b: nat, c: nat)
    requires i < |s| && s[i] == '(' && SkipWs(s, i + 1) == a
    requires Sub1(s, a) == Some((e, b)) && SkipWs(s, b) == c && c < |s| && s[c] == ')'
    ensures Sub3(s, i) == Some((e, c + 1))
  {}

  /** An operand that parses at level 3 and is followed by no operator parses at level 1. */
  lemma {:induction false} Lift3To1(s: string, i: nat, e: Expr, k: nat)
    requires i <= |s| && Sub3(s, i) == Some((e, k)) && Follow1(s, k)
    ensures Sub1(s, i) == Some((e, k))
  {
    Sub2PrimeEnd(s, k);
    Sub2Step(s, i, e, k, None, k);
    Sub1PrimeEnd(s, k);
    Sub1Step(s, i, e, k, None, k);
  }

  // ---------------------------------------------------------------------
  // Facts about the printed text

  /** Every printed form starts with an operand character. */
  lemma {:induction false} PrintStarts(e: Expr, g: Spacing)
    requires WellFormed(e)
    ensures StartsOperand(Print1(e, g)) && StartsOperand(Print2(e, g)) && StartsOperand(Print3(e, g))
    decreases e
  {
    match e
    case SelectAll =>
    case Tag(name, value) =>
      assert Print1(e, g) == Print3(e, g);
      assert IsKebabChar(name[0]);
      if value.Some? {
        assert (name + ":" + value.value)[0] == name[0];
      }
    case Intersection(a, b) =>
      PrintStarts(a, LeftOf(g));
      assert Print2(e, g)[0] == Print2(a, LeftOf(g))[0];
    case Union(a, b) =>
      PrintStarts(a, LeftOf(g));
      assert Print1(e, g)[0] == Print1(a, LeftOf(g))[0];
    case Difference(a, b) =>
      PrintStarts(a, LeftOf(g));
      assert Print1(e, g)[0] == Print1(a, LeftOf(g))[0];
  }

  /** The operand of a chain step starts with an operand character. */
  lemma {:induction false} OperandStarts(x: Link)
    requires WellFormed(x.operand)
    ensures StartsOperand(OperandText(x))
  {
    PrintStarts(x.operand, x.spacing);
  }

  lemma {:induction false} OpOfApply(e: Expr)
    requires !IsLeaf(e)
    ensures Apply(OpOf(e), e.left, e.right) == e
  {}

  lemma {:induction false} ChainTextAppend(xs: seq<Link>, x: Link)
    ensures ChainText(xs + [x]) == ChainText(xs) + LinkText(x)
    decreases |xs|
  {
    if |xs| > 0 {
      assert (xs + [x])[1..] == xs[1..] + [x];
      ChainTextAppend(xs[1..], x);
    }
  }

  lemma {:induction false} FoldAppend(h: Expr, xs: seq<Link>, x: Link)
    ensures FoldLeft(h, xs + [x]) == Apply(x.op, FoldLeft(h, xs), x.operand)
    decreases |xs|
  {
    if |xs| > 0 {
      assert (xs + [x])[1..] == xs[1..] + [x];
      FoldAppend(Apply(xs[0].op, h, xs[0].operand), xs[1..], x);
    }
  }

  /** The chain built by the primed rules folds, through `associateLeft`, into the left-nested tree. */
  lemma {:induction false} CombineFold(h: Expr, links: seq<Link>)
    ensures Combine(h, ChainOpt(links)) == FoldLeft(h, links)
    decreases |links|
  {
    if |links| > 0 {
      var x := links[0];
      var h' := Apply(x.op, h, x.operand);
      CombineFold(h', links[1..]);
      if |links| > 1 {
        assert ChainOpt(links).value == Nested(x.op, x.operand, ChainOpt(links[1..]).value);
        assert AssociateLeft(h, ChainOpt(links).value) == AssociateLeft(h', ChainOpt(links[1..]).value);
      }
    }
  }

  lemma {:induction false} LinksOkAppend(xs: seq<Link>, x: Link, bound: nat, level: nat)
    requires LinksOk(xs, bound, level) && LinkOk(x, bound, level)
    ensures LinksOk(xs + [x], bound, level)
  {
    forall j | 0 <= j < |xs + [x]| ensures LinkOk((xs + [x])[j], bound, level) {
      if j < |xs| { assert (xs + [x])[j] == xs[j]; }
    }
  }

  lemma {:induction false} LinksOkWeaken(xs: seq<Link>, b0: nat, b1: nat, level: nat)
    requires LinksOk(xs, b0, level) && b0 <= b1
    ensures LinksOk(xs, b1, level)
  {
    forall j | 0 <= j < |xs| ensures LinkOk(xs[j], b1, level) {
      assert LinkOk(xs[j], b0, level);
    }
  }

  lemma {:induction false} LinksOkTail(xs: seq<Link>, bound: nat, level: nat)
    requires |xs| > 0 && LinksOk(xs, bound, level)
    ensures LinkOk(xs[0], bound, level) && LinksOk(xs[1..], bound, level)
  {
    forall j | 0 <= j < |xs[1..]| ensures LinkOk(xs[1..][j], bound, level) {
      assert xs[1..][j] == xs[j + 1];
    }
  }

  /** A `+`/`-` chain is its spine head followed by its steps, in text and in tree. */
  lemma {:induction false} SumSpine(e: Expr, g: Spacing)
    requires IsSum(e) && Printable(e, g)
    ensures |SumLinks(e, g)| >= 1 && !IsSum(SumHead(e))
    ensures Printable(SumHead(e), SumHeadSpacing(e, g)) && Size(SumHead(e)) < Size(e)
    ensures LinksOk(SumLinks(e, g), Size(e), 1)
    ensures Print1(e, g) == Print2(SumHead(e), SumHeadSpacing(e, g)) + ChainText(SumLinks(e, g))
    ensures FoldLeft(SumHead(e), SumLinks(e, g)) == e
  {
    SumSpineShape(e, g);
    SumSpineText(e, g);
    SumSpineTree(e, g);
  }

  lemma {:induction false} SumSpineShape(e: Expr, g: Spacing)
    requires IsSum(e) && Printable(e, g)
    ensures |SumLinks(e, g)| >= 1 && !IsSum(SumHead(e))
    ensures Printable(SumHead(e), SumHeadSpacing(e, g)) && Size(SumHead(e)) < Size(e)
    ensures LinksOk(SumLinks(e, g), Size(e), 1)
    decreases e
  {
    var a := e.left;
    var x := LastLink(e, g);
    assert OperandText(x) == Print2(e.right, RightOf(g));
    assert LinkOk(x, Size(e), 1);
    if IsSum(a) {
      SumSpineShape(a, LeftOf(g));
      LinksOkWeaken(SumLinks(a, LeftOf(g)), Size(a), Size(e), 1);
      LinksOkAppend(SumLinks(a, LeftOf(g)), x, Size(e), 1);
    } else {
      assert SumLinks(e, g) == [x];
      assert LinkOk([x][0], Size(e), 1);
    }
  }

  /** The last step of a `+`/`-` chain, in text. */
  lemma {:induction false} SumStepText(e: Expr, g: Spacing)
    requires IsSum(e)
    ensures Print1(e, g) == Print1(e.left, LeftOf(g)) + LinkText(LastLink(e, g))
  {
    var x := LastLink(e, g);
    assert OperandText(x) == Print2(e.right, RightOf(g));
    assert LinkText(x) == Before(g) + OpText(OpOf(e)) + After(g) + Print2(e.right, RightOf(g));
  }

  /** The last step of a `^` chain, in text. */
  lemma {:induction false} MeetStepText(e: Expr, g: Spacing)
    requires e.Intersection?
    ensures Print2(e, g) == Print2(e.left, LeftOf(g)) + LinkText(LastLink(e, g))
  {
    var x := LastLink(e, g);
    assert OperandText(x) == Print3(e.right, RightOf(g));
    assert LinkText(x) == Before(g) + "^" + After(g) + Print3(e.right, RightOf(g));
  }

  /** A text that ends in one more step, regrouped around the head. */
  lemma {:induction false} AppendStep(whole: string, front: string, step: string, head: string, rest: string, restStep: string)
    requires whole == front + step && front == head + rest && restStep == rest + step
    ensures whole == head + restStep
  {}

  lemma {:induction false} SumSpineText(e: Expr, g: Spacing)
    requires IsSum(e)
    ensures Print1(e, g) == Print2(SumHead(e), SumHeadSpacing(e, g)) + ChainText(SumLinks(e, g))
    decreases e
  {
    var a := e.left;
    var ga := LeftOf(g);
    var x := LastLink(e, g);
    SumStepText(e, g);
    if IsSum(a) {
      SumSpineText(a, ga);
      ChainTextAppend(SumLinks(a, ga), x);
      assert SumHead(e) == SumHead(a) && SumHeadSpacing(e, g) == SumHeadSpacing(a, ga);
      assert SumLinks(e, g) == SumLinks(a, ga) + [x];
      AppendStep(Print1(e, g), Print1(a, ga), LinkText(x), Print2(SumHead(a), SumHeadSpacing(a, ga)),
                 ChainText(SumLinks(a, ga)), ChainText(SumLinks(a, ga) + [x]));
    } else {
      assert SumLinks(e, g) == [x];
      assert ChainText([x]) == LinkText(x) + "";
    }
  }

  lemma {:induction false} SumSpineTree(e: Expr, g: Spacing)
    requires IsSum(e)
    ensures FoldLeft(SumHead(e), SumLinks(e, g)) == e
    decreases e
  {
    var a := e.left;
    var x := LastLink(e, g);
    OpOfApply(e);
    if IsSum(a) {
      SumSpineTree(a, LeftOf(g));
      FoldAppend(SumHead(a), SumLinks(a, LeftOf(g)), x);
    } else {
      assert SumLinks(e, g) == [x];
      assert FoldLeft(a, [x]) == FoldLeft(Apply(x.op, a, x.operand), []);
    }
  }

  /** A `^` chain is its spine head followed by its steps, in text and in tree. */
  lemma {:induction false} MeetSpine(e: Expr, g: Spacing)
    requires e.Intersection? && Printable(e, g)
    ensures |MeetLinks(e, g)| >= 1 && !MeetHead(e).Intersection?
    ensures Printable(MeetHead(e), MeetHeadSpacing(e, g)) && Size(MeetHead(e)) < Size(e)
    ensures LinksOk(MeetLinks(e, g), Size(e), 2)
    ensures Print2(e, g) == Print3(MeetHead(e), MeetHeadSpacing(e, g)) + ChainText(MeetLinks(e, g))
    ensures FoldLeft(MeetHead(e), MeetLinks(e, g)) == e
  {
    MeetSpineShape(e, g);
    MeetSpineText(e, g);
    MeetSpineTree(e, g);
  }

  lemma {:induction false} MeetSpineShape(e: Expr, g: Spacing)
    requires e.Intersection? && Printable(e, g)
    ensures |MeetLinks(e, g)| >= 1 && !MeetHead(e).Intersection?
    ensures Printable(MeetHead(e), MeetHeadSpacing(e, g)) && Size(MeetHead(e)) < Size(e)
    ensures LinksOk(MeetLinks(e, g), Size(e), 2)
    decreases e
  {
    var a := e.left;
    var x := LastLink(e, g);
    assert LinkOk(x, Size(e), 2);
    if a.Intersection? {
      MeetSpineShape(a, LeftOf(g));
      LinksOkWeaken(MeetLinks(a, LeftOf(g)), Size(a), Size(e), 2);
      LinksOkAppend(MeetLinks(a, LeftOf(g)), x, Size(e), 2);
    } else {
      assert MeetLinks(e, g) == [x];
      assert LinkOk([x][0], Size(e), 2);
    }
  }

  lemma {:induction false} MeetSpineText(e: Expr, g: Spacing)
    requires e.Intersection?
    ensures Print2(e, g) == Print3(MeetHead(e), MeetHeadSpacing(e, g)) + ChainText(MeetLinks(e, g))
    decreases e
  {
    var a := e.left;
    var ga := LeftOf(g);
    var x := LastLink(e, g);
    MeetStepText(e, g);
    if a.Intersection? {
      MeetSpineText(a, ga);
      ChainTextAppend(MeetLinks(a, ga), x);
      assert MeetHead(e) == MeetHead(a) && MeetHeadSpacing(e, g) == MeetHeadSpacing(a, ga);
      assert MeetLinks(e, g) == MeetLinks(a, ga) + [x];
      AppendStep(Print2(e, g), Print2(a, ga), LinkText(x), Print3(MeetHead(a), MeetHeadSpacing(a, ga)),
                 ChainText(MeetLinks(a, ga)), ChainText(MeetLinks(a, ga) + [x]));
    } else {
      assert MeetLinks(e, g) == [x];
      assert ChainText([x]) == LinkText(x) + "";
      assert Print2(a, ga) == Print3(a, ga);
    }
  }

  lemma {:induction false} MeetSpineTree(e: Expr, g: Spacing)
    requires e.Intersection?
    ensures FoldLeft(MeetHead(e), MeetLinks(e, g)) == e
    decreases e
  {
    var a := e.left;
    var x := LastLink(e, g);
    if a.Intersection? {
      MeetSpineTree(a, LeftOf(g));
      FoldAppend(MeetHead(a), MeetLinks(a, LeftOf(g)), x);
    } else {
      assert MeetLinks(e, g) == [x];
      assert FoldLeft(a, [x]) == FoldLeft(Apply(x.op, a, x.operand), []);
    }
  }

  /** The positions of one chain step in a text. */
  lemma {:induction false} LinkAt(s: string, m: nat, x: Link, rest: string, a: nat, b: nat, n: nat)
    requires AllWhitespace(x.pre) && AllWhitespace(x.post) && StartsOperand(OperandText(x))
    requires At(s, m, LinkText(x) + rest)
    requires a == m + |x.pre| && b == a + 1 + |x.post| && n == b + |OperandText(x)|
    ensures SkipWs(s, m) == a && a < |s| && s[a] == OpText(x.op)[0]
    ensures SkipWs(s, a + 1) == b && At(s, b, OperandText(x)) && At(s, n, rest)
  {
    OperatorAt(s, m, x, rest, a);
    WsAt(s, m, x.pre);
    OperandAt(s, m, x, rest, a, b, n);
    AtChar(s, b, OperandText(x), 0);
    WsAt(s, a + 1, x.post);
  }

  /** The whitespace after a step's operator, its operand, and what follows. */
  lemma {:induction false} OperandAt(s: string, m: nat, x: Link, rest: string, a: nat, b: nat, n: nat)
    requires At(s, m, LinkText(x) + rest)
    requires a == m + |x.pre| && b == a + 1 + |x.post| && n == b + |OperandText(x)|
    ensures At(s, a + 1, x.post) && At(s, b, OperandText(x)) && At(s, n, rest)
  {
    var w := OperandText(x);
    assert LinkText(x) + rest == (x.pre + OpText(x.op)) + (x.post + (w + rest));
    AtSplit(s, m, x.pre + OpText(x.op), x.post + (w + rest));
    AtSplit(s, a + 1, x.post, w + rest);
    AtSplit(s, b, w, rest);
  }

  /** The operator of a chain step, after the whitespace before it. */
  lemma {:induction false} OperatorAt(s: string, n: nat, x: Link, rest: string, a: nat)
    requires At(s, n, LinkText(x) + rest) && a == n + |x.pre|
    ensures At(s, n, x.pre) && a < |s| && s[a] == OpText(x.op)[0]
  {
    var w := OperandText(x);
    assert LinkText(x) + rest == x.pre + (OpText(x.op) + (x.post + w + rest));
    AtSplit(s, n, x.pre, OpText(x.op) + (x.post + w + rest));
    AtSplit(s, a, OpText(x.op), x.post + w + rest);
    AtChar(s, a, OpText(x.op), 0);
  }

  /** What follows a chain's head, or an operand inside a chain: an operator step, or the chain's own follower. */
  lemma {:induction false} FollowChain(s: string, n: nat, links: seq<Link>, bound: nat, level: nat, k: nat)
    requires LinksOk(links, bound, level)
    requires At(s, n, ChainText(links)) && k == n + |ChainText(links)| && k <= |s|
    requires OperandStop(s, k) && (if level == 1 then Follow1(s, k) else Follow2(s, k))
    ensures OperandStop(s, n) && (level == 1 ==> Follow2(s, n))
  {
    if |links| > 0 {
      var x := links[0];
      assert LinkOk(x, bound, level);
      assert ChainText(links) == LinkText(x) + ChainText(links[1..]);
      OperandStarts(x);
      FollowOperator(s, n, x, ChainText(links[1..]), level);
    }
  }

  /**
   * A step of the level: the operand before it ends, and at level 1 no `^`
   * follows. A `-` with no whitespace before it is not taken into the word
   * before it, because what comes after it is whitespace or no word character.
   */
  lemma {:induction false} FollowOperator(s: string, n: nat, x: Link, rest: string, level: nat)
    requires AllWhitespace(x.pre) && AllWhitespace(x.post) && StartsOperand(OperandText(x))
    requires if level == 1 then x.op != IntersectionOp else x.op == IntersectionOp
    requires x.op == DifferenceOp ==> Separated(x.pre, x.post, OperandText(x))
    requires At(s, n, LinkText(x) + rest)
    ensures OperandStop(s, n) && (level == 1 ==> Follow2(s, n))
  {
    var a := n + |x.pre|;
    OperatorAt(s, n, x, rest, a);
    WsAt(s, n, x.pre);
    if |x.pre| > 0 {
      AtChar(s, n, x.pre, 0);
    } else if x.op == DifferenceOp {
      var b := a + 1 + |x.post|;
      OperandAt(s, n, x, rest, a, b, b + |OperandText(x)|);
      if |x.post| > 0 {
        AtChar(s, a + 1, x.post, 0);
      } else {
        AtChar(s, b, OperandText(x), 0);
      }
    }
  }

  // ---------------------------------------------------------------------
  // Reading printed trees back

  /** A printed unit is read back by `unit`. */
  lemma {:induction false} ReadLeaf(s: string, i: nat, e: Expr, g: Spacing, k: nat)
    requires IsLeaf(e) && WellFormed(e)
    requires At(s, i, Print3(e, g)) && k == i + |Print3(e, g)| && OperandStop(s, k)
    ensures Sub3(s, i) == Some((e, k))
  {
    match e
    case SelectAll =>
      AtChar(s, i, "*", 0);
    case Tag(name, value) =>
      if value.Some? {
        ReadTaggedValue(s, i, name, value.value, k);
      } else {
        ReadBareTag(s, i, name, k);
      }
  }

  /** `tag`: a word with no `:` after it. */
  lemma {:induction false} ReadBareTag(s: string, i: nat, name: string, k: nat)
    requires IsKebab(name) && At(s, i, name) && k == i + |name| && OperandStop(s, k)
    ensures Sub3(s, i) == Some((Tag(name, None), k))
  {
    AtChar(s, i, name, 0);
    WordAt(s, i, name);
  }

  /** `taggedValue`: a word, `:`, and a word. */
  lemma {:induction false} ReadTaggedValue(s: string, i: nat, name: string, v: string, k: nat)
    requires IsKebab(name) && IsKebab(v) && At(s, i, name + ":" + v)
    requires k == i + |name| + 1 + |v| && OperandStop(s, k)
    ensures Sub3(s, i) == Some((Tag(name, Some(v)), k))
  {
    AtSplit(s, i, name + ":", v);
    AtSplit(s, i, name, ":");
    AtChar(s, i + |name|, ":", 0);
    AtChar(s, i, name, 0);
    WordAt(s, i, name);
    WordAt(s, i + |name| + 1, v);
  }

  /** A parenthesised tree is read back by the first alternative of `subexpression3`. */
  lemma {:induction false} ReadParen(s: string, i: nat, e: Expr, g: Spacing, k: nat)
    requires Printable(e, g) && AllWhitespace(Open(g)) && AllWhitespace(Close(g))
    requires At(s, i, "(" + Open(g) + Print1(e, g) + Close(g) + ")")
    requires k == i + |"(" + Open(g) + Print1(e, g) + Close(g) + ")"|
    ensures Sub3(s, i) == Some((e, k))
    decreases Size(e), Rank(4, e), 0
  {
    var w := Print1(e, g);
    var a := i + 1 + |Open(g)|;
    var b := a + |w|;
    var c := b + |Close(g)|;
    PrintStarts(e, g);
    ParenFrame(s, i, w, Open(g), Close(g), a, b, c);
    Read1(s, a, e, g, b);
    ParenStep(s, i, a, e, b, c);
  }

  /** Around a parenthesised operand: the padding is skipped, and nothing but `)` follows the operand. */
  lemma {:induction false} ParenFrame(s: string, i: nat, w: string, open: string, close: string, a: nat, b: nat, c: nat)
    requires At(s, i, "(" + open + w + close + ")") && StartsOperand(w) && AllWhitespace(open) && AllWhitespace(close)
    requires a == i + 1 + |open| && b == a + |w| && c == b + |close|
    ensures i < |s| && s[i] == '(' && SkipWs(s, i + 1) == a && At(s, a, w)
    ensures b <= |s| && OperandStop(s, b) && Follow1(s, b)
    ensures SkipWs(s, b) == c && c < |s| && s[c] == ')'
    ensures i + |"(" + open + w + close + ")"| == c + 1
  {
    ParenPieces(s, i, w, open, close, a, b, c);
    AtChar(s, a, w, 0);
    WsAt(s, i + 1, open);
    WsAt(s, b, close);
    if |close| > 0 {
      AtChar(s, b, close, 0);
    }
  }

  lemma {:induction false} ParenPieces(s: string, i: nat, w: string, open: string, close: string, a: nat, b: nat, c: nat)
    requires At(s, i, "(" + open + w + close + ")")
    requires a == i + 1 + |open| && b == a + |w| && c == b + |close|
    ensures s[i] == '(' && At(s, i + 1, open) && At(s, a, w) && At(s, b, close) && c < |s| && s[c] == ')'
    ensures i + |"(" + open + w + close + ")"| == c + 1
  {
    assert "(" + open + w + close + ")" == "(" + (open + (w + (close + ")")));
    AtSplit(s, i, "(", open + (w + (close + ")")));
    AtSplit(s, i + 1, open, w + (close + ")"));
    AtSplit(s, a, w, close + ")");
    AtSplit(s, b, close, ")");
    AtChar(s, i, "(", 0);
    AtChar(s, c, ")", 0);
  }

  /** `subexpression3` reads back a tree printed at level 3. */
  lemma {:induction false} Read3(s: string, i: nat, e: Expr, g: Spacing, k: nat)
    requires Printable(e, g)
    requires At(s, i, Print3(e, g)) && k == i + |Print3(e, g)| && OperandStop(s, k)
    ensures Sub3(s, i) == Some((e, k))
    decreases Size(e), Rank(3, e), 0
  {
    if IsLeaf(e) {
      ReadLeaf(s, i, e, g, k);
    } else {
      assert WhitespaceOnly(g);
      ReadParen(s, i, e, g, k);
    }
  }

  /** `subexpression2` reads back a tree printed at level 2. */
  lemma {:induction false} Read2(s: string, i: nat, e: Expr, g: Spacing, k: nat)
    requires Printable(e, g)
    requires At(s, i, Print2(e, g)) && k == i + |Print2(e, g)|
    requires OperandStop(s, k) && Follow2(s, k)
    ensures Sub2(s, i) == Some((e, k))
    decreases Size(e), Rank(2, e), 0
  {
    if e.Intersection? {
      MeetSpine(e, g);
      var h := MeetHead(e);
      var hg := MeetHeadSpacing(e, g);
      var links := MeetLinks(e, g);
      var m := i + |Print3(h, hg)|;
      AtSplit(s, i, Print3(h, hg), ChainText(links));
      FollowChain(s, m, links, Size(e), 2, k);
      Read3(s, i, h, hg, m);
      ReadChain2(s, m, links, Size(e), k);
      Sub2Step(s, i, h, m, ChainOpt(links), k);
      CombineFold(h, links);
    } else {
      Read3(s, i, e, g, k);
      Sub2PrimeEnd(s, k);
      Sub2Step(s, i, e, k, None, k);
    }
  }

  /** `subexpression1` reads back a tree printed at level 1. */
  lemma {:induction false} Read1(s: string, i: nat, e: Expr, g: Spacing, k: nat)
    requires Printable(e, g)
    requires At(s, i, Print1(e, g)) && k == i + |Print1(e, g)|
    requires OperandStop(s, k) && Follow1(s, k)
    ensures Sub1(s, i) == Some((e, k))
    decreases Size(e), Rank(1, e), 0
  {
    if IsSum(e) {
      SumSpine(e, g);
      var h := SumHead(e);
      var hg := SumHeadSpacing(e, g);
      var links := SumLinks(e, g);
      var m := i + |Print2(h, hg)|;
      AtSplit(s, i, Print2(h, hg), ChainText(links));
      FollowChain(s, m, links, Size(e), 1, k);
      Read2(s, i, h, hg, m);
      ReadChain1(s, m, links, Size(e), k);
      Sub1Step(s, i, h, m, ChainOpt(links), k);
      CombineFold(h, links);
    } else {
      Read2(s, i, e, g, k);
      Sub1PrimeEnd(s, k);
      Sub1Step(s, i, e, k, None, k);
    }
  }

  /** `subexpression1Prime` reads back the steps of a `+`/`-` chain, in order. */
  lemma {:induction false} ReadChain1(s: string, m: nat, links: seq<Link>, bound: nat, k: nat)
    requires LinksOk(links, bound, 1)
    requires At(s, m, ChainText(links)) && k == m + |ChainText(links)| && k <= |s|
    requires OperandStop(s, k) && Follow1(s, k)
    ensures Sub1Prime(s, m) == (ChainOpt(links), k)
    decreases bound, 0, |links|
  {
    if |links| == 0 {
      Sub1PrimeEnd(s, m);
    } else {
      var x := links[0];
      LinksOkTail(links, bound, 1);
      var rest := ChainText(links[1..]);
      var a := m + |x.pre|;
      var b := a + 1 + |x.post|;
      var n := b + |OperandText(x)|;
      OperandStarts(x);
      LinkAt(s, m, x, rest, a, b, n);
      FollowChain(s, n, links[1..], bound, 1, k);
      Read2(s, b, x.operand, x.spacing, n);
      ReadChain1(s, n, links[1..], bound, k);
      Sub1PrimeStep(s, m, a, b, x.op, x.operand, n, ChainOpt(links[1..]), k);
    }
  }

  /** `subexpression2Prime` reads back the steps of a `^` chain, in order. */
  lemma {:induction false} ReadChain2(s: string, m: nat, links: seq<Link>, bound: nat, k: nat)
    requires LinksOk(links, bound, 2)
    requires At(s, m, ChainText(links)) && k == m + |ChainText(links)| && k <= |s|
    requires OperandStop(s, k) && Follow2(s, k)
    ensures Sub2Prime(s, m) == (ChainOpt(links), k)
    decreases bound, 0, |links|
  {
    if |links| == 0 {
      Sub2PrimeEnd(s, m);
    } else {
      var x := links[0];
      LinksOkTail(links, bound, 2);
      var rest := ChainText(links[1..]);
      var a := m + |x.pre|;
      var b := a + 1 + |x.post|;
      var n := b + |OperandText(x)|;
      OperandStarts(x);
      LinkAt(s, m, x, rest, a, b, n);
      FollowChain(s, n, links[1..], bound, 2, k);
      Read3(s, b, x.operand, x.spacing, n);
      ReadChain2(s, n, links[1..], bound, k);
      Sub2PrimeStep(s, m, a, b, x.operand, n, ChainOpt(links[1..]), k);
    }
  }
}

=== FILE: search_properties.dfy ===
/**
 * What the search grammar promises, as consequences of the round trip
 * between the printer and the parser: precedence, left associativity,
 * optional whitespace, transparent parentheses and greedy kebab words.
 */
module SearchProperties {
  import opened Wrappers
  import opened Text
  import opened TagLexer
  import opened SearchGrammar
  import opened SearchPrinting

  /** How `expression` composes its pieces. */
  lemma {:induction false} ExpressionStep(s: string, a: nat, e: Expr, k: nat)
    requires SkipWs(s, 0) == a && Sub1(s, a) == Some((e, k)) && SkipWs(s, k) == |s|
    ensures Expression(s) == Some(e)
  {}

  lemma {:induction false} AtWhole(s: string)
    ensures At(s, 0, s)
  {}

  /**
   * Both parsers read a printed tree back as itself, whatever whitespace
   * the spacing puts before and after each operator and inside each pair of
   * parentheses, and whatever whitespace surrounds the whole text.
   */
  lemma {:induction false} SearchRoundTrip(e: Expr, g: Spacing, lead: string, trail: string)
    requires Printable(e, g) && AllWhitespace(lead) && AllWhitespace(trail)
    ensures ParseSearch(lead + Print1(e, g) + trail) == Some(e)
    ensures Parse(lead + Print1(e, g) + trail) == Some(e)
  {
    var w := Print1(e, g);
    var s := lead + w + trail;
    var k := |lead| + |w|;
    AtPieces(lead, w, trail);
    PrintStarts(e, g);
    LeadingWhitespace(s, lead, w);
    TrailingWhitespace(s, k, trail);
    Read1(s, |lead|, e, g, k);
    ExpressionStep(s, |lead|, e, k);
  }

  /** Optional whitespace at the start passes over `lead` and stops at the printed operand. */
  lemma {:induction false} LeadingWhitespace(s: string, lead: string, w: string)
    requires At(s, 0, lead) && At(s, |lead|, w) && AllWhitespace(lead) && StartsOperand(w)
    ensures SkipWs(s, 0) == |lead|
  {
    AtChar(s, |lead|, w, 0);
    WsAt(s, 0, lead);
  }

  /** Trailing whitespace ends an operand and is followed by no operator. */
  lemma {:induction false} TrailingWhitespace(s: string, k: nat, trail: string)
    requires At(s, k, trail) && AllWhitespace(trail) && k + |trail| == |s|
    ensures OperandStop(s, k) && Follow1(s, k) && SkipWs(s, k) == |s|
  {
    WsAt(s, k, trail);
    if |trail| > 0 {
      AtChar(s, k, trail, 0);
    }
  }

  /** The round trip without surrounding whitespace. */
  lemma {:induction false} PrintedParses(e: Expr, g: Spacing)
    requires Printable(e, g)
    ensures ParseSearch(Print1(e, g)) == Some(e) && Parse(Print1(e, g)) == Some(e)
  {
    SearchRoundTrip(e, g, "", "");
    assert "" + Print1(e, g) + "" == Print1(e, g);
  }

  /** Parentheses around a whole expression add no node, whatever whitespace is inside them. */
  lemma {:induction false} ParensAddNoNode(e: Expr, g: Spacing)
    requires Printable(e, g) && AllWhitespace(Open(g)) && AllWhitespace(Close(g))
    ensures ParseSearch("(" + Open(g) + Print1(e, g) + Close(g) + ")") == Some(e)
    ensures ParseSearch("(" + Open(g) + Print1(e, g) + Close(g) + ")") == ParseSearch(Print1(e, g))
  {
    var s := "(" + Open(g) + Print1(e, g) + Close(g) + ")";
    AtWhole(s);
    ReadParen(s, 0, e, g, |s|);
    Lift3To1(s, 0, e, |s|);
    ExpressionStep(s, 0, e, |s|);
    PrintedParses(e, g);
  }

  /** A tag name alone. */
  function Bare(name: string): Expr {
    Tag(name, None)
  }

  /** The spacing of the test inputs: one space around operators, none inside parentheses. */
  function OneSpace(): Spacing {
    Uniform(" ", "")
  }

  /** The words and the spacing of the test inputs. */
  lemma {:induction false} OneSpaceWords()
    ensures WhitespaceOnly(OneSpace()) && Before(OneSpace()) == " " && After(OneSpace()) == " "
    ensures LeftOf(OneSpace()) == OneSpace() && RightOf(OneSpace()) == OneSpace()
    ensures IsKebab("a") && IsKebab("b") && IsKebab("c") && IsKebab("d")
  {}

  /** A text that prints a tree is parsed, by both parsers, as that tree. */
  lemma {:induction false} ParsesAs(s: string, e: Expr, g: Spacing)
    requires Printable(e, g) && Print1(e, g) == s
    ensures ParseSearch(s) == Some(e) && Parse(s) == Some(e)
  {
    PrintedParses(e, g);
  }

  /** `*` is SelectAll; a word is a tag; `word:word` is a tag with a value, never a tag followed by junk. */
  lemma {:induction false} UnitForms(name: string, value: string)
    requires IsKebab(name) && IsKebab(value)
    ensures ParseSearch("*") == Some(SelectAll) && Parse("*") == Some(SelectAll)
    ensures ParseSearch(name) == Some(Bare(name)) && Parse(name) == Some(Bare(name))
    ensures ParseSearch(name + ":" + value) == Some(Tag(name, Some(value)))
    ensures Parse(name + ":" + value) == Some(Tag(name, Some(value)))
  {
    var l := OneSpace();
    assert Print1(SelectAll, l) == Print2(SelectAll, l) == Print3(SelectAll, l) == "*";
    ParsesAs("*", SelectAll, l);
    assert Print1(Bare(name), l) == Print2(Bare(name), l) == Print3(Bare(name), l) == name;
    ParsesAs(name, Bare(name), l);
    var t := Tag(name, Some(value));
    assert Print1(t, l) == Print2(t, l) == Print3(t, l) == name + ":" + value;
    ParsesAs(name + ":" + value, t, l);
  }

  /** The spacing of a two-step chain: `p1` and `p2` around its first operator, `p3` and `p4` around its second. */
  function TwoSteps(p1: string, p2: string, p3: string, p4: string): Spacing {
    Spaced(p3, p4, "", "", Spaced(p1, p2, "", "", Uniform("", ""), Uniform("", "")), Uniform("", ""))
  }

  /**
   * A chain of one operator associates to the left, whatever whitespace is
   * on either side of each operator; a `-` needs whitespace on at least one
   * of its sides, or it joins the words around it into one.
   */
  lemma {:induction false} LeftAssociative(op: Operator, a: string, b: string, c: string, p1: string, p2: string, p3: string, p4: string)
    requires IsKebab(a) && IsKebab(b) && IsKebab(c)
    requires AllWhitespace(p1) && AllWhitespace(p2) && AllWhitespace(p3) && AllWhitespace(p4)
    requires op == DifferenceOp ==> |p1| + |p2| > 0 && |p3| + |p4| > 0
    ensures ParseSearch(a + p1 + OpText(op) + p2 + b + p3 + OpText(op) + p4 + c)
         == Some(Apply(op, Apply(op, Bare(a), Bare(b)), Bare(c)))
  {
    var e := Apply(op, Apply(op, Bare(a), Bare(b)), Bare(c));
    ChainOfThree(op, a, b, c, p1, p2, p3, p4);
    ParsesAs(a + p1 + OpText(op) + p2 + b + p3 + OpText(op) + p4 + c, e, TwoSteps(p1, p2, p3, p4));
  }

  lemma {:induction false} ChainOfThree(op: Operator, a: string, b: string, c: string, p1: string, p2: string, p3: string, p4: string)
    requires IsKebab(a) && IsKebab(b) && IsKebab(c)
    requires AllWhitespace(p1) && AllWhitespace(p2) && AllWhitespace(p3) && AllWhitespace(p4)
    requires op == DifferenceOp ==> |p1| + |p2| > 0 && |p3| + |p4| > 0
    ensures Printable(Apply(op, Apply(op, Bare(a), Bare(b)), Bare(c)), TwoSteps(p1, p2, p3, p4))
    ensures Print1(Apply(op, Apply(op, Bare(a), Bare(b)), Bare(c)), TwoSteps(p1, p2, p3, p4))
         == a + p1 + OpText(op) + p2 + b + p3 + OpText(op) + p4 + c
  {
    var g := TwoSteps(p1, p2, p3, p4);
    var g1 := LeftOf(g);
    var u := Uniform("", "");
    assert g1 == Spaced(p1, p2, "", "", u, u) && RightOf(g) == u && LeftOf(g1) == u && RightOf(g1) == u;
    assert AllWhitespace("");
    assert Bare(a) == Tag(a, None) && Bare(b) == Tag(b, None) && Bare(c) == Tag(c, None);
    assert WellFormed(Bare(a)) && WellFormed(Bare(b)) && WellFormed(Bare(c));
    assert Print3(Bare(a), u) == a && Print3(Bare(b), u) == b && Print3(Bare(c), u) == c;
    assert Print2(Bare(a), u) == a;
    assert Print2(Bare(b), u) == b;
    assert Print2(Bare(c), u) == c;
    match op
    case IntersectionOp =>
      var ab := Intersection(Bare(a), Bare(b));
      assert Print2(ab, g1) == a + p1 + "^" + p2 + b;
      var e := Intersection(ab, Bare(c));
      assert OpText(op) == "^";
      assert Print1(e, g) == Print2(e, g) == Print2(ab, g1) + p3 + "^" + p4 + c;
    case UnionOp =>
      var ab := Union(Bare(a), Bare(b));
      assert Print1(Bare(a), u) == a;
      assert Print1(ab, g1) == a + p1 + "+" + p2 + b;
      assert Print1(Union(ab, Bare(c)), g) == Print1(ab, g1) + p3 + "+" + p4 + c;
    case DifferenceOp =>
      var ab := Difference(Bare(a), Bare(b));
      assert Print1(Bare(a), u) == a;
      assert Print1(ab, g1) == a + p1 + "-" + p2 + b;
      assert Print1(Difference(ab, Bare(c)), g) == Print1(ab, g1) + p3 + "-" + p4 + c;
  }

  /** Whitespace on one side of a `-` is enough to make it an operator, and the two steps may be spaced differently. */
  lemma {:induction false} OneSidedDifference()
    ensures ParseSearch("a -b - c") == Some(Difference(Difference(Bare("a"), Bare("b")), Bare("c")))
    ensures ParseSearch("a- b -c") == Some(Difference(Difference(Bare("a"), Bare("b")), Bare("c")))
  {
    OneSpaceWords();
    assert "a -b - c" == "a" + " " + OpText(DifferenceOp) + "" + "b" + " " + OpText(DifferenceOp) + " " + "c";
    LeftAssociative(DifferenceOp, "a", "b", "c", " ", "", " ", " ");
    assert "a- b -c" == "a" + "" + OpText(DifferenceOp) + " " + "b" + " " + OpText(DifferenceOp) + "" + "c";
    LeftAssociative(DifferenceOp, "a", "b", "c", "", " ", " ", "");
  }

  /** A parenthesised printed tree is parsed, by both parsers, as that tree. */
  lemma {:induction false} ParenthesisedParsesAs(s: string, inner: string, e: Expr, g: Spacing)
    requires Printable(e, g) && AllWhitespace(Open(g)) && AllWhitespace(Close(g))
    requires Print1(e, g) == inner && s == "(" + Open(g) + inner + Close(g) + ")"
    ensures ParseSearch(s) == Some(e) && Parse(s) == Some(e)
  {
    ParensAddNoNode(e, g);
  }

  /** `(a)` is the tag `a`. */
  lemma {:induction false} ParenthesisedTag()
    ensures ParseSearch("(a)") == Some(Bare("a")) && Parse("(a)") == Some(Bare("a"))
  {
    ParenthesisedTagText();
    ParenthesisedParsesAs("(a)", "a", Bare("a"), OneSpace());
  }

  lemma {:induction false} ParenthesisedTagText()
    ensures Printable(Bare("a"), OneSpace()) && Print1(Bare("a"), OneSpace()) == "a"
    ensures "(a)" == "(" + Open(OneSpace()) + "a" + Close(OneSpace()) + ")"
  {}

  /** Greedy kebab matching: a hyphen between words without spaces is part of one tag name. */
  lemma {:induction false} HyphenInsideWord()
    ensures ParseSearch("a-b") == Some(Bare("a-b"))
    ensures Parse("a-b") == Some(Bare("a-b"))
    ensures ParseSearch("a - b") == Some(Difference(Bare("a"), Bare("b")))
    ensures Parse("a - b") == Some(Difference(Bare("a"), Bare("b")))
  {
    HyphenInsideWordText1();
    ParsesAs("a-b", Bare("a-b"), OneSpace());
    HyphenInsideWordText2();
    ParsesAs("a - b", Difference(Bare("a"), Bare("b")), OneSpace());
  }

  lemma {:induction false} HyphenInsideWordText1()
    ensures Printable(Bare("a-b"), OneSpace())
    ensures Print1(Bare("a-b"), OneSpace()) == "a-b"
  {}

  lemma {:induction false} HyphenInsideWordText2()
    ensures Printable(Difference(Bare("a"), Bare("b")), OneSpace())
    ensures Print1(Difference(Bare("a"), Bare("b")), OneSpace()) == "a - b"
  {}

  /** A `^` chain folds to the left. */
  lemma {:induction false} IntersectionChain()
    ensures ParseSearch("a ^ b ^ c") == Some(Intersection(Intersection(Bare("a"), Bare("b")), Bare("c")))
    ensures Parse("a ^ b ^ c") == Some(Intersection(Intersection(Bare("a"), Bare("b")), Bare("c")))
  {
    IntersectionChainText1();
    ParsesAs("a ^ b ^ c", Intersection(Intersection(Bare("a"), Bare("b")), Bare("c")), OneSpace());
  }

  lemma {:induction false} IntersectionChainText1()
    ensures Printable(Intersection(Intersection(Bare("a"), Bare("b")), Bare("c")), OneSpace())
    ensures Print1(Intersection(Intersection(Bare("a"), Bare("b")), Bare("c")), OneSpace()) == "a ^ b ^ c"
  {}

  /** A `+` chain folds to the left. */
  lemma {:induction false} UnionChain()
    ensures ParseSearch("a + b + c") == Some(Union(Union(Bare("a"), Bare("b")), Bare("c")))
    ensures Parse("a + b + c") == Some(Union(Union(Bare("a"), Bare("b")), Bare("c")))
  {
    UnionChainText1();
    ParsesAs("a + b + c", Union(Union(Bare("a"), Bare("b")), Bare("c")), OneSpace());
  }

  lemma {:induction false} UnionChainText1()
    ensures Printable(Union(Union(Bare("a"), Bare("b")), Bare("c")), OneSpace())
    ensures Print1(Union(Union(Bare("a"), Bare("b")), Bare("c")), OneSpace()) == "a + b + c"
  {}

  /** A `-` chain folds to the left. */
  lemma {:induction false} DifferenceChain()
    ensures ParseSearch("a - b - c") == Some(Difference(Difference(Bare("a"), Bare("b")), Bare("c")))
    ensures Parse("a - b - c") == Some(Difference(Difference(Bare("a"), Bare("b")), Bare("c")))
  {
    DifferenceChainText1();
    ParsesAs("a - b - c", Difference(Difference(Bare("a"), Bare("b")), Bare("c")), OneSpace());
  }

  lemma {:induction false} DifferenceChainText1()
    ensures Printable(Difference(Difference(Bare("a"), Bare("b")), Bare("c")), OneSpace())
    ensures Print1(Difference(Difference(Bare("a"), Bare("b")), Bare("c")), OneSpace()) == "a - b - c"
  {}

  /** `^` before `+` and `-`: the intersection is formed first. */
  lemma {:induction false} IntersectionBeforeSum()
    ensures ParseSearch("a ^ b + c - d") == Some(Difference(Union(Intersection(Bare("a"), Bare("b")), Bare("c")), Bare("d")))
    ensures Parse("a ^ b + c - d") == Some(Difference(Union(Intersection(Bare("a"), Bare("b")), Bare("c")), Bare("d")))
    ensures ParseSearch("a ^ b - c + d") == Some(Union(Difference(Intersection(Bare("a"), Bare("b")), Bare("c")), Bare("d")))
    ensures Parse("a ^ b - c + d") == Some(Union(Difference(Intersection(Bare("a"), Bare("b")), Bare("c")), Bare("d")))
  {
    IntersectionBeforeSumText1();
    ParsesAs("a ^ b + c - d", Difference(Union(Intersection(Bare("a"), Bare("b")), Bare("c")), Bare("d")), OneSpace());
    IntersectionBeforeSumText2();
    ParsesAs("a ^ b - c + d", Union(Difference(Intersection(Bare("a"), Bare("b")), Bare("c")), Bare("d")), OneSpace());
  }

  lemma {:induction false} IntersectionBeforeSumText1()
    ensures Printable(Difference(Union(Intersection(Bare("a"), Bare("b")), Bare("c")), Bare("d")), OneSpace())
    ensures Print1(Difference(Union(Intersection(Bare("a"), Bare("b")), Bare("c")), Bare("d")), OneSpace()) == "a ^ b + c - d"
  {
    var l := OneSpace();
    OneSpaceWords();
    var ab := Intersection(Bare("a"), Bare("b"));
    var abc := Union(ab, Bare("c"));
    assert Print1(ab, l) == "a ^ b" by { assert Print2(ab, l) == "a" + " " + "^" + " " + "b"; }
    assert Print1(abc, l) == "a ^ b + c" by { assert Print1(abc, l) == "a ^ b" + " " + "+" + " " + "c"; }
    assert Print1(Difference(abc, Bare("d")), l) == "a ^ b + c" + " " + "-" + " " + "d";
  }

  lemma {:induction false} IntersectionBeforeSumText2()
    ensures Printable(Union(Difference(Intersection(Bare("a"), Bare("b")), Bare("c")), Bare("d")), OneSpace())
    ensures Print1(Union(Difference(Intersection(Bare("a"), Bare("b")), Bare("c")), Bare("d")), OneSpace()) == "a ^ b - c + d"
  {
    var l := OneSpace();
    OneSpaceWords();
    var ab := Intersection(Bare("a"), Bare("b"));
    var abc := Difference(ab, Bare("c"));
    assert Print1(ab, l) == "a ^ b" by { assert Print2(ab, l) == "a" + " " + "^" + " " + "b"; }
    assert Print1(abc, l) == "a ^ b - c" by { assert Print1(abc, l) == "a ^ b" + " " + "-" + " " + "c"; }
    assert Print1(Union(abc, Bare("d")), l) == "a ^ b - c" + " " + "+" + " " + "d";
  }

  /** `^` between `+` and `-`: the intersection binds its neighbours first. */
  lemma {:induction false} IntersectionInsideSum()
    ensures ParseSearch("a + b ^ c - d") == Some(Difference(Union(Bare("a"), Intersection(Bare("b"), Bare("c"))), Bare("d")))
    ensures Parse("a + b ^ c - d") == Some(Difference(Union(Bare("a"), Intersection(Bare("b"), Bare("c"))), Bare("d")))
    ensures ParseSearch("a - b ^ c + d") == Some(Union(Difference(Bare("a"), Intersection(Bare("b"), Bare("c"))), Bare("d")))
    ensures Parse("a - b ^ c + d") == Some(Union(Difference(Bare("a"), Intersection(Bare("b"), Bare("c"))), Bare("d")))
  {
    IntersectionInsideSumText1();
    ParsesAs("a + b ^ c - d", Difference(Union(Bare("a"), Intersection(Bare("b"), Bare("c"))), Bare("d")), OneSpace());
    IntersectionInsideSumText2();
    ParsesAs("a - b ^ c + d", Union(Difference(Bare("a"), Intersection(Bare("b"), Bare("c"))), Bare("d")), OneSpace());
  }

  lemma {:induction false} IntersectionInsideSumText1()
    ensures Printable(Difference(Union(Bare("a"), Intersection(Bare("b"), Bare("c"))), Bare("d")), OneSpace())
    ensures Print1(Difference(Union(Bare("a"), Intersection(Bare("b"), Bare("c"))), Bare("d")), OneSpace()) == "a + b ^ c - d"
  {
    var l := OneSpace();
    OneSpaceWords();
    var bc := Intersection(Bare("b"), Bare("c"));
    var abc := Union(Bare("a"), bc);
    assert Print2(bc, l) == "b ^ c" by { assert Print2(bc, l) == "b" + " " + "^" + " " + "c"; }
    assert Print1(abc, l) == "a + b ^ c" by { assert Print1(abc, l) == "a" + " " + "+" + " " + "b ^ c"; }
    assert Print1(Difference(abc, Bare("d")), l) == "a + b ^ c" + " " + "-" + " " + "d";
  }

  lemma {:induction false} IntersectionInsideSumText2()
    ensures Printable(Union(Difference(Bare("a"), Intersection(Bare("b"), Bare("c"))), Bare("d")), OneSpace())
    ensures Print1(Union(Difference(Bare("a"), Intersection(Bare("b"), Bare("c"))), Bare("d")), OneSpace()) == "a - b ^ c + d"
  {
    var l := OneSpace();
    OneSpaceWords();
    var bc := Intersection(Bare("b"), Bare("c"));
    var abc := Difference(Bare("a"), bc);
    assert Print2(bc, l) == "b ^ c" by { assert Print2(bc, l) == "b" + " " + "^" + " " + "c"; }
    assert Print1(abc, l) == "a - b ^ c" by { assert Print1(abc, l) == "a" + " " + "-" + " " + "b ^ c"; }
    assert Print1(Union(abc, Bare("d")), l) == "a - b ^ c" + " " + "+" + " " + "d";
  }

  /** `^` after `+` and `-`: the intersection is the right operand of the last step. */
  lemma {:induction false} IntersectionAfterSum()
    ensures ParseSearch("a + b - c ^ d") == Some(Difference(Union(Bare("a"), Bare("b")), Intersection(Bare("c"), Bare("d"))))
    ensures Parse("a + b - c ^ d") == Some(Difference(Union(Bare("a"), Bare("b")), Intersection(Bare("c"), Bare("d"))))
    ensures ParseSearch("a - b + c ^ d") == Some(Union(Difference(Bare("a"), Bare("b")), Intersection(Bare("c"), Bare("d"))))
    ensures Parse("a - b + c ^ d") == Some(Union(Difference(Bare("a"), Bare("b")), Intersection(Bare("c"), Bare("d"))))
  {
    IntersectionAfterSumText1();
    ParsesAs("a + b - c ^ d", Difference(Union(Bare("a"), Bare("b")), Intersection(Bare("c"), Bare("d"))), OneSpace());
    IntersectionAfterSumText2();
    ParsesAs("a - b + c ^ d", Union(Difference(Bare("a"), Bare("b")), Intersection(Bare("c"), Bare("d"))), OneSpace());
  }

  lemma {:induction false} IntersectionAfterSumText1()
    ensures Printable(Difference(Union(Bare("a"), Bare("b")), Intersection(Bare("c"), Bare("d"))), OneSpace())
    ensures Print1(Difference(Union(Bare("a"), Bare("b")), Intersection(Bare("c"), Bare("d"))), OneSpace()) == "a + b - c ^ d"
  {
    var l := OneSpace();
    OneSpaceWords();
    var ab := Union(Bare("a"), Bare("b"));
    var cd := Intersection(Bare("c"), Bare("d"));
    assert Print1(ab, l) == "a + b" by { assert Print1(ab, l) == "a" + " " + "+" + " " + "b"; }
    assert Print2(cd, l) == "c ^ d" by { assert Print2(cd, l) == "c" + " " + "^" + " " + "d"; }
    assert Print1(Difference(ab, cd), l) == "a + b" + " " + "-" + " " + "c ^ d";
  }

  lemma {:induction false} IntersectionAfterSumText2()
    ensures Printable(Union(Difference(Bare("a"), Bare("b")), Intersection(Bare("c"), Bare("d"))), OneSpace())
    ensures Print1(Union(Difference(Bare("a"), Bare("b")), Intersection(Bare("c"), Bare("d"))), OneSpace()) == "a - b + c ^ d"
  {
    var l := OneSpace();
    OneSpaceWords();
    var ab := Difference(Bare("a"), Bare("b"));
    var cd := Intersection(Bare("c"), Bare("d"));
    assert Print1(ab, l) == "a - b" by { assert Print1(ab, l) == "a" + " " + "-" + " " + "b"; }
    assert Print2(cd, l) == "c ^ d" by { assert Print2(cd, l) == "c" + " " + "^" + " " + "d"; }
    assert Print1(Union(ab, cd), l) == "a - b" + " " + "+" + " " + "c ^ d";
  }

  /** Parentheses override precedence. */
  lemma {:induction false} ParenthesesOverride()
    ensures ParseSearch("(a - b) ^ (c + d)") == Some(Intersection(Difference(Bare("a"), Bare("b")), Union(Bare("c"), Bare("d"))))
    ensures Parse("(a - b) ^ (c + d)") == Some(Intersection(Difference(Bare("a"), Bare("b")), Union(Bare("c"), Bare("d"))))
  {
    ParenthesesOverrideText1();
    ParsesAs("(a - b) ^ (c + d)", Intersection(Difference(Bare("a"), Bare("b")), Union(Bare("c"), Bare("d"))), OneSpace());
  }

  lemma {:induction false} ParenthesesOverrideText1()
    ensures Printable(Intersection(Difference(Bare("a"), Bare("b")), Union(Bare("c"), Bare("d"))), OneSpace())
    ensures Print1(Intersection(Difference(Bare("a"), Bare("b")), Union(Bare("c"), Bare("d"))), OneSpace()) == "(a - b) ^ (c + d)"
  {
    var l := OneSpace();
    OneSpaceWords();
    var left := Difference(Bare("a"), Bare("b"));
    var right := Union(Bare("c"), Bare("d"));
    assert Print2(left, l) == "(a - b)" by {
      assert Print1(left, l) == "a" + " " + "-" + " " + "b";
    }
    assert Print3(right, l) == "(c + d)" by {
      assert Print1(right, l) == "c" + " " + "+" + " " + "d";
    }
    assert Print1(Intersection(left, right), l) == "(a - b)" + " " + "^" + " " + "(c + d)";
  }

  /** Nested parentheses, the outer pair around the whole expression. */
  lemma {:induction false} NestedParentheses()
    ensures ParseSearch("(a + (b - c) + d)")
         == Some(Union(Union(Bare("a"), Difference(Bare("b"), Bare("c"))), Bare("d")))
    ensures Parse("(a + (b - c) + d)")
         == Some(Union(Union(Bare("a"), Difference(Bare("b"), Bare("c"))), Bare("d")))
  {
    NestedParenthesesText();
    NestedParenthesesOuter();
    ParenthesisedParsesAs("(a + (b - c) + d)", "a + (b - c) + d",
      Union(Union(Bare("a"), Difference(Bare("b"), Bare("c"))), Bare("d")), OneSpace());
  }

  lemma {:induction false} NestedParenthesesText()
    ensures Printable(Union(Union(Bare("a"), Difference(Bare("b"), Bare("c"))), Bare("d")), OneSpace())
    ensures Print1(Union(Union(Bare("a"), Difference(Bare("b"), Bare("c"))), Bare("d")), OneSpace()) == "a + (b - c) + d"
  {
    var l := OneSpace();
    OneSpaceWords();
    var bc := Difference(Bare("b"), Bare("c"));
    var abc := Union(Bare("a"), bc);
    assert Print2(bc, l) == "(b - c)" by { assert Print1(bc, l) == "b" + " " + "-" + " " + "c"; }
    assert Print1(abc, l) == "a + (b - c)" by { assert Print1(abc, l) == "a" + " " + "+" + " " + "(b - c)"; }
    assert Print1(Union(abc, Bare("d")), l) == "a + (b - c)" + " " + "+" + " " + "d";
  }

  lemma {:induction false} NestedParenthesesOuter()
    ensures "(a + (b - c) + d)" == "(" + Open(OneSpace()) + "a + (b - c) + d" + Close(OneSpace()) + ")"
  {
    assert Open(OneSpace()) == "" && Close(OneSpace()) == "";
    assert "(" + "" + "a + (b - c) + d" + "" + ")" == "(" + "a + (b - c) + d" + ")";
  }
}

=== FILE: stores.dfy ===
/**
 * The plain-object stores of both metadata managers: a map from id to
 * document, where each document also carries an id of its own. Select-all
 * (`Object.values(metaById).map(meta => meta.id)`) reads those carried
 * ids, not the keys; the two agree when every document is filed under its
 * own id, which is how both managers file them.
 */
module Stores {

  /** Every document is filed under the id it carries. */
  predicate FiledUnderOwnIds<M>(docs: map<string, M>, idOf: M -> string) {
    forall k :: k in docs ==> idOf(docs[k]) == k
  }

  /** The ids the stored documents carry. */
  function StoredIds<M>(docs: map<string, M>, idOf: M -> string): (r: set<string>)
    ensures FiledUnderOwnIds(docs, idOf) ==> r == docs.Keys
    ensures docs == map[] ==> r == {}
  {
    set k | k in docs :: idOf(docs[k])
  }
}

=== FILE: tag_lexer.dfy ===
/**
 * The lexical sublanguage shared by the search and modification grammars
 * (src/tag-language/tagParser.ts): kebab words used as tag names and tag
 * values, the `:` delimiter, value units (`v` or `[v1 v2 ...]`) and
 * secondary index keys (`name:value`).
 *
 * Every parser is a function of the whole input `s` and a start position
 * `i`; it returns the parsed value and the position after it, or `None`
 * when it fails. Alternatives are ordered and committed, as in a PEG.
 */
module TagLexer {
  import opened Wrappers
  import opened Text

  /**
   * `s[i..e]` matches `[0-9a-zA-Z?]+(-[0-9a-zA-Z?]+)*`: it starts and ends
   * with a word character, holds only word characters and hyphens, and
   * never two hyphens in a row.
   */
  predicate KebabSpan(s: string, i: nat, e: nat) {
    && i < e <= |s|
    && IsKebabChar(s[i])
    && IsKebabChar(s[e - 1])
    && (forall k :: i <= k < e ==> IsKebabChar(s[k]) || s[k] == '-')
    && (forall k :: i <= k < e - 1 ==> !DoubleHyphenAt(s, k))
  }

  /** Two hyphens in a row start at `k`. */
  predicate DoubleHyphenAt(s: string, k: nat) {
    k + 1 < |s| && s[k] == '-' && s[k + 1] == '-'
  }

  /** The whole word `w` is a kebab word. */
  predicate IsKebab(w: string) {
    KebabSpan(w, 0, |w|)
  }

  /** A kebab word ending just before `k` cannot be extended at `k`. */
  predicate KebabStop(s: string, k: nat)
    requires k <= |s|
  {
    k == |s| || (!IsKebabChar(s[k]) && !(s[k] == '-' && k + 1 < |s| && IsKebabChar(s[k + 1])))
  }

  /** `s` holds `w` at position `i`. */
  predicate At(s: string, i: nat, w: string) {
    i + |w| <= |s| && forall k :: 0 <= k < |w| ==> s[i + k] == w[k]
  }

  lemma {:induction false} AtSplit(s: string, i: nat, a: string, b: string)
    requires At(s, i, a + b)
    ensures At(s, i, a) && At(s, i + |a|, b)
  {
    forall k | 0 <= k < |a| ensures s[i + k] == a[k] {
      assert (a + b)[k] == a[k];
    }
    forall k | 0 <= k < |b| ensures s[i + |a| + k] == b[k] {
      assert (a + b)[|a| + k] == b[k];
    }
  }

  lemma {:induction false} AtChar(s: string, i: nat, w: string, k: nat)
    requires At(s, i, w) && k < |w|
    ensures s[i + k] == w[k]
  {}

  lemma {:induction false} AtSlice(s: string, i: nat, w: string)
    requires At(s, i, w)
    ensures s[i..i + |w|] == w
  {
    forall k | 0 <= k < |w| ensures s[i..i + |w|][k] == w[k] {
      AtChar(s, i, w, k);
    }
  }

  /** A kebab word placed in a text spans its positions there. */
  lemma {:induction false} AtKebab(s: string, i: nat, w: string)
    requires At(s, i, w) && IsKebab(w)
    ensures KebabSpan(s, i, i + |w|)
  {
    AtChar(s, i, w, 0);
    AtChar(s, i, w, |w| - 1);
    forall k | i <= k < i + |w| ensures IsKebabChar(s[k]) || s[k] == '-' {
      AtChar(s, i, w, k - i);
    }
    forall k | i <= k < i + |w| - 1 ensures !DoubleHyphenAt(s, k) {
      AtChar(s, i, w, k - i);
      AtChar(s, i, w, k - i + 1);
      assert !DoubleHyphenAt(w, k - i);
    }
  }

  /**
   * Greedy continuation of a kebab word whose last character, at `j - 1`,
   * is a word character: more word characters, or a hyphen followed by one.
   */
  function KebabEnd(s: string, j: nat): (e: nat)
    requires j <= |s|
    ensures j <= e <= |s|
    ensures KebabStop(s, e)
    decreases |s| - j
  {
    if j < |s| && IsKebabChar(s[j]) then KebabEnd(s, j + 1)
    else if j + 1 < |s| && s[j] == '-' && IsKebabChar(s[j + 1]) then KebabEnd(s, j + 2)
    else j
  }

  /** `P.regex(KEBAB)`: the end of the kebab word starting at `i`, if any. */
  function Kebab(s: string, i: nat): (r: Option<nat>)
    requires i <= |s|
    ensures r.Some? ==> i < r.value <= |s|
  {
    if i < |s| && IsKebabChar(s[i]) then Some(KebabEnd(s, i + 1)) else None
  }

  /** `tagName` and `tagValue`: the kebab word at `i`, and the position after it. */
  function Word(s: string, i: nat): (r: Option<(string, nat)>)
    requires i <= |s|
    ensures r.Some? ==> i < r.value.1 <= |s| && |r.value.0| == r.value.1 - i
  {
    match Kebab(s, i)
    case None => None
    case Some(j) => Some((s[i..j], j))
  }

  // ---------------------------------------------------------------------
  // Kebab words: soundness and completeness of the greedy matcher

  /** Continuing a kebab span greedily keeps it a kebab span. */
  lemma {:induction false} KebabEndSound(s: string, i: nat, j: nat)
    requires KebabSpan(s, i, j)
    ensures KebabSpan(s, i, KebabEnd(s, j))
    decreases |s| - j
  {
    if j < |s| && IsKebabChar(s[j]) {
      KebabEndSound(s, i, j + 1);
    } else if j + 1 < |s| && s[j] == '-' && IsKebabChar(s[j + 1]) {
      KebabEndSound(s, i, j + 2);
    }
  }

  /** Inside a kebab span that cannot be extended, the greedy scan reaches its end. */
  lemma {:induction false} KebabEndExact(s: string, i: nat, e: nat, j: nat)
    requires KebabSpan(s, i, e) && KebabStop(s, e)
    requires i < j <= e && IsKebabChar(s[j - 1])
    ensures KebabEnd(s, j) == e
    decreases e - j
  {
    if j < e {
      if IsKebabChar(s[j]) {
        KebabEndExact(s, i, e, j + 1);
      } else {
        assert s[j] == '-' && j + 1 < e;
        assert !DoubleHyphenAt(s, j);
        KebabEndExact(s, i, e, j + 2);
      }
    }
  }

  /** What `Kebab` accepts is a kebab span that cannot be extended. */
  lemma {:induction false} KebabSound(s: string, i: nat)
    requires i <= |s| && Kebab(s, i).Some?
    ensures KebabSpan(s, i, Kebab(s, i).value) && KebabStop(s, Kebab(s, i).value)
  {
    KebabEndSound(s, i, i + 1);
  }

  /** A kebab span that cannot be extended is matched exactly. */
  lemma {:induction false} KebabComplete(s: string, i: nat, e: nat)
    requires KebabSpan(s, i, e) && KebabStop(s, e)
    ensures Kebab(s, i) == Some(e)
  {
    KebabEndExact(s, i, e, i + 1);
  }

  /** `tagName` and `tagValue` accept, as a whole input, exactly the kebab words. */
  lemma {:induction false} KebabAcceptsExactly(w: string)
    ensures Kebab(w, 0) == Some(|w|) <==> IsKebab(w)
  {
    if Kebab(w, 0) == Some(|w|) {
      KebabSound(w, 0);
    }
    if IsKebab(w) {
      KebabComplete(w, 0, |w|);
    }
  }

  /** `tagName.tryParse(w)` returns `w` exactly when `w` is a kebab word, and fails otherwise. */
  lemma {:induction false} WordAcceptsExactly(w: string)
    ensures Full(Word(w, 0), w) == Some(w) <==> IsKebab(w)
    ensures !IsKebab(w) ==> Full(Word(w, 0), w).None?
  {
    KebabAcceptsExactly(w);
    assert w[0..|w|] == w;
  }

  /** A kebab word that cannot be extended is read back exactly. */
  lemma {:induction false} WordAt(s: string, a: nat, w: string)
    requires IsKebab(w) && At(s, a, w) && KebabStop(s, a + |w|)
    ensures Kebab(s, a) == Some(a + |w|) && s[a..a + |w|] == w
  {
    AtKebab(s, a, w);
    KebabComplete(s, a, a + |w|);
    AtSlice(s, a, w);
  }

  // ---------------------------------------------------------------------
  // Value units and value lists

  /** `P.whitespace`: one or more whitespace characters. */
  function Ws1(s: string, i: nat): (r: Option<nat>)
    requires i <= |s|
    ensures r.Some? ==> i < r.value <= |s|
  {
    var j := SkipWs(s, i);
    if j > i then Some(j) else None
  }

  /** `tagValueListExpressionPrime`: further values, each after at least one whitespace. */
  function ListPrime(s: string, i: nat): (r: (seq<string>, nat))
    requires i <= |s|
    ensures i <= r.1 <= |s|
    decreases |s| - i
  {
    match Ws1(s, i)
    case None => ([], i)
    case Some(a) =>
      match Kebab(s, a)
      case None => ([], i)
      case Some(b) =>
        var rest := ListPrime(s, b);
        ([s[a..b]] + rest.0, rest.1)
  }

  /** `tagValueListExpression`: zero or more whitespace-separated values. */
  function ListExpression(s: string, i: nat): (r: (seq<string>, nat))
    requires i <= |s|
    ensures i <= r.1 <= |s|
  {
    match Kebab(s, i)
    case None => ([], i)
    case Some(j) =>
      var rest := ListPrime(s, j);
      ([s[i..j]] + rest.0, rest.1)
  }

  /** `tagValueList`: `[` optional whitespace, values, optional whitespace `]`. */
  function TagValueList(s: string, i: nat): (r: Option<(seq<string>, nat)>)
    requires i <= |s|
    ensures r.Some? ==> i < r.value.1 <= |s|
  {
    if i < |s| && s[i] == '[' then
      var a := SkipWs(s, i + 1);
      var values := ListExpression(s, a);
      var c := SkipWs(s, values.1);
      if c < |s| && s[c] == ']' then Some((values.0, c + 1)) else None
    else None
  }

  /** `tagValueUnit`: a bracketed list, or a bare value read as a one-element list. */
  function TagValueUnit(s: string, i: nat): (r: Option<(seq<string>, nat)>)
    requires i <= |s|
    ensures r.Some? ==> i < r.value.1 <= |s|
  {
    match TagValueList(s, i)
    case Some(res) => Some(res)
    case None =>
      match Kebab(s, i)
      case Some(j) => Some(([s[i..j]], j))
      case None => None
  }

  /** `secondaryIndexKey`: `name:value`, rendered back as text. */
  function SecondaryIndexKey(s: string, i: nat): (r: Option<(string, nat)>)
    requires i <= |s|
    ensures r.Some? ==> i < r.value.1 <= |s|
  {
    match Kebab(s, i)
    case None => None
    case Some(j) =>
      if j < |s| && s[j] == ':' then
        match Kebab(s, j + 1)
        case None => None
        case Some(k) => Some((s[i..j] + ":" + s[j + 1..k], k))
      else None
  }

  /** `tryParse`: run a parser from the start and require it to consume the whole input. */
  function Full<T>(r: Option<(T, nat)>, s: string): Option<T> {
    if r.Some? && r.value.1 == |s| then Some(r.value.0) else None
  }

  // ---------------------------------------------------------------------
  // Printing value units

  predicate AllKebab(vs: seq<string>) {
    forall k :: 0 <= k < |vs| ==> IsKebab(vs[k])
  }

  /** The bracketed text of a value list, with `gap` between values. */
  function ListText(vs: seq<string>, gap: string): string {
    "[" + Join(vs, gap) + "]"
  }

  /** A value unit as a user would write it: bare when it holds exactly one value. */
  function UnitText(vs: seq<string>): string {
    if |vs| == 1 then vs[0] else ListText(vs, " ")
  }

  lemma {:induction false} JoinAtSplit(s: string, i: nat, vs: seq<string>, gap: string)
    requires |vs| >= 2 && At(s, i, Join(vs, gap))
    ensures At(s, i, vs[0]) && At(s, i + |vs[0]|, gap) && At(s, i + |vs[0]| + |gap|, Join(vs[1..], gap))
    ensures |Join(vs, gap)| == |vs[0]| + |gap| + |Join(vs[1..], gap)|
  {
    assert Join(vs, gap) == vs[0] + gap + Join(vs[1..], gap);
    AtSplit(s, i, vs[0] + gap, Join(vs[1..], gap));
    AtSplit(s, i, vs[0], gap);
  }

  /** A joined list starts with its first element. */
  lemma {:induction false} JoinHead(s: string, i: nat, vs: seq<string>, gap: string)
    requires |vs| >= 1 && At(s, i, Join(vs, gap))
    ensures At(s, i, vs[0])
  {
    if |vs| >= 2 {
      JoinAtSplit(s, i, vs, gap);
    }
  }

  /** A whitespace run in a text, followed by something else, is skipped exactly. */
  lemma {:induction false} WsAt(s: string, i: nat, w: string)
    requires At(s, i, w) && AllWhitespace(w)
    requires i + |w| == |s| || !IsWhitespace(s[i + |w|])
    ensures SkipWs(s, i) == i + |w|
  {
    AtSlice(s, i, w);
    SkipWsOver(s, i, w);
  }

  /** Whitespace (or a non-word character) at `k` stops a kebab word. */
  lemma {:induction false} StopAtWhitespace(s: string, k: nat)
    requires k < |s| && IsWhitespace(s[k])
    ensures KebabStop(s, k)
  {}

  /** No further value follows position `k`. */
  predicate PrimeStop(s: string, k: nat)
    requires k <= |s|
  {
    Ws1(s, k).None? || Kebab(s, Ws1(s, k).value).None?
  }

  /** One step of `tagValueListExpressionPrime`: a gap, then a value. */
  lemma {:induction false} ListPrimeStep(s: string, i: nat, a: nat, b: nat, rest: seq<string>, e: nat)
    requires i <= |s| && Ws1(s, i) == Some(a) && Kebab(s, a) == Some(b)
    requires ListPrime(s, b) == (rest, e)
    ensures ListPrime(s, i) == ([s[a..b]] + rest, e)
  {}

  /** A whitespace gap followed by a value that cannot be extended is one step of the list. */
  lemma {:induction false} GapThenWord(s: string, i: nat, gap: string, w: string)
    requires |gap| > 0 && AllWhitespace(gap) && IsKebab(w)
    requires At(s, i, gap) && At(s, i + |gap|, w) && KebabStop(s, i + |gap| + |w|)
    ensures Ws1(s, i) == Some(i + |gap|)
    ensures Kebab(s, i + |gap|) == Some(i + |gap| + |w|)
    ensures s[i + |gap|..i + |gap| + |w|] == w
  {
    AtChar(s, i + |gap|, w, 0);
    WsAt(s, i, gap);
    WordAt(s, i + |gap|, w);
  }

  /** Splitting off the first value of a joined list of at least two values, which ends at `b`; the rest starts at `c`. */
  lemma {:induction false} FirstOfSeveral(s: string, i: nat, vs: seq<string>, gap: string, b: nat, c: nat)
    requires |vs| >= 2 && AllKebab(vs) && |gap| > 0 && AllWhitespace(gap)
    requires At(s, i, Join(vs, gap)) && b == i + |vs[0]| && c == b + |gap|
    ensures At(s, i, vs[0]) && KebabStop(s, b)
    ensures At(s, b, gap) && At(s, c, Join(vs[1..], gap))
    ensures AllKebab(vs[1..]) && |vs[1..]| >= 1
    ensures i + |Join(vs, gap)| == c + |Join(vs[1..], gap)|
  {
    JoinAtSplit(s, i, vs, gap);
    AtChar(s, b, gap, 0);
    StopAtWhitespace(s, b);
    forall k | 0 <= k < |vs[1..]| ensures IsKebab(vs[1..][k]) {
      assert vs[1..][k] == vs[k + 1];
    }
  }

  /** The values after the first are recovered in order, each behind its whitespace gap. */
  lemma {:induction false} ListPrimeJoin(s: string, i: nat, vs: seq<string>, gap: string, e: nat)
    requires |vs| >= 1 && AllKebab(vs) && |gap| > 0 && AllWhitespace(gap)
    requires At(s, i, gap) && At(s, i + |gap|, Join(vs, gap))
    requires e == i + |gap| + |Join(vs, gap)| && e <= |s| && KebabStop(s, e) && PrimeStop(s, e)
    ensures ListPrime(s, i) == (vs, e)
    decreases |vs|
  {
    var a := i + |gap|;
    var b := a + |vs[0]|;
    if |vs| == 1 {
      assert Join(vs, gap) == vs[0];
      ListPrimeLast(s, i, gap, vs[0], e);
      assert [vs[0]] == vs;
    } else {
      FirstOfSeveral(s, a, vs, gap, b, b + |gap|);
      GapThenWord(s, i, gap, vs[0]);
      ListPrimeJoin(s, b, vs[1..], gap, e);
      ListPrimeCons(s, i, a, b, vs, e);
    }
  }

  /** A gap and a first value in front of the rest of the values. */
  lemma {:induction false} ListPrimeCons(s: string, i: nat, a: nat, b: nat, vs: seq<string>, e: nat)
    requires i <= |s| && |vs| >= 1 && Ws1(s, i) == Some(a) && Kebab(s, a) == Some(b)
    requires s[a..b] == vs[0] && ListPrime(s, b) == (vs[1..], e)
    ensures ListPrime(s, i) == (vs, e)
  {
    ListPrimeStep(s, i, a, b, vs[1..], e);
    assert [vs[0]] + vs[1..] == vs;
  }

  /** A last value behind its gap is read, and nothing after it. */
  lemma {:induction false} ListPrimeLast(s: string, i: nat, gap: string, w: string, e: nat)
    requires IsKebab(w) && |gap| > 0 && AllWhitespace(gap)
    requires At(s, i, gap) && At(s, i + |gap|, w)
    requires e == i + |gap| + |w| && e <= |s| && KebabStop(s, e) && PrimeStop(s, e)
    ensures ListPrime(s, i) == ([w], e)
  {
    GapThenWord(s, i, gap, w);
    assert ListPrime(s, e) == ([], e);
    ListPrimeStep(s, i, i + |gap|, e, [], e);
    assert [w] + [] == [w];
  }

  /** The joined values are read back, in order, by `tagValueListExpression`. */
  lemma {:induction false} ListExpressionJoin(s: string, a: nat, vs: seq<string>, gap: string, e: nat)
    requires |vs| >= 1 && AllKebab(vs) && |gap| > 0 && AllWhitespace(gap)
    requires At(s, a, Join(vs, gap))
    requires e == a + |Join(vs, gap)| && e <= |s| && KebabStop(s, e) && PrimeStop(s, e)
    ensures ListExpression(s, a) == (vs, e)
  {
    var b := a + |vs[0]|;
    if |vs| == 1 {
      assert Join(vs, gap) == vs[0];
      WordAt(s, a, vs[0]);
      assert ListPrime(s, b) == ([], b);
      assert [vs[0]] + [] == vs;
    } else {
      FirstOfSeveral(s, a, vs, gap, b, b + |gap|);
      WordAt(s, a, vs[0]);
      ListPrimeJoin(s, b, vs[1..], gap, e);
      ListExpressionStep(s, a, b, vs[1..], e);
      assert [vs[0]] + vs[1..] == vs;
    }
  }

  /** How `tagValueListExpression` composes its first value and the rest. */
  lemma {:induction false} ListExpressionStep(s: string, a: nat, b: nat, rest: seq<string>, e: nat)
    requires a <= |s| && Kebab(s, a) == Some(b) && ListPrime(s, b) == (rest, e)
    ensures ListExpression(s, a) == ([s[a..b]] + rest, e)
  {}

  /** Where the values of a list end, at trailing whitespace or the closing bracket, nothing more is read. */
  lemma {:induction false} ListEnd(s: string, p: nat, trail: string)
    requires At(s, p, trail + "]") && AllWhitespace(trail)
    ensures KebabStop(s, p) && PrimeStop(s, p)
    ensures SkipWs(s, p) == p + |trail| && s[p + |trail|] == ']'
  {
    AtSplit(s, p, trail, "]");
    AtChar(s, p + |trail|, "]", 0);
    WsAt(s, p, trail);
    if |trail| > 0 {
      AtChar(s, p, trail, 0);
    }
  }

  lemma {:induction false} AllWhitespaceConcat(a: string, b: string)
    requires AllWhitespace(a) && AllWhitespace(b)
    ensures AllWhitespace(a + b)
  {
    forall k | 0 <= k < |a + b| ensures IsWhitespace((a + b)[k]) {
      if k < |a| { assert (a + b)[k] == a[k]; }
      else { assert (a + b)[k] == b[k - |a|]; }
    }
  }

  /** The pieces of a bracketed list text, position by position. */
  lemma {:induction false} ListTextPieces(s: string, i: nat, J: string, lead: string, trail: string)
    requires At(s, i, "[" + lead + J + trail + "]")
    ensures s[i] == '[' && At(s, i + 1, lead) && At(s, i + 1 + |lead|, J)
    ensures At(s, i + 1 + |lead| + |J|, trail + "]")
    ensures |"[" + lead + J + trail + "]"| == 1 + |lead| + |J| + |trail| + 1
  {
    assert "[" + lead + J + trail + "]" == "[" + (lead + (J + (trail + "]")));
    AtSplit(s, i, "[", lead + (J + (trail + "]")));
    AtSplit(s, i + 1, lead, J + (trail + "]"));
    AtSplit(s, i + 1 + |lead|, J, trail + "]");
    AtChar(s, i, "[", 0);
  }

  /** The text `[` lead values trail `]` is read back as the values, in order. */
  lemma {:induction false} ValueListText(s: string, i: nat, vs: seq<string>, gap: string, lead: string, trail: string)
    requires AllKebab(vs) && |gap| > 0 && AllWhitespace(gap) && AllWhitespace(lead) && AllWhitespace(trail)
    requires At(s, i, "[" + lead + Join(vs, gap) + trail + "]")
    ensures TagValueList(s, i) == Some((vs, i + 1 + |lead| + |Join(vs, gap)| + |trail| + 1))
  {
    ListTextPieces(s, i, Join(vs, gap), lead, trail);
    ValueListFromPieces(s, i, vs, gap, lead, trail);
  }

  lemma {:induction false} ValueListFromPieces(s: string, i: nat, vs: seq<string>, gap: string, lead: string, trail: string)
    requires AllKebab(vs) && |gap| > 0 && AllWhitespace(gap) && AllWhitespace(lead) && AllWhitespace(trail)
    requires i < |s| && s[i] == '[' && At(s, i + 1, lead) && At(s, i + 1 + |lead|, Join(vs, gap))
    requires At(s, i + 1 + |lead| + |Join(vs, gap)|, trail + "]")
    ensures TagValueList(s, i) == Some((vs, i + 1 + |lead| + |Join(vs, gap)| + |trail| + 1))
  {
    if |vs| == 0 {
      assert Join(vs, gap) == "";
      EmptyListText(s, i, lead, trail);
    } else {
      NonEmptyFromPieces(s, i, vs, gap, lead, trail, i + 1 + |lead|, i + 1 + |lead| + |Join(vs, gap)|);
    }
  }

  lemma {:induction false} NonEmptyFromPieces(s: string, i: nat, vs: seq<string>, gap: string, lead: string, trail: string, a: nat, e: nat)
    requires |vs| >= 1 && AllKebab(vs) && |gap| > 0 && AllWhitespace(gap) && AllWhitespace(lead) && AllWhitespace(trail)
    requires a == i + 1 + |lead| && e == a + |Join(vs, gap)|
    requires i < |s| && s[i] == '[' && At(s, i + 1, lead) && At(s, a, Join(vs, gap)) && At(s, e, trail + "]")
    ensures TagValueList(s, i) == Some((vs, e + |trail| + 1))
  {
    ValueListBody(s, i + 1, vs, gap, lead, trail, a, e);
    TagValueListStep(s, i, a, vs, e, e + |trail|);
  }

  lemma {:induction false} EmptyListText(s: string, i: nat, lead: string, trail: string)
    requires AllWhitespace(lead) && AllWhitespace(trail)
    requires i < |s| && s[i] == '[' && At(s, i + 1, lead) && At(s, i + 1 + |lead|, trail + "]")
    ensures TagValueList(s, i) == Some(([], i + 1 + |lead| + |trail| + 1))
  {
    ListEmptyText(s, i + 1, lead, trail);
    var p3 := i + 1 + |lead| + |trail|;
    assert ListExpression(s, p3) == ([], p3);
    SkipWsAtNonSpace(s, p3);
  }

  /** How `tagValueList` composes its pieces. */
  lemma {:induction false} TagValueListStep(s: string, i: nat, a: nat, vs: seq<string>, e: nat, c: nat)
    requires i < |s| && s[i] == '[' && SkipWs(s, i + 1) == a
    requires a <= |s| && ListExpression(s, a) == (vs, e)
    requires SkipWs(s, e) == c && c < |s| && s[c] == ']'
    ensures TagValueList(s, i) == Some((vs, c + 1))
  {}

  /** Skipping whitespace at a character that is not whitespace goes nowhere. */
  lemma {:induction false} SkipWsAtNonSpace(s: string, p: nat)
    requires p < |s| && !IsWhitespace(s[p])
    ensures SkipWs(s, p) == p
  {}

  /** Leading whitespace, the joined values, trailing whitespace and `]`. */
  lemma {:induction false} ValueListBody(s: string, p: nat, vs: seq<string>, gap: string, lead: string, trail: string, a: nat, e: nat)
    requires |vs| >= 1 && AllKebab(vs) && |gap| > 0 && AllWhitespace(gap) && AllWhitespace(lead) && AllWhitespace(trail)
    requires a == p + |lead| && e == a + |Join(vs, gap)|
    requires At(s, p, lead) && At(s, a, Join(vs, gap)) && At(s, e, trail + "]")
    ensures SkipWs(s, p) == a
    ensures ListExpression(s, a) == (vs, e)
    ensures SkipWs(s, e) == e + |trail| && s[e + |trail|] == ']'
  {
    assert KebabStop(s, e) && PrimeStop(s, e) && SkipWs(s, e) == e + |trail| && s[e + |trail|] == ']' by {
      ListEnd(s, e, trail);
    }
    assert SkipWs(s, p) == a by {
      JoinHead(s, a, vs, gap);
      AtChar(s, a, vs[0], 0);
      WsAt(s, p, lead);
    }
    ListExpressionJoin(s, a, vs, gap, e);
  }

  /** With no values, the leading and trailing whitespace form one run before `]`. */
  lemma {:induction false} ListEmptyText(s: string, p: nat, lead: string, trail: string)
    requires AllWhitespace(lead) && AllWhitespace(trail)
    requires At(s, p, lead) && At(s, p + |lead|, trail + "]")
    ensures SkipWs(s, p) == p + |lead| + |trail|
    ensures Kebab(s, p + |lead| + |trail|).None?
    ensures s[p + |lead| + |trail|] == ']'
  {
    AtSplit(s, p + |lead|, trail, "]");
    assert At(s, p, lead + trail) by {
      forall k | 0 <= k < |lead + trail| ensures s[p + k] == (lead + trail)[k] {
        if k < |lead| { AtChar(s, p, lead, k); } else { AtChar(s, p + |lead|, trail, k - |lead|); }
      }
    }
    AllWhitespaceConcat(lead, trail);
    ListEnd(s, p, lead + trail);
    AtChar(s, p + |lead| + |trail|, "]", 0);
  }

  /** A printed value unit is read back as its values. */
  lemma {:induction false} UnitTextRoundTrip(s: string, i: nat, vs: seq<string>)
    requires AllKebab(vs) && At(s, i, UnitText(vs))
    requires |vs| == 1 ==> KebabStop(s, i + |vs[0]|)
    ensures TagValueUnit(s, i) == Some((vs, i + |UnitText(vs)|))
  {
    if |vs| == 1 {
      SingleUnitText(s, i, vs[0]);
      assert [vs[0]] == vs;
    } else {
      var n := 1 + |Join(vs, " ")| + 1;
      ManyUnitText(s, i, vs, n);
    }
  }

  /** A bare value is not a list, and is read as a one-element list. */
  lemma {:induction false} SingleUnitText(s: string, i: nat, w: string)
    requires IsKebab(w) && At(s, i, w) && KebabStop(s, i + |w|)
    ensures TagValueUnit(s, i) == Some(([w], i + |w|))
  {
    AtChar(s, i, w, 0);
    WordAt(s, i, w);
  }

  /** A bracketed list of other than one value is read back through `tagValueList`. */
  lemma {:induction false} ManyUnitText(s: string, i: nat, vs: seq<string>, n: nat)
    requires |vs| != 1 && AllKebab(vs) && At(s, i, ListText(vs, " "))
    requires n == 1 + |Join(vs, " ")| + 1
    ensures TagValueUnit(s, i) == Some((vs, i + n))
  {
    assert ListText(vs, " ") == "[" + "" + Join(vs, " ") + "" + "]";
    ValueListText(s, i, vs, " ", "", "");
  }

  /** A secondary index key in a text reads back as the name and value joined by `:`. */
  lemma {:induction false} SecondaryIndexKeyAt(s: string, i: nat, name: string, value: string)
    requires IsKebab(name) && IsKebab(value)
    requires At(s, i, name) && i + |name| < |s| && s[i + |name|] == ':' && At(s, i + |name| + 1, value)
    requires KebabStop(s, i + |name| + 1 + |value|)
    ensures SecondaryIndexKey(s, i) == Some((name + ":" + value, i + |name| + 1 + |value|))
  {
    WordAt(s, i, name);
    WordAt(s, i + |name| + 1, value);
  }

  /** The three pieces of `a + m + b`, at their positions. */
  lemma {:induction false} AtPieces(a: string, m: string, b: string)
    ensures At(a + m + b, 0, a) && At(a + m + b, |a|, m) && At(a + m + b, |a| + |m|, b)
  {
    var s := a + m + b;
    forall k | 0 <= k < |a| ensures s[k] == a[k] {}
    forall k | 0 <= k < |m| ensures s[|a| + k] == m[k] {}
    forall k | 0 <= k < |b| ensures s[|a| + |m| + k] == b[k] {}
  }

  /** `secondaryIndexKey` reads `name:value`, as a whole input, back as itself. */
  lemma {:induction false} SecondaryIndexKeyRoundTrip(name: string, value: string)
    requires IsKebab(name) && IsKebab(value)
    ensures Full(SecondaryIndexKey(name + ":" + value, 0), name + ":" + value) == Some(name + ":" + value)
  {
    AtPieces(name, ":", value);
    AtChar(name + ":" + value, |name|, ":", 0);
    SecondaryIndexKeyAt(name + ":" + value, 0, name, value);
  }

  // ---------------------------------------------------------------------
  // Whole inputs

  /** `tagValueUnit.tryParse` on a bare kebab word gives the one-element list. */
  lemma {:induction false} BareUnitParses(w: string)
    requires IsKebab(w)
    ensures Full(TagValueUnit(w, 0), w) == Some([w])
  {
    assert At(w, 0, w);
    SingleUnitText(w, 0, w);
  }

  /**
   * `tagValueUnit.tryParse` on a bracketed list gives its values in order;
   * whitespace after `[` and before `]` is optional, and values are
   * separated by any non-empty whitespace.
   */
  lemma {:induction false} ListUnitParses(s: string, vs: seq<string>, gap: string, lead: string, trail: string)
    requires AllKebab(vs) && |gap| > 0 && AllWhitespace(gap) && AllWhitespace(lead) && AllWhitespace(trail)
    requires s == "[" + lead + Join(vs, gap) + trail + "]"
    ensures Full(TagValueUnit(s, 0), s) == Some(vs)
  {
    assert At(s, 0, s);
    ValueListText(s, 0, vs, gap, lead, trail);
  }

  /** Values written next to each other need whitespace between them: without it nothing more is read. */
  lemma {:induction false} ValuesNeedGap(s: string, i: nat)
    requires i < |s| && !IsWhitespace(s[i])
    ensures ListPrime(s, i) == ([], i)
  {}

  /** `tagName.tryParse("a")` is `"a"`. */
  lemma {:induction false} TagNameCase()
    ensures Full(Word("a", 0), "a") == Some("a")
  {
    assert IsKebab("a");
    KebabAcceptsExactly("a");
    assert "a"[0..1] == "a";
  }

  /** `tagValueUnit.tryParse("a")` is `["a"]`. */
  lemma {:induction false} SingleValueCase()
    ensures Full(TagValueUnit("a", 0), "a") == Some(["a"])
  {
    BareUnitParses("a");
  }

  /** `tagValueUnit.tryParse("[]")` is the empty list. */
  lemma {:induction false} EmptyListCase()
    ensures Full(TagValueUnit("[]", 0), "[]") == Some([])
  {
    EmptyListCaseText();
    ListUnitParses("[]", [], " ", "", "");
  }

  lemma {:induction false} EmptyListCaseText()
    ensures "[]" == "[" + "" + Join([], " ") + "" + "]"
  {}

  /** `tagValueUnit.tryParse("[a b c]")` is `["a", "b", "c"]`, in order. */
  lemma {:induction false} ValueListCase()
    ensures Full(TagValueUnit("[a b c]", 0), "[a b c]") == Some(["a", "b", "c"])
  {
    ValueListCaseText();
    ListUnitParses("[a b c]", ["a", "b", "c"], " ", "", "");
  }

  lemma {:induction false} ValueListCaseText()
    ensures AllKebab(["a", "b", "c"])
    ensures "[a b c]" == "[" + "" + Join(["a", "b", "c"], " ") + "" + "]"
  {
    assert IsKebab("a") && IsKebab("b") && IsKebab("c");
  }

  /** `secondaryIndexKey.tryParse("a:b")` is `"a:b"`. */
  lemma {:induction false} SecondaryIndexKeyCase()
    ensures Full(SecondaryIndexKey("a:b", 0), "a:b") == Some("a:b")
  {
    SecondaryIndexKeyRoundTrip("a", "b");
    assert "a" + ":" + "b" == "a:b";
  }
}

=== FILE: text.dfy ===
/**
 * Character classes and string helpers shared by the parsers and the
 * command layer: the ECMAScript `\s` class, the kebab word alphabet and
 * `String.prototype.split` with a one-character separator.
 */
module Text {

  /** ECMAScript `\s`: WhiteSpace and LineTerminator code points. */
  predicate IsWhitespace(c: char) {
    var n := c as int;
    n == 9 || n == 10 || n == 11 || n == 12 || n == 13 || n == 32 ||
    n == 0xA0 || n == 0x1680 || (0x2000 <= n <= 0x200A) ||
    n == 0x2028 || n == 0x2029 || n == 0x202F || n == 0x205F ||
    n == 0x3000 || n == 0xFEFF
  }

  /** ECMAScript `\d` (ASCII digits only). */
  predicate IsDigit(c: char) {
    '0' <= c <= '9'
  }

  /** The character class `[0-9a-zA-Z?]` of a kebab word. */
  predicate IsKebabChar(c: char) {
    IsDigit(c) || 'a' <= c <= 'z' || 'A' <= c <= 'Z' || c == '?'
  }

  predicate AllWhitespace(w: string) {
    forall k :: 0 <= k < |w| ==> IsWhitespace(w[k])
  }

  /** `P.optWhitespace`: the end of the longest whitespace run starting at `i`. */
  function SkipWs(s: string, i: nat): (j: nat)
    requires i <= |s|
    ensures i <= j <= |s|
    ensures j == |s| || !IsWhitespace(s[j])
    decreases |s| - i
  {
    if i < |s| && IsWhitespace(s[i]) then SkipWs(s, i + 1) else i
  }

  /** Everything `SkipWs` passes over is whitespace. */
  lemma {:induction false} SkipWsRun(s: string, i: nat)
    requires i <= |s|
    ensures forall k :: i <= k < SkipWs(s, i) ==> IsWhitespace(s[k])
    decreases |s| - i
  {
    if i < |s| && IsWhitespace(s[i]) {
      SkipWsRun(s, i + 1);
    }
  }

  /** A whitespace run followed by a non-whitespace character (or the end) is skipped exactly. */
  lemma {:induction false} SkipWsOver(s: string, i: nat, w: string)
    requires i + |w| <= |s| && s[i..i + |w|] == w && AllWhitespace(w)
    requires i + |w| == |s| || !IsWhitespace(s[i + |w|])
    ensures SkipWs(s, i) == i + |w|
    decreases |w|
  {
    if |w| > 0 {
      assert s[i] == w[0];
      SkipWsOver(s, i + 1, w[1..]);
    }
  }

  /** `Array.prototype.join`. */
  function Join(parts: seq<string>, sep: string): (r: string)
    ensures |parts| == 1 ==> r == parts[0]
  {
    if |parts| == 0 then ""
    else if |parts| == 1 then parts[0]
    else parts[0] + sep + Join(parts[1..], sep)
  }

  /** `s.split(c)` for a one-character separator: the maximal `c`-free pieces, in order. */
  function Split(s: string, c: char): (r: seq<string>)
    ensures |r| >= 1
    decreases |s|
  {
    if |s| == 0 then [""]
    else
      var rest := Split(s[1..], c);
      if s[0] == c then [""] + rest
      else [[s[0]] + rest[0]] + rest[1..]
  }

  /** The pieces hold no separator. */
  lemma {:induction false} SplitPieces(s: string, c: char)
    ensures forall k :: 0 <= k < |Split(s, c)| ==> c !in Split(s, c)[k]
    decreases |s|
  {
    if |s| > 0 {
      var rest := Split(s[1..], c);
      SplitPieces(s[1..], c);
      var r := Split(s, c);
      if s[0] == c {
        forall k | 0 <= k < |r| ensures c !in r[k] {
          if k > 0 { assert r[k] == rest[k - 1]; }
        }
      } else {
        forall k | 0 <= k < |r| ensures c !in r[k] {
          if k > 0 { assert r[k] == rest[k]; }
        }
      }
    }
  }

  /** Joining the pieces with the separator gives back the string. */
  lemma {:induction false} SplitJoin(s: string, c: char)
    ensures forall k :: 0 <= k < |Split(s, c)| ==> c !in Split(s, c)[k]
    ensures Join(Split(s, c), [c]) == s
    decreases |s|
  {
    SplitPieces(s, c);
    if |s| > 0 {
      var rest := Split(s[1..], c);
      SplitJoin(s[1..], c);
      var r := Split(s, c);
      assert [s[0]] + s[1..] == s;
      if s[0] == c {
        assert r[1..] == rest by { assert r == [""] + rest; }
        assert Join(r, [c]) == "" + [c] + Join(rest, [c]);
      } else if |rest| == 1 {
        assert r == [[s[0]] + rest[0]];
        assert Join(r, [c]) == [s[0]] + rest[0];
      } else {
        assert r[0] == [s[0]] + rest[0] && r[1..] == rest[1..] && |r| >= 2;
        assert Join(rest, [c]) == rest[0] + [c] + Join(rest[1..], [c]);
        assert Join(r, [c]) == [s[0]] + rest[0] + [c] + Join(rest[1..], [c]);
      }
    }
  }

  /** Splitting a separator-free string yields the string itself. */
  lemma {:induction false} SplitNoSeparator(s: string, c: char)
    requires c !in s
    ensures Split(s, c) == [s]
  {
    if |s| > 0 {
      SplitNoSeparator(s[1..], c);
      assert [s[0]] + s[1..] == s;
    }
  }

  /** Splitting `a + [c] + b` at `c`, when `a` holds no separator. */
  lemma {:induction false} SplitAfterPrefix(a: string, b: string, c: char)
    requires c !in a
    ensures Split(a + [c] + b, c) == [a] + Split(b, c)
    decreases |a|
  {
    var s := a + [c] + b;
    if |a| == 0 {
      assert s[0] == c && s[1..] == b;
    } else {
      SplitAfterPrefix(a[1..], b, c);
      assert s[0] == a[0] && s[1..] == a[1..] + [c] + b;
      assert [a[0]] + a[1..] == a;
    }
  }

  /** Decimal digits of a natural number, most significant first. */
  function NatToString(n: nat): (r: string)
    ensures |r| >= 1
    ensures forall k :: 0 <= k < |r| ==> IsDigit(r[k])
    decreases n
  {
    var d := [('0' as int + n % 10) as char];
    if n < 10 then d else NatToString(n / 10) + d
  }

  /** `Number.prototype.toString()` for an integer. */
  function IntToString(n: int): string {
    if n < 0 then "-" + NatToString(-n) else NatToString(n)
  }
}

=== FILE: timestamp.dfy ===
/**
 * The `Timestamp` of src/commands/timestamp.ts: six text fields, the
 * `formatted` file-name stem and the short `hash` that serves as a
 * picture's id.
 *
 * The clock-reading constructors are not part of this model; `fromMonth`
 * takes the year it would read from the clock as a parameter.
 */
module Timestamps {
  import opened Text

  datatype Timestamp = Timestamp(year: string, month: string, day: string, hour: string, minute: string, second: string)

  /** Every character is an ASCII digit. */
  predicate Digits(s: string) {
    forall k :: 0 <= k < |s| ==> IsDigit(s[k])
  }

  /** A four-digit year and two-digit month, day, hour, minute and second, as file names carry them. */
  predicate WellFormed(t: Timestamp) {
    |t.year| == 4 && Digits(t.year)
    && TwoDigits(t.month) && TwoDigits(t.day) && TwoDigits(t.hour) && TwoDigits(t.minute) && TwoDigits(t.second)
  }

  predicate TwoDigits(s: string) {
    |s| == 2 && Digits(s)
  }

  /** `fromMonth`: the given fields, with the year printed from the clock's full year. */
  function FromMonth(month: string, day: string, hour: string, minute: string, second: string, fullYear: int): (r: Timestamp)
    ensures r.year == IntToString(fullYear)
  {
    Timestamp(IntToString(fullYear), month, day, hour, minute, second)
  }

  /** A year from 1000 to 9999 prints as four digits. */
  lemma {:induction false} FourDigitYear(y: int)
    requires 1000 <= y <= 9999
    ensures |IntToString(y)| == 4 && Digits(IntToString(y))
  {
    assert NatToString(y) == NatToString(y / 10) + [('0' as int + y % 10) as char];
    assert NatToString(y / 10) == NatToString(y / 100) + [('0' as int + (y / 10) % 10) as char];
    assert NatToString(y / 100) == NatToString(y / 1000) + [('0' as int + (y / 100) % 10) as char];
  }

  /**
   * `fromMonth` keeps the five given fields, and with a four-digit year and
   * two-digit fields the timestamp is well formed.
   */
  lemma {:induction false} FromMonthKeepsFields(month: string, day: string, hour: string, minute: string, second: string, fullYear: int)
    ensures var t := FromMonth(month, day, hour, minute, second, fullYear);
      t.month == month && t.day == day && t.hour == hour && t.minute == minute && t.second == second
    ensures 1000 <= fullYear <= 9999 ==>
      (WellFormed(FromMonth(month, day, hour, minute, second, fullYear)) <==>
        TwoDigits(month) && TwoDigits(day) && TwoDigits(hour) && TwoDigits(minute) && TwoDigits(second))
  {
    if 1000 <= fullYear <= 9999 {
      FourDigitYear(fullYear);
    }
  }

  /** `formatted`: `year-month-day_hour-minute-second`. */
  function Formatted(t: Timestamp): (r: string)
    ensures |r| == |t.year| + |t.month| + |t.day| + |t.hour| + |t.minute| + |t.second| + 5
  {
    t.year + "-" + t.month + "-" + t.day + "_" + t.hour + "-" + t.minute + "-" + t.second
  }

  /** `s.slice(-2)`: the last two characters, or all of a shorter string. */
  function LastTwo(s: string): string {
    s[if |s| >= 2 then |s| - 2 else 0..]
  }

  /** A template-literal `${s[i]}`: the character, or the text `undefined` past the end. */
  function CharAt(s: string, i: nat): string {
    if i < |s| then [s[i]] else "undefined"
  }

  /** `hash`: `yy-month-day:hour` then the minute's digits split by `-` around the second's position. */
  function Hash(t: Timestamp): (r: string)
  {
    LastTwo(t.year) + "-" + t.month + "-" + t.day + ":" + t.hour + CharAt(t.minute, 0) + "-" + CharAt(t.minute, 1) + t.second
  }

  /** Where each field sits in the hash of a well-formed timestamp. */
  lemma {:induction false} HashLayout(t: Timestamp)
    requires WellFormed(t)
    ensures |Hash(t)| == 16
    ensures Hash(t)[0..2] == t.year[2..4] && Hash(t)[3..5] == t.month && Hash(t)[6..8] == t.day
    ensures Hash(t)[9..11] == t.hour && Hash(t)[11] == t.minute[0] && Hash(t)[13] == t.minute[1]
    ensures Hash(t)[14..16] == t.second
    ensures Hash(t)[2] == '-' && Hash(t)[5] == '-' && Hash(t)[8] == ':' && Hash(t)[12] == '-'
  {
    var h := Hash(t);
    assert h == t.year[2..4] + "-" + t.month + "-" + t.day + ":" + t.hour + [t.minute[0]] + "-" + [t.minute[1]] + t.second;
  }

  /**
   * Two well-formed timestamps share a hash exactly when they agree on
   * everything but the first two digits of the year.
   */
  lemma {:induction false} HashInjective(t: Timestamp, u: Timestamp)
    requires WellFormed(t) && WellFormed(u)
    ensures Hash(t) == Hash(u) <==> t.(year := u.year) == u && t.year[2..4] == u.year[2..4]
  {
    HashLayout(t);
    HashLayout(u);
    if Hash(t) == Hash(u) {
      assert t.minute == [Hash(t)[11], Hash(t)[13]];
      assert u.minute == [Hash(u)[11], Hash(u)[13]];
    }
    if t.(year := u.year) == u && t.year[2..4] == u.year[2..4] {
      assert LastTwo(t.year) == LastTwo(u.year);
    }
  }

  /** A year's century does not enter the hash: only its last two characters do. */
  lemma {:induction false} HashIgnoresCentury(t: Timestamp, century: string)
    requires |t.year| >= 2
    ensures Hash(t.(year := century + t.year)) == Hash(t)
  {
    var y := century + t.year;
    assert y[|y| - 2..] == t.year[|t.year| - 2..];
  }

  /** Where each field sits in the formatted stem of a well-formed timestamp. */
  lemma {:induction false} FormattedLayout(t: Timestamp)
    requires WellFormed(t)
    ensures |Formatted(t)| == 19
    ensures Formatted(t)[0..4] == t.year && Formatted(t)[5..7] == t.month && Formatted(t)[8..10] == t.day
    ensures Formatted(t)[11..13] == t.hour && Formatted(t)[14..16] == t.minute && Formatted(t)[17..19] == t.second
    ensures Formatted(t)[4] == '-' && Formatted(t)[7] == '-' && Formatted(t)[10] == '_'
    ensures Formatted(t)[13] == '-' && Formatted(t)[16] == '-'
  {}

  /** Well-formed timestamps with the same formatted stem are equal. */
  lemma {:induction false} FormattedInjective(t: Timestamp, u: Timestamp)
    requires WellFormed(t) && WellFormed(u)
    ensures Formatted(t) == Formatted(u) <==> t == u
  {
    FormattedLayout(t);
    FormattedLayout(u);
  }
}

=== FILE: wrappers.dfy ===
/** Failure-carrying datatypes shared by every module of the model. */
module Wrappers {

  /** A value that may be absent (JavaScript `undefined` / `null`). */
  datatype Option<+T> = None | Some(value: T)

  /** The outcome of an operation that may throw. */
  datatype Result<+T, +E> = Ok(value: T) | Err(error: E)
}
